=== FILE: README.md ===
# ATT&CK data model in Dafny

A Dafny model of the validation core of the MITRE ATT&CK data model library. The library checks STIX 2.1 objects that carry ATT&CK extensions (techniques, tactics, groups, campaigns, mitigations, assets, analytics, log sources, matrices, identities, collections, marking definitions, relationships and bundles), links them into an object graph, and answers queries over that graph.

Raw objects are JSON values (`JsonValues.Json`). Each zod schema is a value of `Schema.Kind`, a small interpreter for the combinators the library uses: leaves, arrays with length bounds, objects with required fields and a policy for unknown keys, records, unions and refinements. The interpreter returns either the parsed value or a list of issues, each a path and a message. A refinement runs only on a value whose base shape has parsed, as zod's `refine` and `superRefine` do when no issue has been raised.

The model covers these layers:

- **Primitive grammars.** STIX identifiers and types, ATT&CK IDs, version strings, platforms, domains, kill-chain phases, timestamps and citation strings.
- **Composite values.** External references, granular markings, extensions and extension definitions.
- **Per-object schemas.** Each object schema together with the cross-field refinements of `src/refinements/index.ts`.
- **Relationship rules.** Which source, relationship type and target may go together, and the catalogue of invalid combinations built from them.
- **The object graph.** `AttackDataModel` fills the typed lists and the id map and links relationships. Alongside it sit the technique class of the object API, the lookup helpers of `src/classes/utils.ts` and data-source registration.
- **The drafts.** The `zod/` draft contributes identifier parsers and a relationship rule. The Python packages contribute the STIX and ATT&CK base models, the timestamp type, the STIX type annotation, the campaign model, the attrs STIX mixin and the campaign builder.

Several drafts carry defects. Where the code does not do what its own message, documentation or companion code says, the model keeps both definitions: the one as written and the corrected one. A lemma about each pair shows the difference (see "## Findings").

Some behaviours of the code are easy to misread. The model follows the code in each:
- The string-to-boolean validator of the Python campaign accepts native booleans and ignores case (`PyCampaign.ParseStrToBool`).
- The STIX identifier schema of `src/` reads only the first two `--` pieces and ignores later ones (`StixIdentifier`).
- The three confidence bounds differ:
  - `stix-core.ts` accepts integers 1 to 99.
  - `core.py` accepts 0 to 100. Its model leaves pydantic in lax mode, so an integer string such as "50" or " 50.0 " and a boolean (as 1 or 0) are accepted too.
  - The attrs mixin accepts values strictly between 0 and 100.
- The prohibited-field check of `core.py` looks only at top-level properties, and as written it never fires.
- The campaign builder imports its campaign model from `pydantic/attack_model/models/campaign.py`, which is not part of this model. The builder is bound here to the campaign model of `attack_model/models/campaign.py` (`PyCampaign`). The two may differ: the builder's tests (`pydantic/tests/campaigns/campaigns_pytest.py`, lines 122-128) expect "first_seen cannot be after last_seen.", a check `PyCampaign` does not have. The test of a `first_seen` in the future (lines 112-120) writes `+00:00Z` after the time, which the timestamp pattern refuses as a format error; no future-date check is modelled.
- The campaign citation grammar is the code's (`Campaign.CitationList`), not a single `^\(Citation: .+\)$` pattern.

Some behaviours of the code look unintended, but what was meant is unclear. The model states them as properties of the code and does not correct them:
- `DataModel.RevocationLinked`: as written, the linker applies revoked-by whenever both objects are of the same class. That includes identity revoked by identity, which the relationship rule refuses. The model records the link, and the lemma shows the two disagree.
- `TechniqueQueries.DataSourcesAlwaysEmpty`: `getDataSources` keeps only log-source sources of "detects" relationships, but the relationship rule lets only data components detect. So on valid data it returns nothing. What was meant is unclear, so the behaviour is stated and not corrected.
- `Refinements.DataSourcesReportedTwice`: a technique in both the enterprise and mobile domains that has data sources gets the same issue from the enterprise-only rule and the mobile-only rule. The lemma states this as a property of the code.
- `MarkingDefinition.DefinitionTypeUnchecked`: `definition_type` and the definition variant are checked independently. A "tlp" type with a statement definition is accepted, as the code does.

Module layout follows the repository:
- `strings`, `json`, `wrappers` and `schema` are shared infrastructure.
- One file per schema file under `src/schemas/`.
- `refinements`, `data_model`, `technique_api`, `technique_queries` and `data_registration` follow the matching files under `src/`.
- `zod_identifier` and the `relationships` draft rule cover `zod/`.
- The `py_*` files, `timestamps`, `attrs_stix` and `campaign_builder` cover the Python packages.

## Model

| member | source | states |
|---|---|---|
| StixTypes.TypeNameTotal | src/schemas/common/stix-type.ts:7-60 | the readable-name table has an entry exactly for the supported STIX types |
| StixTypes.TypeNameInvertible | src/schemas/common/stix-type.ts:7-32 | a non-empty readable name determines its type; only `file` and `artifact` have the empty name |
| StixTypes.StixTypeSchema | src/schemas/common/stix-type.ts:62-76 | accepts exactly the strings among the supported types, unchanged; a rejected string is quoted in the enum error message |
| StixTypes.TypeValidator | src/schemas/common/stix-type.ts:98-109 | `createStixTypeValidator(t)` accepts exactly the string `t` and otherwise reports one issue at the root |
| StixTypes.TypeMismatchMessageEmbeds | src/schemas/common/stix-type.ts:99-105 | the mismatch message names the expected type and its readable name and ends with the received value |
| StixTypes.MultiTypeValidator | src/schemas/common/stix-type.ts:126-140 | `createMultiStixTypeValidator(ts)` accepts exactly the strings in `ts`, unchanged |
| StixTypes.MultiOfOne | src/schemas/common/stix-type.ts:98-140 | with one allowed type the multi-type validator behaves exactly like the single-type one, message included |
| StixIdentifier.IdentifierParts | src/schemas/common/stix-identifier.ts:29-34 | an accepted identifier is its type piece, `--` and its UUID piece, possibly followed by more `--`-led text |
| StixIdentifier.IdentifierFromParts | src/schemas/common/stix-identifier.ts:24-34 | a supported type, `--`, a UUIDv4 and any `--`-led tail form an accepted identifier whose pieces are that type and UUID |
| StixIdentifier.RefineErrorNamesCause | src/schemas/common/stix-identifier.ts:43-52 | when the refine's message function runs on an invalid identifier it never picks the generic format message, and it picks the type message exactly when the type piece is unsupported |
| StixIdentifier.RefineUnreachable | src/schemas/common/stix-identifier.ts:29-42 | the refine repeats the custom check, so on every value the custom check passed it passes too |
| StixIdentifier.StixIdentifierSchema | src/schemas/common/stix-identifier.ts:29-53 | accepts exactly the strings whose first two `--` pieces are a supported type and a UUIDv4, unchanged; otherwise one "Invalid STIX Identifier" issue |
| StixIdentifier.CreateStixIdentifierSchema | src/schemas/common/stix-identifier.ts:56-66 | an accepted value is a valid identifier starting with `t--`; a valid identifier with another prefix gets the prefix message at path `['id']` |
| StixIdentifier.PrefixMatchesType | src/schemas/common/stix-identifier.ts:56-66 | for a valid identifier, starting with `t--` is the same as having type piece `t` |
| StixIdentifier.FactoryAgreement | src/schemas/common/stix-identifier.ts:29-66 | for a supported type, the per-type identifier check accepts exactly what `createStixIdentifierSchema` accepts |
| AttackIds.MatchesIffFormatOf | src/schemas/common/attack-id.ts:43-53 | a string matches a format's pattern exactly when its shape is that format, so no identifier matches two patterns |
| AttackIds.ParseId | src/schemas/common/attack-id.ts:43-53 | an identifier yields its numbers exactly when it matches the format's pattern |
| AttackIds.FormatThenParse | src/schemas/common/attack-id.ts:43-53 | every identifier written from a four-digit number (and three-digit sub-number) matches its pattern and reads back as those numbers |
| AttackIds.ParseThenFormat | src/schemas/common/attack-id.ts:43-53 | every string matching a pattern is exactly the identifier written from the numbers it carries |
| AttackIds.CreateAttackIdSchema | src/schemas/common/attack-id.ts:68-82 | `createAttackIdSchema(t)` returns an accepted value unchanged and accepts only strings that pass the type's pattern test |
| AttackIds.AttackIdByShape | src/schemas/common/attack-id.ts:31-82 | the accepted identifiers are the strings shaped like the mapped format; for `attack-pattern`, like a technique or a sub-technique |
| StixCore.ConfidenceIssues | src/schemas/common/stix-core.ts:39-49 | `confidence` on a number reports nothing exactly when it is a whole number from 1 to 99 |
| StixCore.Confidence | src/schemas/common/stix-core.ts:39-49 | `confidence` accepts exactly the whole numbers from 1 to 99 and keeps them unchanged |
| StixCore.ConfidenceRefinementRedundant | src/schemas/common/stix-core.ts:42-48 | the "between 1 and 99" refinement never reports alone: whenever it fires, the `.min(1)` or `.max(99)` check has reported too |
| StixCore.BaseRequiresCore | src/schemas/common/stix-core.ts:63-69 | no object is accepted without `id`, `type`, `spec_version`, `created` and `modified` |
| StixCore.BaseRejectsUnknownKey | src/schemas/common/stix-core.ts:70-71 | the strict base object refuses any key it does not declare |
| StixCore.BaseOptionalBounds | src/schemas/common/stix-core.ts:39-54 | a given `confidence` is a whole number from 1 to 99, and a given `external_references` list is non-empty |
| CommonProperties.StixSpecVersion | src/schemas/common/stix-core.ts:21-23 | `spec_version` accepts exactly "2.0" and "2.1", unchanged |
| CommonProperties.NameSchema | src/schemas/common/common-properties.ts:27-30 | `name` accepts exactly the non-empty strings; an empty string fails with "Name must not be empty" |
| CommonProperties.Domain | src/schemas/common/common-properties.ts:163-167 | a domain is exactly one of `enterprise-attack`, `mobile-attack`, `ics-attack` |
| CommonProperties.DomainsAccepts | src/schemas/common/common-properties.ts:171-176 | `x_mitre_domains` accepts exactly the non-empty lists of domain names |
| CommonProperties.UniqueBySetSize | src/schemas/common/common-properties.ts:238-243 | the uniqueness refinement passes on a list exactly when its set of entries is as large as the list, and otherwise reports its one message |
| CommonProperties.UniqueEnumListAccepts | src/schemas/common/common-properties.ts:229-244 | a list of enumerated names with a minimum length and the uniqueness refinement accepts exactly the long-enough lists of allowed names without a repeat |
| CommonProperties.UniqueEnumListKeeps | src/schemas/common/common-properties.ts:229-244 | such a list parses to itself |
| CommonProperties.PlatformListAccepts | src/schemas/common/property-schemas/attack-platforms.ts:76-88 | `x_mitre_platforms` accepts exactly the non-empty lists of allowed platforms without a repeat |
| CommonProperties.PlatformVocabulariesDiffer | src/schemas/common/common-properties.ts:204-227 | the older platform list has `Network` and lacks `ESXi`, and the newer list the reverse |
| CommonProperties.RepeatedPlatformRefused | src/schemas/common/property-schemas/attack-platforms.ts:84-86 | a platform list naming one platform twice is refused |
| CommonProperties.EmptyPlatformsRefused | src/schemas/common/property-schemas/attack-platforms.ts:83 | an empty platform list is refused |
| CommonProperties.UnknownPlatformRefused | src/schemas/common/property-schemas/attack-platforms.ts:48-49 | a platform in neither vocabulary is refused by both lists |
| CommonProperties.MarkingIssues | src/schemas/common/common-properties.ts:258-268 | the marking refinement reports nothing exactly when every element starts with `marking-definition--`, and each issue it reports sits at the index of an element that does not |
| CommonProperties.EveryBadRefReported | src/schemas/common/common-properties.ts:259-266 | every element without the marking prefix gets its own issue at its own index |
| CommonProperties.MarkingRef | src/schemas/common/property-schemas/stix-attribution.ts:20-23 | one marking reference is accepted exactly when it is a valid identifier starting with `marking-definition--` |
| CommonProperties.MarkingRefsAccepts | src/schemas/common/property-schemas/stix-attribution.ts:18-25 | `object_marking_refs` accepts exactly the lists, empty included, of valid marking-definition identifiers |
| CommonProperties.CommonMarkingRefsAccepts | src/schemas/common/common-properties.ts:256-269 | the older `object_marking_refs` accepts exactly the lists of valid identifiers that all start with `marking-definition--` |
| CommonProperties.MarkingRefsAgree | src/schemas/common/common-properties.ts:256-269 | the older per-index refinement and the newer `startsWith` element schema accept the same lists |
| CommonProperties.CreatedByRef | src/schemas/common/property-schemas/stix-attribution.ts:43-46 | `created_by_ref` accepts exactly the strings whose type piece is `identity` and whose UUID piece is valid, unchanged |
| CommonProperties.CommonModifiedByRef | src/schemas/common/common-properties.ts:295-299 | the older `x_mitre_modified_by_ref` accepts exactly a valid identifier equal to the MITRE identity |
| CommonProperties.ModifiedByRef | src/schemas/common/property-schemas/attack-attribution.ts:11-39 | the newer `x_mitre_modified_by_ref` accepts exactly the MITRE identity literal |
| CommonProperties.XMitreIdentityWellFormed | src/schemas/common/property-schemas/attack-attribution.ts:11-12 | the MITRE identity constant is itself a valid `identity` identifier |
| CommonProperties.UuidLiteral | src/schemas/common/common-properties.ts:295 | the UUID in the MITRE identity is a version-4 UUID |
| CommonProperties.ModifiedByRefAgree | src/schemas/common/property-schemas/attack-attribution.ts:36-39 | the older refinement and the newer literal accept the same values |
| CommonProperties.XMitreIdentityIsCreator | src/schemas/common/property-schemas/stix-attribution.ts:43-46 | the MITRE identity is an acceptable `created_by_ref` |
| CommonProperties.ContributorsNarrowed | src/schemas/common/property-schemas/attack-attribution.ts:58-61 | the newer contributors schema accepts only lists the older one accepts, and refuses the empty list the older one takes |
| Versions.SplitDigitRuns | src/schemas/common/common-properties.ts:77-84 | digit runs joined by dots split back into the same runs, as the version checks' `split('.')` relies on |
| Versions.VersionSchema | src/schemas/common/common-properties.ts:12-15 | `version`: a missing value becomes "2.1"; a given one is accepted unchanged exactly when it is `digits.digits` |
| Versions.DefaultVersionWellFormed | src/schemas/common/common-properties.ts:13-14 | the default "2.1" satisfies the pattern it stands in for |
| Versions.CommonXMitreVersion | src/schemas/common/common-properties.ts:77-92 | the older `x_mitre_version`, corrected to refuse every value that is not a string, accepts exactly the strings `M.N` with one to three digits each and both numbers at most 99, unchanged |
| Versions.XMitreVersion | src/schemas/common/property-schemas/attack-versioning.ts:21-26 | the newer `x_mitre_version` accepts exactly the strings whose trim is `M.N` with one or two digits each, and yields the trimmed text |
| Versions.NewVersionAcceptedByCommon | src/schemas/common/property-schemas/attack-versioning.ts:21-22 | every version the newer schema accepts is also accepted by the older one |
| Versions.CommonAcceptsPaddedVersion | src/schemas/common/common-properties.ts:77-86 | the older schema accepts "099.0", which the newer one refuses |
| Versions.HundredRejected | src/schemas/common/property-schemas/attack-versioning.ts:15-18 | both schemas refuse "100.0", as the documented example says |
| Versions.FormatVersionRoundTrip | src/schemas/common/property-schemas/attack-versioning.ts:21-22 | every version written from two numbers below 100 is accepted by both schemas and reads back as those numbers |
| Versions.VersionTextRecovered | src/schemas/common/common-properties.ts:83-86 | an accepted `M.N` string is exactly its two runs joined by a dot, so reading its numbers loses no text |
| Versions.CommonSpecVersion | src/schemas/common/common-properties.ts:107-124 | the older `x_mitre_attack_spec_version` accepts exactly three single digits separated by dots, unchanged |
| Versions.XMitreAttackSpecVersion | src/schemas/common/property-schemas/attack-versioning.ts:36-55 | the newer `x_mitre_attack_spec_version` accepts exactly the strings whose trim is a semantic version without leading zeros, and yields the trimmed text |
| Versions.SingleDigitSpecIsSemver | src/schemas/common/property-schemas/attack-versioning.ts:36 | every single-digit spec version is a semantic version |
| Versions.SemverText | src/schemas/common/property-schemas/attack-versioning.ts:36 | three runs without leading zeros joined by dots form a semantic version |
| Versions.SemverAccepted | src/schemas/common/property-schemas/attack-versioning.ts:54-55 | a semantic version with nothing to trim is accepted as it is |
| Versions.SpecVersionThree | src/schemas/common/property-schemas/attack-versioning.ts:49 | "3.0.0" is accepted, as the documented example says |
| Versions.SpecVersionTwoOne | src/schemas/common/property-schemas/attack-versioning.ts:50 | "2.1.0" is accepted, as the documented example says |
| Versions.SemverRefused | src/schemas/common/property-schemas/attack-versioning.ts:54-55 | a string with nothing to trim that is not a semantic version is refused |
| Versions.NotSemverText | src/schemas/common/property-schemas/attack-versioning.ts:36 | dotted digit runs with other than three runs, or with a leading zero in a run, are not a semantic version |
| Versions.SpecVersionTwoParts | src/schemas/common/property-schemas/attack-versioning.ts:51 | "1.0" is refused, as the documented example says |
| Versions.SpecVersionLeadingZero | src/schemas/common/property-schemas/attack-versioning.ts:36 | "01.0.0" is refused for its leading zero |
| Versions.SpecVersionEmpty | src/schemas/common/property-schemas/generics.ts:24-27 | the empty string is refused |
| Versions.SemverWiderThanSingleDigit | src/schemas/common/common-properties.ts:107-119 | "10.0.0" is refused by the older single-digit schema and accepted by the newer one |
| Versions.OldAttackId | src/schemas/common/common-properties.ts:139-151 | `x_mitre_old_attack_id` accepts exactly `MOB-` followed by `M` or `S` and four digits, unchanged |
| Versions.OldAttackIdRoundTrip | src/schemas/common/common-properties.ts:136-139 | an old identifier written from a letter and a number below 10000 is accepted and reads back as that letter and number |
| Versions.CommonXMitreVersionAsWritten | src/schemas/common/common-properties.ts:77-87 | as written, the schema throws exactly when the value is not a string but reads, as JavaScript prints it, as the dotted pattern; whenever it answers, it accepts exactly what the corrected schema accepts |
| Versions.CommonVersionAgrees | src/schemas/common/common-properties.ts:77-87 | on strings the written and corrected schemas agree; on other values the corrected one refuses and the written one never accepts |
| Versions.NonStringVersionThrows | src/schemas/common/common-properties.ts:82-84 | the array `["1.5"]`, and the number 1.5 when printed as "1.5", pass the pattern test and make `split` throw, while the corrected schema refuses both |
| Timestamps.StixTimestamp | src/schemas/sdo/campaign.schema.ts:108-116 | a timestamp field accepts exactly the strings in the STIX timestamp grammar, unchanged |
| Timestamps.IsoDateTime | src/schemas/common/extensions.ts:86-87 | `z.iso.datetime()` accepts exactly the UTC date-times whose day exists in their month, unchanged |
| Timestamps.ValidateAsWritten | attack_model/models/common/timestamp.py:17-25 | a `datetime` passes through; a string the pattern does not match fails with "Invalid timestamp format: " and the value; a string the pattern matches only thanks to the line feed `$` allows is refused by the parse; an accepted string is in the timestamp grammar, parsed with the fraction mandatory; any other value raises a `TypeError` that escapes validation |
| Timestamps.StrptimeAsWritten | attack_model/models/common/timestamp.py:40-46 | a parsed string always gives a valid date-time |
| Timestamps.Strptime | attack_model/models/common/timestamp.py:21-25 | with the fraction optional, as the pattern allows, a parsed string always gives a valid date-time |
| Timestamps.Validate | attack_model/models/common/timestamp.py:17-25 | the corrected validator keeps the pass-through, the pattern with its final line feed, the error message and the escaping `TypeError` of the original |
| Timestamps.ParsesAgreeWithFraction | attack_model/models/common/timestamp.py:21-46 | the original and the corrected parse agree on every string that carries a fraction |
| Timestamps.NoFractionRefused | attack_model/models/common/timestamp.py:21-46 | "2023-09-27T20:12:54Z" matches the pattern but the original parse refuses it; the corrected parse gives the date-time with zero microseconds |
| Timestamps.TrailingLineFeed | attack_model/models/common/timestamp.py:21-46 | a timestamp followed by a line feed passes the pattern, then both parses refuse it with "unconverted data remains", the original only when the fraction is present |
| Timestamps.YearRoundTrip | attack_model/models/common/timestamp.py:40-50 | a four-digit year without a leading zero read with `%Y` and written with `%Y` gives the same digits |
| Timestamps.HeadRoundTrip | attack_model/models/common/timestamp.py:40-50 | for a year from 1000 on (no leading zero), the date and time part of an accepted string is exactly the text its fields are written back as |
| Timestamps.ParsedFields | attack_model/models/common/timestamp.py:40-46 | the date-time parsed from an accepted string holds the string's fields and its fraction as microseconds, which has one to six digits |
| Timestamps.MillisText | attack_model/models/common/timestamp.py:50 | microseconds from a fraction of up to three digits, cut to milliseconds, are written as the fraction padded on the right to three digits |
| Timestamps.ParseThenSerialize | attack_model/models/common/timestamp.py:60-77 | for a year from 1000 on (no leading zero), a string with a one- to three-digit fraction is written back with the fraction padded to three digits, and one with exactly three digits comes back unchanged |
| Timestamps.SerializedLayout | attack_model/models/common/timestamp.py:49-50 | a serialised date-time is 24 characters: the padded fields, the separators, three millisecond digits and `Z` |
| Timestamps.SerializedFields | attack_model/models/common/timestamp.py:49-56 | a serialised date-time from year 1000 on is in the pattern and its fields read back as the date-time's |
| Timestamps.SerializeThenParse | attack_model/models/common/timestamp.py:17-56 | for a date-time from year 1000 on, writing it and validating the text gives it back truncated to the millisecond |
| ExternalReferences.ExampleShowsPrefix | src/schemas/common/misc.ts:69-91 | the format example in the error message opens with the prefix of the type's ATT&CK ID format and one `#` per digit |
| ExternalReferences.MissingIdRule | src/schemas/common/property-schemas/stix-external-references.ts:110-113 | the first refinement passes exactly when the first reference has a truthy `external_id` |
| ExternalReferences.CommonFormatRule | src/schemas/common/misc.ts:50-63 | the older second refinement passes when there is no first ID, and otherwise exactly when the ID matches the single pattern the type maps to |
| ExternalReferences.Url | src/schemas/common/property-schemas/stix-external-references.ts:35-42 | `url` keeps a string unchanged and refuses `null` with "URL cannot be null" |
| ExternalReferences.FormatRule | src/schemas/common/property-schemas/stix-external-references.ts:116-136 | the newer second refinement passes when there is no first ID, and otherwise exactly when the ID has a shape the type allows, a sub-technique ID included for `attack-pattern` |
| ExternalReferences.AtMostOneReferenceIssue | src/schemas/common/property-schemas/stix-external-references.ts:109-119 | the format check is skipped when the ID is missing, so the two refinements never both report |
| ExternalReferences.ParsedReferenceId | src/schemas/common/property-schemas/stix-external-references.ts:32-45 | the parsed `external_id` of an accepted reference is present exactly when given, and is then the given text trimmed and non-empty |
| ExternalReferences.FirstIdOfParsed | src/schemas/common/property-schemas/stix-external-references.ts:106-119 | the ID the refinements test is the first reference's `external_id` as parsed, and a truthy one is always a string |
| ExternalReferences.RuleOnParsed | src/schemas/common/property-schemas/stix-external-references.ts:110-136 | on a parsed list the two refinements together pass exactly when a first ID is present and has the type's shape |
| ExternalReferences.AttackReferencesAccepts | src/schemas/common/property-schemas/stix-external-references.ts:103-141 | `createAttackExternalReferencesSchema(t)` accepts exactly the valid reference lists whose first entry carries an ID of the type's shape |
| ExternalReferences.MissingIdReported | src/schemas/common/property-schemas/stix-external-references.ts:110-113 | a valid list whose first entry has no `external_id` fails with the single "must be defined" issue at `[0, 'external_id']` |
| ExternalReferences.ParsedCommonReferenceId | src/schemas/common/misc.ts:14-28 | the older reference schema keeps a given `external_id` string unchanged |
| ExternalReferences.CommonRefusesSubtechniques | src/schemas/common/misc.ts:56-60 | the older factory for `attack-pattern` refuses every list whose first ID is a sub-technique ID, although its own message offers `T####.###` |
| ExternalReferences.SubtechniquesAccepted | src/schemas/common/property-schemas/stix-external-references.ts:122-129 | the newer factory for `attack-pattern` accepts a valid list whose first ID is a sub-technique ID |
| ExternalReferences.SubtechniqueExample | src/schemas/common/misc.ts:37-66 | a one-reference list with ID `T1059.001` is a valid reference list but the older `attack-pattern` factory refuses it |
| ExternalReferences.ReferenceListKeepsId | src/schemas/common/misc.ts:31-34 | an accepted reference list is non-empty and its parse keeps the first entry's `external_id` |
| ExternalReferences.AttackReferencesTagged | src/schemas/common/misc.ts:37-66 | a list the older factory of type `t` accepts has a first entry whose ID is a string of the type's format |
| ExternalReferences.ObjectTagged | src/schemas/common/misc.ts:37-66 | an object whose references the older factory of type `t` accepts carries an ATT&CK ID of the type's format |
| Extensions.CommonExtensionsAcceptAnyRecords | src/schemas/common/misc.ts:121-134 | the older `extensions` accepts exactly the records whose values are all objects, so the extension shape in the union never decides anything |
| Extensions.ExtensionType | src/schemas/common/extensions.ts:13-19 | `extension_type` accepts exactly the five extension kinds, unchanged |
| Extensions.ExtensionAccepts | src/schemas/common/extensions.ts:25-30 | an extension is accepted exactly when it has a known `extension_type`, whatever else it holds |
| Extensions.ExtensionsAccepts | src/schemas/common/extensions.ts:38-46 | `extensions` is accepted exactly when every key is non-blank and every value is an extension or a record with non-blank keys |
| Extensions.LengthIssues | src/schemas/common/extensions.ts:58-59 | the length checks pass exactly when the trimmed text has 3 to 250 characters |
| Extensions.ExtensionPropertyName | src/schemas/common/extensions.ts:55-63 | a property name is accepted exactly when its trim has 3 to 250 lower-case letters, digits and underscores, and yields the trim |
| Extensions.ExtensionObjectType | src/schemas/common/extensions.ts:66-78 | an object type is accepted exactly when its trim has 3 to 250 lower-case letters, digits and hyphens without `--`, and yields the trim |
| Extensions.DoubleHyphenAt | src/schemas/common/extensions.ts:76 | `includes('--')` holds exactly when two hyphens stand side by side |
| Extensions.ObjectTypeToPropertyName | src/schemas/common/extensions.ts:55-78 | swapping every hyphen for an underscore turns an accepted object type into an accepted property name |
| Extensions.ExtensionVersion | src/schemas/common/extensions.ts:104-107 | `version` accepts exactly the non-blank strings whose trim is three dotted digit runs |
| Extensions.ToplevelRule | src/schemas/common/extensions.ts:114-126 | the refinement passes exactly when a definition naming the top-level property extension lists at least one property |
| Extensions.ParsedTypes | src/schemas/common/extensions.ts:109 | an accepted definition has an `extension_types` list, and the parse keeps it |
| Extensions.ParsedProperties | src/schemas/common/extensions.ts:111 | in an accepted definition the parsed `extension_properties` is present and non-empty exactly when a non-empty list was given |
| Extensions.ToplevelNeedsProperties | src/schemas/common/extensions.ts:80-126 | a well-formed definition naming `toplevel-property-extension` is accepted exactly when it lists at least one extension property; any other well-formed definition is accepted |
| GranularMarkings.ExclusiveRule | src/schemas/common/property-schemas/stix-granular-marking.ts:65-111 | the check passes exactly when one of `lang` and `marking_ref` is given; both, or neither, report one issue under `lang` and one under `marking_ref` with the matching messages |
| GranularMarkings.GranularMarkingAccepts | src/schemas/common/property-schemas/stix-granular-marking.ts:44-115 | a granular marking is accepted exactly when its properties are valid and exactly one of `lang` and `marking_ref` is given |
| GranularMarkings.ConflictReportsBoth | src/schemas/common/property-schemas/stix-granular-marking.ts:72-110 | an otherwise valid marking with both or neither fails with exactly two issues, on `lang` and on `marking_ref` |
| KillChains.LowerFixedIffNoUpper | src/schemas/common/property-schemas/stix-kill-chains.ts:47 | `value === value.toLowerCase()` holds exactly when the value has no upper-case letter |
| KillChains.PhaseRule | src/schemas/common/property-schemas/stix-kill-chains.ts:44-58 | the phase-name refinement passes exactly when the name is lower case without spaces or underscores |
| KillChains.KillChainName | src/schemas/common/property-schemas/stix-kill-chains.ts:16-20 | `kill_chain_name` accepts exactly the three ATT&CK kill chains |
| KillChains.PhaseNameAccepts | src/schemas/common/property-schemas/stix-kill-chains.ts:43-58 | a phase name is accepted exactly when its trim is non-empty, has no upper-case letter, and no space or underscore |
| KillChains.KillChainPhaseAccepts | src/schemas/common/property-schemas/stix-kill-chains.ts:41-66 | a kill-chain phase is accepted exactly when it has a valid phase name, a known kill-chain name and no other key |
| KillChains.SolidPhaseName | src/schemas/common/property-schemas/stix-kill-chains.ts:43-52 | a phase name without surrounding blanks is judged on its text as written |
| KillChains.TitleCaseRefused | src/schemas/common/property-schemas/stix-kill-chains.ts:55-56 | "Initial Access" is refused |
| KillChains.HyphenatedAccepted | src/schemas/common/property-schemas/stix-kill-chains.ts:55-56 | "initial-access" is accepted |
| Generics.NonEmptyRequiredString | src/schemas/common/property-schemas/generics.ts:24-27 | `nonEmptyRequiredString` accepts exactly the strings that are not blank, and yields the trimmed, non-empty text |
| Generics.NonEmptyRequiredStringIdempotent | src/schemas/common/property-schemas/generics.ts:24-27 | parsing an accepted value's result again gives the same result |
| Generics.TrimmedMatching | src/schemas/common/property-schemas/attack-versioning.ts:21-22 | a pattern chained after `nonEmptyRequiredString` is matched against the trimmed text, and a blank string fails first with the non-empty message |
| Generics.StixListOfStringAccepts | src/schemas/common/property-schemas/generics.ts:43-46 | `stixListOfString` accepts exactly the non-empty lists of non-blank strings |
| Generics.FindDuplicates | src/schemas/common/property-schemas/generics.ts:69-81 | the one-pass scan with a `seen` map collects exactly the elements that repeat an earlier one, in order, where arrays and objects never repeat |
| Generics.UniqueRule | src/schemas/common/property-schemas/generics.ts:82-89 | the `uniqueArray` check reports exactly when some element repeats an earlier one |
| Generics.NoDuplicatesIffDistinct | src/schemas/common/property-schemas/generics.ts:69-90 | the duplicate list is empty exactly when no two elements are the same value |
| Generics.SetSizeIffDistinct | src/schemas/common/common-properties.ts:238-239 | `new Set(items).size === items.length` holds exactly when no two elements are equal |
| Generics.SetSizeAgreesWithDuplicates | src/schemas/common/property-schemas/generics.ts:69-90 | on lists of plain values the set-size test and the `uniqueArray` scan agree |
| Asset.SectorListAccepts | src/schemas/sdo/asset.schema.ts:22-35 | `x_mitre_sectors` accepts exactly the lists of supported asset sectors |
| Asset.RelatedAssetAccepts | src/schemas/sdo/asset.schema.ts:46-54 | a related asset is accepted exactly when it has a string name, sectors from the list if any, and a string description if any |
| Asset.RelatedAssetsAccepts | src/schemas/sdo/asset.schema.ts:56-60 | `x_mitre_related_assets` accepts exactly the lists of acceptable related assets |
| Asset.ExtensionRequiredNames | src/schemas/sdo/asset.schema.ts:71-97 | the asset properties are declared once each and exactly five of them are required |
| Asset.RequiredPresent | src/schemas/sdo/asset.schema.ts:71-97 | an accepted asset has every required asset property |
| Asset.ReferencesTagged | src/schemas/sdo/asset.schema.ts:80 | an asset whose references the asset factory accepts carries an asset ID `A####` |
| Asset.PlatformsAccepted | src/schemas/sdo/asset.schema.ts:85 | an accepted asset's platforms, when given, are a non-empty list of distinct known platforms |
| Asset.SectorsAccepted | src/schemas/sdo/asset.schema.ts:91 | an accepted asset's sectors, when given, are supported asset sectors |
| Asset.RelatedAccepted | src/schemas/sdo/asset.schema.ts:93 | an accepted asset's related assets, when given, are acceptable related assets |
| Asset.AssetAccepted | src/schemas/sdo/asset.schema.ts:71-100 | an accepted asset has the required properties, no undeclared key, an asset ID, distinct known platforms, known sectors and acceptable related assets |
| Group.ExtensionRequiredNames | src/schemas/sdo/group.schema.ts:16-70 | the group properties are declared once each and exactly four of them are required |
| Group.RequiredPresent | src/schemas/sdo/group.schema.ts:16-71 | an accepted group has every required group property |
| Group.AliasesAndNameKept | src/schemas/sdo/group.schema.ts:37-40 | parsing a group keeps its aliases and its name as given, so the alias check sees the input's values |
| Group.GroupRefinedIff | src/schemas/sdo/group.schema.ts:72-74 | of the well-formed groups, exactly those whose alias list, when given, starts with the name are accepted |
| Group.LevelAccepted | src/schemas/sdo/group.schema.ts:58-61 | a given `resource_level` is one of the resource-level vocabulary |
| Group.PrimaryAccepted | src/schemas/sdo/group.schema.ts:63-65 | a given `primary_motivation` is one of the motivation vocabulary |
| Group.SecondaryAccepted | src/schemas/sdo/group.schema.ts:67-69 | given `secondary_motivations` are a list drawn from the motivation vocabulary |
| Group.GroupTagged | src/schemas/sdo/group.schema.ts:29 | a well-formed group carries a group ID `G####` in its first reference |
| Group.GroupAccepted | src/schemas/sdo/group.schema.ts:16-74 | an accepted group has the required properties, no undeclared key, a group ID, vocabulary values, and aliases that start with its name |
| Identity.ExtensionRequiredNames | src/schemas/sdo/identity.schema.ts:15-48 | the identity properties are declared once each, none is omitted, and exactly four are required |
| Identity.VersionInBase | src/schemas/sdo/identity.schema.ts:46-48 | the base declares `x_mitre_version` as required, so it is the omission that lets an identity go without one |
| Identity.RequiredPresent | src/schemas/sdo/identity.schema.ts:15-49 | an accepted identity has every required identity property |
| Identity.NoVersion | src/schemas/sdo/identity.schema.ts:46-49 | an accepted identity carries no `x_mitre_version` and no undeclared key |
| Identity.ClassAccepted | src/schemas/sdo/identity.schema.ts:23-26 | an accepted identity has an `identity_class` from its vocabulary |
| Identity.SectorListAccepts | src/schemas/sdo/identity.schema.ts:36-39 | `sectors` accepts exactly the non-empty lists of industry sectors |
| Identity.SectorsAccepted | src/schemas/sdo/identity.schema.ts:36 | an accepted identity's sectors, when given, are a non-empty list of industry sectors |
| Identity.IdentityAccepted | src/schemas/sdo/identity.schema.ts:15-49 | an accepted identity has the required properties, a known class, known sectors, no object version and no undeclared key |
| Identity.VersionRefused | src/schemas/sdo/identity.schema.ts:46-49 | any object with an `x_mitre_version` is refused as an identity |
| Matrix.TacticRefsAccepts | src/schemas/sdo/matrix.schema.ts:21-25 | `tactic_refs` accepts exactly the lists of tactic identifiers and parses them to themselves, order included |
| Matrix.ExtensionRequiredNames | src/schemas/sdo/matrix.schema.ts:35-58 | the matrix properties are declared once each and all required |
| Matrix.RequiredPresent | src/schemas/sdo/matrix.schema.ts:35-58 | an accepted matrix has every matrix property |
| Matrix.TacticRefsKept | src/schemas/sdo/matrix.schema.ts:56 | an accepted matrix's tactic references are tactic identifiers and parsing keeps them in their order |
| Matrix.MatrixAccepted | src/schemas/sdo/matrix.schema.ts:35-61 | an accepted matrix has all its properties, no undeclared key, and an ordered list of tactic identifiers that parsing keeps |
| Mitigation.OldIdIssues | src/schemas/sdo/mitigation.schema.ts:37-50 | the refinement passes exactly when a string `x_mitre_old_attack_id`, if any, has the form `MOB-M####`, and otherwise reports one issue at that key |
| Mitigation.RefinementNarrows | src/schemas/sdo/mitigation.schema.ts:41-49 | every old ID the refinement lets through the base accepts, and the software-form `MOB-S0001` the base accepts it refuses |
| Mitigation.ExtensionRequiredNames | src/schemas/sdo/mitigation.schema.ts:11-35 | the mitigation properties are declared once each and all required |
| Mitigation.OldIdInBase | src/schemas/sdo/mitigation.schema.ts:11-35 | the old ATT&CK ID is an optional base property the mitigation extension leaves alone |
| Mitigation.OldIdKept | src/schemas/sdo/mitigation.schema.ts:42 | parsing keeps the old ATT&CK ID, so the refinement sees the given value |
| Mitigation.MitigationRefinedIff | src/schemas/sdo/mitigation.schema.ts:36-50 | of the well-formed mitigations, exactly those without an old ID or with one of the form `MOB-M####` are accepted |
| Mitigation.OldIdTyped | src/schemas/sdo/mitigation.schema.ts:43 | a given old ID in a well-formed mitigation is a string, so the `typeof` test always applies |
| Mitigation.RequiredPresent | src/schemas/sdo/mitigation.schema.ts:11-36 | an accepted mitigation has every mitigation property |
| Mitigation.MitigationAccepted | src/schemas/sdo/mitigation.schema.ts:11-50 | an accepted mitigation has its required properties, no undeclared key, and an old ID only of the mitigation form |
| Collection.ObjectVersionAccepts | src/schemas/sdo/collection.schema.ts:20-26 | an object version reference is accepted exactly when it has a valid identifier and a valid timestamp |
| Collection.ContentsAccepts | src/schemas/sdo/collection.schema.ts:28-31 | `x_mitre_contents` accepts exactly the non-empty lists of object version references |
| Collection.EmptyContentsRule | src/schemas/sdo/collection.schema.ts:60-73 | the refinement reports exactly when the parsed contents are an empty list |
| Collection.ExtensionRequiredNames | src/schemas/sdo/collection.schema.ts:41-59 | the collection properties are declared once each and all required |
| Collection.RequiredPresent | src/schemas/sdo/collection.schema.ts:41-59 | an accepted collection has every collection property |
| Collection.ContentsParsed | src/schemas/sdo/collection.schema.ts:57 | the parsed contents are what the contents schema makes of the given list |
| Collection.ContentsKeepLength | src/schemas/sdo/collection.schema.ts:28-31 | accepted contents parse to a list as long as the given one, which is non-empty |
| Collection.EmptyContentsRuleSilent | src/schemas/sdo/collection.schema.ts:64-72 | the refinement never reports on a value the shape accepted, because `.min(1)` has already refused empty contents |
| Collection.CollectionIsShape | src/schemas/sdo/collection.schema.ts:41-73 | the collection schema accepts exactly what its shape accepts |
| Collection.CollectionAccepted | src/schemas/sdo/collection.schema.ts:41-73 | an accepted collection has its required properties, no undeclared key, and at least one object version reference |
| LogSource.DataSourceIdIssues | src/schemas/sdo/log-source.schema.ts:77-100 | the refinement reports at most one issue, always at `['external_references', 0, 'external_id']` |
| LogSource.DataSourceIdAccepts | src/schemas/sdo/log-source.schema.ts:82-99 | the refinement passes exactly when the first ID is a data source ID `DS####`, and reports "must be defined" when the first ID is falsy |
| LogSource.AgreesWithReferenceFactory | src/schemas/sdo/log-source.schema.ts:82-99 | the hand-written check reports exactly what the data-source reference factory's two refinements report, under `external_references` |
| LogSource.ExtensionRequiredNames | src/schemas/sdo/log-source.schema.ts:39-76 | the log source properties are declared once each and all but the contributors are required |
| LogSource.RequiredPresent | src/schemas/sdo/log-source.schema.ts:39-76 | an accepted log source has every required log source property |
| LogSource.FirstIdKept | src/schemas/sdo/log-source.schema.ts:82-83 | parsing keeps the first reference's ID, so the refinement sees the given one |
| LogSource.LogSourceRefinedIff | src/schemas/sdo/log-source.schema.ts:77-100 | of the well-formed log sources, exactly those whose first ID is a data source ID are accepted |
| LogSource.LogSourceAccepted | src/schemas/sdo/log-source.schema.ts:39-100 | an accepted log source has its required properties, no undeclared key, and a data source ID in its first reference |
| Tactic.ShortNameAccepts | src/schemas/sdo/tactic.schema.ts:15-60 | `x_mitre_shortname` accepts exactly the nineteen different names of the list; its repetitions change nothing |
| Tactic.TacticIdIssues | src/schemas/sdo/tactic.schema.ts:122-149 | the refinement reports at most one issue |
| Tactic.TacticIdAccepts | src/schemas/sdo/tactic.schema.ts:131-148 | the refinement passes exactly when the first ID is a string ending in `TA` and four digits, and reports "must be defined" at the ID's path when the first ID is falsy |
| Tactic.EndsWithIffSuffixMatches | src/schemas/sdo/tactic.schema.ts:141 | `/TA\d{4}$/` holds exactly when the last six characters are a tactic ID |
| Tactic.UnanchoredAccepted | src/schemas/sdo/tactic.schema.ts:141-142 | "XTA0001" passes the tactic check although it is no tactic ID |
| Tactic.ShortIdRefused | src/schemas/sdo/tactic.schema.ts:141-146 | "TA123" is refused |
| Tactic.AnchoredTacticIdIssues | src/schemas/sdo/tactic.schema.ts:131-148 | the anchored check reports at most one issue |
| Tactic.AnchoredTacticIdAccepts | src/schemas/sdo/tactic.schema.ts:131-148 | the anchored check passes exactly on first IDs that are whole tactic IDs, and passes nothing the written check refuses |
| Tactic.ExtensionNames | src/schemas/sdo/tactic.schema.ts:81-103 | the tactic extension declares exactly its nine properties |
| Tactic.RequiredDeclared | src/schemas/sdo/tactic.schema.ts:104-120 | every key `.required` names is declared by the base or the extension |
| Tactic.RequiredPresent | src/schemas/sdo/tactic.schema.ts:104-121 | an accepted tactic has all fifteen required properties |
| Tactic.FirstIdKept | src/schemas/sdo/tactic.schema.ts:125-132 | parsing keeps the first reference's ID, so the refinement sees the given one |
| Tactic.TacticAccepted | src/schemas/sdo/tactic.schema.ts:81-149 | an accepted tactic has the fifteen required properties, no undeclared key, a shortname from the list, and a first ID ending in a tactic ID |
| Campaign.MatchEnd | src/schemas/sdo/campaign.schema.ts:54 | a match of `\(Citation:[^)]+\)` at the front of a text ends at the first `)` after the opening, with at least one character in between, and one is found whenever such a `)` exists |
| Campaign.CitationList | src/schemas/sdo/campaign.schema.ts:49-78 | a citation property accepts exactly the strings that are citation lists, unchanged, and otherwise reports its one message |
| Campaign.MatchesShaped | src/schemas/sdo/campaign.schema.ts:54 | every match the global search returns has the pattern's shape |
| Campaign.MatchesOfConcat | src/schemas/sdo/campaign.schema.ts:54-60 | matching again the concatenation of shaped matches gives them back |
| Campaign.SingleIffGood | src/schemas/sdo/campaign.schema.ts:29-47 | a match passes the single-citation check exactly when its text after the colon holds no colon and is not blank |
| Campaign.CitationListIff | src/schemas/sdo/campaign.schema.ts:49-63 | a text is accepted exactly when it is one or more good citations put together with nothing else |
| Campaign.EmptyRefused | src/schemas/sdo/campaign.schema.ts:54-56 | the empty text has no match and is refused |
| Campaign.SeparatorRefused | src/schemas/sdo/campaign.schema.ts:54-60 | two citations separated by ", " are both found but the text is refused, because the separator is left over |
| Campaign.SeparatorSkipped | src/schemas/sdo/campaign.schema.ts:54 | the search skips a separator and finds the citation after it |
| Campaign.SkipNonOpen | src/schemas/sdo/campaign.schema.ts:54 | a position that does not hold `(` starts no match |
| Campaign.CitedNamesAccepted | src/schemas/sdo/campaign.schema.ts:49-63 | citing any non-empty list of names without a colon in the form `(Citation: name)` gives an accepted citation list |
| Campaign.CiteGood | src/schemas/sdo/campaign.schema.ts:29-47 | `(Citation: name)` for a name without a colon passes the single-citation check |
| Campaign.ColonNameRefused | src/schemas/sdo/campaign.schema.ts:36-38 | a name holding a colon passes the shared citation format but the campaign check refuses it, since the content splits into three parts |
| Campaign.UnspacedAccepted | src/schemas/sdo/campaign.schema.ts:39-40 | "(Citation:X)" is accepted by the campaign check although the shared citation format refuses it |
| Campaign.CampaignRuleAccepts | src/schemas/sdo/campaign.schema.ts:127-130 | the campaign refinements pass exactly when a non-empty alias list starts with the name and each non-empty citation property is in the shared citation format and cites only source names of the object's references |
| Campaign.ExtensionFacts | src/schemas/sdo/campaign.schema.ts:89-125 | the campaign properties are declared once each, and every key `.required` names is declared |
| Campaign.CampaignPresent | src/schemas/sdo/campaign.schema.ts:89-126 | an accepted campaign has every required property |
| Campaign.CampaignAccepted | src/schemas/sdo/campaign.schema.ts:89-130 | an accepted campaign has its required properties, no undeclared key, STIX timestamps for first and last seen, citation lists for the two citations, and passes both refinements |
| Campaign.ShapeAccepted | src/schemas/sdo/campaign.schema.ts:89-126 | a well-formed campaign has its required properties, no undeclared key, STIX timestamps and citation lists |
| Technique.DataSource | src/schemas/sdo/technique.schema.ts:140-151 | a data source entry is accepted exactly when it is a string with one colon and a non-blank text on each side, unchanged |
| Technique.DataSourceTextSplit | src/schemas/sdo/technique.schema.ts:144 | splitting `source: component` at the colon gives back the source and the spaced component |
| Technique.DataSourceTextAccepted | src/schemas/sdo/technique.schema.ts:140-151 | a colon-free, non-blank source and component always form an accepted entry `source: component` |
| Technique.DataSourcePieces | src/schemas/sdo/technique.schema.ts:144-145 | every accepted entry is its two pieces joined by the colon |
| Technique.TechniquePhaseAccepts | src/schemas/sdo/technique.schema.ts:191-215 | a technique's kill-chain phase is accepted exactly when its phase name passes the lower-case, no-space, no-underscore rule as given, its kill-chain name is known, and it has no other key |
| Technique.PhaseSchemasDiffer | src/schemas/sdo/technique.schema.ts:191-215 | the technique's phase schema accepts an empty phase name that the shared one refuses, and refuses " impact" that the shared one accepts after trimming |
| Technique.TechniqueIdIssues | src/schemas/sdo/technique.schema.ts:424-442 | the ID check passes exactly when the first ID has the shape the sub-technique flag selects, reports one issue at the ID's path otherwise, and "must be defined" for a falsy ID |
| Technique.TechniqueMobileIssues | src/schemas/sdo/technique.schema.ts:494-505 | the mobile checks report at most two issues, both without a path |
| Technique.TechniqueRuleAccepts | src/schemas/sdo/technique.schema.ts:398-505 | the refinement passes exactly when the ID has the selected shape, every enterprise-only property given is allowed by the domain and the tactics, tactic types appear only in the mobile domain, and data sources only outside it |
| Technique.MobileIssuesUnplaced | src/schemas/sdo/technique.schema.ts:494-505 | the technique's mobile checks report the shared mobile-only refinement's messages in the same order, but without their paths |
| Technique.IdCheckWeakerThanShared | src/schemas/sdo/technique.schema.ts:424-442 | whatever the shared ATT&CK ID refinement accepts, the technique's own ID check accepts |
| Technique.ForeignSourceTolerated | src/schemas/sdo/technique.schema.ts:424-442 | a first reference from `capec` with ID `T1059` passes the technique's ID check but not the shared one, which also checks the source name |
| Technique.RuleRespectsView | src/schemas/sdo/technique.schema.ts:400-418 | the refinement decides alike on two objects that agree on the properties it reads |
| Technique.TechniqueRequiredDeclared | src/schemas/sdo/technique.schema.ts:385-397 | every key `.required` names is declared by the base or the extension |
| Technique.ReadKept | src/schemas/sdo/technique.schema.ts:400-414 | every property the refinement reads has the same value after parsing |
| Technique.FirstIdKept | src/schemas/sdo/technique.schema.ts:425 | a well-formed technique has references, and parsing keeps the first entry's ID |
| Technique.TechniqueObjectAccepts | src/schemas/sdo/technique.schema.ts:325-505 | a technique is accepted exactly when its shape is and the refinement passes on the object as given |
| Technique.TechniqueAccepted | src/schemas/sdo/technique.schema.ts:325-442 | an accepted technique has the eleven required properties, no undeclared key, a boolean sub-technique flag, and a first ID of the shape the flag selects |
| Technique.FlaggedId | src/schemas/sdo/technique.schema.ts:434-435 | with a boolean flag, a passing refinement means the first ID is `T####.###` for a sub-technique and `T####` otherwise |
| Technique.RequiredPresent | src/schemas/sdo/technique.schema.ts:385-397 | an accepted technique has every required property |
| Technique.SubtechniqueFlag | src/schemas/sdo/technique.schema.ts:170-174 | a well-formed technique has a boolean `x_mitre_is_subtechnique` |
| Technique.TechniqueDomainsAccepted | src/schemas/sdo/technique.schema.ts:460-505 | in an accepted technique an enterprise-only property appears only with the enterprise domain, tactic types only with the mobile domain, and data sources only outside it |
| Technique.DataSourcesTruthy | src/schemas/sdo/technique.schema.ts:501 | an accepted data source list is an array, hence truthy, so the mobile check applies to it whenever it is given |
| Analytic.LogSourceRefAccepts | src/schemas/sdo/analytic.schema.ts:21-35 | a log source reference is accepted exactly when it names a data component identifier, a non-empty name and a non-empty channel |
| Analytic.RepeatsIff | src/schemas/sdo/analytic.schema.ts:51-62 | the loop over a seen-set returns false exactly when some key occurs twice in the list |
| Analytic.DuplicateRule | src/schemas/sdo/analytic.schema.ts:48-69 | on a list, the duplicate refinement is silent exactly when no two references build the same key, the reference, name and channel joined by bar characters, and otherwise reports its one message |
| Analytic.TupleDuplicateRule | src/schemas/sdo/analytic.schema.ts:49-50 | the rule the comment states: silent exactly when no two references share a (component, name, channel) tuple |
| Analytic.ParsedTuples | src/schemas/sdo/analytic.schema.ts:45-47 | the refinement sees the parsed list, which has the tuples and keys of the input |
| Analytic.LogSourceRefsAccepts | src/schemas/sdo/analytic.schema.ts:45-73 | the reference list is accepted exactly when it is non-empty, every reference is well formed and no two build the same key text |
| Analytic.TupleLogSourceRefsAccepts | src/schemas/sdo/analytic.schema.ts:45-73 | with the intended rule, the list is accepted exactly when it is non-empty, every reference is well formed and no two share a tuple |
| Analytic.KeyRuleCatchesTuples | src/schemas/sdo/analytic.schema.ts:55 | every list with two equal tuples also has two equal keys, so the key rule refuses all the tuple rule refuses |
| Analytic.KeyTextCollision | src/schemas/sdo/analytic.schema.ts:55 | two well-formed references whose name and channel differ only in where a bar character falls are refused as duplicates, though their tuples differ |
| Analytic.MutableElementsAccepts | src/schemas/sdo/analytic.schema.ts:83-99 | the mutable elements are accepted exactly when they form a non-empty list of objects with a non-empty field and description |
| Analytic.AnalyticPlatformsAccepts | src/schemas/sdo/analytic.schema.ts:117 | the platforms are accepted exactly when they are one platform from the vocabulary: the shared list needs at least one, and `.max(1)` allows no more |
| Analytic.ExtensionRequiredNames | src/schemas/sdo/analytic.schema.ts:109-133 | the extension declares distinct names, requires the six the source requires, and makes two base properties required |
| Analytic.RequiredPresent | src/schemas/sdo/analytic.schema.ts:109-132 | every accepted analytic holds its required properties, the creator and the markings |
| Analytic.AnalyticAccepted | src/schemas/sdo/analytic.schema.ts:109-133 | an accepted analytic has its required properties and no undeclared key, one platform from the vocabulary, a non-empty description, distinct log source tuples and well-formed mutable elements |
| Analytic.AnalyticReferencesAsWritten | src/schemas/common/misc.ts:44-60 | the reference list of an analytic, as written, never finishes with an accepted list: it throws exactly when the list is well formed and its first ID present, because the format lookup for `x-mitre-analytic` is undefined |
| Analytic.AnalyticReferencesThrow | src/schemas/common/misc.ts:44-60 | the corrected list, the missing-ID check alone, accepts exactly the lists on which the written one throws |
| Analytic.AnalyticIdThrows | src/schemas/common/misc.ts:56-57 | a list whose first reference carries `AN0001` makes the written schema throw, and the corrected one accepts it |
| MarkingDefinition.MarkingObjectsAccept | src/schemas/smo/marking-definition.schema.ts:13-18 | the TLP marking object accepts exactly an object whose only key is a string `tlp`, and the statement marking object likewise for `statement` |
| MarkingDefinition.TlpStringsDistinct | src/schemas/smo/marking-definition.schema.ts:35-73 | the identifier, the name and the level text of the four TLP levels each tell the levels apart |
| MarkingDefinition.TlpSchemaAccepts | src/schemas/smo/marking-definition.schema.ts:21-73 | one level's schema accepts exactly the marking definition with that level's identifier, name and level, the fixed type and spec version, a date-time and no other key |
| MarkingDefinition.TlpUnionAccepts | src/schemas/smo/marking-definition.schema.ts:76-81 | the TLP union accepts exactly the four fixed marking definitions |
| MarkingDefinition.TlpTripleFixed | src/schemas/smo/marking-definition.schema.ts:31-81 | an accepted TLP marking definition pairs the identifier, name and level of one and the same level |
| MarkingDefinition.DefinitionType | src/schemas/smo/marking-definition.schema.ts:130-134 | the definition type is accepted exactly when it is `statement` or `tlp`, and otherwise gives the source's message |
| MarkingDefinition.MarkingNames | src/schemas/smo/marking-definition.schema.ts:108-147 | the object declares its ten properties, all required but the name |
| MarkingDefinition.MarkingAccepts | src/schemas/smo/marking-definition.schema.ts:108-147 | the object is accepted exactly when its other properties are, no undeclared key is given, the type is in the enumeration and the definition is a marking object of either kind |
| MarkingDefinition.DefinitionTypeUnchecked | src/schemas/smo/marking-definition.schema.ts:130-140 | the definition type and definition are checked apart: swapping in a marking object of the other kind keeps an object accepted |
| MarkingDefinition.MarkingAccepted | src/schemas/smo/marking-definition.schema.ts:108-147 | an accepted marking definition has every required property, at most the name besides, a type from the enumeration and a marking object |
| StixBundle.SchemaFor | src/schemas/sdo/stix-bundle.schema.ts:46-98 | the schema map has a schema for exactly the fifteen domain types, relationships and marking definitions |
| StixBundle.ElementShapeAccepts | src/schemas/sdo/stix-bundle.schema.ts:105-123 | the loose element shape accepts exactly the objects with a string type and a string id, and parses them to themselves |
| StixBundle.UnknownTypeReported | src/schemas/sdo/stix-bundle.schema.ts:127-141 | an element whose type the map does not know gets exactly one issue and no other check runs: the unknown-type issue at `type`, or, when the type names a property every JavaScript object inherits (`constructor`, `toString` and the like), "Validation error: schema.parse is not a function" without a path |
| StixBundle.KnownTypeForwarded | src/schemas/sdo/stix-bundle.schema.ts:143-152 | an element with a known type is accepted exactly when that type's schema accepts it, and otherwise carries every issue of that schema |
| StixBundle.ShapeFirst | src/schemas/sdo/stix-bundle.schema.ts:105-124 | an element without a string type or id is refused before any schema is looked up |
| StixBundle.AttackObjectsAccepts | src/schemas/sdo/stix-bundle.schema.ts:103-164 | an object list is accepted exactly when it is non-empty and every element has a known type whose schema accepts it |
| StixBundle.BundleElementAccepts | src/schemas/sdo/stix-bundle.schema.ts:180-196 | a bundle element is accepted exactly when it is an object whose type is one of the fifteen domain types and whose schema accepts it |
| StixBundle.NonDomainObjectsRefused | src/schemas/sdo/stix-bundle.schema.ts:180-196 | a relationship or marking definition is refused inside a bundle, whatever its other properties |
| StixBundle.BundleShapeAccepts | src/schemas/sdo/stix-bundle.schema.ts:174-204 | the bundle shape accepts exactly the three-key objects with a bundle identifier, the bundle type and a non-empty list of accepted domain objects |
| StixBundle.ObjectsKept | src/schemas/sdo/stix-bundle.schema.ts:178-198 | parsing an accepted bundle keeps the length and order of its objects, each parsed by its own schema |
| StixBundle.DispatchRule | src/schemas/sdo/stix-bundle.schema.ts:127-160 | a type outside the map's domain gets exactly one issue, and an element passes exactly when it has no string type or its type's schema accepts it |
| StixBundle.BundleElement | src/schemas/sdo/stix-bundle.schema.ts:180-196 | an accepted element is an object of one of the fifteen domain types, and an object of any other type fails with the discriminator's one issue at `type` |
| Relationships.CheckRelationship | src/schemas/sro/relationship.schema.ts:123-190 | a relationship type that every JavaScript object inherits (`constructor`, `toString`, …) makes the call throw at `mapping.source.includes`, and only such a type does; otherwise the first failing check decides the one issue: an issue at `source_ref` exactly when the type is known and the source type is not allowed, at `target_ref` exactly when the source is allowed and the target is not, and otherwise at `relationship_type` |
| Relationships.ValidIffAllowed | src/schemas/sro/relationship.schema.ts:55-101 | the checks accept exactly the triples the relationship map lists, less software using software and cross-type revocation |
| Relationships.UsesIffAllowed | src/schemas/sro/relationship.schema.ts:56-68 | a `uses` relationship is accepted exactly when its source and target are listed and not both software |
| Relationships.RevocationIffAllowed | src/schemas/sro/relationship.schema.ts:89-92 | a revocation is accepted exactly when both ends are revocable types and the same type |
| Relationships.RevocationSameType | src/schemas/sro/relationship.schema.ts:178-187 | an accepted revocation joins two objects of one revocable type |
| Relationships.UnknownTypeRefused | src/schemas/sro/relationship.schema.ts:129-143 | a relationship type outside the seven is never valid whatever it joins: an inherited name throws, any other gives one issue at `relationship_type` listing the seven |
| Relationships.InheritedNameThrows | src/schemas/sro/relationship.schema.ts:129-143 | `isValidRelationship("campaign", "constructor", "intrusion-set")` throws |
| Relationships.Combinations | src/schemas/sro/relationship.schema.ts:206-214 | the combinations hold exactly every source, target and relationship type drawn from the given lists |
| Relationships.Refused | src/schemas/sro/relationship.schema.ts:221-223 | the filter keeps exactly the refused triples of the list, in order |
| Relationships.InvalidIsComplement | src/schemas/sro/relationship.schema.ts:206-223 | the invalid catalogue holds exactly the combinations of the given types that the map does not allow |
| Relationships.TestedTriplesValid | test/objects/relationship.test.ts:11-34 | every triple the test suite expects to be accepted is valid, and so is every revocation of a revocable type by itself |
| Relationships.RelationshipRule | src/schemas/sro/relationship.schema.ts:273-282 | the refinement reports at most one issue; a throw of the check, which the schema's enumeration rules out, is reported as an issue without a path |
| Relationships.RelationshipRuleAccepts | src/schemas/sro/relationship.schema.ts:273-282 | a relationship passes the refinement exactly when the types before the first `--` of its references form an allowed triple |
| Relationships.DraftMap | zod/src/schemas/common/relationship-type.ts:28-66 | the draft map agrees with the current one on every relationship type but revocation, which it opens to every supported type |
| Relationships.DraftRelationshipIssues | zod/src/schemas/sro/relationship.schema.ts:47-78 | the draft refinement runs the type, source and target checks and reports every failure, at most three |
| Relationships.DraftAgreesOutsideRevocation | zod/src/schemas/common/relationship-type.ts:83-139 | outside revocation, the draft accepts exactly the triples the current rule accepts |
| Relationships.KnownTypeConditions | zod/src/schemas/common/relationship-type.ts:83-139 | for a known type other than revocation, the current rule and the draft each accept exactly the allowed ends that are not a software pair on "uses" |
| Relationships.DraftAcceptsCrossTypeRevocation | zod/src/schemas/common/relationship-type.ts:61-65 | the draft accepts malware revoked by a tool, though its map documents revocation as same-type only, and the current rule refuses it |
| Relationships.RelationshipMap | src/schemas/sro/relationship.schema.ts:55-101 | the map has an entry exactly for the seven relationship types, each with at least one source and one target type |
| Relationships.IsValidRelationship | src/schemas/sro/relationship.schema.ts:123-190 | a valid triple has a known relationship type, a source among its sources and a target among its targets |
| Relationships.TestedAllowed | test/objects/relationship.test.ts:11-34 | each triple the test suite expects to be accepted is one the map allows |
| RelationshipSchema.RelationshipFields | src/schemas/sro/relationship.schema.ts:231-257 | the relationship declares the base properties and the twelve the extension adds or replaces |
| RelationshipSchema.RequiredKeysPresent | src/schemas/sro/relationship.schema.ts:258-272 | the thirteen properties `.required` names are present in every accepted relationship |
| RelationshipSchema.ReferencesParsed | src/schemas/sro/relationship.schema.ts:237-246 | once the properties are accepted, the references and relationship type are strings and parse to themselves |
| RelationshipSchema.OnlyDeclaredKeys | src/schemas/sro/relationship.schema.ts:231-257 | an accepted relationship has no key that the base or the extension does not declare |
| RelationshipSchema.RelationshipRefinedIff | src/schemas/sro/relationship.schema.ts:273-282 | once the properties are accepted, the relationship is accepted exactly when its reference types and relationship type form an allowed triple |
| RelationshipSchema.RelationshipAccepted | src/schemas/sro/relationship.schema.ts:231-282 | an accepted relationship has the thirteen required properties, only declared ones, one of the seven relationship types, and reference types that form an allowed triple |
| Refinements.FirstAliasRule | src/refinements/index.ts:40-83 | the alias check reports at most one issue, at the alias field, with the source's message |
| Refinements.FirstAliasAccepts | src/refinements/index.ts:40-83 | with a name and an alias list, the check passes exactly when the list is empty or starts with the name |
| Refinements.FirstAliasOnObject | src/refinements/index.ts:40-83 | on an object, the check passes exactly when a non-empty alias list, if any, leads with the name |
| Refinements.FirstAliasReads | src/refinements/index.ts:40-83 | the alias check depends only on the alias list and the name |
| Refinements.NextClose | src/refinements/index.ts:113 | finds the first `)` at or after a position, or reports that none follows |
| Refinements.FirstCitation | src/refinements/index.ts:113 | a citation match at the front starts with `(Citation: ` and ends at a `)` past it |
| Refinements.FirstCitationOfCite | src/refinements/index.ts:113-114 | a citation at the front of a text is matched up to its own `)`, and what follows is left for the next match |
| Refinements.CitationsOfCite | src/refinements/index.ts:112-115 | extracting from a citation followed by more text gives its name, then the names of the rest; the text is well formed when the rest is empty or well formed |
| Refinements.CitationRoundTrip | src/refinements/index.ts:112-115 | citing a list of citable names and extracting them gives the names back, and a non-empty citation text is well formed |
| Refinements.SeparatedCitations | src/refinements/index.ts:113-143 | a separator between two citations breaks the format but not the extraction: both names are still looked up |
| Refinements.UnresolvedFrom | src/refinements/index.ts:121-132 | one issue per extracted name that no reference carries as its source name, at that name's index, in order |
| Refinements.CitationIssues | src/refinements/index.ts:118-144 | the citation text passes exactly when it is well formed and every name it cites is a reference source; a format issue comes last |
| Refinements.FieldCitationIssues | src/refinements/index.ts:146-154 | a citation field passes exactly when it is absent, empty, or well formed and every cited name is a reference source |
| Refinements.CitationTextAccepted | src/refinements/index.ts:118-144 | a citation text built from citable names that the references all carry raises no issue |
| Refinements.CitedFieldAccepted | src/refinements/index.ts:118-154 | a field citing only sources the references name, without separators, passes the check |
| Refinements.CitedCampaignAccepted | src/refinements/index.ts:100-156 | a campaign whose first-seen and last-seen citations cite only sources its references name passes the citation check |
| Refinements.FirstBundleObjectRule | src/refinements/index.ts:174-190 | the first-object check reports at most one issue, at the first object's type |
| Refinements.FirstBundleObjectAccepts | src/refinements/index.ts:174-190 | a bundle passes exactly when its object list is empty or leads with a collection, whatever follows |
| Refinements.AttackIdRule | src/refinements/index.ts:197-274 | the ATT&CK ID check reports nothing, one or two issues |
| Refinements.AttackIdAccepts | src/refinements/index.ts:197-274 | the ID check passes exactly when the first reference comes from `mitre-attack` and its ID has the technique shape, or the sub-technique shape when the flag is truthy |
| Refinements.AttackIdStopsEarly | src/refinements/index.ts:206-240 | a missing, non-object or ID-less first reference gives exactly one issue, and the shape and source checks do not run |
| Refinements.AttackIdReportsBoth | src/refinements/index.ts:241-273 | with an ID present, a wrong shape and a wrong source are both reported, shape first |
| Refinements.FieldIssue | src/refinements/index.ts:315-341 | an enterprise-only property gives no issue exactly when allowed; otherwise one issue at its path, with the domain message exactly when outside enterprise |
| Refinements.FieldIssues | src/refinements/index.ts:343-368 | the listed properties pass exactly when each is allowed, with at most one issue each |
| Refinements.EnterpriseOnlyRule | src/refinements/index.ts:281-384 | the enterprise check passes exactly when every enterprise-only property is allowed and data sources do not meet both the enterprise and mobile domains |
| Refinements.OutsideEnterprise | src/refinements/index.ts:320-327 | outside enterprise, every listed property present is reported with the domain message, and nothing else is |
| Refinements.NoPhasesNoTacticIssues | src/refinements/index.ts:328-332 | inside enterprise with no kill-chain phases, no enterprise-only property is reported |
| Refinements.MobileOnlyRule | src/refinements/index.ts:391-426 | the mobile check reports at most two issues |
| Refinements.MobileOnlyAccepts | src/refinements/index.ts:391-426 | the mobile check passes exactly when tactic types appear only in mobile and data sources only outside it |
| Refinements.DataSourcesReportedTwice | src/refinements/index.ts:370-382 | whenever the enterprise check objects to mobile data sources, the mobile check reports the same issue, so a schema running both reports it twice |
| Refinements.IdExample | src/refinements/index.ts:250-253 | the ID example is the pattern's shape: with each `#` read as the digit 0 it matches the technique or sub-technique pattern, and it holds no literal digit 0 |
| DataModel.ClassOfType | src/classes/attack-data-model.ts:84-189 | the type switch and the class table are inverse: each class is selected by its own type and by no other |
| DataModel.PopulateData | src/classes/attack-data-model.ts:79-190 | after the pass, each class list holds exactly the positions of the objects the switch assigns to it, and the id map sends each id to the last handled object carrying it |
| DataModel.PositionsExact | src/classes/attack-data-model.ts:83-190 | an object is in a class list exactly when the switch selects that class for it, so each handled object is in one list and other objects in none |
| DataModel.PositionsIncreasing | src/classes/attack-data-model.ts:83-190 | each list keeps input order and holds each position once |
| DataModel.LastIndexExact | src/classes/attack-data-model.ts:80-190 | the id map holds exactly the ids of handled objects, each mapped to the last handled object with that id |
| DataModel.CallsFit | src/classes/attack-data-model.ts:205-265 | every linking call joins the two ends of its relationship, and the `instanceof` tests make each call fit the method it calls |
| DataModel.UpdatedEnds | src/classes/attack-data-model.ts:213-259 | `mitigates` changes only its target, `targets` and `uses` only their source, and `detects` and `attributed-to` change both ends |
| DataModel.LinkerFollowsRule | src/classes/attack-data-model.ts:205-259 | outside revocation, the linker acts on a relationship exactly when the relationship rule allows its source type, relationship type and target type |
| DataModel.RevocationLinked | src/classes/attack-data-model.ts:261-265 | a revocation is applied exactly when both ends have the same class, which includes same-class pairs the relationship rule refuses, such as identities |
| DataModel.UnresolvedIgnored | src/classes/attack-data-model.ts:200-204 | a relationship with an end that the id map does not resolve has no effect |
| DataModel.CallsResolved | src/classes/attack-data-model.ts:199-272 | every call of the pass comes from one relationship whose ends both resolve |
| DataRegistration.Validate | src/data-sources/data-registration.ts:39-77 | each refusal belongs to the source it checks: an invalid domain only for `attack`, a missing path only for `file`, a missing url for the url source it names, and an unsupported source carries the value given |
| DataRegistration.Register | src/data-sources/data-registration.ts:29-33 | a constructed registration keeps the options it was given |
| DataRegistration.RegisterIffAcceptable | src/data-sources/data-registration.ts:29-77 | a registration is built exactly when an `attack` source names one of the three domains, a `file` source a non-empty path, or a `url` or `taxii` source a non-empty url |
| DataRegistration.RefusalReasons | src/data-sources/data-registration.ts:42-76 | a file source without a path, a taxii source without a url, an attack source naming `pre-attack` and a non-string source are each refused with their own error |
| DataRegistration.DomainMessageLists | src/data-sources/data-registration.ts:45-50 | the invalid-domain message ends with the three valid domains joined by ", " |
| TechniqueApi.AddByIdContents | src/api/sdo/technique.impl.ts:26-60 | adding keeps the list as a prefix and adds the new id and no other, appending at most one element; it leaves the list unchanged exactly when the id is already there |
| TechniqueApi.AddByIdIdempotent | src/api/sdo/technique.impl.ts:26-60 | adding the same object twice is adding it once |
| TechniqueApi.AddByIdDistinct | src/api/sdo/technique.impl.ts:26-60 | adding keeps the ids of a list distinct |
| TechniqueApi.ApplyKeepsDistinct | src/api/sdo/technique.impl.ts:22-97 | every relationship update keeps the lists free of repeated ids |
| TechniqueApi.ListsStayDistinct | src/api/sdo/technique.impl.ts:10-97 | after any sequence of updates, a new technique's lists never hold two objects with one id, and the validated object is unchanged |
| TechniqueApi.UpdateIdempotent | src/api/sdo/technique.impl.ts:22-97 | repeating any update at once changes nothing |
| TechniqueApi.AddTouchesOwnList | src/api/sdo/technique.impl.ts:26-42 | an add method changes only its own list, and only by appending the object when its id is new |
| TechniqueApi.FlagsDefaultFalse | src/api/sdo/technique.impl.ts:100-110 | the deprecated, revoked and sub-technique flags are false when unset or null, and otherwise the stored boolean |
| TechniqueApi.AttackIdFromFirstReference | src/api/sdo/technique.impl.ts:112-114 | the ATT&CK ID is the external id of the first external reference, and there is none without a first reference |
| TechniqueApi.GetDisplayName | src/api/sdo/technique.impl.ts:116-119 | the display name is `ID: name` when the ATT&CK ID is truthy, and the name otherwise |
| TechniqueApi.DisplayNameShape | src/api/sdo/technique.impl.ts:116-119 | the display name always ends with the name, and is longer than it exactly when there is a non-empty ATT&CK ID |
| TechniqueApi.TacticNamesPointwise | src/api/sdo/technique.impl.ts:121-123 | the tactic names are the phases' names, one for one and in order, and empty without phases |
| TechniqueApi.SplitJoin | src/api/sdo/technique.impl.ts:125-127 | joining comma-free platforms with ", " and splitting again gives the platforms back |
| TechniqueApi.PlatformsStringLists | src/api/sdo/technique.impl.ts:125-131 | the platforms string splits back into the platforms, and a platform is supported exactly when it is one of them |
| TechniqueApi.NoPlatforms | src/api/sdo/technique.impl.ts:125-131 | without platforms nothing is supported and the string is empty |
| TechniqueApi.EqualsEquivalence | src/api/sdo/technique.impl.ts:144-146 | `equals` is reflexive, symmetric and transitive |
| TechniqueApi.IsNewerThan | src/api/sdo/technique.impl.ts:148-153 | comparing two techniques fails exactly when their ids differ, with the source's message |
| TechniqueApi.NewerIsStrictOrder | src/api/sdo/technique.impl.ts:144-153 | between versions of one technique, "newer" is irreflexive, false between equal objects, asymmetric and transitive |
| TechniqueApi.AddById | src/api/sdo/technique.impl.ts:26-60 | adding keeps the list as a prefix and appends at most one element, the added object |
| TechniqueQueries.FindById | src/classes/utils.ts:17 | the lookup gives the first object whose id is the reference, and nothing exactly when no object has that id |
| TechniqueQueries.LinkedMembers | src/classes/utils.ts:14-20 | an object is in the result exactly when some matching relationship's other end resolves to it and it passes the type test |
| TechniqueQueries.LinkedBounded | src/classes/utils.ts:14-20 | the result has at most one entry per relationship, and every entry is one of the objects |
| TechniqueQueries.HelperMembers | src/classes/utils.ts:9-70 | the mitigations are the course-of-action objects named as the source of a `mitigates` relationship targeting the technique, the data sources the log sources named as the source of a `detects` relationship targeting it, and the sub-techniques the targets of `subtechnique-of` relationships whose source is the technique |
| TechniqueQueries.LogSourceIdNotDataComponent | src/classes/utils.ts:64 | an id that starts with the log-source prefix never starts with the data-component prefix |
| TechniqueQueries.DataSourcesAlwaysEmpty | src/classes/utils.ts:55-70 | on data whose `detects` relationships all start at data components, as the relationship rule demands, `getDataSources` finds nothing |
| TechniqueQueries.TacticsMembers | src/classes/utils.ts:29-31 | the result is exactly the tactics among the objects whose compared property is one of the phase names |
| TechniqueQueries.GetPlatforms | src/classes/utils.ts:34-36 | the platforms are returned as given, or an empty list when absent or null |
| TechniqueQueries.LinkedOne | src/classes/utils.ts:14-20 | over one relationship, the result is its resolved other end when it matches, and empty otherwise |
| TechniqueQueries.SubTechniquesReversed | src/classes/utils.ts:14-17 | for a sub-technique related to its parent, the parent's list is empty and the sub-technique's list holds its parent |
| TechniqueQueries.SubTechniquesCorrected | src/classes/utils.ts:9-21 | following the relationship from the target gives the parent its sub-technique and the sub-technique none |
| TechniqueQueries.SubTechniquesFollowTarget | src/classes/utils.ts:9-21 | every sub-technique the corrected helper lists is the source of a `subtechnique-of` relationship that targets the technique |
| TechniqueQueries.TacticsMissed | src/classes/utils.ts:28-30 | a technique in the initial-access phase does not find the initial-access tactic, because a phase name is compared with the tactic's id |
| TechniqueQueries.TacticsFound | src/classes/utils.ts:23-32 | comparing the phase names with the tactic's short name finds the tactic |
| TechniqueQueries.Linked | src/classes/utils.ts:14-20 | the linked objects number at most the relationships, and each is one of the objects |
| TechniqueQueries.GetSubTechniques | src/classes/utils.ts:9-21 | the sub-techniques number at most the relationships, and each is one of the objects |
| TechniqueQueries.TacticsMatching | src/classes/utils.ts:28-30 | the matched tactics number at most the objects, and each is one of the objects with type `x-mitre-tactic` |
| TechniqueQueries.GetTactics | src/classes/utils.ts:23-32 | each tactic returned is one of the objects with type `x-mitre-tactic` |
| ZodIdentifier.FormatOfParts | zod/src/types/stix-identifier.ts:28-32 | every lower-case-letters-and-hyphens type text followed by `--` and a UUIDv4 matches the format |
| ZodIdentifier.FormatParts | zod/src/types/stix-identifier.ts:28-32 | every match is a type text, `--` and a 36-character UUID |
| ZodIdentifier.Transform | zod/src/types/stix-identifier.ts:26-84 | the transform refuses with the format message exactly when the format fails, with the type message exactly when the format holds but the first piece is no STIX type; a success carries the two pieces, a STIX type and a UUID-shaped second piece |
| ZodIdentifier.TransformV4 | zod/src/types/stix-identifier.ts:28-57 | with the second piece checked as a UUIDv4, the transform fails in the same places and succeeds only where the as-written transform succeeds with the same value |
| ZodIdentifier.RoundTripFails | zod/src/types/stix-identifier.ts:39-59 | `tool--` + a letters-only UUID + `--` + a UUIDv4 is accepted, but its string form is not the input: the pieces are cut at the first `--`, not where the format's type ends |
| ZodIdentifier.RoundTripV4 | zod/src/types/stix-identifier.ts:39-59 | with the UUIDv4 check, every accepted input prints back as itself |
| ZodIdentifier.NoSecondPiece | zod/src/types/stix-identifier.ts:30 | a format match never continues a UUIDv4 piece with another `--` |
| ZodIdentifier.AcceptsParts | zod/src/types/stix-identifier.ts:26-84 | every supported type followed by `--` and a UUIDv4 is accepted as those two pieces, with either check |
| ZodIdentifier.TransformedPrimitive | zod/src/types/stix-identifier.ts:76-81 | the transformed value converts to its string for the `string` and `default` hints, and to null otherwise |
| ZodIdentifier.DraftStixIdentifierSchema | zod/src/schemas/common/stix-identifier.ts:29-60 | the draft identifier schema returns the value unchanged when it accepts |
| ZodIdentifier.DraftSchemaAgrees | zod/src/schemas/common/stix-identifier.ts:29-60 | the draft schema accepts exactly what the current identifier schema accepts, with the same issue |
| ZodIdentifier.DraftCreateStixIdentifierSchema | zod/src/schemas/common/stix-identifier.ts:62-69 | the draft factory keeps the value, and refuses an identifier of another type with one issue at `id` naming both types |
| ZodIdentifier.DraftFactoryAgrees | zod/src/schemas/common/stix-identifier.ts:62-69 | for a supported type, the draft's exact first-piece test and the current factory's prefix test accept the same values |
| ZodIdentifier.ImplJson | zod/src/classes/stix-identifier.cls.ts:50-53 | `toJSON` gives an object of exactly the type and UUID, whose join with `--` is the string form |
| ZodIdentifier.Construct | zod/src/classes/stix-identifier.cls.ts:15-24 | construction succeeds exactly when the input's text is a STIX identifier, and keeps its first two `--` pieces: a STIX type and a UUIDv4 |
| ZodIdentifier.ReconstructSame | zod/src/classes/stix-identifier.cls.ts:15-24 | constructing from an instance gives the same instance back |
| ZodIdentifier.TailDropped | zod/src/classes/stix-identifier.cls.ts:17-18 | text after a second `--` is accepted and dropped, so the instance no longer prints as its input |
| ZodIdentifier.PairRefused | zod/src/classes/stix-identifier.cls.ts:15-17 | a `{type, uuid}` record is always refused: its text is `[object Object]` |
| ZodIdentifier.UuidGroups | zod/src/classes/stix-identifier.cls.ts:61 | a UUID splits at its hyphens into its five hexadecimal groups |
| ZodIdentifier.ImplPrimitive | zod/src/classes/stix-identifier.cls.ts:55-66 | the `number` hint gives the sum of the UUID's five groups read as hexadecimal, and every other hint the string form |
| PyCore.FieldErrorsIff | attack_model/models/common/core.py:19-108 | the field checks pass exactly when the five required fields are present, the type is a STIX type other than `action`, the spec version is 2.0 or 2.1, the identifiers and timestamps are valid, and each optional field is absent, None or of its annotated type, the confidence read in lax mode |
| PyCore.ConfidenceRange | attack_model/models/common/core.py:55-63 | the confidence is accepted exactly when absent, None, or read in lax mode (an integral number, a boolean as 1 or 0, an integer string) as an integer from 0 to 100, both bounds included; a value that does not read as an integer is invalid, one outside the bounds out of range |
| PyCore.ConfidenceText | attack_model/models/common/core.py:55-63 | a confidence given as the decimal text of a number is accepted exactly when the number is at most 100, and is out of range above it |
| PyCore.LaxIntReadsText | attack_model/models/common/core.py:14-63 | lax mode reads the decimal text of every integer back as that integer, with or without a sign, a zero fraction or surrounding white space, reads an integral number as itself, and refuses a non-zero fraction |
| PyCore.ExtKeyExamples | attack_model/models/common/core.py:133-135 | the extension-key pattern accepts `x-mitre-ext` and refuses an upper-case start, a doubled hyphen and a leading hyphen |
| PyCore.Accepted | attack_model/models/common/core.py:14-157 | an accepted object has the required fields, spec version 2.0 or 2.1, a STIX type other than `action`, a confidence that reads as an integer from 0 to 100, non-empty granular markings, and no refused extension key |
| PyCore.FirstProhibitedIff | attack_model/models/common/core.py:153-156 | the prohibited-field loop raises exactly when some prohibited field is present, naming a present one |
| PyCore.DefinitionKeyRefused | attack_model/models/common/core.py:125-136 | an extension-definition identifier used as an extension key is refused as written, because it is compared with the pattern's text, and accepted when matched against the pattern |
| PyCore.ProhibitedNeverFound | attack_model/models/common/core.py:154-155 | `field in self` never holds, because iterating a model yields name-value pairs |
| PyCore.ProhibitedFieldAccepted | attack_model/models/common/core.py:138-157 | an otherwise valid object with a `severity` property passes as written, while the documented check refuses it |
| PyCore.ProhibitedIff | attack_model/models/common/core.py:138-157 | the documented check refuses exactly the objects that carry a prohibited property, naming one of them |
| PyCore.CheckExtensions | attack_model/models/common/core.py:125-136 | the extension check raises at most one error, only on an `extensions` dictionary, and the refused keys it names are among its keys |
| PyCore.CheckExtensionsIff | attack_model/models/common/core.py:125-136 | with definition keys recognised by the identifier pattern, the extensions pass exactly when each definition key holds a valid extension and each other key matches the `-ext` pattern |
| PyCore.DefinitionKeysRefusedAsWritten | attack_model/models/common/core.py:127-135 | every key the extension-definition identifier pattern matches is refused by the check as written, since it equals neither the pattern's text nor the `-ext` pattern, and is not refused by the corrected check |
| PyCore.ValidateAsWritten | attack_model/models/common/core.py:14-157 | the model as written, when it accepts, needs the required fields and builds exactly the declared fields: None for an optional one left out or None, the annotation's value for a given one, and nothing for an undeclared key; it reports at least one error when it refuses |
| PyCore.Validate | attack_model/models/common/core.py:14-157 | the model as its validators document it, when it accepts, needs the required fields and builds exactly the declared fields, None for those left out; it reports at least one error when it refuses |
| PyCore.UndeclaredKeyIgnored | attack_model/models/common/core.py:14-85 | adding a key the class does not declare changes neither the verdict of the model as written nor the object it builds, which never holds that key |
| PyAttackBase.MitreAttackReference | pydantic/attack_model/models/common/_attack_base.py:56-60 | the reference validator returns the list unchanged when it accepts |
| PyAttackBase.MitreAttackReferenceIff | pydantic/attack_model/models/common/_attack_base.py:56-60 | a list is accepted exactly when some reference has `mitre-attack` as its source name, so an empty list is refused |
| PyAttackBase.Validate | pydantic/attack_model/models/common/_attack_base.py:22-60 | an accepted object is the base model's object with the four ATT&CK fields added, the missing ones at their defaults; it holds no key that neither class declares |
| PyAttackBase.Accepted | pydantic/attack_model/models/common/_attack_base.py:22-60 | an accepted object passed the base model and keeps the given string name, and its version fields match their patterns, with ATT&CK domains, and a `mitre-attack` reference in any reference list given |
| PyAttackBase.DefaultsValid | pydantic/attack_model/models/common/_attack_base.py:31-54 | once the given ATT&CK fields pass, the filled-in fields match their patterns and the name is kept |
| PyAttackBase.ValidateIff | pydantic/attack_model/models/common/_attack_base.py:22-60 | acceptance field by field; a reference list given as None raises out of validation instead of failing it |
| PyAttackBase.DefaultsWellFormed | pydantic/attack_model/models/common/_attack_base.py:31-54 | the defaults `2.0.0`, `2.1` and `[enterprise-attack]` satisfy the patterns they stand in for |
| PyAttackBase.DefaultsKeepGiven | pydantic/attack_model/models/common/_attack_base.py:31-54 | defaults fill only the missing fields: every given field keeps its value, and the three ATT&CK fields are always present afterwards |
| AttrsStix.ValidateConfidence | attrs/attack_data_model/stix/stix.py:14-16 | a refusal for the value carries the value refused |
| AttrsStix.ConfidenceRange | attrs/attack_data_model/stix/stix.py:14-16 | a whole-number confidence is accepted exactly from 1 to 99, and None is accepted |
| AttrsStix.ConfidenceBoundsDiffer | attrs/attack_data_model/stix/stix.py:14-16 | the pydantic base accepts a confidence this validator refuses exactly at 0 and 100 |
| AttrsStix.MissingOfExact | attrs/attack_data_model/stix/stix.py:24-75 | the reported missing arguments are exactly the required ones not given |
| AttrsStix.Construct | attrs/attack_data_model/stix/stix.py:24-75 | a constructed object has exactly the fourteen fields |
| AttrsStix.ConstructIff | attrs/attack_data_model/stix/stix.py:24-75 | construction succeeds exactly when every argument is a field, every required one is given and the confidence passes; the object keeps each given value and holds None for the rest |
| PyCampaign.ParseStrToBool | attack_model/models/campaign.py:97-106 | a boolean passes as it is, and a value that is neither a boolean nor a string is refused |
| PyCampaign.ParseStrToBoolIff | attack_model/models/campaign.py:97-106 | the validator gives true exactly for `True` and the word "true" in any case, false exactly for `False` and "false" in any case, and refuses everything else |
| PyCampaign.SpelledIffLower | attack_model/models/campaign.py:102-104 | a string spells a lower-case word in any case exactly when its ASCII lower-casing is that word |
| PyCampaign.BoolTextRoundTrip | attack_model/models/campaign.py:97-106 | a boolean printed as Python prints it is read back; `TRUE` reads as true, while `yes` and the number 1 are refused |
| PyCampaign.RStripZShape | attack_model/models/campaign.py:94 | `rstrip("Z")` removes a run of `Z` and nothing else, and leaves no trailing `Z` |
| PyCampaign.RStripZIdempotent | attack_model/models/campaign.py:94 | stripping twice is stripping once |
| PyCampaign.ParseDatetime | attack_model/models/campaign.py:91-95 | a non-string passes through unchanged, and a string is accepted exactly when `fromisoformat` parses it without its trailing `Z` |
| PyCampaign.ParseDatetimeIgnoresZ | attack_model/models/campaign.py:91-95 | timestamps that differ only in trailing `Z` characters parse the same |
| PyCampaign.CheckExternalReferences | attack_model/models/campaign.py:79-89 | the root validator reports the missing-references error exactly when the references are absent or falsy |
| PyCampaign.ExternalReferencesIff | attack_model/models/campaign.py:79-89 | for a list of dictionaries, the check passes exactly when the list is non-empty and its first reference has an `external_id`; an empty list gives the missing-references error |
| PyCampaign.StringReferencesRefused | attack_model/models/campaign.py:81-87 | a string of references passes the truthiness test but is always refused, since its first character never contains `external_id` |
| PyCampaign.KindError | attack_model/models/campaign.py:67-106 | the validators of one field's value raise at most one error |
| PyCampaign.KindErrorIff | attack_model/models/campaign.py:16-106 | in strict mode, a given value passes its field's validators exactly when its annotation admits it: a string for a `str`, a boolean or the words true and false in any case for a flag, a string `fromisoformat` reads once its trailing `Z`s are gone (or a datetime) for a timestamp, a valid identifier for a reference, an integer from 0 to 100 for the confidence, and a non-empty list of well-formed items where a minimum of one is set |
| PyCampaign.FieldError | attack_model/models/common/base.py:28-86 | one declared field raises at most one error |
| PyCampaign.FieldErrorIff | attack_model/models/common/base.py:28-86 | a declared field passes exactly when it is given and admitted, None counting for an `Optional` field, or absent with a default; an absent field without a default is reported missing |
| PyCampaign.FieldErrorsEmpty | attack_model/models/campaign.py:14-63 | the field checks pass exactly when every declared field passes its own check |
| PyCampaign.Lookup | attack_model/models/campaign.py:14-63 | the declaration found for a name is one of the declarations and carries that name, and none is found exactly when no declaration has the name |
| PyCampaign.ValidateDecls | attack_model/models/campaign.py:79-89 | an error of the root validator is the only error reported, and an accepted model holds the given keys plus every declared field |
| PyCampaign.ValidateDeclsIff | attack_model/models/common/base.py:17-20 | a model is accepted exactly when the root validator passes, the inherited checks find nothing and every declared field passes; an undeclared key keeps its value (`extra="allow"`) |
| PyCampaign.Validate | attack_model/models/campaign.py:11-106 | a root-validator error stops the campaign alone, and an accepted campaign holds the input's keys plus every declared field |
| PyCampaign.ValidateIff | attack_model/models/campaign.py:11-106 | a campaign is accepted exactly when the root validator passes, the inherited checks find nothing and each of the declared fields passes |
| PyCampaign.FieldRefused | attack_model/models/campaign.py:14-63 | a declared field that does not pass refuses the campaign |
| PyCampaign.EntryOf | attack_model/models/common/base.py:30-44 | in an accepted model a given flag is a boolean, a given timestamp a datetime, an absent `default_factory` field the clock's reading and an absent `Optional` field None |
| PyCampaign.ExtraKept | attack_model/models/common/base.py:20 | an accepted campaign keeps every undeclared key as given |
| PyCampaign.TimestampsDefaulted | attack_model/models/common/base.py:30-54 | `created` and `modified` may be left out and then hold the clock's readings; given, they are datetimes |
| PyCampaign.FlagsBoolean | attack_model/models/campaign.py:21-24 | an accepted campaign had `revoked` and `x_mitre_deprecated`, and holds them as booleans |
| PyCampaign.MissingReported | attack_model/models/campaign.py:14-56 | a campaign missing a required field is refused |
| PyCampaign.WrongKindsRefused | attack_model/models/common/base.py:19 | in strict mode a description that is not a string is refused, and so is a `first_seen` that is neither a string nor a datetime |
| CampaignBuilder.Reset | pydantic/attack_model/builders/campaign_builder.py:17-24 | a reset builder holds exactly the five keys: type `campaign`, an empty id, spec version 2.1, the first clock reading as created and the second as modified |
| CampaignBuilder.New | pydantic/attack_model/builders/campaign_builder.py:11-15 | a builder made from a campaign holds its dictionary, and one made without is a reset builder |
| CampaignBuilder.FromCampaign | pydantic/attack_model/builders/campaign_builder.py:26-33 | the state becomes the campaign's dump or the given dictionary, and any other value is refused with the source's message |
| CampaignBuilder.Set | pydantic/attack_model/builders/campaign_builder.py:38-105 | a setter stores its value under its property and changes no other property |
| CampaignBuilder.ChainLastWins | pydantic/attack_model/builders/campaign_builder.py:38-105 | after a chain of setters each property holds its last written value, and properties no call writes keep theirs |
| CampaignBuilder.LastWriteFromCall | pydantic/attack_model/builders/campaign_builder.py:38-105 | a property has a last write exactly when some call of the chain writes it, and that write is one of the calls' values |
| CampaignBuilder.SetterKeysDistinct | pydantic/attack_model/builders/campaign_builder.py:38-105 | each property is written by exactly one setter |
| CampaignBuilder.NewReference | pydantic/attack_model/builders/campaign_builder.py:114-119 | a new reference always has the four keys, with the given source name |
| CampaignBuilder.AddExternalReference | pydantic/attack_model/builders/campaign_builder.py:107-123 | adding succeeds exactly when the list is missing, None or a list; it appends the new reference to the list, or to a new one, and leaves every other property alone |
| CampaignBuilder.AddExternalReferencesBulk | pydantic/attack_model/builders/campaign_builder.py:137-149 | the bulk addition succeeds exactly when the list is missing or a list, appends the given references in order, and leaves every other property alone |
| CampaignBuilder.BulkComposes | pydantic/attack_model/builders/campaign_builder.py:137-149 | two bulk additions are one addition of both lists, in order |
| CampaignBuilder.NoneListDiffers | pydantic/attack_model/builders/campaign_builder.py:120-148 | on a None reference list, the single addition succeeds while the bulk addition raises |
| CampaignBuilder.PyPosition | pydantic/attack_model/builders/campaign_builder.py:127 | a Python index resolves to a position inside the list, or to none |
| CampaignBuilder.Remove | pydantic/attack_model/builders/campaign_builder.py:125-128 | removal always succeeds on a list, removes exactly the item at an index inside the list, and otherwise changes nothing |
| CampaignBuilder.RemoveAgrees | pydantic/attack_model/builders/campaign_builder.py:125-128 | on every index that is not negative, the guarded removal and the removal as written agree |
| CampaignBuilder.RemoveNegativeIndex | pydantic/attack_model/builders/campaign_builder.py:126-127 | as written, index -1 passes the guard and removes the last reference, and an index below minus the length passes it and raises |
| CampaignBuilder.AddThenRemove | pydantic/attack_model/builders/campaign_builder.py:107-128 | adding a reference and removing it at its position gives back the builder it started from |
| CampaignBuilder.Update | pydantic/attack_model/builders/campaign_builder.py:130-134 | an index outside the list changes nothing |
| CampaignBuilder.UpdateOnlyGivenKeys | pydantic/attack_model/builders/campaign_builder.py:130-134 | an update sets the given keys of the one reference at the index, and leaves its other keys and every other reference as they were |
| CampaignBuilder.UpdateAgrees | pydantic/attack_model/builders/campaign_builder.py:130-134 | on every index that is not negative, the guarded update and the update as written agree |
| CampaignBuilder.UpdateNegativeIndex | pydantic/attack_model/builders/campaign_builder.py:131-133 | as written, index -1 passes the guard and updates the last reference |
| CampaignBuilder.Clone | pydantic/attack_model/builders/campaign_builder.py:166-174 | a clone is equal to its original, whatever the clock read when its fresh builder was reset |
| CampaignBuilder.CloneIndependent | pydantic/attack_model/builders/campaign_builder.py:152-174 | a clone validates exactly as its original does, holds the same state, and a setter called on it stores its value in the clone |
| CampaignBuilder.Validate | pydantic/attack_model/builders/campaign_builder.py:152-163 | validation answers true, with the success message, exactly when the campaign model accepts the state; a validation error answers false with "Validation failed: " and the errors' text; an exception other than a validation error escapes as the one error |
| CampaignBuilder.RemoveAsWritten | pydantic/attack_model/builders/campaign_builder.py:125-128 | the removal as written keeps the builder's keys, and when it changes anything it shortens the reference list by one |
| CampaignBuilder.UpdateAsWritten | pydantic/attack_model/builders/campaign_builder.py:130-134 | the update as written keeps the builder's keys, and when it changes anything it keeps the length of the reference list |
| PyStixType.Validate | pydantic/attack_model/annotations/stix/type.py:34-64 | an accepted value is returned as it was and is a member; a non-member is refused with `Invalid STIX type: ` and the value |
| PyStixType.SlugJoin | pydantic/attack_model/annotations/stix/type.py:60 | two slugs joined by one hyphen form a slug of the pattern |
| PyStixType.MembersWellFormed | pydantic/attack_model/annotations/stix/type.py:12-62 | every member is 3 to 250 characters long and matches the pattern, so the later checks never refuse a member |
| PyStixType.ValidateIffMember | pydantic/attack_model/annotations/stix/type.py:34-64 | `validate` accepts exactly the thirteen members, and returns the value it was given |
| PyStixType.NonMembers | pydantic/attack_model/annotations/stix/type.py:12-28 | bundles, relationships and marking definitions are not members |
| PyStixType.AnnotationLosesValue | pydantic/attack_model/annotations/stix/type.py:77-79 | as written every string passes and the field then holds a boolean, never the type name: `malware` becomes true and `bundle` false |
| PyStixType.AnnotationKeepsValue | pydantic/attack_model/annotations/stix/type.py:77-79 | the corrected annotation keeps the name of every member and refuses every other string |

## Left out

- Files this model relies on but does not contain:
  - `src/schemas/common/attack-base-object.ts`: the ATT&CK base table in `AttackBase` is the one the object schemas depend on.
  - `src/schemas/common/stix-spec-version.ts`: taken to be the two versions "2.0" and "2.1".
  - The zod `stix-type.ts`: its enums are taken to be the supported STIX types.
  - The version of `src/schemas/common/attack-id.ts` that `src/refinements/index.ts` imports `attackIdPatterns` and `attackIdExamples` from. The `attack-id.ts` modelled here exports neither. The patterns are taken to be the technique and sub-technique formats of its mapping. The examples are taken to be `T####` and `T####.###`, as `misc.ts` line 74 writes them (`Refinements.IdExample`).
  - `src/schemas/common/stix-timestamp.ts`: its schema is taken to be the STIX timestamp grammar (`Timestamps.StixTimestamp`).
  - `pydantic/attack_model/models/campaign.py`, the campaign model the builder imports: the builder is bound to `PyCampaign`, the campaign model of `attack_model/models/campaign.py`.
- Seven schemas import their shared pieces through the barrel `src/schemas/common/index.ts`: matrix, collection, campaign, asset, group, relationship and marking definition. The barrel is not part of this model. The model binds those imports to the definitions in `common-properties.ts`, `misc.ts` and the property-schema files it does contain.
- zod's continuation after an issue: a refinement here runs only when the base shape parsed cleanly. zod can also run a refinement on a "dirty" value, and then report its issues next to the shape's issues; only the issue lists of clean parses are exact.
- URL syntax (`z.url()`) is not checked: `ExternalReferences.Url` accepts any string.
- The collection-layer vocabulary of log sources is not available, so any string is a layer (`LogSource.CollectionLayers`).
- The analytic object schema uses the corrected reference list (`Analytic.AnalyticReferences`), the missing-ID check alone. As written, the list throws whenever its first ID is present (see "## Findings").
- The schemas of malware, tool, data component, data source and detection strategy are parameters of the bundle (`StixBundle.OtherSchemas`). Those files only declare fields. The bundle lemmas hold for any table of object schemas (`StixBundle.Schemas`). `StixBundle.AttackSchemas` fills in the twelve this model describes.
- The zod draft's `.uuid()` is taken to accept any 8-4-4-4-12 hexadecimal string, whatever its version nibble (`ZodIdentifier.ZodUuid`).
- JavaScript `Date` parsing is the parameter `instant` of `TechniqueApi.IsNewerThan`.
- The copy getters of the technique class are not modelled: lists are values here, so a caller cannot change them in place.
- Clock readings are parameters. `touch` would take `now`, but `touch` itself is not modelled. The builder's `reset` takes `now1` and `now2`, one per call of `datetime.now()`. The campaign model's `default_factory` defaults take `clock`, a reading per field.
- `src/classes/sdo/technique.impl.ts` holds only plain appenders and getters; the linker's calls to them are recorded as calls (`DataModel.Call`), not applied.
- Python dictionaries are maps: insertion order is not modelled, and neither is the order of error messages that follows from it.
- PyCore.ConfidenceRange: lax integer reading covers a JSON number with an integral value, a boolean, and a string of ASCII digits with an optional sign, an optional point followed by zeros only, and ASCII white space around it. Underscores between digits, Unicode digits and white space beyond ASCII, and pydantic's 4300-character limit on integer strings are not modelled; `PyCore.ConfidenceText`, `PyCore.LaxIntReadsText`, `PyCore.Accepted` and `PyCore.FieldErrorsIff` share this reading.
- The Python campaign model (`attack_model/models/campaign.py`) inherits `strict=True` from `attack_model/models/common/base.py`, so no coercion happens: each field accepts only the JSON kind it is annotated with, after its `pre=True` validators have run (`PyCampaign.KindError`).
- Python's `\d` also matches Unicode digits. Here it matches ASCII digits only, and Python's `str.lower` is ASCII lower-casing.
- KillChains.PhaseRule: JavaScript's `toLowerCase` folds every Unicode letter with a lower-case form, but here only the ASCII letters A to Z count as upper case. A phase name with a non-ASCII capital such as `É` is accepted by the model, while the code refuses it.
- KillChains.LowerFixedIffNoUpper: the same ASCII-only lower-casing.
- KillChains.PhaseNameAccepts: the same ASCII-only lower-casing.
- KillChains.KillChainPhaseAccepts: the same ASCII-only lower-casing.
- Technique.TechniquePhaseAccepts: the same ASCII-only lower-casing.
- Versions.CommonXMitreVersion: the object schemas use the corrected definition, which refuses every value that is not a string. As written, a non-string whose text matches the pattern makes the refinement throw (see "## Findings").
- Analytic.AnalyticAccepted: states what the analytic schema with the corrected reference list accepts. The schema as written throws on every reference list with a first ID (`Analytic.AnalyticReferencesAsWritten`), so no analytic with references is accepted as written.
- The zod issue messages of the leaf types are stand-ins, for example "invalid_type: expected object". zod 3 writes "Expected string, received number", zod 4 writes "Invalid input: expected string, received number", and a discriminated union with no matching option gives "Invalid input" with the note "No matching discriminator". Only the messages the library writes itself are exact; the lemmas about the others speak of their path and number, not their text.
- JavaScript's number-to-string conversion is the parameter `numberText` of `JsonValues.JsString`, which `DataRegistration.Message` and `Versions.CommonXMitreVersionAsWritten` use.
- Parts of the Python packages outside the modelled files are parameters:
  - The annotation validators of `core.py` (`PyCore.Checkers`).
  - The errors of the campaign's inherited mixins (`inherited`). These are the identifier, type, spec-version and version models.
  - The annotation validators the campaign uses: identifiers, external references, granular markings and citations (`PyCampaign.Checkers`).
  - `datetime.fromisoformat`, and the test that a value is a datetime.
  - pydantic's text for a list of errors (`render` of `CampaignBuilder.Validate`).
  - The outcome of the STIX base model under `_attack_base.py`: its errors or the object it builds (`base` of `PyAttackBase.Validate`).
  - The value each annotation of `core.py` gives a field it accepts, for example the `datetime` a timestamp string becomes (`coerce` of `PyCore.Checkers`).
- The campaign builder's import, export and preview do file and console I/O and are not modelled. `build` is the campaign model applied to the state, which `CampaignBuilder.Validate` already states.
- CampaignBuilder.CloneIndependent: the builder is a value here, so aliasing is not modelled. In Python, `from_campaign` keeps a reference to the caller's dictionary (line 30). The setters write into it, and so do the in-place edits of the reference list at lines 122, 127, 133 and 148. A caller holding that dictionary or list sees these changes; the model does not. `clone` deep-copies, so a clone and its original share nothing, which is what the model states.
- Rules that only tests assert, with no implementation here to model, are left out. These are bundle duplicate ids, `x_mitre_contents` cross-references, `validateNoDuplicates`, and the campaign date order check, which the builder's own campaign model may hold.
- CampaignBuilder.Validate: applies `PyCampaign.Validate`, not the model of `pydantic/attack_model/models/campaign.py` that the builder imports, so an order check that model may make is not part of its contract. `CampaignBuilder.New` and `CampaignBuilder.FromCampaign` are bound the same way.
- PyCore.ValidateAsWritten: the object it builds holds, for a given field, the value the annotation makes of it (`coerce`), which is a parameter; what that value is (a `datetime`, a model) is not computed here.
- PyCore.Validate: the same parameter `coerce` for the values of the given fields.
- PyAttackBase.Validate: the base model's object is a parameter; the ATT&CK fields it adds are the input's values, the domains as strings rather than enumeration members.
- Relationships.RelationshipRule: a throw inside the refinement would end zod's parse; the schema's enumeration refuses every inherited name before the refinement runs, and the rule alone reports the throw as an issue without a path.
- Relationships.DraftRelationshipIssues: an inherited name such as `constructor` is treated as an unknown type; the draft's own lookup would find an inherited value for it.
- `AttrsStix.ValidateConfidence` leaves out the `TypeError` messages Python raises when comparing a string with an integer; only the kind of error is modelled (`NotComparable`).
- `Timestamps.Strptime` models `strptime` on the STIX timestamp grammar only; offsets other than `Z`, and the range checks of `datetime` beyond the grammar's, are not modelled.
- `TechniqueApi.IsNewerThan` takes the date parser as a parameter. Its contract states only ordering properties that hold for any parser.

## Findings

| source | as written | input that shows it | evidently intended | confidence | as-written member | corrected member |
|---|---|---|---|---|---|---|
| src/schemas/common/misc.ts:56-57 | for `attack-pattern` the first ID is checked against the technique pattern only | a reference list whose first `external_id` is `T1059.001` | accept `T####` or `T####.###`, as the message example at line 74 and the newer factory do | not executed | ExternalReferences.CommonRefusesSubtechniques | ExternalReferences.SubtechniquesAccepted |
| src/schemas/common/common-properties.ts:82-84 | `z.custom()` passes any value to the refinement, whose `test` coerces it to a string before `split` is called on the value itself | the array `["1.5"]` as `x_mitre_version` | refuse a value that is not a string with the version message | not executed | Versions.NonStringVersionThrows | Versions.CommonXMitreVersion |
| src/schemas/sdo/tactic.schema.ts:141-142 | `/TA\d{4}$/` has no start anchor | `XTA0001` | `^TA\d{4}$` | not executed | Tactic.UnanchoredAccepted | Tactic.AnchoredTacticIdAccepts |
| attack_model/models/common/timestamp.py:40-46 | the `strptime` format requires `.%f`, so a timestamp without a fraction is refused | `2023-09-27T20:12:54Z` | the fraction is optional, as the validating regex allows | not executed | Timestamps.NoFractionRefused | Timestamps.Strptime |
| attack_model/models/common/core.py:127-131 | the extension key is compared with the text of a regular expression | `extension-definition--d8f9ae02-7c47-4d3d-a4a4-0d1b2b1b0a5c` as a key | match the key against that pattern | not executed | PyCore.DefinitionKeysRefusedAsWritten | PyCore.CheckExtensionsIff |
| attack_model/models/common/core.py:154-155 | `field in self` iterates the model's (name, value) pairs, so no name is ever found | an object with `"severity": "high"` | refuse an object that has a prohibited property | not executed | PyCore.ProhibitedFieldAccepted | PyCore.ProhibitedIff |
| zod/src/types/stix-identifier.ts:39-41 | the second `--` piece is checked with the version-agnostic `.uuid()`, after a regex whose type text can swallow it | `tool--abcdefab-abcd-abcd-abcd-abcdefabcdef--12345678-1234-4123-8123-123456789abc` | check the piece as a UUIDv4, so that an accepted id prints back as itself | not executed | ZodIdentifier.RoundTripFails | ZodIdentifier.RoundTripV4 |
| zod/src/schemas/common/relationship-type.ts:61-65 | revoked-by accepts any two types | malware revoked-by tool | revocation within one type, as the `src/` rule requires | not executed | Relationships.DraftAcceptsCrossTypeRevocation | Relationships.RevocationSameType |
| pydantic/attack_model/builders/campaign_builder.py:125-134 | the guard `index < len` lets negative indexes through | index -1 on a one-element list | change nothing unless `0 <= index < len` | not executed | CampaignBuilder.RemoveNegativeIndex | CampaignBuilder.RemoveAgrees |
| pydantic/attack_model/builders/campaign_builder.py:130-134 | the same guard on update | index -1 on a one-element list | update nothing unless `0 <= index < len` | not executed | CampaignBuilder.UpdateNegativeIndex | CampaignBuilder.UpdateAgrees |
| src/schemas/common/misc.ts:56-57 | the analytic schema (src/schemas/sdo/analytic.schema.ts line 119) builds its reference list for `x-mitre-analytic`, which the format mapping lacks, so `.test` is called on undefined | a reference list whose first `external_id` is `AN0001` | check only that the first ID is present, since the type has no ID format to check | not executed | Analytic.AnalyticIdThrows | Analytic.AnalyticReferencesThrow |
| src/schemas/sdo/analytic.schema.ts:55 | the duplicate key joins the three fields with a bar character | name `a` + bar + `b` with channel `c`, and name `a` with channel `b` + bar + `c`, same component | two references are duplicates only when the three fields are equal | not executed | Analytic.KeyTextCollision | Analytic.TupleLogSourceRefsAccepts |
| src/classes/utils.ts:14-17 | sub-techniques are looked up as targets of the technique's own subtechnique-of relationships | a parent, its sub-technique and the relationship sub-technique subtechnique-of parent | the parent lists the sources of relationships that target it | not executed | TechniqueQueries.SubTechniquesReversed | TechniqueQueries.SubTechniquesCorrected |
| src/classes/utils.ts:28-30 | a phase name is compared with the tactic's STIX id | a technique in phase `initial-access` and the tactic with short name `initial-access` | compare with `x_mitre_shortname` | not executed | TechniqueQueries.TacticsMissed | TechniqueQueries.TacticsFound |
| pydantic/attack_model/annotations/stix/type.py:77-79 | the `AfterValidator` returns `x in members`, a boolean | `"malware"` becomes `True`; `"bundle"` becomes `False` and passes | keep the value and refuse a non-member | not executed | PyStixType.AnnotationLosesValue | PyStixType.AnnotationKeepsValue |

=== FILE: analytic.dfy ===
/** The analytic object (src/schemas/sdo/analytic.schema.ts): the ATT&CK
    base extended with the log sources an analytic reads, the elements a
    defender may tune, and at most one platform. */
module Analytic {
  import opened Wrappers
  import opened JsonValues
  import opened Schema
  import opened Generics
  import opened StixTypes
  import opened StixIdentifier
  import opened CommonProperties
  import opened ExternalReferences
  import opened StixCore
  import opened AttackBase

  //---------------------------------------------------------------------------
  // log-source references
  //---------------------------------------------------------------------------

  /** `createStixIdValidator('x-mitre-data-component')` */
  function DataComponentRef(v: Json): Parsed
  {
    CreateStixIdentifierSchema("x-mitre-data-component", v)
  }

  const LogSourceRefFields: seq<Field> := [
    Field("x_mitre_data_component_ref", true, Leaf(DataComponentRef)),
    Field("name", true, Leaf(StringMin1)),
    Field("channel", true, Leaf(StringMin1))
  ]

  /** `xMitreLogSourceReferenceSchema`: not strict, so other keys are
      stripped. */
  const LogSourceRef: Kind := Object(LogSourceRefFields, Strip)

  /** A data-component identifier, and a non-empty name and channel. */
  predicate LogSourceRefOk(x: Json)
  {
    x.JObj?
    && "x_mitre_data_component_ref" in x.fields && DataComponentRef(x.fields["x_mitre_data_component_ref"]).Ok?
    && "name" in x.fields && x.fields["name"].JStr? && |x.fields["name"].s| > 0
    && "channel" in x.fields && x.fields["channel"].JStr? && |x.fields["channel"].s| > 0
  }

  lemma LogSourceRefNames()
    ensures DistinctNames(LogSourceRefFields)
    ensures Schema.Names(LogSourceRefFields) == {"x_mitre_data_component_ref", "name", "channel"}
  {
    var e := LogSourceRefFields;
    assert e[0].name == "x_mitre_data_component_ref" && e[1].name == "name" && e[2].name == "channel";
    assert |e[0].name| == 26 && |e[1].name| == 4 && |e[2].name| == 7;
  }

  lemma LogSourceRefAccepts(x: Json)
    ensures Accepts(LogSourceRef, x) <==> LogSourceRefOk(x)
  {
    if x.JObj? {
      var e := LogSourceRefFields;
      ObjectAccepts(e, Strip, x.fields);
      if FieldOk(e[0], x.fields) && FieldOk(e[1], x.fields) && FieldOk(e[2], x.fields) {
        forall j | 0 <= j < |e| ensures FieldOk(e[j], x.fields) {
          assert j in {0, 1, 2};
        }
      }
    }
  }

  /** The (component, name, channel) tuple that identifies a log source. */
  datatype SourceTuple = SourceTuple(component: string, name: string, channel: string)

  function AsText(v: Option<Json>): string
  {
    if v.Some? && v.value.JStr? then v.value.s else ""
  }

  function TupleOf(x: Json): SourceTuple
  {
    SourceTuple(AsText(Get(x, "x_mitre_data_component_ref")), AsText(Get(x, "name")), AsText(Get(x, "channel")))
  }

  function Tuples(items: seq<Json>): (r: seq<SourceTuple>)
    ensures |r| == |items| && forall j :: 0 <= j < |items| ==> r[j] == TupleOf(items[j])
  {
    seq(|items|, j requires 0 <= j < |items| => TupleOf(items[j]))
  }

  /** Parsing a reference keeps its tuple. */
  lemma TupleKept(x: Json)
    requires Accepts(LogSourceRef, x)
    ensures TupleOf(CheckValue(LogSourceRef, x).value) == TupleOf(x)
  {
    LogSourceRefNames();
    AcceptedShape(LogSourceRef, x);
    ParsedField(LogSourceRefFields, Strip, x.fields, 0);
    ParsedField(LogSourceRefFields, Strip, x.fields, 1);
    ParsedField(LogSourceRefFields, Strip, x.fields, 2);
  }

  //---------------------------------------------------------------------------
  // the duplicate check
  //---------------------------------------------------------------------------

  /** The loop of the refinement: walk the keys, stop at the first one
      already seen. */
  function RepeatsFrom<T(==)>(keys: seq<T>, i: nat, seen: set<T>): bool
    requires i <= |keys|
    decreases |keys| - i
  {
    if i == |keys| then false
    else if keys[i] in seen then true
    else RepeatsFrom(keys, i + 1, seen + {keys[i]})
  }

  /** Some key appears twice. */
  predicate HasRepeat<T(==)>(keys: seq<T>)
  {
    exists a, b :: 0 <= a < b < |keys| && keys[a] == keys[b]
  }

  /** With `seen` holding the keys before `i`, none of them repeated, the
      loop finds a repeat exactly when the list has one. */
  lemma {:induction false} RepeatsFromIff<T>(keys: seq<T>, i: nat, seen: set<T>)
    requires i <= |keys|
    requires forall x :: x in seen <==> x in keys[..i]
    requires !HasRepeat(keys[..i])
    ensures RepeatsFrom(keys, i, seen) <==> HasRepeat(keys)
    decreases |keys| - i
  {
    if i == |keys| {
      assert keys[..i] == keys;
    } else if keys[i] in seen {
      assert keys[i] in keys[..i];
      var j :| 0 <= j < i && keys[..i][j] == keys[i];
      assert keys[j] == keys[i];
    } else {
      var seen' := seen + {keys[i]};
      assert keys[..i + 1] == keys[..i] + [keys[i]];
      forall a, b | 0 <= a < b < i + 1 ensures keys[a] != keys[b] {
        if b < i {
          assert keys[..i][a] != keys[..i][b];
        } else {
          assert keys[..i][a] in keys[..i];
        }
      }
      assert !HasRepeat(keys[..i + 1]);
      RepeatsFromIff(keys, i + 1, seen');
    }
  }

  /** The loop run from the start finds a repeat exactly when there is one. */
  lemma RepeatsIff<T>(keys: seq<T>)
    ensures RepeatsFrom(keys, 0, {}) <==> HasRepeat(keys)
  {
    RepeatsFromIff(keys, 0, {});
  }

  const DuplicateMessage := "Duplicate log source reference found: each (x_mitre_data_component_ref, name, channel) tuple must be unique"

  /** The issue carries the property name as its path, under the list. */
  const DuplicateIssue := Issue([Key("x_mitre_log_source_references")], DuplicateMessage)

  /** The key the refinement builds: the three parts joined with `|`. */
  function KeyText(t: SourceTuple): string
  {
    t.component + "|" + t.name + "|" + t.channel
  }

  function Keys(items: seq<Json>): (r: seq<string>)
    ensures |r| == |items| && forall j :: 0 <= j < |items| ==> r[j] == KeyText(TupleOf(items[j]))
  {
    seq(|items|, j requires 0 <= j < |items| => KeyText(TupleOf(items[j])))
  }

  /** The refinement as written: one issue when two references build the
      same key text. */
  function DuplicateRule(v: Json): (issues: seq<Issue>)
    ensures v.JArr? ==> (issues == [] <==> !HasRepeat(Keys(v.items)))
    ensures issues == [] || issues == [DuplicateIssue]
  {
    RepeatsIff(if v.JArr? then Keys(v.items) else []);
    if v.JArr? && RepeatsFrom(Keys(v.items), 0, {}) then [DuplicateIssue] else []
  }

  /** The refinement as intended: one issue when two references share the
      same tuple. */
  function TupleDuplicateRule(v: Json): (issues: seq<Issue>)
    ensures v.JArr? ==> (issues == [] <==> !HasRepeat(Tuples(v.items)))
    ensures issues == [] || issues == [DuplicateIssue]
  {
    RepeatsIff(if v.JArr? then Tuples(v.items) else []);
    if v.JArr? && RepeatsFrom(Tuples(v.items), 0, {}) then [DuplicateIssue] else []
  }

  /** `xMitreLogSourceReferencesSchema`, as written. */
  const LogSourceRefs: Kind := Refined(ArrayOf(LogSourceRef, 1, None), DuplicateRule)

  /** The same list with the intended tuple comparison. */
  const TupleLogSourceRefs: Kind := Refined(ArrayOf(LogSourceRef, 1, None), TupleDuplicateRule)

  /** The parsed list has the tuples and keys of the input. */
  lemma ParsedTuples(items: seq<Json>)
    requires Accepts(ArrayOf(LogSourceRef, 1, None), JArr(items))
    ensures var p := CheckValue(ArrayOf(LogSourceRef, 1, None), JArr(items)).value;
      p.JArr? && Tuples(p.items) == Tuples(items) && Keys(p.items) == Keys(items)
  {
    var p := CheckValue(ArrayOf(LogSourceRef, 1, None), JArr(items)).value;
    forall j | 0 <= j < |items|
      ensures p.JArr? && |p.items| == |items| && TupleOf(p.items[j]) == TupleOf(items[j])
    {
      ParsedItem(LogSourceRef, 1, None, items, j);
      TupleKept(items[j]);
    }
    ParsedItem(LogSourceRef, 1, None, items, 0);
  }

  /** The list is accepted exactly when it is non-empty, every reference is
      well formed and no two build the same key text. */
  lemma LogSourceRefsAccepts(items: seq<Json>)
    ensures Accepts(LogSourceRefs, JArr(items)) <==>
            |items| >= 1 && (forall j :: 0 <= j < |items| ==> LogSourceRefOk(items[j])) && !HasRepeat(Keys(items))
  {
    var base := ArrayOf(LogSourceRef, 1, None);
    RefinedAccepts(base, DuplicateRule, JArr(items));
    ArrayAccepts(LogSourceRef, 1, None, items);
    forall j | 0 <= j < |items| ensures Accepts(LogSourceRef, items[j]) <==> LogSourceRefOk(items[j]) {
      LogSourceRefAccepts(items[j]);
    }
    if Accepts(base, JArr(items)) {
      ParsedTuples(items);
    }
  }

  /** With the intended rule, the list is accepted exactly when it is
      non-empty, every reference is well formed and no two share a tuple. */
  lemma TupleLogSourceRefsAccepts(items: seq<Json>)
    ensures Accepts(TupleLogSourceRefs, JArr(items)) <==>
            |items| >= 1 && (forall j :: 0 <= j < |items| ==> LogSourceRefOk(items[j])) && !HasRepeat(Tuples(items))
  {
    var base := ArrayOf(LogSourceRef, 1, None);
    RefinedAccepts(base, TupleDuplicateRule, JArr(items));
    ArrayAccepts(LogSourceRef, 1, None, items);
    forall j | 0 <= j < |items| ensures Accepts(LogSourceRef, items[j]) <==> LogSourceRefOk(items[j]) {
      LogSourceRefAccepts(items[j]);
    }
    if Accepts(base, JArr(items)) {
      ParsedTuples(items);
    }
  }

  /** The key text refuses every list the tuple rule refuses: equal tuples
      build equal keys. */
  lemma KeyRuleCatchesTuples(items: seq<Json>)
    ensures HasRepeat(Tuples(items)) ==> HasRepeat(Keys(items))
  {
    if HasRepeat(Tuples(items)) {
      var a, b :| 0 <= a < b < |items| && Tuples(items)[a] == Tuples(items)[b];
      assert Keys(items)[a] == Keys(items)[b];
    }
  }

  function SourceRef(component: string, name: string, channel: string): Json
  {
    JObj(map["x_mitre_data_component_ref" := JStr(component), "name" := JStr(name), "channel" := JStr(channel)])
  }

  /** A reference built from well-formed parts is well formed and has
      those parts as its tuple. */
  lemma SourceRefOk(c: string, name: string, channel: string)
    requires DataComponentRef(JStr(c)).Ok? && |name| > 0 && |channel| > 0
    ensures LogSourceRefOk(SourceRef(c, name, channel))
    ensures TupleOf(SourceRef(c, name, channel)) == SourceTuple(c, name, channel)
  {
  }

  /** Shifting a `|` from the name into the channel keeps the key text and
      changes the tuple. */
  lemma ShiftedBarCollides(c: string)
    ensures KeyText(SourceTuple(c, "a|b", "c")) == KeyText(SourceTuple(c, "a", "b|c"))
    ensures SourceTuple(c, "a|b", "c") != SourceTuple(c, "a", "b|c")
  {
    assert c + "|" + "a|b" + "|" + "c" == c + "|" + "a" + "|" + "b|c";
    assert |"a|b"| != |"a"|;
  }

  /** The key text collides: a list of two well-formed references with
      different tuples is refused, while the tuple rule accepts it. */
  lemma KeyTextCollision(c: string)
    requires DataComponentRef(JStr(c)).Ok?
    ensures var w := [SourceRef(c, "a|b", "c"), SourceRef(c, "a", "b|c")];
      TupleOf(w[0]) != TupleOf(w[1])
      && !Accepts(LogSourceRefs, JArr(w)) && Accepts(TupleLogSourceRefs, JArr(w))
  {
    var w := [SourceRef(c, "a|b", "c"), SourceRef(c, "a", "b|c")];
    SourceRefOk(c, "a|b", "c");
    SourceRefOk(c, "a", "b|c");
    ShiftedBarCollides(c);
    LogSourceRefsAccepts(w);
    TupleLogSourceRefsAccepts(w);
    assert Keys(w)[0] == Keys(w)[1];
    assert Tuples(w)[0] != Tuples(w)[1];
  }

  //---------------------------------------------------------------------------
  // mutable elements and platforms
  //---------------------------------------------------------------------------

  const MutableElementFields: seq<Field> := [
    Field("field", true, Leaf(StringMin1)),
    Field("description", true, Leaf(StringMin1))
  ]

  /** `xMitreMutableElementSchema` */
  const MutableElement: Kind := Object(MutableElementFields, Strip)

  /** `xMitreMutableElementsSchema`: at least one element. */
  const MutableElements: Kind := ArrayOf(MutableElement, 1, None)

  predicate MutableElementOk(x: Json)
  {
    x.JObj?
    && "field" in x.fields && x.fields["field"].JStr? && |x.fields["field"].s| > 0
    && "description" in x.fields && x.fields["description"].JStr? && |x.fields["description"].s| > 0
  }

  lemma MutableElementAccepts(x: Json)
    ensures Accepts(MutableElement, x) <==> MutableElementOk(x)
  {
    if x.JObj? {
      var e := MutableElementFields;
      ObjectAccepts(e, Strip, x.fields);
      if FieldOk(e[0], x.fields) && FieldOk(e[1], x.fields) {
        forall j | 0 <= j < |e| ensures FieldOk(e[j], x.fields) {
          assert j in {0, 1};
        }
      }
    }
  }

  lemma MutableElementsAccepts(items: seq<Json>)
    ensures Accepts(MutableElements, JArr(items)) <==>
            |items| >= 1 && forall j :: 0 <= j < |items| ==> MutableElementOk(items[j])
  {
    ArrayAccepts(MutableElement, 1, None, items);
    forall j | 0 <= j < |items| ensures Accepts(MutableElement, items[j]) <==> MutableElementOk(items[j]) {
      MutableElementAccepts(items[j]);
    }
  }

  function PlatformName(v: Json): Parsed
  {
    Enum(CommonPlatforms, v)
  }

  function UniquePlatforms(v: Json): seq<Issue>
  {
    UniqueBySetSize(UniquePlatformsMessage, v)
  }

  /** `xMitrePlatformsSchema.max(1)`: the platform list, at most one long. */
  const AnalyticPlatforms: Kind := Refined(ArrayOf(Leaf(PlatformName), 1, Some(1)), UniquePlatforms)

  /** Exactly one platform, from the vocabulary. */
  lemma AnalyticPlatformsAccepts(x: Json)
    ensures Accepts(AnalyticPlatforms, x) <==> x.JArr? && |x.items| == 1 && x.items[0].JStr? && x.items[0].s in CommonPlatforms
  {
    var base := ArrayOf(Leaf(PlatformName), 1, Some(1));
    RefinedAccepts(base, UniquePlatforms, x);
    if x.JArr? {
      ArrayAccepts(Leaf(PlatformName), 1, Some(1), x.items);
      if Accepts(base, x) {
        KeepsLeaf(PlatformName);
        KeepsArray(Leaf(PlatformName), 1, Some(1));
        assert CheckValue(base, x).value == x;
        assert ToSet(x.items) == {x.items[0]} by {
          assert x.items == [x.items[0]];
          ToSetSingle(x.items[0]);
        }
      }
    }
  }

  lemma ToSetSingle(y: Json)
    ensures ToSet([y]) == {y}
  {
    assert [y] == [] + [y];
  }

  //---------------------------------------------------------------------------
  // analyticSchema
  //---------------------------------------------------------------------------

  /** What parsing a list with misc.ts's `createAttackExternalReferencesSchema`
      does: it finishes with a result, or throws. */
  datatype ReferencesOutcome = Finished(result: Parsed) | Threw(error: string)

  const UndefinedPattern := "TypeError: Cannot read properties of undefined (reading 'test')"

  /** The reference list of `x-mitre-analytic` as written. The type is not in
      `stixTypeToAttackIdMapping`, so once the first ID is present the
      format check calls `.test` on an undefined pattern and the parse
      throws; a missing first ID is reported as usual. */
  function AnalyticReferencesAsWritten(x: Json): (r: ReferencesOutcome)
    ensures r.Finished? ==> r.result.Err?
    ensures r.Threw? <==> Accepts(CommonExternalReferences, x) && MissingIdRule(CheckValue(CommonExternalReferences, x).value) == []
  {
    var p := CheckValue(CommonExternalReferences, x);
    if p.Err? then Finished(p)
    else if MissingIdRule(p.value) != [] then Finished(Err(MissingIdRule(p.value)))
    else Threw(UndefinedPattern)
  }

  /** The reference list of `x-mitre-analytic` as corrected: the missing-ID
      check alone, the type having no ATT&CK ID format to check against. */
  const AnalyticReferences: Kind := Refined(CommonExternalReferences, MissingIdRule)

  /** As written no analytic reference list is accepted: the lists the
      corrected schema accepts are exactly those on which the written one
      throws. */
  lemma AnalyticReferencesThrow(x: Json)
    ensures !(AnalyticReferencesAsWritten(x).Finished? && AnalyticReferencesAsWritten(x).result.Ok?)
    ensures Accepts(AnalyticReferences, x) <==> AnalyticReferencesAsWritten(x).Threw?
  {
    RefinedAccepts(CommonExternalReferences, MissingIdRule, x);
  }

  const AnalyticRef := JObj(map["source_name" := JStr("mitre-attack"), "external_id" := JStr("AN0001")])

  /** A list whose first reference carries the ID `AN0001` makes the written
      schema throw; the corrected one accepts it. */
  lemma AnalyticIdThrows()
    ensures AnalyticReferencesAsWritten(JArr([AnalyticRef])) == Threw(UndefinedPattern)
    ensures Accepts(AnalyticReferences, JArr([AnalyticRef]))
  {
    var m := AnalyticRef.fields;
    ObjectAccepts(CommonReferenceFields, Strip, m);
    assert forall j :: 0 <= j < |CommonReferenceFields| ==> FieldOk(CommonReferenceFields[j], m);
    ArrayAccepts(CommonExternalReference, 1, None, [AnalyticRef]);
    var x := JArr([AnalyticRef]);
    ReferenceListKeepsId(x);
    AnalyticReferencesThrow(x);
  }

  const AnalyticExtension: seq<Field> := [
    Field("id", true, Leaf(v => CreateStixIdentifierSchema("x-mitre-analytic", v))),
    Field("type", true, Leaf(v => TypeValidator("x-mitre-analytic", v))),
    Field("description", true, Leaf(StringMin1)),
    Field("x_mitre_platforms", true, AnalyticPlatforms),
    Field("external_references", true, AnalyticReferences),
    Field("x_mitre_log_source_references", false, LogSourceRefs),
    Field("x_mitre_mutable_elements", false, MutableElements),
    Field("x_mitre_domains", true, XMitreDomains),
    Field("x_mitre_modified_by_ref", false, Leaf(CommonModifiedByRef))
  ]

  const ExtensionRequired: set<string> := {"id", "type", "description", "x_mitre_platforms", "external_references", "x_mitre_domains"}

  /** `.required({ created_by_ref: true, object_marking_refs: true })` */
  const MadeRequired: set<string> := {"created_by_ref", "object_marking_refs"}

  function AnalyticFields(): seq<Field>
  {
    ExtendRequire(AttackBaseFields, AnalyticExtension, MadeRequired)
  }

  /** `analyticSchema` */
  const AnalyticObject: Kind := Object(AnalyticFields(), Strict)

  lemma ExtensionRequiredNames()
    ensures DistinctNames(AnalyticExtension)
    ensures RequiredNames(AnalyticExtension) == ExtensionRequired
    ensures MadeRequired <= Schema.Names(AttackBaseFields)
  {
    var e := AnalyticExtension;
    assert e[0].name == "id" && e[1].name == "type" && e[2].name == "description" && e[3].name == "x_mitre_platforms";
    assert e[4].name == "external_references" && e[7].name == "x_mitre_domains";
    assert |e[0].name| == 2 && |e[1].name| == 4 && |e[2].name| == 11 && |e[3].name| == 17 && |e[4].name| == 19;
    assert |e[5].name| == 29 && |e[6].name| == 24 && |e[7].name| == 15 && |e[8].name| == 23;
    assert forall j :: 0 <= j < |e| ==> (e[j].required <==> j in {0, 1, 2, 3, 4, 7});
    NamesConcat(BaseFields, AttackBaseExtension);
    var b := BaseFields;
    assert b[5].name == "created_by_ref" && b[11].name == "object_marking_refs";
  }

  lemma PlatformsDeclared()
    ensures Lookup(AnalyticExtension, "x_mitre_platforms") == Some(Field("x_mitre_platforms", true, AnalyticPlatforms))
  {
    ExtensionRequiredNames();
    LookupDistinct(AnalyticExtension, 3);
  }

  lemma LogSourcesDeclared()
    ensures Lookup(AnalyticExtension, "x_mitre_log_source_references") == Some(Field("x_mitre_log_source_references", false, LogSourceRefs))
  {
    ExtensionRequiredNames();
    LookupDistinct(AnalyticExtension, 5);
  }

  lemma MutableDeclared()
    ensures Lookup(AnalyticExtension, "x_mitre_mutable_elements") == Some(Field("x_mitre_mutable_elements", false, MutableElements))
  {
    ExtensionRequiredNames();
    LookupDistinct(AnalyticExtension, 6);
  }

  lemma DescriptionDeclared()
    ensures Lookup(AnalyticExtension, "description") == Some(Field("description", true, Leaf(StringMin1)))
  {
    ExtensionRequiredNames();
    LookupDistinct(AnalyticExtension, 2);
  }

  /** Every accepted analytic holds the six required extension properties
      and the creator and markings the schema makes required. */
  lemma RequiredPresent(m: map<string, Json>)
    requires Accepts(AnalyticObject, JObj(m))
    ensures ExtensionRequired + MadeRequired <= m.Keys
  {
    ExtensionRequiredNames();
    ExtensionRequiredAll(AttackBaseFields, AnalyticExtension, MadeRequired, Strict, m);
    ExtendedRequiredAll(AttackBaseFields, AnalyticExtension, MadeRequired, Strict, m);
  }

  lemma PlatformAccepted(m: map<string, Json>)
    requires Accepts(AnalyticObject, JObj(m)) && "x_mitre_platforms" in m
    ensures Accepts(AnalyticPlatforms, m["x_mitre_platforms"])
  {
    PlatformsDeclared();
    ExtendedValue(AttackBaseFields, AnalyticExtension, MadeRequired, Strict, m, "x_mitre_platforms");
  }

  lemma DescriptionAccepted(m: map<string, Json>)
    requires Accepts(AnalyticObject, JObj(m)) && "description" in m
    ensures Accepts(Leaf(StringMin1), m["description"])
  {
    DescriptionDeclared();
    ExtendedValue(AttackBaseFields, AnalyticExtension, MadeRequired, Strict, m, "description");
  }

  lemma NonEmptyText(x: Json)
    requires Accepts(Leaf(StringMin1), x)
    ensures x.JStr? && |x.s| > 0
  {
  }

  lemma LogSourcesAccepted(m: map<string, Json>)
    requires Accepts(AnalyticObject, JObj(m)) && "x_mitre_log_source_references" in m
    ensures Accepts(LogSourceRefs, m["x_mitre_log_source_references"])
  {
    LogSourcesDeclared();
    ExtendedValue(AttackBaseFields, AnalyticExtension, MadeRequired, Strict, m, "x_mitre_log_source_references");
  }

  lemma MutableAccepted(m: map<string, Json>)
    requires Accepts(AnalyticObject, JObj(m)) && "x_mitre_mutable_elements" in m
    ensures Accepts(MutableElements, m["x_mitre_mutable_elements"])
  {
    MutableDeclared();
    ExtendedValue(AttackBaseFields, AnalyticExtension, MadeRequired, Strict, m, "x_mitre_mutable_elements");
  }

  /** What the reference list holds, read from an accepted list. */
  lemma LogSourceListFacts(x: Json)
    requires Accepts(LogSourceRefs, x)
    ensures x.JArr? && |x.items| >= 1 && (forall j :: 0 <= j < |x.items| ==> LogSourceRefOk(x.items[j]))
    ensures !HasRepeat(Keys(x.items)) && !HasRepeat(Tuples(x.items))
  {
    AcceptedShape(ArrayOf(LogSourceRef, 1, None), x);
    LogSourceRefsAccepts(x.items);
    KeyRuleCatchesTuples(x.items);
  }

  lemma MutableListFacts(x: Json)
    requires Accepts(MutableElements, x)
    ensures x.JArr? && |x.items| >= 1 && forall j :: 0 <= j < |x.items| ==> MutableElementOk(x.items[j])
  {
    AcceptedShape(MutableElements, x);
    MutableElementsAccepts(x.items);
  }

  /** An accepted analytic holds its required properties and no undeclared
      key; it names exactly one platform from the vocabulary and a
      non-empty description; its log-source references, when present, are
      well formed and never repeat a tuple; its mutable elements, when
      present, are at least one, each with a field and a description. */
  lemma AnalyticAccepted(m: map<string, Json>)
    requires Accepts(AnalyticObject, JObj(m))
    ensures ExtensionRequired + MadeRequired <= m.Keys
    ensures m.Keys <= Schema.Names(AttackBaseFields) + Schema.Names(AnalyticExtension)
    ensures var p := m["x_mitre_platforms"];
      p.JArr? && |p.items| == 1 && p.items[0].JStr? && p.items[0].s in CommonPlatforms
    ensures m["description"].JStr? && |m["description"].s| > 0
    ensures "x_mitre_log_source_references" in m ==>
      var x := m["x_mitre_log_source_references"];
      x.JArr? && |x.items| >= 1 && (forall j :: 0 <= j < |x.items| ==> LogSourceRefOk(x.items[j]))
      && !HasRepeat(Tuples(x.items))
    ensures "x_mitre_mutable_elements" in m ==>
      var x := m["x_mitre_mutable_elements"];
      x.JArr? && |x.items| >= 1 && forall j :: 0 <= j < |x.items| ==> MutableElementOk(x.items[j])
  {
    RequiredPresent(m);
    ExtendedStrict(AttackBaseFields, AnalyticExtension, MadeRequired, m);
    PlatformAccepted(m);
    AnalyticPlatformsAccepts(m["x_mitre_platforms"]);
    DescriptionAccepted(m);
    NonEmptyText(m["description"]);
    if "x_mitre_log_source_references" in m {
      LogSourcesAccepted(m);
      LogSourceListFacts(m["x_mitre_log_source_references"]);
    }
    if "x_mitre_mutable_elements" in m {
      MutableAccepted(m);
      MutableListFacts(m["x_mitre_mutable_elements"]);
    }
  }
}

=== FILE: asset.dfy ===
/** The asset object (src/schemas/sdo/asset.schema.ts): the sectors an
    asset is observed in, related assets, and the ATT&CK base extended with
    the asset properties and no unknown key. The asset schema has no
    refinement: `assetSchema` is the extensible schema itself. */
module Asset {
  import opened Wrappers
  import opened JsonValues
  import opened Schema
  import opened Generics
  import opened AttackIds
  import opened StixTypes
  import opened StixIdentifier
  import opened CommonProperties
  import opened ExternalReferences
  import opened AttackBase

  //---------------------------------------------------------------------------
  // sectors and related assets
  //---------------------------------------------------------------------------

  /** `supportedAssetSectors` */
  const AssetSectors: seq<string> := ["Electric", "Water and Wastewater", "Manufacturing", "Rail", "Maritime", "General"]

  function AssetSector(v: Json): Parsed
  {
    Enum(AssetSectors, v)
  }

  /** `xMitreSectorsSchema`: any list of sectors, the empty one included. */
  const SectorList: Kind := ArrayOf(Leaf(AssetSector), 0, None)

  /** A list of sector names. */
  predicate Sectors(x: Json)
  {
    x.JArr? && forall y :: y in x.items ==> y.JStr? && y.s in AssetSectors
  }

  /** The sector list schema accepts exactly the lists of sector names. */
  lemma SectorListAccepts(x: Json)
    ensures Accepts(SectorList, x) <==> Sectors(x)
  {
    if x.JArr? {
      ArrayAccepts(Leaf(AssetSector), 0, None, x.items);
      assert forall j :: 0 <= j < |x.items| ==> x.items[j] in x.items;
    }
  }

  /** `relatedAssetSchema`: a plain object, so unknown keys are dropped. */
  const RelatedAssetFields: seq<Field> := [
    Field("name", true, Leaf(AnyString)),
    Field("related_asset_sectors", false, SectorList),
    Field("description", false, Description)
  ]

  const RelatedAsset: Kind := Object(RelatedAssetFields, Strip)

  /** `relatedAssetsSchema` */
  const RelatedAssets: Kind := ArrayOf(RelatedAsset, 0, None)

  /** What a related asset must hold. */
  predicate RelatedAssetOk(m: map<string, Json>)
  {
    "name" in m && m["name"].JStr?
    && ("related_asset_sectors" in m ==> Sectors(m["related_asset_sectors"]))
    && ("description" in m ==> m["description"].JStr?)
  }

  /** A related asset is accepted exactly when it has a string name, its
      sectors if any are sector names and its description if any is a
      string; other keys do not matter. */
  lemma RelatedAssetAccepts(m: map<string, Json>)
    ensures Accepts(RelatedAsset, JObj(m)) <==> RelatedAssetOk(m)
  {
    var fs := RelatedAssetFields;
    ObjectAccepts(fs, Strip, m);
    assert fs[0].name == "name" && fs[1].name == "related_asset_sectors" && fs[2].name == "description";
    if "related_asset_sectors" in m {
      SectorListAccepts(m["related_asset_sectors"]);
    }
  }

  /** Every entry of a related-asset list is an acceptable related asset. */
  predicate RelatedAssetsOk(x: Json)
  {
    x.JArr? && forall y :: y in x.items ==> y.JObj? && RelatedAssetOk(y.fields)
  }

  lemma RelatedAssetsAccepts(x: Json)
    ensures Accepts(RelatedAssets, x) <==> RelatedAssetsOk(x)
  {
    if x.JArr? {
      ArrayAccepts(RelatedAsset, 0, None, x.items);
      forall j | 0 <= j < |x.items|
        ensures Accepts(RelatedAsset, x.items[j]) <==> x.items[j].JObj? && RelatedAssetOk(x.items[j].fields)
      {
        if x.items[j].JObj? {
          RelatedAssetAccepts(x.items[j].fields);
        }
      }
      assert forall y :: y in x.items ==> exists j :: 0 <= j < |x.items| && x.items[j] == y;
    }
  }

  //---------------------------------------------------------------------------
  // the asset schema
  //---------------------------------------------------------------------------

  /** `createAttackExternalReferencesSchema('x-mitre-asset')` */
  const AssetReferences: Kind := CommonAttackExternalReferences("x-mitre-asset")

  /** The properties `.extend` adds to or replaces in the ATT&CK base. */
  const AssetExtension: seq<Field> := [
    Field("id", true, Leaf(v => CreateStixIdentifierSchema("x-mitre-asset", v))),
    Field("type", true, Leaf(v => TypeValidator("x-mitre-asset", v))),
    Field("description", false, Description),
    Field("external_references", true, AssetReferences),
    Field("object_marking_refs", true, CommonObjectMarkingRefs),
    Field("x_mitre_platforms", false, PlatformList(CommonPlatforms)),
    Field("x_mitre_domains", true, XMitreDomains),
    Field("x_mitre_contributors", false, CommonContributors),
    Field("x_mitre_sectors", false, SectorList),
    Field("x_mitre_related_assets", false, RelatedAssets),
    Field("x_mitre_modified_by_ref", false, Leaf(CommonModifiedByRef))
  ]

  const ExtensionRequired: set<string> := {"id", "type", "external_references", "object_marking_refs", "x_mitre_domains"}

  function AssetFields(): seq<Field>
  {
    ExtendRequire(AttackBaseFields, AssetExtension, {})
  }

  /** `extensibleAssetSchema` and `assetSchema` */
  const AssetObject: Kind := Object(AssetFields(), Strict)

  /** Each name is declared once; five are required. */
  lemma ExtensionRequiredNames()
    ensures DistinctNames(AssetExtension)
    ensures RequiredNames(AssetExtension) == ExtensionRequired
  {
    var e := AssetExtension;
    assert e[0].name == "id" && e[1].name == "type" && e[3].name == "external_references";
    assert e[4].name == "object_marking_refs" && e[6].name == "x_mitre_domains";
    assert |e[0].name| == 2 && |e[1].name| == 4 && |e[2].name| == 11 && |e[3].name| == 19 && |e[4].name| == 19;
    assert |e[5].name| == 17 && |e[6].name| == 15 && |e[7].name| == 20 && |e[8].name| == 15;
    assert |e[9].name| == 22 && |e[10].name| == 23;
    assert e[3].name[0] != e[4].name[0] && e[6].name[8] != e[8].name[8];
    assert forall j :: 0 <= j < |e| ==> (e[j].required <==> j in {0, 1, 3, 4, 6});
  }

  lemma ReferencesDeclared()
    ensures Lookup(AssetExtension, "external_references") == Some(Field("external_references", true, AssetReferences))
  {
    ExtensionRequiredNames();
    LookupDistinct(AssetExtension, 3);
  }

  lemma PlatformsDeclared()
    ensures Lookup(AssetExtension, "x_mitre_platforms") == Some(Field("x_mitre_platforms", false, PlatformList(CommonPlatforms)))
  {
    ExtensionRequiredNames();
    LookupDistinct(AssetExtension, 5);
  }

  lemma SectorsDeclared()
    ensures Lookup(AssetExtension, "x_mitre_sectors") == Some(Field("x_mitre_sectors", false, SectorList))
  {
    ExtensionRequiredNames();
    LookupDistinct(AssetExtension, 8);
  }

  lemma RelatedDeclared()
    ensures Lookup(AssetExtension, "x_mitre_related_assets") == Some(Field("x_mitre_related_assets", false, RelatedAssets))
  {
    ExtensionRequiredNames();
    LookupDistinct(AssetExtension, 9);
  }

  //---------------------------------------------------------------------------
  // what the schema accepts
  //---------------------------------------------------------------------------

  lemma RequiredPresent(m: map<string, Json>)
    requires Accepts(AssetObject, JObj(m))
    ensures ExtensionRequired <= m.Keys
  {
    ExtensionRequiredNames();
    ExtensionRequiredAll(AttackBaseFields, AssetExtension, {}, Strict, m);
  }

  lemma ReferencesAccepted(m: map<string, Json>)
    requires Accepts(AssetObject, JObj(m)) && "external_references" in m
    ensures Accepts(AssetReferences, m["external_references"])
  {
    ReferencesDeclared();
    ExtendedValue(AttackBaseFields, AssetExtension, {}, Strict, m, "external_references");
  }

  /** The ID format the factory looks up for this type. */
  lemma AssetFormat()
    ensures FormatForType("x-mitre-asset") == Some(AssetId)
  {
  }

  lemma ReferencesTagged(m: map<string, Json>)
    requires "external_references" in m && Accepts(AssetReferences, m["external_references"])
    ensures TaggedWith(JObj(m), AssetId)
  {
    AssetFormat();
    ObjectTagged("x-mitre-asset", m);
  }

  /** The platforms, when given, form a non-empty list of distinct known
      platforms. */
  predicate PlatformsOk(m: map<string, Json>)
  {
    "x_mitre_platforms" in m ==>
      m["x_mitre_platforms"].JArr? && |m["x_mitre_platforms"].items| >= 1
      && (forall y :: y in m["x_mitre_platforms"].items ==> y.JStr? && y.s in CommonPlatforms)
      && Distinct(m["x_mitre_platforms"].items)
  }

  lemma PlatformsAccepted(m: map<string, Json>)
    requires Accepts(AssetObject, JObj(m))
    ensures PlatformsOk(m)
  {
    if "x_mitre_platforms" in m {
      PlatformsDeclared();
      ExtendedValue(AttackBaseFields, AssetExtension, {}, Strict, m, "x_mitre_platforms");
      PlatformValueAccepted(m["x_mitre_platforms"]);
    }
  }

  lemma PlatformValueAccepted(x: Json)
    requires Accepts(PlatformList(CommonPlatforms), x)
    ensures x.JArr? && |x.items| >= 1 && (forall y :: y in x.items ==> y.JStr? && y.s in CommonPlatforms) && Distinct(x.items)
  {
    AcceptedShape(PlatformList(CommonPlatforms), x);
    PlatformListAccepts(CommonPlatforms, x.items);
  }

  lemma SectorsAccepted(m: map<string, Json>)
    requires Accepts(AssetObject, JObj(m))
    ensures "x_mitre_sectors" in m ==> Sectors(m["x_mitre_sectors"])
  {
    if "x_mitre_sectors" in m {
      SectorsDeclared();
      ExtendedValue(AttackBaseFields, AssetExtension, {}, Strict, m, "x_mitre_sectors");
      SectorListAccepts(m["x_mitre_sectors"]);
    }
  }

  lemma RelatedAccepted(m: map<string, Json>)
    requires Accepts(AssetObject, JObj(m))
    ensures "x_mitre_related_assets" in m ==> RelatedAssetsOk(m["x_mitre_related_assets"])
  {
    if "x_mitre_related_assets" in m {
      RelatedDeclared();
      ExtendedValue(AttackBaseFields, AssetExtension, {}, Strict, m, "x_mitre_related_assets");
      RelatedAssetsAccepts(m["x_mitre_related_assets"]);
    }
  }

  /** An accepted asset holds the five required extension properties, no
      undeclared key, an asset ID in its first reference, distinct known
      platforms, sector names, and related assets that each have a string
      name. */
  lemma AssetAccepted(m: map<string, Json>)
    requires Accepts(AssetObject, JObj(m))
    ensures ExtensionRequired <= m.Keys
    ensures m.Keys <= Schema.Names(AttackBaseFields) + Schema.Names(AssetExtension)
    ensures TaggedWith(JObj(m), AssetId)
    ensures PlatformsOk(m)
    ensures "x_mitre_sectors" in m ==> Sectors(m["x_mitre_sectors"])
    ensures "x_mitre_related_assets" in m ==> RelatedAssetsOk(m["x_mitre_related_assets"])
  {
    RequiredPresent(m);
    ExtendedStrict(AttackBaseFields, AssetExtension, {}, m);
    ReferencesAccepted(m);
    ReferencesTagged(m);
    PlatformsAccepted(m);
    SectorsAccepted(m);
    RelatedAccepted(m);
  }
}

=== FILE: attack_base.dfy ===
/** The properties every ATT&CK object adds to the STIX core object. The
    file that declares them (src/schemas/common/attack-base-object.ts) is
    not part of this model: the table below is the one the object schemas
    that extend it rely on (a name, the ATT&CK specification version and
    the object version, all required, and an optional old ATT&CK ID and
    deprecation flag). */
module AttackBase {
  import opened Wrappers
  import opened JsonValues
  import opened Schema
  import opened CommonProperties
  import opened Versions
  import opened StixCore

  /** The properties the ATT&CK base adds to the STIX core table. */
  const AttackBaseExtension: seq<Field> := [
    Field("name", true, Leaf(NameSchema)),
    Field("x_mitre_attack_spec_version", true, Leaf(CommonSpecVersion)),
    Field("x_mitre_version", true, Leaf(CommonXMitreVersion)),
    Field("x_mitre_old_attack_id", false, Leaf(OldAttackId)),
    Field("x_mitre_deprecated", false, Deprecated)
  ]

  /** `attackBaseObjectSchema` and `attackBaseDomainObjectSchema`: no name
      of the extension is a STIX core name, so extending is appending. */
  const AttackBaseFields: seq<Field> := BaseFields + AttackBaseExtension

  /** The ATT&CK base declares every core property and its own five, once
      each. */
  lemma AttackBaseNames()
    ensures Schema.Names(AttackBaseFields) == Schema.Names(BaseFields) + Schema.Names(AttackBaseExtension)
    ensures Schema.Names(BaseFields) !! Schema.Names(AttackBaseExtension)
    ensures "name" in Schema.Names(AttackBaseFields) && "x_mitre_old_attack_id" in Schema.Names(AttackBaseFields)
  {
    NamesConcat(BaseFields, AttackBaseExtension);
    var e := AttackBaseExtension;
    assert Schema.Names(e) == {"name", "x_mitre_attack_spec_version", "x_mitre_version", "x_mitre_old_attack_id", "x_mitre_deprecated"} by {
      assert e[0].name == "name" && e[1].name == "x_mitre_attack_spec_version" && e[2].name == "x_mitre_version";
      assert e[3].name == "x_mitre_old_attack_id" && e[4].name == "x_mitre_deprecated";
    }
    var b := BaseFields;
    assert forall k :: 0 <= k < |b| ==> b[k].name[0] != 'x' && b[k].name[0] != 'n';
  }

  /** The keys the ATT&CK object schemas require that the base declares. */
  lemma AttackBaseDeclares()
    ensures {"created", "modified", "spec_version", "name", "x_mitre_attack_spec_version", "x_mitre_version"}
            <= Schema.Names(AttackBaseFields)
  {
    NamesConcat(BaseFields, AttackBaseExtension);
    var b := BaseFields;
    var a := AttackBaseExtension;
    assert b[2].name == "spec_version" && b[3].name == "created" && b[4].name == "modified";
    assert a[0].name == "name" && a[1].name == "x_mitre_attack_spec_version" && a[2].name == "x_mitre_version";
  }

  /** The declaration of the old ATT&CK ID, as a lookup in the base finds
      it; its schema keeps the values it accepts. */
  lemma OldIdDeclared()
    ensures Lookup(AttackBaseFields, "x_mitre_old_attack_id") == Some(Field("x_mitre_old_attack_id", false, Leaf(OldAttackId)))
    ensures Keeps(Leaf(OldAttackId))
  {
    KeepsLeaf(OldAttackId);
    var e := AttackBaseExtension;
    AttackBaseNames();
    assert e[3].name == "x_mitre_old_attack_id";
    assert |e[0].name| == 4 && |e[1].name| == 27 && |e[2].name| == 15 && |e[3].name| == 21;
    LookupFirst(e, 3);
    LookupConcat(BaseFields, e, "x_mitre_old_attack_id");
  }

  /** The declaration of the name, as a lookup in the base finds it; its
      schema keeps the values it accepts. */
  lemma NameDeclared()
    ensures Lookup(AttackBaseFields, "name") == Some(Field("name", true, Leaf(NameSchema)))
    ensures Keeps(Leaf(NameSchema))
  {
    KeepsLeaf(NameSchema);
    AttackBaseNames();
    LookupFirst(AttackBaseExtension, 0);
    LookupConcat(BaseFields, AttackBaseExtension, "name");
  }
}

=== FILE: attack_id.dfy ===
/** ATT&CK identifiers such as `T1059`, `T1059.001` or `TA0002`
    (src/schemas/common/attack-id.ts). */
module AttackIds {
  import opened Wrappers
  import opened Strings
  import opened JsonValues

  /** The ID formats, one per kind of ATT&CK object that carries an ID. */
  datatype IdFormat =
    | TacticId | TechniqueId | SubtechniqueId | GroupId | SoftwareId
    | MitigationId | AssetId | DataSourceId | CampaignId

  /** `stixTypeToAttackIdMapping`; `None` for types without ATT&CK IDs. */
  function FormatForType(t: string): Option<IdFormat>
  {
    match t
    case "x-mitre-tactic" => Some(TacticId)
    case "attack-pattern" => Some(TechniqueId)
    case "intrusion-set" => Some(GroupId)
    case "malware" => Some(SoftwareId)
    case "tool" => Some(SoftwareId)
    case "course-of-action" => Some(MitigationId)
    case "x-mitre-asset" => Some(AssetId)
    case "x-mitre-data-source" => Some(DataSourceId)
    case "campaign" => Some(CampaignId)
    case _ => None
  }

  /** The letters in front of the four digits. */
  function Prefix(f: IdFormat): string
  {
    match f
    case TacticId => "TA"
    case TechniqueId => "T"
    case SubtechniqueId => "T"
    case GroupId => "G"
    case SoftwareId => "S"
    case MitigationId => "M"
    case AssetId => "A"
    case DataSourceId => "DS"
    case CampaignId => "C"
  }

  /** `attackIdPatterns[f].test(s)`: the prefix and `\d{4}`, and for a
      sub-technique `\.\d{3}` after them, the whole string. */
  predicate Matches(f: IdFormat, s: string)
  {
    var p := Prefix(f);
    if f == SubtechniqueId then
      |s| == 9 && s[0] == 'T' && AllDigits(s[1..5]) && s[5] == '.' && AllDigits(s[6..])
    else
      |s| == |p| + 4 && s[..|p|] == p && AllDigits(s[|p|..])
  }

  /** An independent classification of a string by its shape. */
  function FormatOf(s: string): Option<IdFormat>
  {
    if |s| == 9 && s[0] == 'T' && AllDigits(s[1..5]) && s[5] == '.' && AllDigits(s[6..]) then Some(SubtechniqueId)
    else if |s| == 6 && AllDigits(s[2..]) then
      (if s[..2] == "TA" then Some(TacticId) else if s[..2] == "DS" then Some(DataSourceId) else None)
    else if |s| == 5 && AllDigits(s[1..]) then
      (match s[0]
       case 'T' => Some(TechniqueId)
       case 'G' => Some(GroupId)
       case 'S' => Some(SoftwareId)
       case 'M' => Some(MitigationId)
       case 'A' => Some(AssetId)
       case 'C' => Some(CampaignId)
       case _ => None)
    else None
  }

  /** A string matches a format exactly when its shape classifies as that
      format; in particular no string matches two formats. */
  lemma MatchesIffFormatOf(f: IdFormat, s: string)
    ensures Matches(f, s) <==> FormatOf(s) == Some(f)
  {
    if |s| == 6 {
      assert s[..2] == [s[0], s[1]];
      assert s[1] == 'A' && AllDigits(s[2..]) ==> !AllDigits(s[1..]);
    }
    if |s| == 5 {
      assert s[..1] == [s[0]];
    }
  }

  /** The identifier with number `n` (and sub-number `k` for a
      sub-technique). */
  function FormatId(f: IdFormat, n: nat, k: nat): (s: string)
    requires n < 10000 && k < 1000
  {
    Prefix(f) + PadDecimal(n, 4) + (if f == SubtechniqueId then "." + PadDecimal(k, 3) else "")
  }

  /** The numbers an identifier of format `f` carries. */
  function ParseId(f: IdFormat, s: string): (r: Option<(nat, nat)>)
    ensures r.Some? <==> Matches(f, s)
  {
    if !Matches(f, s) then None
    else if f == SubtechniqueId then Some((DecimalValue(s[1..5]), DecimalValue(s[6..])))
    else Some((DecimalValue(s[|Prefix(f)|..]), 0))
  }

  /** Every formatted identifier matches its format and reads back as its
      numbers. */
  lemma FormatThenParse(f: IdFormat, n: nat, k: nat)
    requires n < 10000 && k < 1000
    ensures Matches(f, FormatId(f, n, k))
    ensures ParseId(f, FormatId(f, n, k)) == Some((n, if f == SubtechniqueId then k else 0))
  {
    var s := FormatId(f, n, k);
    var p := Prefix(f);
    var d := PadDecimal(n, 4);
    PadDecimalValue(n, 4, 10000);
    if f == SubtechniqueId {
      var e := PadDecimal(k, 3);
      PadDecimalValue(k, 3, 1000);
      assert s == "T" + d + "." + e;
      assert s[1..5] == d;
      assert s[6..] == e;
    } else {
      assert s == p + d;
      assert s[..|p|] == p;
      assert s[|p|..] == d;
    }
  }

  /** Every matching identifier is the formatting of the numbers it carries. */
  lemma ParseThenFormat(f: IdFormat, s: string)
    requires Matches(f, s)
    ensures var r := ParseId(f, s).value;
            r.0 < 10000 && r.1 < 1000 && FormatId(f, r.0, r.1) == s
  {
    var p := Prefix(f);
    if f == SubtechniqueId {
      DecimalValuePad(s[1..5]);
      DecimalValuePad(s[6..]);
      assert s == "T" + s[1..5] + "." + s[6..];
    } else {
      DecimalValuePad(s[|p|..]);
      assert |s[|p|..]| == 4 && Pow10(4) == 10000;
      assert s == s[..|p|] + s[|p|..];
    }
  }

  /** `attackIdMessages` */
  function Message(f: IdFormat): string
  {
    match f
    case TacticId => "Must match ATT&CK Tactic ID format (TA####)"
    case TechniqueId => "Must match ATT&CK Technique ID format (T####)"
    case SubtechniqueId => "Must match ATT&CK Sub-technique ID format (T####.###)"
    case GroupId => "Must match ATT&CK Group ID format (G####)"
    case SoftwareId => "Must match ATT&CK Software ID format (S####)"
    case MitigationId => "Must match ATT&CK Mitigation ID format (M####)"
    case AssetId => "Must match ATT&CK Asset ID format (A####)"
    case DataSourceId => "Must match ATT&CK Data Source ID format (DS####)"
    case CampaignId => "Must match ATT&CK Campaign ID format (C####)"
  }

  /** The formats an `attack-pattern` may use: a technique or a
      sub-technique ID. Every other type has exactly its mapped format. */
  predicate AcceptsFormat(t: string, f: IdFormat)
    requires FormatForType(t).Some?
  {
    if t == "attack-pattern" then f == TechniqueId || f == SubtechniqueId
    else f == FormatForType(t).value
  }

  /** The test `createAttackIdSchema(t)` applies. */
  predicate IdMatchesType(t: string, s: string)
    requires FormatForType(t).Some?
  {
    if t == "attack-pattern" then Matches(TechniqueId, s) || Matches(SubtechniqueId, s)
    else Matches(FormatForType(t).value, s)
  }

  /** `createAttackIdSchema(t)` */
  function CreateAttackIdSchema(t: string, v: Json): (r: Parsed)
    requires FormatForType(t).Some?
    ensures r.Ok? ==> r.value == v
    ensures r.Ok? <==> v.JStr? && IdMatchesType(t, v.s)
  {
    if !v.JStr? then Fail("invalid_type")
    else if t == "attack-pattern" then
      if Matches(TechniqueId, v.s) || Matches(SubtechniqueId, v.s) then Ok(v)
      else Fail("Must match either ATT&CK Technique ID format (T####) or Sub-technique ID format (T####.###)")
    else
      var f := FormatForType(t).value;
      if Matches(f, v.s) then Ok(v) else Fail(Message(f))
  }

  /** The identifiers `createAttackIdSchema(t)` accepts are the strings whose
      shape is one of the formats the type allows. */
  lemma AttackIdByShape(t: string, s: string)
    requires FormatForType(t).Some?
    ensures CreateAttackIdSchema(t, JStr(s)).Ok? <==> FormatOf(s).Some? && AcceptsFormat(t, FormatOf(s).value)
  {
    MatchesIffFormatOf(TechniqueId, s);
    MatchesIffFormatOf(SubtechniqueId, s);
    MatchesIffFormatOf(FormatForType(t).value, s);
  }
}

=== FILE: attrs_stix.dfy ===
/** The STIX object mixin of the attrs package
    (attrs/attack_data_model/stix/stix.py): a class whose generated
    initialiser takes five fields without a default and nine that default to
    None, and whose only validator is on `confidence`. attrs does not check
    the annotated types. */
module AttrsStix {
  import opened Wrappers
  import opened JsonValues
  import PyCore

  /** The initialiser's parameters without a default, in order. */
  const RequiredFields: seq<string> := ["id", "type", "spec_version", "created", "modified"]

  /** The parameters that default to None, in order. */
  const OptionalFields: seq<string> := [
    "created_by_ref", "labels", "revoked", "confidence", "lang", "external_references",
    "object_marking_refs", "granular_markings", "extensions"
  ]

  const Fields: seq<string> := RequiredFields + OptionalFields

  datatype AttrsError =
    /** `TypeError`: keyword arguments the initialiser does not take. */
    | UnexpectedArguments(unexpected: set<string>)
    /** `TypeError`: required arguments not given, in order. */
    | MissingArguments(names: seq<string>)
    /** `ValueError` from `validate_confidence`. */
    | InvalidConfidence(value: Json)
    /** `TypeError` from comparing a value that is not a number. */
    | NotComparable(value: Json)

  /** `validate_confidence`: None, or strictly between 0 and 100. A boolean
      compares as 0 or 1; any other value cannot be compared. No integer
      test is made. */
  function ValidateConfidence(v: Json): (r: Result<(), AttrsError>)
    ensures r.Err? && r.error.InvalidConfidence? ==> r.error.value == v
  {
    match v
    case JNull => Ok(())
    case JNum(n) => if 0.0 < n < 100.0 then Ok(()) else Err(InvalidConfidence(v))
    case JBool(b) => if b then Ok(()) else Err(InvalidConfidence(v))
    case _ => Err(NotComparable(v))
  }

  /** For whole numbers the accepted range is 1 to 99, as the message
      says. */
  lemma ConfidenceRange(n: int)
    ensures ValidateConfidence(JNum(n as real)).Ok? <==> 1 <= n <= 99
    ensures ValidateConfidence(JNull).Ok?
  {
  }

  /** The base STIX object of the other package accepts 0 and 100, which
      this validator refuses: the two bounds differ. */
  lemma ConfidenceBoundsDiffer(m: map<string, Json>, n: int)
    requires "confidence" in m && m["confidence"] == JNum(n as real)
    ensures n == 0 || n == 100 ==>
      PyCore.ConfidenceErrors(m) == [] && ValidateConfidence(JNum(n as real)).Err?
    ensures PyCore.ConfidenceErrors(m) == [] && ValidateConfidence(JNum(n as real)).Err? ==> n == 0 || n == 100
  {
    PyCore.ConfidenceRange(m);
    ConfidenceRange(n);
  }

  /** The required parameters not given, in order. */
  function MissingOf(args: map<string, Json>, names: seq<string>): (r: seq<string>)
  {
    if names == [] then []
    else (if names[0] in args then [] else [names[0]]) + MissingOf(args, names[1..])
  }

  lemma {:induction false} MissingOfExact(args: map<string, Json>, names: seq<string>)
    ensures forall x :: x in MissingOf(args, names) <==> x in names && x !in args
  {
    if names != [] {
      MissingOfExact(args, names[1..]);
      assert forall x :: x in names <==> x == names[0] || x in names[1..];
    }
  }

  /** The constructed object: every field, given or None. */
  function WithDefaults(args: map<string, Json>): map<string, Json>
  {
    map f | f in Fields :: if f in args then args[f] else JNull
  }

  /** The generated `__init__` with keyword arguments: unexpected names
      first, then missing required ones, then the confidence validator. */
  function Construct(args: map<string, Json>): (r: Result<map<string, Json>, AttrsError>)
    ensures r.Ok? ==> r.value.Keys == set f | f in Fields
  {
    var unexpected := set k | k in args && k !in Fields;
    if unexpected != {} then Err(UnexpectedArguments(unexpected))
    else if MissingOf(args, RequiredFields) != [] then Err(MissingArguments(MissingOf(args, RequiredFields)))
    else
      var o := WithDefaults(args);
      match ValidateConfidence(o["confidence"])
      case Err(e) => Err(e)
      case Ok(_) => Ok(o)
  }

  /** Construction succeeds exactly when every argument is a field, every
      required one is given, and the confidence passes; the object keeps
      each given value and holds None for the rest. */
  lemma ConstructIff(args: map<string, Json>)
    ensures Construct(args).Ok? <==>
      args.Keys <= (set f | f in Fields)
      && (forall k :: 0 <= k < |RequiredFields| ==> RequiredFields[k] in args)
      && ValidateConfidence(if "confidence" in args then args["confidence"] else JNull).Ok?
    ensures Construct(args).Ok? ==>
      (forall f :: f in args ==> Construct(args).value[f] == args[f])
      && (forall f :: f in Fields && f !in args ==> Construct(args).value[f] == JNull)
  {
    MissingOfExact(args, RequiredFields);
    assert "confidence" in Fields;
    var unexpected := set k | k in args && k !in Fields;
    assert unexpected == {} <==> args.Keys <= (set f | f in Fields) by {
      assert forall k :: k in args && k !in Fields ==> k in unexpected;
    }
    if MissingOf(args, RequiredFields) == [] {
      forall k | 0 <= k < |RequiredFields| ensures RequiredFields[k] in args {
        assert RequiredFields[k] in RequiredFields;
      }
    } else {
      var x := MissingOf(args, RequiredFields)[0];
      assert x in MissingOf(args, RequiredFields);
    }
  }
}

=== FILE: campaign.dfy ===
/** The campaign object (src/schemas/sdo/campaign.schema.ts): its own
    citation grammar for the first-seen and last-seen citations, and the
    campaign schema with the first-alias and citation refinements. */
module Campaign {
  import opened Wrappers
  import opened Strings
  import opened JsonValues
  import opened Schema
  import opened Generics
  import opened StixTypes
  import opened StixIdentifier
  import opened CommonProperties
  import opened ExternalReferences
  import opened Timestamps
  import opened Refinements
  import opened StixCore
  import opened AttackBase

  //---------------------------------------------------------------------------
  // the citation grammar
  //---------------------------------------------------------------------------

  /** The opening of a match of `\(Citation:[^)]+\)`; unlike the shared
      citation pattern, no space is required after the colon. */
  const MatchOpen := "(Citation:"

  /** The word a single citation must start with. */
  const CitationWord := "Citation"

  /** Where a match of `\(Citation:[^)]+\)` at the front of `s` ends: the
      index of its `)`, the first one after the opening, with at least one
      character in between. */
  function MatchEnd(s: string): (r: Option<nat>)
    ensures r.Some? ==> |MatchOpen| < r.value < |s| && s[r.value] == ')'
    ensures r.Some? ==> StartsWith(s, MatchOpen) && forall k :: |MatchOpen| <= k < r.value ==> s[k] != ')'
    ensures StartsWith(s, MatchOpen) && NextClose(s, |MatchOpen|).Some? && NextClose(s, |MatchOpen|).value > |MatchOpen| ==> r.Some?
  {
    if StartsWith(s, MatchOpen) then
      match NextClose(s, |MatchOpen|)
      case Some(j) => if j > |MatchOpen| then Some(j) else None
      case None => None
    else None
  }

  /** `value.match(/\(Citation:[^)]+\)/g)`: the global match scans left to
      right, resuming after each match and one character further after each
      failed position. No match at all is the empty list. */
  function CitationMatches(s: string): seq<string>
    decreases |s|
  {
    if s == [] then []
    else match MatchEnd(s)
      case Some(j) => [s[..j + 1]] + CitationMatches(s[j + 1..])
      case None => CitationMatches(s[1..])
  }

  /** `citations.join('')` */
  function Concat(cs: seq<string>): string
  {
    if cs == [] then "" else cs[0] + Concat(cs[1..])
  }

  /** `baseCitationSchema` on a string: wrapped in parentheses, with content
      that splits on `:` into exactly two parts, the first trimming to
      `Citation` and the second not blank. */
  predicate IsSingleCitation(c: string)
  {
    |c| >= 2 && c[0] == '(' && c[|c| - 1] == ')'
    && var parts := Split(c[1..|c| - 1], ":");
       |parts| == 2 && Trim(parts[0]) == CitationWord && Trim(parts[1]) != ""
  }

  /** `multipleCitationsSchema` on a string: at least one match, the matches
      put together give back the whole string, and each is a single
      citation. */
  predicate IsCitationList(s: string)
  {
    var cs := CitationMatches(s);
    cs != [] && Concat(cs) == s && forall k :: 0 <= k < |cs| ==> IsSingleCitation(cs[k])
  }

  const CitationListMessage := "Must be one or more citations in the form '(Citation: [citation name])' without any separators"

  /** `xMitreFirstSeenCitationSchema` and `xMitreLastSeenCitationSchema` */
  function CitationList(v: Json): (r: Parsed)
    ensures r.Ok? <==> v.JStr? && IsCitationList(v.s)
    ensures r.Ok? ==> r.value == v
    ensures r.Err? ==> r.error == [Issue([], CitationListMessage)]
  {
    if v.JStr? && IsCitationList(v.s) then Ok(v) else Fail(CitationListMessage)
  }

  /** What one match looks like: the opening, at least one character, none
      of them `)`, and the closing `)`. */
  predicate MatchShaped(c: string)
  {
    |c| > |MatchOpen| + 1 && StartsWith(c, MatchOpen) && c[|c| - 1] == ')'
    && forall k :: |MatchOpen| <= k < |c| - 1 ==> c[k] != ')'
  }

  /** The text between `(Citation:` and `)`. */
  function Body(c: string): string
    requires MatchShaped(c)
  {
    c[|MatchOpen|..|c| - 1]
  }

  /** A citation the campaign grammar is meant to take: one match whose text
      after the colon holds no further colon and is not blank. */
  predicate GoodCitation(c: string)
  {
    MatchShaped(c) && !Contains(Body(c), ":") && Trim(Body(c)) != ""
  }

  /** Every match has the shape of the pattern. */
  lemma {:induction false} MatchesShaped(s: string)
    ensures forall k :: 0 <= k < |CitationMatches(s)| ==> MatchShaped(CitationMatches(s)[k])
    decreases |s|
  {
    if s != [] {
      match MatchEnd(s)
      case Some(j) =>
        MatchesShaped(s[j + 1..]);
        var c := s[..j + 1];
        assert StartsWith(c, MatchOpen) by { assert c[..|MatchOpen|] == s[..|MatchOpen|]; }
      case None =>
        MatchesShaped(s[1..]);
    }
  }

  /** A match at the front of a text is found whole, and scanning goes on
      right after it. */
  lemma MatchAtFront(c: string, rest: string)
    requires MatchShaped(c)
    ensures MatchEnd(c + rest) == Some(|c| - 1)
    ensures (c + rest)[..|c|] == c && (c + rest)[|c|..] == rest
  {
    var s := c + rest;
    assert s[..|MatchOpen|] == c[..|MatchOpen|];
    assert s[|c| - 1] == ')';
    forall k | |MatchOpen| <= k < |c| - 1 ensures s[k] != ')' {
      assert s[k] == c[k];
    }
    var n := NextClose(s, |MatchOpen|);
    assert n.Some?;
    assert n.value == |c| - 1;
  }

  /** Scanning a text that starts with a match yields that match first. */
  lemma ScanFront(c: string, rest: string)
    requires MatchShaped(c)
    ensures CitationMatches(c + rest) == [c] + CitationMatches(rest)
  {
    MatchAtFront(c, rest);
    var s := c + rest;
    assert s != [];
    assert CitationMatches(s) == [s[..|c|]] + CitationMatches(s[|c|..]);
  }

  /** Putting shaped matches together and matching again gives them back. */
  lemma {:induction false} MatchesOfConcat(cs: seq<string>)
    requires forall k :: 0 <= k < |cs| ==> MatchShaped(cs[k])
    ensures CitationMatches(Concat(cs)) == cs
  {
    if cs != [] {
      var rest := Concat(cs[1..]);
      MatchesOfConcat(cs[1..]);
      ScanFront(cs[0], rest);
    }
  }

  /** A string holding its separator splits into at least two parts. */
  lemma SplitsWhenContains(b: string, sep: string)
    requires |sep| > 0 && Contains(b, sep)
    ensures |Split(b, sep)| >= 2
  {
  }

  /** A string without a character does not contain it. */
  lemma NoCharNoContains(s: string, ch: char)
    requires forall k :: 0 <= k < |s| ==> s[k] != ch
    ensures !Contains(s, [ch])
  {
    forall i | 0 <= i <= |s| ensures !OccursAt(s, [ch], i) {
      if i < |s| {
        assert s[i..i + 1][0] == s[i];
      }
    }
  }

  /** The content between the parentheses of a match. */
  lemma ContentOfMatch(c: string)
    requires MatchShaped(c)
    ensures c[1..|c| - 1] == CitationWord + ":" + Body(c)
  {
    assert c[..|MatchOpen|] == MatchOpen;
  }

  /** A match is a single citation exactly when its text after the colon
      holds no colon and is not blank. */
  lemma SingleIffGood(c: string)
    requires MatchShaped(c)
    ensures IsSingleCitation(c) <==> GoodCitation(c)
  {
    var b := Body(c);
    ContentParts(c);
    CitationWordSolid();
    BodyParts(b);
    if Contains(b, ":") {
      SplitLonger(c, b);
    } else {
      SplitPair(c, b);
    }
  }

  lemma CitationWordSolid()
    ensures Trim(CitationWord) == CitationWord
  {
    TrimSolid(CitationWord);
  }

  lemma SplitPair(c: string, b: string)
    requires |c| >= 2 && c[0] == '(' && c[|c| - 1] == ')'
    requires Split(c[1..|c| - 1], ":") == [CitationWord] + [b]
    requires Trim(CitationWord) == CitationWord
    ensures IsSingleCitation(c) <==> Trim(b) != ""
  {
    assert [CitationWord] + [b] == [CitationWord, b];
  }

  lemma SplitLonger(c: string, b: string)
    requires |c| >= 2
    requires Split(c[1..|c| - 1], ":") == [CitationWord] + Split(b, ":")
    requires |Split(b, ":")| != 1
    ensures !IsSingleCitation(c)
  {
  }

  /** The content of a match splits into `Citation` and the parts of its
      body. */
  lemma ContentParts(c: string)
    requires MatchShaped(c)
    ensures |c| >= 2 && c[0] == '(' && c[|c| - 1] == ')'
    ensures Split(c[1..|c| - 1], ":") == [CitationWord] + Split(Body(c), ":")
  {
    ContentOfMatch(c);
    forall j | 0 <= j < |CitationWord| ensures !OccursAt(CitationWord + ":", ":", j) {
      var w := CitationWord + ":";
      assert w[j..j + 1][0] == w[j] != ':';
    }
    SplitHead(CitationWord, Body(c), ":");
    assert c[0] == '(' by { assert c[..|MatchOpen|] == MatchOpen; }
  }

  /** A body is one part exactly when it holds no colon. */
  lemma BodyParts(b: string)
    ensures |Split(b, ":")| == 1 <==> !Contains(b, ":")
    ensures !Contains(b, ":") ==> Split(b, ":") == [b]
  {
    if Contains(b, ":") {
      SplitsWhenContains(b, ":");
    } else {
      NoOccurrenceSplit(b, ":");
    }
  }

  /** A text is a citation list exactly when it is one or more good
      citations put together with nothing else. */
  lemma CitationListIff(s: string)
    ensures IsCitationList(s) <==> exists cs :: ComposedOf(s, cs)
  {
    var ms := CitationMatches(s);
    MatchesShaped(s);
    if IsCitationList(s) {
      forall k | 0 <= k < |ms| ensures GoodCitation(ms[k]) {
        SingleIffGood(ms[k]);
      }
      assert ComposedOf(s, ms);
    }
    if cs :| ComposedOf(s, cs) {
      MatchesOfConcat(cs);
      forall k | 0 <= k < |cs| ensures IsSingleCitation(cs[k]) {
        SingleIffGood(cs[k]);
      }
    }
  }

  /** `s` is the citations `cs`, at least one, all good, with nothing else. */
  predicate ComposedOf(s: string, cs: seq<string>)
  {
    cs != [] && Concat(cs) == s && forall k :: 0 <= k < |cs| ==> GoodCitation(cs[k])
  }

  /** The empty text is not a citation list. */
  lemma EmptyRefused()
    ensures !IsCitationList("")
  {
  }

  /** Two citations with a comma between them are refused: the comma
      is left over when the matches are put together. */
  lemma SeparatorRefused(a: string, b: string)
    requires MatchShaped(a) && MatchShaped(b)
    ensures CitationMatches(a + ", " + b) == [a, b]
    ensures !IsCitationList(a + ", " + b)
  {
    var rest := ", " + b;
    var s := a + rest;
    assert a + ", " + b == s;
    ScanFront(a, rest);
    SeparatorSkipped(b);
    assert Concat([a, b]) == a + Concat([b]);
    assert |Concat([a, b])| < |s|;
  }

  /** Scanning skips the separator and then finds the citation. */
  lemma SeparatorSkipped(b: string)
    requires MatchShaped(b)
    ensures CitationMatches(", " + b) == [b]
  {
    MatchesOfConcat([b]);
    assert Concat([b]) == b;
    SkipNonOpen(", " + b);
    assert (", " + b)[1..] == " " + b;
    SkipNonOpen(" " + b);
    assert (" " + b)[1..] == b;
  }

  /** A position that does not hold `(` starts no match. */
  lemma SkipNonOpen(s: string)
    requires s != [] && s[0] != '('
    ensures CitationMatches(s) == CitationMatches(s[1..])
  {
    assert !StartsWith(s, MatchOpen);
  }

  /** Citing names in the shared citation form gives a campaign citation
      list whenever no name holds a colon. */
  lemma {:induction false} CitedNamesAccepted(names: seq<string>)
    requires names != []
    requires forall k :: 0 <= k < |names| ==> CitableName(names[k]) && !Contains(names[k], ":")
    ensures IsCitationList(CitationText(names))
  {
    var cs := seq(|names|, i requires 0 <= i < |names| => Cite(names[i]));
    forall k | 0 <= k < |cs| ensures GoodCitation(cs[k]) {
      CiteGood(names[k]);
    }
    CiteConcat(names);
    assert ComposedOf(CitationText(names), cs);
    CitationListIff(CitationText(names));
  }

  lemma {:induction false} CiteConcat(names: seq<string>)
    ensures Concat(seq(|names|, i requires 0 <= i < |names| => Cite(names[i]))) == CitationText(names)
  {
    var cs := seq(|names|, i requires 0 <= i < |names| => Cite(names[i]));
    if names != [] {
      CiteConcat(names[1..]);
      assert cs[1..] == seq(|names[1..]|, i requires 0 <= i < |names[1..]| => Cite(names[1..][i]));
    }
  }

  /** The shared citation of a name without a colon is a good campaign
      citation, whose body is the name after one space. */
  lemma CiteGood(n: string)
    requires CitableName(n) && !Contains(n, ":")
    ensures MatchShaped(Cite(n)) && Body(Cite(n)) == " " + n
    ensures GoodCitation(Cite(n))
  {
    CiteShaped(n);
    TrimAfterSpace(n);
    SpaceNoColon(n);
  }

  lemma SpaceNoColon(n: string)
    requires !Contains(n, ":")
    ensures !Contains(" " + n, ":")
  {
    forall i | 0 <= i <= |" " + n| && OccursAt(" " + n, ":", i) ensures false {
      assert i >= 1;
      assert OccursAt(n, ":", i - 1);
    }
  }

  lemma CiteShaped(n: string)
    requires CitableName(n)
    ensures MatchShaped(Cite(n)) && Body(Cite(n)) == " " + n
  {
    var c := Cite(n);
    assert c == MatchOpen + " " + n + ")";
    assert c[..|MatchOpen|] == MatchOpen;
    forall k | |MatchOpen| < k < |c| - 1 ensures c[k] != ')' {
      assert c[k] == n[k - |MatchOpen| - 1];
    }
  }

  /** The two citation grammars differ both ways: a name holding a colon
      passes the shared format but not the campaign one, and a citation
      with no space after the colon passes the campaign format but not the
      shared one. */
  lemma ColonNameRefused(n: string)
    requires CitableName(n) && Contains(n, ":")
    ensures WellFormedCitations(Cite(n))
    ensures !IsCitationList(Cite(n))
  {
    SharedAcceptsCite(n);
    CiteShaped(n);
    MatchesOfConcat([Cite(n)]);
    assert Concat([Cite(n)]) == Cite(n);
    ColonInBody(n);
    SingleIffGood(Cite(n));
  }

  lemma SharedAcceptsCite(n: string)
    requires CitableName(n)
    ensures WellFormedCitations(Cite(n))
  {
    FirstCitationOfCite(n, "");
    assert Cite(n) + "" == Cite(n);
  }

  lemma ColonInBody(n: string)
    requires CitableName(n) && Contains(n, ":")
    ensures MatchShaped(Cite(n)) && Contains(Body(Cite(n)), ":")
  {
    CiteShaped(n);
    var i :| 0 <= i <= |n| && OccursAt(n, ":", i);
    assert (" " + n)[i + 1..i + 2] == n[i..i + 1];
    assert OccursAt(" " + n, ":", i + 1);
  }

  /** A citation without the space after the colon. */
  const UnspacedText := "(Citation:X)"

  lemma UnspacedAccepted()
    ensures IsCitationList(UnspacedText)
    ensures !WellFormedCitations(UnspacedText)
  {
    UnspacedListed(UnspacedText);
    NoSpaceAfterColon(UnspacedText);
  }

  lemma UnspacedListed(c: string)
    requires c == "(Citation:X)"
    ensures IsCitationList(c)
  {
    UnspacedBody(c);
    NoCharNoContains("X", ':');
    TrimSolid("X");
    assert GoodCitation([c][0]);
    assert Concat([c]) == c;
    assert ComposedOf(c, [c]);
    CitationListIff(c);
  }

  lemma UnspacedBody(c: string)
    requires c == "(Citation:X)"
    ensures MatchShaped(c) && Body(c) == "X"
  {
    assert |MatchOpen| == 10 && c[..10] == MatchOpen;
    assert MatchShaped(c);
    assert c[10..11] == "X";
  }

  lemma NoSpaceAfterColon(c: string)
    requires c == "(Citation:X)"
    ensures !WellFormedCitations(c)
  {
    assert c[..|CitationOpen|][10] == 'X' != CitationOpen[10];
    assert FirstCitation(c) == None;
  }

  //---------------------------------------------------------------------------
  // the campaign schema
  //---------------------------------------------------------------------------

  /** The properties `.extend` adds to or replaces in the ATT&CK base. */
  const CampaignExtension: seq<Field> := [
    Field("id", true, Leaf(v => CreateStixIdentifierSchema("campaign", v))),
    Field("type", true, Leaf(v => TypeValidator("campaign", v))),
    Field("description", true, Description),
    Field("external_references", true, CommonAttackExternalReferences("campaign")),
    Field("x_mitre_domains", true, XMitreDomains),
    Field("x_mitre_modified_by_ref", true, Leaf(CommonModifiedByRef)),
    Field("x_mitre_contributors", false, CommonContributors),
    Field("aliases", true, Aliases),
    Field("first_seen", true, Leaf(StixTimestamp)),
    Field("last_seen", true, Leaf(StixTimestamp)),
    Field("x_mitre_first_seen_citation", true, Leaf(CitationList)),
    Field("x_mitre_last_seen_citation", true, Leaf(CitationList))
  ]

  /** The keys of `.required({...})`: optional in STIX, required here. */
  const CampaignRequired: set<string> := {"created_by_ref", "object_marking_refs", "revoked"}

  /** The extension's own required properties. */
  const ExtensionRequired: set<string> := {
    "id", "type", "description", "external_references", "x_mitre_domains", "x_mitre_modified_by_ref",
    "aliases", "first_seen", "last_seen", "x_mitre_first_seen_citation", "x_mitre_last_seen_citation"
  }

  function CampaignFields(): seq<Field>
  {
    ExtendRequire(AttackBaseFields, CampaignExtension, CampaignRequired)
  }

  /** The strict object before the refinement. */
  const CampaignShape: Kind := Object(CampaignFields(), Strict)

  /** `.check(...)`: the first-alias check on `aliases`, then the two
      citation checks. */
  function CampaignRule(v: Json): seq<Issue>
  {
    FirstAliasRule("aliases", v) + CitationsRule(v)
  }

  /** `campaignSchema` */
  const CampaignObject: Kind := Refined(CampaignShape, CampaignRule)

  /** The refinement passes exactly when a non-empty alias list starts with
      the name, and each citation property that is a non-empty string is in
      the shared citation format and cites only source names of the
      references. */
  lemma CampaignRuleAccepts(v: Json)
    ensures CampaignRule(v) == [] <==>
      (forall a :: Get(v, "aliases") == Some(JArr(a)) && |a| > 0 ==> Some(a[0]) == Get(v, "name"))
      && CitationsResolved(v, "x_mitre_first_seen_citation")
      && CitationsResolved(v, "x_mitre_last_seen_citation")
  {
    var r := FirstAliasRule("aliases", v);
    if Get(v, "aliases").Some? && Get(v, "aliases").value.JArr? {
      var a := Get(v, "aliases").value.items;
      assert r == [] <==> |a| == 0 || Some(a[0]) == Get(v, "name");
    }
  }

  /** A citation property that is a non-empty string is well formed and
      cites only names the references carry. */
  predicate CitationsResolved(v: Json, field: string)
  {
    match GetString(v, field)
    case Some(s) => s == "" || (WellFormedCitations(s) && forall n :: n in CitationNames(s) ==> SourceCited(References(v), n))
    case None => true
  }

  /** Names and required keys of the tables, apart from the composed one. */
  lemma ExtensionFacts()
    ensures DistinctNames(CampaignExtension)
    ensures ExtensionRequired <= RequiredNames(CampaignExtension)
    ensures CampaignRequired <= Schema.Names(AttackBaseFields) + Schema.Names(CampaignExtension)
  {
    var e := CampaignExtension;
    ExtensionDistinct();
    assert e[0].required && e[1].required && e[2].required && e[3].required && e[4].required && e[5].required;
    assert e[7].required && e[8].required && e[9].required && e[10].required && e[11].required;
    NamesConcat(BaseFields, AttackBaseExtension);
    var b := BaseFields;
    assert b[5].name == "created_by_ref" && b[7].name == "revoked" && b[11].name == "object_marking_refs";
  }

  /** The extension declares each name once. */
  lemma ExtensionDistinct()
    ensures DistinctNames(CampaignExtension)
  {
    var e := CampaignExtension;
    assert |e[0].name| == 2 && |e[1].name| == 4 && |e[2].name| == 11 && |e[3].name| == 19;
    assert |e[4].name| == 15 && |e[5].name| == 23 && |e[6].name| == 20 && |e[7].name| == 7;
    assert |e[8].name| == 10 && |e[9].name| == 9 && |e[10].name| == 27 && |e[11].name| == 26;
  }

  /** Every accepted campaign holds all its required properties. */
  lemma CampaignPresent(m: map<string, Json>)
    requires Accepts(CampaignShape, JObj(m))
    ensures CampaignRequired + ExtensionRequired <= m.Keys
  {
    ExtensionFacts();
    ExtendedRequiredAll(AttackBaseFields, CampaignExtension, CampaignRequired, Strict, m);
    ExtensionRequiredAll(AttackBaseFields, CampaignExtension, CampaignRequired, Strict, m);
  }

  /** A property the extension declares holds a value its declaration
      accepts. */
  lemma ExtensionAccepted(m: map<string, Json>, j: nat)
    requires Accepts(CampaignShape, JObj(m))
    requires j < |CampaignExtension| && CampaignExtension[j].name in m
    ensures Accepts(CampaignExtension[j].kind, m[CampaignExtension[j].name])
  {
    ExtensionDistinct();
    LookupDistinct(CampaignExtension, j);
    ExtendedValue(AttackBaseFields, CampaignExtension, CampaignRequired, Strict, m, CampaignExtension[j].name);
  }

  /** An accepted campaign holds the required properties and no undeclared
      one; its first-seen and last-seen times are STIX timestamps and its
      two citation properties are campaign citation lists; and the parsed
      object passes the alias and citation checks. */
  lemma CampaignAccepted(m: map<string, Json>)
    requires Accepts(CampaignObject, JObj(m))
    ensures CampaignRequired + ExtensionRequired <= m.Keys
    ensures m.Keys <= Schema.Names(AttackBaseFields) + Schema.Names(CampaignExtension)
    ensures m["first_seen"].JStr? && IsStixTimestamp(m["first_seen"].s)
    ensures m["last_seen"].JStr? && IsStixTimestamp(m["last_seen"].s)
    ensures m["x_mitre_first_seen_citation"].JStr? && IsCitationList(m["x_mitre_first_seen_citation"].s)
    ensures m["x_mitre_last_seen_citation"].JStr? && IsCitationList(m["x_mitre_last_seen_citation"].s)
    ensures RuleHolds(m)
  {
    RefinedAccepts(CampaignShape, CampaignRule, JObj(m));
    ShapeAccepted(m);
  }

  /** The refinement passes on the parsed campaign. */
  predicate RuleHolds(m: map<string, Json>)
  {
    var r := CheckValue(CampaignShape, JObj(m));
    r.Ok? && CampaignRule(r.value) == []
  }

  lemma ShapeAccepted(m: map<string, Json>)
    requires Accepts(CampaignShape, JObj(m))
    ensures CampaignRequired + ExtensionRequired <= m.Keys
    ensures m.Keys <= Schema.Names(AttackBaseFields) + Schema.Names(CampaignExtension)
    ensures m["first_seen"].JStr? && IsStixTimestamp(m["first_seen"].s)
    ensures m["last_seen"].JStr? && IsStixTimestamp(m["last_seen"].s)
    ensures m["x_mitre_first_seen_citation"].JStr? && IsCitationList(m["x_mitre_first_seen_citation"].s)
    ensures m["x_mitre_last_seen_citation"].JStr? && IsCitationList(m["x_mitre_last_seen_citation"].s)
  {
    CampaignPresent(m);
    ExtendedStrict(AttackBaseFields, CampaignExtension, CampaignRequired, m);
    SeenAccepted(m, "first_seen");
    SeenAccepted(m, "last_seen");
    CitationsAccepted(m);
  }

  /** The declarations of the two times. */
  lemma SeenKinds(n: string)
    requires n == "first_seen" || n == "last_seen"
    ensures Lookup(CampaignExtension, n) == Some(Field(n, true, Leaf(StixTimestamp)))
  {
    ExtensionDistinct();
    if n == "first_seen" {
      LookupDistinct(CampaignExtension, 8);
    } else {
      LookupDistinct(CampaignExtension, 9);
    }
  }

  lemma SeenAccepted(m: map<string, Json>, n: string)
    requires Accepts(CampaignShape, JObj(m)) && n in m
    requires n == "first_seen" || n == "last_seen"
    ensures m[n].JStr? && IsStixTimestamp(m[n].s)
  {
    SeenKinds(n);
    ExtendedValue(AttackBaseFields, CampaignExtension, CampaignRequired, Strict, m, n);
    TimestampAccepted(m[n]);
  }

  lemma TimestampAccepted(x: Json)
    requires Accepts(Leaf(StixTimestamp), x)
    ensures x.JStr? && IsStixTimestamp(x.s)
  {
  }

  lemma CitationsAccepted(m: map<string, Json>)
    requires Accepts(CampaignShape, JObj(m)) && "x_mitre_first_seen_citation" in m && "x_mitre_last_seen_citation" in m
    ensures m["x_mitre_first_seen_citation"].JStr? && IsCitationList(m["x_mitre_first_seen_citation"].s)
    ensures m["x_mitre_last_seen_citation"].JStr? && IsCitationList(m["x_mitre_last_seen_citation"].s)
  {
    CitationAccepted(m, "x_mitre_first_seen_citation");
    CitationAccepted(m, "x_mitre_last_seen_citation");
  }

  /** The declarations of the two citations. */
  lemma CitationKinds(n: string)
    requires n == "x_mitre_first_seen_citation" || n == "x_mitre_last_seen_citation"
    ensures Lookup(CampaignExtension, n) == Some(Field(n, true, Leaf(CitationList)))
  {
    ExtensionDistinct();
    if n == "x_mitre_first_seen_citation" {
      LookupDistinct(CampaignExtension, 10);
    } else {
      LookupDistinct(CampaignExtension, 11);
    }
  }

  lemma CitationAccepted(m: map<string, Json>, n: string)
    requires Accepts(CampaignShape, JObj(m)) && n in m
    requires n == "x_mitre_first_seen_citation" || n == "x_mitre_last_seen_citation"
    ensures m[n].JStr? && IsCitationList(m[n].s)
  {
    CitationKinds(n);
    ExtendedValue(AttackBaseFields, CampaignExtension, CampaignRequired, Strict, m, n);
    CitationListAccepted(m[n]);
  }

  lemma CitationListAccepted(x: Json)
    requires Accepts(Leaf(CitationList), x)
    ensures x.JStr? && IsCitationList(x.s)
  {
  }
}

=== FILE: campaign_builder.dfy ===
/** The campaign builder of the pydantic package
    (pydantic/attack_model/builders/campaign_builder.py): a dictionary of
    campaign properties changed by chaining setters and by operations on
    its list of external references. The builder is a value here: each
    operation returns the builder it leaves behind. The campaign model it
    imports (pydantic/attack_model/models/campaign.py) is not part of this
    model; the builder is bound to `PyCampaign` instead. */
module CampaignBuilder {
  import opened Wrappers
  import opened JsonValues
  import PyCampaign

  datatype Builder = Builder(info: map<string, Json>)

  /** The exceptions the operations let escape. */
  datatype BuilderError =
    | KeyError(key: string)
    | IndexError
    | TypeError(reason: string)
    | AttributeError(reason: string)
    | ValueError(message: string)

  const RefsKey := "external_references"

  /** `reset`: a fresh campaign stamped with the two readings of the clock,
      `now1` for `created` and `now2` for `modified` (`datetime.now()` is
      called once for each). */
  function Reset(now1: Json, now2: Json): (b: Builder)
    ensures b.info.Keys == {"type", "id", "created", "modified", "spec_version"}
    ensures b.info["type"] == JStr("campaign") && b.info["spec_version"] == JStr("2.1")
    ensures b.info["id"] == JStr("")
    ensures b.info["created"] == now1 && b.info["modified"] == now2
  {
    Builder(map["type" := JStr("campaign"), "id" := JStr(""), "created" := now1,
                "modified" := now2, "spec_version" := JStr("2.1")])
  }

  /** What `from_campaign` can be given: a campaign (by the dictionary its
      `dict()` gives), a dictionary, or anything else. */
  datatype Source = FromModel(dumped: map<string, Json>) | FromDict(dict: map<string, Json>) | FromOther(value: Json)

  /** The constructor: a campaign's dictionary, or a fresh state. */
  function New(campaign: Option<map<string, Json>>, now1: Json, now2: Json): (b: Builder)
    ensures campaign.Some? ==> b.info == campaign.value
    ensures campaign.None? ==> b == Reset(now1, now2)
  {
    match campaign
    case Some(d) => Builder(d)
    case None => Reset(now1, now2)
  }

  /** `from_campaign`: the state is replaced by the given dictionary; other
      values are refused. */
  function FromCampaign(b: Builder, source: Source): (r: Result<Builder, BuilderError>)
    ensures source.FromOther? <==> r.Err?
    ensures r.Err? ==> r.error == ValueError("Input must be an AttackCampaign instance or a dictionary")
    ensures source.FromModel? ==> r == Ok(Builder(source.dumped))
    ensures source.FromDict? ==> r == Ok(Builder(source.dict))
  {
    match source
    case FromModel(d) => Ok(Builder(d))
    case FromDict(d) => Ok(Builder(d))
    case FromOther(_) => Err(ValueError("Input must be an AttackCampaign instance or a dictionary"))
  }

  //---------------------------------------------------------------------------
  // Setters
  //---------------------------------------------------------------------------

  datatype Setter =
    | SetId | SetName | SetDescription | SetAttackSpecVersion | SetCreatedByRef | SetRevoked
    | SetExternalReferences | SetObjectMarkingRefs | SetAliases | SetFirstSeen | SetLastSeen
    | SetFirstSeenCitation | SetLastSeenCitation | SetModifiedByRef | SetDeprecated | SetDomains
    | SetContributors

  /** The property each setter writes. */
  function SetterKey(s: Setter): string
  {
    match s
    case SetId => "id"
    case SetName => "name"
    case SetDescription => "description"
    case SetAttackSpecVersion => "x_mitre_attack_spec_version"
    case SetCreatedByRef => "created_by_ref"
    case SetRevoked => "revoked"
    case SetExternalReferences => "external_references"
    case SetObjectMarkingRefs => "object_marking_refs"
    case SetAliases => "aliases"
    case SetFirstSeen => "first_seen"
    case SetLastSeen => "last_seen"
    case SetFirstSeenCitation => "x_mitre_first_seen_citation"
    case SetLastSeenCitation => "x_mitre_last_seen_citation"
    case SetModifiedByRef => "x_mitre_modified_by_ref"
    case SetDeprecated => "x_mitre_deprecated"
    case SetDomains => "x_mitre_domains"
    case SetContributors => "x_mitre_contributors"
  }

  /** A setter stores its value under its property and returns the builder
      for the next call. */
  function Set(b: Builder, s: Setter, v: Json): (r: Builder)
    ensures SetterKey(s) in r.info && r.info[SetterKey(s)] == v
    ensures r.info.Keys == b.info.Keys + {SetterKey(s)}
    ensures forall k :: k in b.info && k != SetterKey(s) ==> r.info[k] == b.info[k]
  {
    Builder(b.info[SetterKey(s) := v])
  }

  /** A chain of setter calls, left to right. */
  function Chain(b: Builder, calls: seq<(Setter, Json)>): Builder
    decreases |calls|
  {
    if calls == [] then b else Chain(Set(b, calls[0].0, calls[0].1), calls[1..])
  }

  /** The value of the last call in `calls` that writes `k`, if any. */
  function LastWrite(calls: seq<(Setter, Json)>, k: string): Option<Json>
    decreases |calls|
  {
    if calls == [] then None
    else if LastWrite(calls[1..], k).Some? then LastWrite(calls[1..], k)
    else if SetterKey(calls[0].0) == k then Some(calls[0].1)
    else None
  }

  /** After a chain, each property holds its last written value, and the
      properties no call writes keep theirs. */
  lemma {:induction false} ChainLastWins(b: Builder, calls: seq<(Setter, Json)>, k: string)
    ensures k in Chain(b, calls).info <==> k in b.info || LastWrite(calls, k).Some?
    ensures LastWrite(calls, k).Some? ==> Chain(b, calls).info[k] == LastWrite(calls, k).value
    ensures LastWrite(calls, k).None? && k in b.info ==> Chain(b, calls).info[k] == b.info[k]
    decreases |calls|
  {
    if calls != [] {
      ChainLastWins(Set(b, calls[0].0, calls[0].1), calls[1..], k);
    }
  }

  /** The last write is made by some call for that property, and none
      exists when no call writes it. */
  lemma {:induction false} LastWriteFromCall(calls: seq<(Setter, Json)>, k: string)
    ensures LastWrite(calls, k).Some? <==> exists j :: 0 <= j < |calls| && SetterKey(calls[j].0) == k
    ensures LastWrite(calls, k).Some? ==>
      exists j :: 0 <= j < |calls| && SetterKey(calls[j].0) == k && calls[j].1 == LastWrite(calls, k).value
    decreases |calls|
  {
    if calls != [] {
      LastWriteFromCall(calls[1..], k);
      assert forall j :: 1 <= j < |calls| ==> calls[j] == calls[1..][j - 1];
      if LastWrite(calls[1..], k).Some? {
        var j :| 0 <= j < |calls[1..]| && SetterKey(calls[1..][j].0) == k && calls[1..][j].1 == LastWrite(calls, k).value;
        assert calls[j + 1] == calls[1..][j];
      }
    }
  }

  /** The setter that writes a property. */
  function SetterFor(key: string): Option<Setter>
  {
    if key == "id" then Some(SetId)
    else if key == "name" then Some(SetName)
    else if key == "description" then Some(SetDescription)
    else if key == "x_mitre_attack_spec_version" then Some(SetAttackSpecVersion)
    else if key == "created_by_ref" then Some(SetCreatedByRef)
    else if key == "revoked" then Some(SetRevoked)
    else if key == "external_references" then Some(SetExternalReferences)
    else if key == "object_marking_refs" then Some(SetObjectMarkingRefs)
    else if key == "aliases" then Some(SetAliases)
    else if key == "first_seen" then Some(SetFirstSeen)
    else if key == "last_seen" then Some(SetLastSeen)
    else if key == "x_mitre_first_seen_citation" then Some(SetFirstSeenCitation)
    else if key == "x_mitre_last_seen_citation" then Some(SetLastSeenCitation)
    else if key == "x_mitre_modified_by_ref" then Some(SetModifiedByRef)
    else if key == "x_mitre_deprecated" then Some(SetDeprecated)
    else if key == "x_mitre_domains" then Some(SetDomains)
    else if key == "x_mitre_contributors" then Some(SetContributors)
    else None
  }

  /** Each property is written by exactly one setter, so no two setters
      write the same property. */
  lemma SetterKeysDistinct(s: Setter, t: Setter)
    ensures SetterFor(SetterKey(s)) == Some(s)
    ensures SetterKey(s) == SetterKey(t) <==> s == t
  {
    SetterForKey(s);
    SetterForKey(t);
  }

  lemma SetterForKey(s: Setter)
    ensures SetterFor(SetterKey(s)) == Some(s)
  {
  }

  //---------------------------------------------------------------------------
  // External references
  //---------------------------------------------------------------------------

  function OrNone(v: Option<string>): Json { if v.Some? then JStr(v.value) else JNull }

  /** The reference `add_external_reference` builds: always the four keys. */
  function NewReference(sourceName: string, description: Option<string>, externalId: Option<string>,
                        url: Option<string>): (ref: Json)
    ensures ref.JObj? && ref.fields.Keys == {"source_name", "description", "external_id", "url"}
    ensures ref.fields["source_name"] == JStr(sourceName)
  {
    JObj(map["source_name" := JStr(sourceName), "description" := OrNone(description),
             "external_id" := OrNone(externalId), "url" := OrNone(url)])
  }

  /** The list held under "external_references", if it is a list. */
  function Refs(b: Builder): Option<seq<Json>>
  {
    if RefsKey in b.info && b.info[RefsKey].JArr? then Some(b.info[RefsKey].items) else None
  }

  function WithRefs(b: Builder, items: seq<Json>): (r: Builder)
    ensures Refs(r) == Some(items) && r.info.Keys == b.info.Keys + {RefsKey}
  {
    Builder(b.info[RefsKey := JArr(items)])
  }

  /** `add_external_reference`: a missing or None list is created first;
      a value without `append` raises. */
  function AddExternalReference(b: Builder, sourceName: string, description: Option<string>,
                                externalId: Option<string>, url: Option<string>): (r: Result<Builder, BuilderError>)
    ensures r.Ok? <==> RefsKey !in b.info || b.info[RefsKey] == JNull || b.info[RefsKey].JArr?
    ensures r.Ok? ==> Refs(r.value) == Some(
      (if Refs(b).Some? then Refs(b).value else []) + [NewReference(sourceName, description, externalId, url)])
    ensures r.Ok? ==> forall k :: k in b.info && k != RefsKey ==> k in r.value.info && r.value.info[k] == b.info[k]
  {
    var ref := NewReference(sourceName, description, externalId, url);
    if RefsKey !in b.info || b.info[RefsKey] == JNull then (assert [] + [ref] == [ref]; Ok(WithRefs(b, [ref])))
    else if b.info[RefsKey].JArr? then Ok(WithRefs(b, b.info[RefsKey].items + [ref]))
    else Err(AttributeError("object has no attribute 'append'"))
  }

  /** `add_external_references_bulk`: a missing list is created first; a
      None list, or any value without `extend`, raises. */
  function AddExternalReferencesBulk(b: Builder, refs: seq<Json>): (r: Result<Builder, BuilderError>)
    ensures r.Ok? <==> RefsKey !in b.info || b.info[RefsKey].JArr?
    ensures r.Ok? ==> Refs(r.value) == Some((if Refs(b).Some? then Refs(b).value else []) + refs)
    ensures r.Ok? ==> forall k :: k in b.info && k != RefsKey ==> k in r.value.info && r.value.info[k] == b.info[k]
  {
    if RefsKey !in b.info then (assert [] + refs == refs; Ok(WithRefs(b, refs)))
    else if b.info[RefsKey].JArr? then Ok(WithRefs(b, b.info[RefsKey].items + refs))
    else Err(AttributeError("object has no attribute 'extend'"))
  }

  /** Two bulk additions are one with both lists, in order. */
  lemma BulkComposes(b: Builder, xs: seq<Json>, ys: seq<Json>)
    requires AddExternalReferencesBulk(b, xs).Ok?
    ensures AddExternalReferencesBulk(AddExternalReferencesBulk(b, xs).value, ys)
      == AddExternalReferencesBulk(b, xs + ys)
  {
    var b1 := AddExternalReferencesBulk(b, xs).value;
    if RefsKey in b.info {
      assert b.info[RefsKey].items + xs + ys == b.info[RefsKey].items + (xs + ys);
    }
    assert b1.info[RefsKey := JArr(b1.info[RefsKey].items + ys)] == b.info[RefsKey := JArr(b1.info[RefsKey].items + ys)];
  }

  /** Unlike the single addition, the bulk addition does not replace a None
      list: it raises. */
  lemma NoneListDiffers(b: Builder, sourceName: string)
    requires RefsKey in b.info && b.info[RefsKey] == JNull
    ensures AddExternalReference(b, sourceName, None, None, None).Ok?
    ensures AddExternalReferencesBulk(b, [NewReference(sourceName, None, None, None)]).Err?
  {
  }

  /** Python's `seq[index]` position: a negative index counts from the
      end; out of range either way, there is none. */
  function PyPosition(n: nat, index: int): Option<nat>
    ensures PyPosition(n, index).Some? ==> PyPosition(n, index).value < n
  {
    if 0 <= index < n then Some(index as nat)
    else if -(n as int) <= index < 0 then Some((n + index) as nat)
    else None
  }

  /** `len(v)` for the values that have one. */
  function PyLen(v: Json): Option<nat>
  {
    match v
    case JArr(items) => Some(|items|)
    case JStr(s) => Some(|s|)
    case JObj(fields) => Some(|fields|)
    case _ => None
  }

  /** The list without the item at position `p`. */
  function Without(items: seq<Json>, p: nat): (r: seq<Json>)
    requires p < |items|
    ensures |r| == |items| - 1
  {
    items[..p] + items[p + 1..]
  }

  /** `remove_external_reference` as written: the guard `index < len` lets
      every negative index through, and `del` then counts from the end or
      raises. */
  function RemoveAsWritten(b: Builder, index: int): (r: Result<Builder, BuilderError>)
    ensures r.Ok? ==> r.value.info.Keys == b.info.Keys
    ensures r.Ok? && r.value != b ==> Refs(b).Some? && Refs(r.value).Some? && |Refs(r.value).value| == |Refs(b).value| - 1
  {
    if RefsKey !in b.info then Err(KeyError(RefsKey))
    else
      var v := b.info[RefsKey];
      match PyLen(v)
      case None => Err(TypeError("object has no len()"))
      case Some(n) =>
        if !(index < n) then Ok(b)
        else if !v.JArr? then (if v.JObj? then Err(KeyError("0")) else Err(TypeError("object doesn't support item deletion")))
        else match PyPosition(n, index)
          case None => Err(IndexError)
          case Some(p) => Ok(WithRefs(b, Without(v.items, p)))
  }

  /** The removal as its guard means it: only a position inside the list
      removes anything. */
  function Remove(b: Builder, index: int): (r: Result<Builder, BuilderError>)
    ensures Refs(b).Some? ==> r.Ok?
    ensures Refs(b).Some? && 0 <= index < |Refs(b).value| ==>
      Refs(r.value) == Some(Without(Refs(b).value, index))
    ensures Refs(b).Some? && !(0 <= index < |Refs(b).value|) ==> r == Ok(b)
  {
    match Refs(b)
    case None => if RefsKey !in b.info then Err(KeyError(RefsKey)) else Err(TypeError("not a list"))
    case Some(items) => if 0 <= index < |items| then Ok(WithRefs(b, Without(items, index))) else Ok(b)
  }

  /** The two agree on every index that is not negative. */
  lemma RemoveAgrees(b: Builder, index: int)
    requires Refs(b).Some? && index >= 0
    ensures RemoveAsWritten(b, index) == Remove(b, index)
  {
  }

  /** As written, index -1 removes the last reference, and an index below
      minus the length raises although the guard was meant to stop it. */
  lemma RemoveNegativeIndex(b: Builder)
    requires Refs(b).Some? && |Refs(b).value| >= 1
    ensures var items := Refs(b).value;
      RemoveAsWritten(b, -1) == Ok(WithRefs(b, items[..|items| - 1]))
      && Remove(b, -1) == Ok(b)
      && RemoveAsWritten(b, -|items| - 1) == Err(IndexError)
      && Remove(b, -|items| - 1) == Ok(b)
  {
    var items := Refs(b).value;
    assert Without(items, |items| - 1) == items[..|items| - 1];
  }

  /** Adding a reference and removing it at its position gives back the
      builder it started from. */
  lemma AddThenRemove(b: Builder, sourceName: string, description: Option<string>,
                      externalId: Option<string>, url: Option<string>)
    requires Refs(b).Some?
    ensures var added := AddExternalReference(b, sourceName, description, externalId, url);
      added.Ok? && Remove(added.value, |Refs(b).value|) == Ok(b)
  {
    var items := Refs(b).value;
    var added := AddExternalReference(b, sourceName, description, externalId, url).value;
    var ref := NewReference(sourceName, description, externalId, url);
    assert Without(items + [ref], |items|) == items;
    assert added.info[RefsKey := JArr(items)] == b.info[RefsKey := JArr(items)];
    assert b.info[RefsKey := JArr(items)] == b.info;
  }

  /** The fields of `entry` after `kwargs` are written into it. */
  function Updated(entry: map<string, Json>, kwargs: map<string, Json>): map<string, Json>
  {
    map k | k in entry.Keys + kwargs.Keys :: if k in kwargs then kwargs[k] else entry[k]
  }

  /** `update_external_reference` as written: the same guard, Python
      indexing, and nothing read when no keyword is given. */
  function UpdateAsWritten(b: Builder, index: int, kwargs: map<string, Json>): (r: Result<Builder, BuilderError>)
    ensures r.Ok? ==> r.value.info.Keys == b.info.Keys
    ensures r.Ok? && r.value != b ==> Refs(b).Some? && Refs(r.value).Some? && |Refs(r.value).value| == |Refs(b).value|
  {
    if RefsKey !in b.info then Err(KeyError(RefsKey))
    else
      var v := b.info[RefsKey];
      match PyLen(v)
      case None => Err(TypeError("object has no len()"))
      case Some(n) =>
        if !(index < n) || kwargs == map[] then Ok(b)
        else if !v.JArr? then (if v.JObj? then Err(KeyError("0")) else Err(TypeError("object does not support item assignment")))
        else match PyPosition(n, index)
          case None => Err(IndexError)
          case Some(p) =>
            if !v.items[p].JObj? then Err(TypeError("object does not support item assignment"))
            else Ok(WithRefs(b, v.items[p := JObj(Updated(v.items[p].fields, kwargs))]))
  }

  /** The update as its guard means it: only a position inside the list. */
  function Update(b: Builder, index: int, kwargs: map<string, Json>): (r: Result<Builder, BuilderError>)
    ensures Refs(b).Some? && !(0 <= index < |Refs(b).value|) ==> r == Ok(b)
  {
    match Refs(b)
    case None => if RefsKey !in b.info then Err(KeyError(RefsKey)) else Err(TypeError("not a list"))
    case Some(items) =>
      if !(0 <= index < |items|) || kwargs == map[] then Ok(b)
      else if !items[index].JObj? then Err(TypeError("object does not support item assignment"))
      else Ok(WithRefs(b, items[index := JObj(Updated(items[index].fields, kwargs))]))
  }

  /** An update changes only the given keys of the one reference at the
      index: its other keys and every other reference stay as they were. */
  lemma UpdateOnlyGivenKeys(b: Builder, index: int, kwargs: map<string, Json>)
    requires Refs(b).Some? && 0 <= index < |Refs(b).value| && Refs(b).value[index].JObj? && kwargs != map[]
    ensures var r := Update(b, index, kwargs);
      r.Ok? && Refs(r.value).Some? && |Refs(r.value).value| == |Refs(b).value|
      && (forall j :: 0 <= j < |Refs(b).value| && j != index ==> Refs(r.value).value[j] == Refs(b).value[j])
      && Refs(r.value).value[index].JObj?
      && (forall k :: k in kwargs ==> k in Refs(r.value).value[index].fields && Refs(r.value).value[index].fields[k] == kwargs[k])
      && (forall k :: k in Refs(b).value[index].fields && k !in kwargs ==>
            k in Refs(r.value).value[index].fields && Refs(r.value).value[index].fields[k] == Refs(b).value[index].fields[k])
  {
  }

  /** The two updates agree on every index that is not negative. */
  lemma UpdateAgrees(b: Builder, index: int, kwargs: map<string, Json>)
    requires Refs(b).Some? && index >= 0
    ensures UpdateAsWritten(b, index, kwargs) == Update(b, index, kwargs)
  {
  }

  /** As written, index -1 updates the last reference; the guard was meant
      to leave the list alone. */
  lemma UpdateNegativeIndex(b: Builder, kwargs: map<string, Json>)
    requires Refs(b).Some? && |Refs(b).value| >= 1 && kwargs != map[]
    requires Refs(b).value[|Refs(b).value| - 1].JObj?
    ensures var items := Refs(b).value;
      var last := |items| - 1;
      UpdateAsWritten(b, -1, kwargs)
        == Ok(WithRefs(b, items[last := JObj(Updated(items[last].fields, kwargs))]))
      && Update(b, -1, kwargs) == Ok(b)
  {
  }

  //---------------------------------------------------------------------------
  // clone and validate
  //---------------------------------------------------------------------------

  /** `clone`: a fresh builder, whose `reset` reads the clock twice, then
      given a deep copy of the state; the readings do not survive. */
  function Clone(b: Builder, now1: Json, now2: Json): (c: Builder)
    ensures c == b
  {
    var blank := New(None, now1, now2);
    blank.(info := b.info)
  }

  /** Whatever the clock reads, a clone validates as its original does, and
      editing it leaves the original as it was. */
  lemma CloneIndependent(b: Builder, now1: Json, now2: Json, s: Setter, v: Json,
                         inherited: seq<PyCampaign.CampaignError>, c: PyCampaign.Checkers,
                         clock: string -> Json, render: seq<PyCampaign.CampaignError> -> string)
    ensures Validate(Clone(b, now1, now2), inherited, c, clock, render) == Validate(b, inherited, c, clock, render)
    ensures Set(Clone(b, now1, now2), s, v).info[SetterKey(s)] == v
    ensures Clone(b, now1, now2).info == b.info
  {
  }

  const ValidMessage := "Validation successful. The campaign_info is ready for building."

  /** `validate`: the campaign model applied to the state. A validation
      error becomes `(False, "Validation failed: " + its text)`, `render`
      being pydantic's text for a list of errors; other exceptions escape. */
  function Validate(b: Builder, inherited: seq<PyCampaign.CampaignError>, c: PyCampaign.Checkers,
                    clock: string -> Json, render: seq<PyCampaign.CampaignError> -> string)
    : (r: Result<(bool, string), PyCampaign.CampaignError>)
    ensures r.Ok? && r.value.0 <==> PyCampaign.Validate(b.info, inherited, c, clock).Ok?
    ensures r.Ok? && r.value.0 ==> r.value.1 == ValidMessage
    ensures r.Ok? && !r.value.0 ==>
      var errs := PyCampaign.Validate(b.info, inherited, c, clock).error;
      r.value.1 == "Validation failed: " + render(errs) && !(|errs| == 1 && errs[0].Crash?)
    ensures r.Err? ==> r.error.Crash? && PyCampaign.Validate(b.info, inherited, c, clock) == Err([r.error])
  {
    match PyCampaign.Validate(b.info, inherited, c, clock)
    case Ok(_) => Ok((true, ValidMessage))
    case Err(errs) =>
      if |errs| == 1 && errs[0].Crash? then assert errs == [errs[0]]; Err(errs[0])
      else Ok((false, "Validation failed: " + render(errs)))
  }
}

=== FILE: collection.dfy ===
/** The collection object (src/schemas/sdo/collection.schema.ts): the
    ATT&CK base extended with the list of object versions a release
    contains. */
module Collection {
  import opened Wrappers
  import opened JsonValues
  import opened Schema
  import opened Generics
  import opened StixTypes
  import opened StixIdentifier
  import opened CommonProperties
  import opened Timestamps
  import opened StixCore
  import opened AttackBase

  const ObjectVersionFields: seq<Field> := [
    Field("object_ref", true, Leaf(StixIdentifierSchema)),
    Field("object_modified", true, Leaf(StixTimestamp))
  ]

  /** `objectVersionReferenceSchema`: not strict, so other keys are
      stripped. */
  const ObjectVersionRef: Kind := Object(ObjectVersionFields, Strip)

  /** `xMitreContentsSchema`: at least one reference. */
  const Contents: Kind := ArrayOf(ObjectVersionRef, 1, None)

  /** A STIX identifier and a STIX timestamp. */
  predicate ObjectVersionOk(x: Json)
  {
    x.JObj?
    && "object_ref" in x.fields && StixIdentifierSchema(x.fields["object_ref"]).Ok?
    && "object_modified" in x.fields && StixTimestamp(x.fields["object_modified"]).Ok?
  }

  lemma ObjectVersionAccepts(x: Json)
    ensures Accepts(ObjectVersionRef, x) <==> ObjectVersionOk(x)
  {
    if x.JObj? {
      var e := ObjectVersionFields;
      ObjectAccepts(e, Strip, x.fields);
      if FieldOk(e[0], x.fields) && FieldOk(e[1], x.fields) {
        forall j | 0 <= j < |e| ensures FieldOk(e[j], x.fields) {
          assert j in {0, 1};
        }
      }
    }
  }

  /** The contents are accepted exactly when there is at least one entry
      and every entry references an object version. */
  lemma ContentsAccepts(x: Json)
    ensures Accepts(Contents, x) <==>
            x.JArr? && |x.items| >= 1 && forall j :: 0 <= j < |x.items| ==> ObjectVersionOk(x.items[j])
  {
    if x.JArr? {
      ArrayAccepts(ObjectVersionRef, 1, None, x.items);
      forall j | 0 <= j < |x.items| ensures Accepts(ObjectVersionRef, x.items[j]) <==> ObjectVersionOk(x.items[j]) {
        ObjectVersionAccepts(x.items[j]);
      }
    }
  }

  const CollectionExtension: seq<Field> := [
    Field("id", true, Leaf(v => CreateStixIdentifierSchema("x-mitre-collection", v))),
    Field("type", true, Leaf(v => TypeValidator("x-mitre-collection", v))),
    Field("created_by_ref", true, Leaf(CreatedByRef)),
    Field("object_marking_refs", true, CommonObjectMarkingRefs),
    Field("description", true, Description),
    Field("x_mitre_contents", true, Contents)
  ]

  const ExtensionRequired: set<string> := {"id", "type", "created_by_ref", "object_marking_refs", "description", "x_mitre_contents"}

  function CollectionFields(): seq<Field>
  {
    ExtendRequire(AttackBaseFields, CollectionExtension, {})
  }

  const CollectionShape: Kind := Object(CollectionFields(), Strict)

  const EmptyContentsMessage := "At least one STIX object reference is required"

  /** The superRefine: an issue when the parsed contents are empty. */
  function EmptyContentsRule(v: Json): (issues: seq<Issue>)
    ensures issues == [] <==> !(Get(v, "x_mitre_contents").Some? && Get(v, "x_mitre_contents").value.JArr?
                                && |Get(v, "x_mitre_contents").value.items| < 1)
  {
    match Get(v, "x_mitre_contents")
    case Some(JArr(items)) =>
      if |items| < 1 then [Issue([Key("x_mitre_contents")], EmptyContentsMessage)] else []
    case _ => []
  }

  /** `collectionSchema` */
  const CollectionObject: Kind := Refined(CollectionShape, EmptyContentsRule)

  lemma ExtensionRequiredNames()
    ensures DistinctNames(CollectionExtension)
    ensures RequiredNames(CollectionExtension) == ExtensionRequired
  {
    var e := CollectionExtension;
    assert e[0].name == "id" && e[1].name == "type" && e[2].name == "created_by_ref";
    assert e[3].name == "object_marking_refs" && e[4].name == "description" && e[5].name == "x_mitre_contents";
    assert |e[0].name| == 2 && |e[1].name| == 4 && |e[2].name| == 14 && |e[3].name| == 19 && |e[4].name| == 11 && |e[5].name| == 16;
  }

  lemma ContentsDeclared()
    ensures Lookup(CollectionExtension, "x_mitre_contents") == Some(Field("x_mitre_contents", true, Contents))
  {
    ExtensionRequiredNames();
    LookupDistinct(CollectionExtension, 5);
  }

  lemma RequiredPresent(m: map<string, Json>)
    requires Accepts(CollectionShape, JObj(m))
    ensures ExtensionRequired <= m.Keys
  {
    ExtensionRequiredNames();
    ExtensionRequiredAll(AttackBaseFields, CollectionExtension, {}, Strict, m);
  }

  /** The parsed contents are what the contents schema makes of the input. */
  lemma ContentsParsed(m: map<string, Json>)
    requires Accepts(CollectionShape, JObj(m)) && "x_mitre_contents" in m
    ensures Accepts(Contents, m["x_mitre_contents"])
    ensures Get(CheckValue(CollectionShape, JObj(m)).value, "x_mitre_contents")
            == Some(CheckValue(Contents, m["x_mitre_contents"]).value)
  {
    ContentsDeclared();
    ExtendedValue(AttackBaseFields, CollectionExtension, {}, Strict, m, "x_mitre_contents");
  }

  /** Accepted contents parse to a list as long as the input. */
  lemma ContentsKeepLength(x: Json)
    requires Accepts(Contents, x)
    ensures x.JArr? && CheckValue(Contents, x).value.JArr?
    ensures |CheckValue(Contents, x).value.items| == |x.items| >= 1
  {
    AcceptedShape(Contents, x);
    ParsedItem(ObjectVersionRef, 1, None, x.items, 0);
    ContentsAccepts(x);
  }

  /** The refinement never reports: whatever passes the shape has at least
      one content entry, so an empty list has already been refused. */
  lemma EmptyContentsRuleSilent(m: map<string, Json>)
    requires Accepts(CollectionShape, JObj(m))
    ensures EmptyContentsRule(CheckValue(CollectionShape, JObj(m)).value) == []
  {
    RequiredPresent(m);
    ContentsParsed(m);
    ContentsKeepLength(m["x_mitre_contents"]);
  }

  /** So the collection schema accepts exactly what its shape accepts. */
  lemma CollectionIsShape(m: map<string, Json>)
    ensures Accepts(CollectionObject, JObj(m)) <==> Accepts(CollectionShape, JObj(m))
  {
    RefinedAccepts(CollectionShape, EmptyContentsRule, JObj(m));
    if Accepts(CollectionShape, JObj(m)) {
      EmptyContentsRuleSilent(m);
    }
  }

  /** An accepted collection holds its six required properties and no
      undeclared key, and lists at least one object version. */
  lemma CollectionAccepted(m: map<string, Json>)
    requires Accepts(CollectionObject, JObj(m))
    ensures ExtensionRequired <= m.Keys
    ensures m.Keys <= Schema.Names(AttackBaseFields) + Schema.Names(CollectionExtension)
    ensures var c := m["x_mitre_contents"];
      c.JArr? && |c.items| >= 1 && forall j :: 0 <= j < |c.items| ==> ObjectVersionOk(c.items[j])
  {
    CollectionIsShape(m);
    RequiredPresent(m);
    ExtendedStrict(AttackBaseFields, CollectionExtension, {}, m);
    ContentsParsed(m);
    ContentsAccepts(m["x_mitre_contents"]);
  }
}

=== FILE: common_properties.dfy ===
/** The properties shared by ATT&CK objects: name, description, aliases,
    domains, deprecation, platforms, marking references, attribution and
    contributors (src/schemas/common/common-properties.ts, src/schemas/common/misc.ts
    and the matching files under src/schemas/common/property-schemas/). */
module CommonProperties {
  import opened Wrappers
  import opened Strings
  import opened JsonValues
  import opened Schema
  import opened Generics
  import opened StixIdentifier

  //---------------------------------------------------------------------------
  // STIX specification version
  //---------------------------------------------------------------------------

  const StixSpecVersions: seq<string> := ["2.0", "2.1"]

  /** `stixSpecVersionSchema` (stix-spec-version.ts is not part of this
      model; it is taken to be the enumeration of the two STIX 2 versions). */
  function StixSpecVersion(v: Json): (r: Parsed)
    ensures r.Ok? <==> v == JStr("2.0") || v == JStr("2.1")
    ensures r.Ok? ==> r.value == v
  {
    Enum(StixSpecVersions, v)
  }

  //---------------------------------------------------------------------------
  // name, description, aliases, deprecation
  //---------------------------------------------------------------------------

  /** `nameSchema`: a string of at least one character. */
  function NameSchema(v: Json): (r: Parsed)
    ensures r.Ok? <==> v.JStr? && |v.s| >= 1
    ensures r.Ok? ==> r.value == v
    ensures v.JStr? && r.Err? ==> r == Fail("Name must not be empty")
  {
    if !v.JStr? then Fail("invalid_type: expected string")
    else if |v.s| >= 1 then Ok(v) else Fail("Name must not be empty")
  }

  /** `descriptionSchema` */
  const Description: Kind := Leaf(AnyString)

  /** `aliasesSchema`: any list of strings, the empty list included. */
  const Aliases: Kind := ArrayOf(Leaf(AnyString), 0, None)

  /** `xMitreDeprecatedSchema` */
  const Deprecated: Kind := Leaf(Boolean)

  //---------------------------------------------------------------------------
  // domains
  //---------------------------------------------------------------------------

  const Domains: seq<string> := ["enterprise-attack", "mobile-attack", "ics-attack"]

  /** `attackDomainSchema` */
  function Domain(v: Json): (r: Parsed)
    ensures r.Ok? <==> v.JStr? && v.s in Domains
    ensures r.Ok? ==> r.value == v
  {
    Enum(Domains, v)
  }

  /** `xMitreDomainsSchema`: at least one domain. */
  const XMitreDomains: Kind := ArrayOf(Leaf(Domain), 1, None)

  /** The domain list accepts exactly the non-empty lists of the three
      domain names. */
  lemma DomainsAccepts(items: seq<Json>)
    ensures Accepts(XMitreDomains, JArr(items)) <==>
            |items| >= 1 && forall j :: 0 <= j < |items| ==> items[j].JStr? && items[j].s in Domains
  {
    ArrayAccepts(Leaf(Domain), 1, None, items);
  }

  //---------------------------------------------------------------------------
  // platforms
  //---------------------------------------------------------------------------

  /** `supportedMitrePlatforms` of common-properties.ts. */
  const CommonPlatforms: seq<string> := [
    "Field Controller/RTU/PLC/IED", "Network", "Data Historian", "Google Workspace",
    "Office 365", "Containers", "Azure AD", "Engineering Workstation", "Control Server",
    "Human-Machine Interface", "Windows", "Linux", "IaaS", "None", "iOS", "PRE", "SaaS",
    "Input/Output Server", "macOS", "Android", "Safety Instrumented System/Protection Relay",
    "Embedded"]

  /** `supportedMitrePlatforms` of property-schemas/attack-platforms.ts. */
  const Platforms: seq<string> := [
    "Field Controller/RTU/PLC/IED", "Network Devices", "Data Historian", "Google Workspace",
    "Office Suite", "ESXi", "Identity Provider", "Containers", "Azure AD",
    "Engineering Workstation", "Control Server", "Human-Machine Interface", "Windows",
    "Linux", "IaaS", "None", "iOS", "PRE", "SaaS", "Input/Output Server", "macOS",
    "Android", "Safety Instrumented System/Protection Relay", "Embedded"]

  const UniquePlatformsMessage := "Platforms must be unique (no duplicates allowed)."

  /** `new Set(items).size === items.length`, reported with `message`. */
  function UniqueBySetSize(message: string, v: Json): (issues: seq<Issue>)
    ensures v.JArr? ==> (issues == [] <==> |ToSet(v.items)| == |v.items|)
    ensures issues != [] ==> issues == [Issue([], message)]
  {
    if v.JArr? && |ToSet(v.items)| != |v.items| then [Issue([], message)] else []
  }

  /** An array of names drawn from `allowed`, at least `minLen` long, whose
      entries do not repeat (the shape of the platform and permission
      lists). */
  function UniqueEnumList(allowed: seq<string>, minLen: nat, message: string): Kind
  {
    Refined(ArrayOf(Leaf(v => Enum(allowed, v)), minLen, None), v => UniqueBySetSize(message, v))
  }

  /** Such a list is accepted exactly when it is long enough, every entry is
      an allowed name and no entry repeats. */
  lemma UniqueEnumListAccepts(allowed: seq<string>, minLen: nat, message: string, items: seq<Json>)
    ensures Accepts(UniqueEnumList(allowed, minLen, message), JArr(items)) <==>
            |items| >= minLen
            && (forall j :: 0 <= j < |items| ==> items[j].JStr? && items[j].s in allowed)
            && Distinct(items)
  {
    var elem := Leaf(v => Enum(allowed, v));
    var base := ArrayOf(elem, minLen, None);
    ArrayAccepts(elem, minLen, None, items);
    RefinedAccepts(base, v => UniqueBySetSize(message, v), JArr(items));
    if Accepts(base, JArr(items)) {
      ArrayParsesToItself(elem, minLen, None, items);
      assert forall j :: 0 <= j < |items| ==> items[j].JStr?;
      SetSizeAgreesWithDuplicates(items);
      NoDuplicatesIffDistinct(items);
    }
  }

  /** Such a list parses to itself. */
  lemma UniqueEnumListKeeps(allowed: seq<string>, minLen: nat, message: string)
    ensures Keeps(UniqueEnumList(allowed, minLen, message))
  {
    var elem := Leaf(v => Enum(allowed, v));
    KeepsLeaf(v => Enum(allowed, v));
    KeepsArray(elem, minLen, None);
    KeepsRefined(ArrayOf(elem, minLen, None), v => UniqueBySetSize(message, v));
  }

  /** `xMitrePlatformsSchema` over a list of allowed platform names: at least
      one element, every element allowed, no repetition. */
  function PlatformList(allowed: seq<string>): Kind
  {
    UniqueEnumList(allowed, 1, UniquePlatformsMessage)
  }

  /** A platform list is accepted exactly when it is non-empty, every entry
      is an allowed name and no entry repeats. */
  lemma PlatformListAccepts(allowed: seq<string>, items: seq<Json>)
    ensures Accepts(PlatformList(allowed), JArr(items)) <==>
            |items| >= 1
            && (forall j :: 0 <= j < |items| ==> items[j].JStr? && items[j].s in allowed)
            && Distinct(items)
  {
    UniqueEnumListAccepts(allowed, 1, UniquePlatformsMessage, items);
  }

  /** The two platform vocabularies differ in both directions: the older
      one knows `Network`, the newer one `ESXi`. */
  lemma PlatformVocabulariesDiffer()
    ensures "Network" in CommonPlatforms && "Network" !in Platforms
    ensures "ESXi" in Platforms && "ESXi" !in CommonPlatforms
  {
    assert CommonPlatforms[1] == "Network" && Platforms[5] == "ESXi";
    assert forall i :: 0 <= i < |Platforms| ==> |Platforms[i]| != 7 || Platforms[i][0] != 'N';
    assert forall i :: 0 <= i < |CommonPlatforms| ==> |CommonPlatforms[i]| != 4 || CommonPlatforms[i][0] != 'E';
  }

  /** A repeated platform is refused. */
  lemma RepeatedPlatformRefused(allowed: seq<string>, p: string)
    ensures !Accepts(PlatformList(allowed), JArr([JStr(p), JStr(p)]))
  {
    var w := [JStr(p), JStr(p)];
    PlatformListAccepts(allowed, w);
    assert !Distinct(w) by { assert SameValueZero(w[0], w[1]); }
  }

  /** An empty platform list is refused. */
  lemma EmptyPlatformsRefused(allowed: seq<string>)
    ensures !Accepts(PlatformList(allowed), JArr([]))
  {
    PlatformListAccepts(allowed, []);
  }

  /** A platform outside the vocabulary is refused: `FreeBSD` is in
      neither. */
  lemma UnknownPlatformRefused(allowed: seq<string>)
    requires allowed == Platforms || allowed == CommonPlatforms
    ensures !Accepts(PlatformList(allowed), JArr([JStr("FreeBSD")]))
  {
    var f := [JStr("FreeBSD")];
    PlatformListAccepts(allowed, f);
    assert forall i :: 0 <= i < |allowed| ==> |allowed[i]| != 7 || allowed[i][0] != 'F';
    assert f[0].s !in allowed;
  }

  //---------------------------------------------------------------------------
  // object_marking_refs
  //---------------------------------------------------------------------------

  const MarkingPrefix := "marking-definition--"

  /** A reference that names a marking definition. */
  predicate IsMarkingRef(x: Json)
  {
    x.JStr? && StartsWith(x.s, MarkingPrefix)
  }

  function MarkingIssueMessage(index: nat): string
  {
    "All identifiers must start with 'marking-definition--'. Invalid identifier at index " + NatText(index) + "."
  }

  /** The issues of the `superRefine` of common-properties.ts, from index
      `i` on: one per element that does not start with the marking prefix,
      at the element's own index. */
  function MarkingIssues(items: seq<Json>, i: nat): (issues: seq<Issue>)
    requires i <= |items|
    ensures issues == [] <==> forall j :: i <= j < |items| ==> IsMarkingRef(items[j])
    ensures forall k :: 0 <= k < |issues| ==>
              exists j :: i <= j < |items| && !IsMarkingRef(items[j])
                          && issues[k] == Issue([Index(j)], MarkingIssueMessage(j))
    decreases |items| - i
  {
    if i == |items| then []
    else
      var rest := MarkingIssues(items, i + 1);
      if IsMarkingRef(items[i]) then rest
      else [Issue([Index(i)], MarkingIssueMessage(i))] + rest
  }

  /** Every element that does not start with the prefix has its own issue. */
  lemma {:induction false} EveryBadRefReported(items: seq<Json>, i: nat, j: nat)
    requires i <= j < |items| && !IsMarkingRef(items[j])
    ensures Issue([Index(j)], MarkingIssueMessage(j)) in MarkingIssues(items, i)
    decreases j - i
  {
    if i < j {
      EveryBadRefReported(items, i + 1, j);
    }
  }

  function MarkingRule(v: Json): seq<Issue>
  {
    if v.JArr? then MarkingIssues(v.items, 0) else []
  }

  /** `objectMarkingRefsSchema` of common-properties.ts: identifiers, then
      one issue per identifier outside the marking-definition type. */
  const CommonObjectMarkingRefs: Kind := Refined(ArrayOf(Leaf(StixIdentifierSchema), 0, None), MarkingRule)

  const MarkingRefMessage := "Identifier must start with \"marking-definition--\""

  /** `stixIdentifierSchema.startsWith(...)` of stix-attribution.ts: both
      checks run and each failing one reports. */
  function MarkingRef(v: Json): (r: Parsed)
    ensures r.Ok? <==> v.JStr? && IsStixIdentifier(v.s) && StartsWith(v.s, MarkingPrefix)
    ensures r.Ok? ==> r.value == v
  {
    if !v.JStr? then Fail("invalid_type: expected string")
    else
      var issues := (if IsStixIdentifier(v.s) then [] else [Issue([], InvalidIdentifier)])
                  + (if StartsWith(v.s, MarkingPrefix) then [] else [Issue([], MarkingRefMessage)]);
      if issues == [] then Ok(v) else Err(issues)
  }

  /** `objectMarkingRefsSchema` of stix-attribution.ts (no minimum length). */
  const ObjectMarkingRefs: Kind := ArrayOf(Leaf(MarkingRef), 0, None)

  /** The newer marking-reference schema accepts exactly the lists, empty
      ones included, of identifiers that start with `marking-definition--`. */
  lemma MarkingRefsAccepts(items: seq<Json>)
    ensures Accepts(ObjectMarkingRefs, JArr(items)) <==>
            forall j :: 0 <= j < |items| ==> items[j].JStr? && IsStixIdentifier(items[j].s) && IsMarkingRef(items[j])
  {
    ArrayAccepts(Leaf(MarkingRef), 0, None, items);
  }

  /** The older schema, identifiers followed by a per-index prefix check,
      accepts the same lists. */
  lemma CommonMarkingRefsAccepts(items: seq<Json>)
    ensures Accepts(CommonObjectMarkingRefs, JArr(items)) <==>
            forall j :: 0 <= j < |items| ==> items[j].JStr? && IsStixIdentifier(items[j].s) && IsMarkingRef(items[j])
  {
    var idElem := Leaf(StixIdentifierSchema);
    var base := ArrayOf(idElem, 0, None);
    ArrayAccepts(idElem, 0, None, items);
    RefinedAccepts(base, MarkingRule, JArr(items));
    if Accepts(base, JArr(items)) {
      ArrayParsesToItself(idElem, 0, None, items);
    }
  }

  /** Both marking-reference schemas accept the same lists. */
  lemma MarkingRefsAgree(items: seq<Json>)
    ensures Accepts(CommonObjectMarkingRefs, JArr(items)) <==> Accepts(ObjectMarkingRefs, JArr(items))
  {
    MarkingRefsAccepts(items);
    CommonMarkingRefsAccepts(items);
  }

  //---------------------------------------------------------------------------
  // attribution
  //---------------------------------------------------------------------------

  /** `stixCreatedByRefSchema`: an `identity` identifier. */
  function CreatedByRef(v: Json): (r: Parsed)
    ensures r.Ok? <==> v.JStr? && TypePart(v.s) == "identity" && IsValidUuid(UuidPart(v.s))
    ensures r.Ok? ==> r.value == v
  {
    IdentifierFor("identity", v)
  }

  /** The identity of The MITRE Corporation. */
  const XMitreIdentity := "identity" + "--" + MitreUuid

  const MitreUuid := "c78cb6e5-0c4b-4611-8297-d1b8b55e40b5"

  /** `xMitreModifiedByRefSchema` of common-properties.ts: an identifier
      equal to the MITRE identity. */
  function CommonModifiedByRef(v: Json): (r: Parsed)
    ensures r.Ok? <==> v.JStr? && IsStixIdentifier(v.s) && v.s == XMitreIdentity
    ensures r.Ok? ==> r.value == v
  {
    var base := StixIdentifierSchema(v);
    if base.Err? then base
    else if v.s == XMitreIdentity then Ok(v) else Fail("Invalid input")
  }

  /** `xMitreIdentitySchema` / `xMitreModifiedByRefSchema` of
      attack-attribution.ts: the literal. */
  function ModifiedByRef(v: Json): (r: Parsed)
    ensures r.Ok? <==> v == JStr(XMitreIdentity)
    ensures r.Ok? ==> r.value == v
  {
    Literal(XMitreIdentity, v)
  }

  /** The MITRE identity is itself a well-formed identity identifier. */
  lemma XMitreIdentityWellFormed()
    ensures IsStixIdentifier(XMitreIdentity)
    ensures TypePart(XMitreIdentity) == "identity"
  {
    UuidLiteral();
    IdentifierFromParts("identity", MitreUuid, "");
    assert "identity" + "--" + MitreUuid + "" == XMitreIdentity;
  }

  lemma UuidLiteral()
    ensures IsUuidV4(MitreUuid)
  {
  }

  /** The older refinement and the newer literal accept the same values:
      exactly the MITRE identity. */
  lemma ModifiedByRefAgree(v: Json)
    ensures CommonModifiedByRef(v).Ok? <==> ModifiedByRef(v).Ok?
  {
    XMitreIdentityWellFormed();
  }

  /** The MITRE identity is also an acceptable creator. */
  lemma XMitreIdentityIsCreator()
    ensures CreatedByRef(JStr(XMitreIdentity)).Ok?
  {
    UuidLiteral();
    IdentifierFromParts("identity", MitreUuid, "");
    assert "identity" + "--" + MitreUuid + "" == XMitreIdentity;
  }

  //---------------------------------------------------------------------------
  // contributors
  //---------------------------------------------------------------------------

  /** `xMitreContributorsSchema` of common-properties.ts: any list of strings. */
  const CommonContributors: Kind := ArrayOf(Leaf(AnyString), 0, None)

  /** `xMitreContributorsSchema` of attack-attribution.ts. */
  const Contributors: Kind := StixListOfString

  /** The newer contributors schema is strictly narrower: whatever it accepts
      the older accepts, and the empty list separates them. */
  lemma ContributorsNarrowed(items: seq<Json>)
    ensures Accepts(Contributors, JArr(items)) ==> Accepts(CommonContributors, JArr(items))
    ensures Accepts(CommonContributors, JArr([])) && !Accepts(Contributors, JArr([]))
  {
    StixListOfStringAccepts(items);
    StixListOfStringAccepts([]);
    ArrayAccepts(Leaf(AnyString), 0, None, items);
    ArrayAccepts(Leaf(AnyString), 0, None, []);
  }
}

=== FILE: data_model.dfy ===
/** The object graph the library builds from parsed objects
    (src/classes/attack-data-model.ts): each handled object goes into the
    list of its class and into a map from STIX id to object, and every
    relationship whose two ends resolve calls the linking methods of its
    ends. Objects are referred to by their position in the input list; a
    linking method is recorded as a call on the object at one position with
    the object at another. */
module DataModel {
  import opened Wrappers
  import opened JsonValues
  import Relationships

  /** The classes `populateData` instantiates. */
  datatype Class =
    | AssetImpl | CampaignImpl | CollectionImpl | DataComponentImpl | DataSourceImpl
    | GroupImpl | IdentityImpl | MalwareImpl | MatrixImpl | MitigationImpl
    | TacticImpl | TechniqueImpl | ToolImpl | MarkingDefinitionImpl | RelationshipImpl

  const AllClasses: set<Class> := {
    AssetImpl, CampaignImpl, CollectionImpl, DataComponentImpl, DataSourceImpl,
    GroupImpl, IdentityImpl, MalwareImpl, MatrixImpl, MitigationImpl,
    TacticImpl, TechniqueImpl, ToolImpl, MarkingDefinitionImpl, RelationshipImpl
  }

  /** The STIX type whose objects a class wraps. */
  function ClassType(c: Class): string
  {
    match c
    case AssetImpl => "x-mitre-asset"
    case CampaignImpl => "campaign"
    case CollectionImpl => "x-mitre-collection"
    case DataComponentImpl => "x-mitre-data-component"
    case DataSourceImpl => "x-mitre-data-source"
    case GroupImpl => "intrusion-set"
    case IdentityImpl => "identity"
    case MalwareImpl => "malware"
    case MatrixImpl => "x-mitre-matrix"
    case MitigationImpl => "course-of-action"
    case TacticImpl => "x-mitre-tactic"
    case TechniqueImpl => "attack-pattern"
    case ToolImpl => "tool"
    case MarkingDefinitionImpl => "marking-definition"
    case RelationshipImpl => "relationship"
  }

  /** The `switch (object.type)` of `populateData`: the class a type
      selects, `None` for a type it ignores. */
  function ClassOf(t: Option<string>): Option<Class>
  {
    match t
    case None => None
    case Some(s) =>
      match s
      case "x-mitre-asset" => Some(AssetImpl)
      case "campaign" => Some(CampaignImpl)
      case "x-mitre-collection" => Some(CollectionImpl)
      case "x-mitre-data-component" => Some(DataComponentImpl)
      case "x-mitre-data-source" => Some(DataSourceImpl)
      case "intrusion-set" => Some(GroupImpl)
      case "identity" => Some(IdentityImpl)
      case "malware" => Some(MalwareImpl)
      case "x-mitre-matrix" => Some(MatrixImpl)
      case "course-of-action" => Some(MitigationImpl)
      case "x-mitre-tactic" => Some(TacticImpl)
      case "attack-pattern" => Some(TechniqueImpl)
      case "tool" => Some(ToolImpl)
      case "marking-definition" => Some(MarkingDefinitionImpl)
      case "relationship" => Some(RelationshipImpl)
      case _ => None
  }

  /** The switch and the class table are inverse: each class is selected by
      its own type and by no other. */
  lemma ClassOfType(c: Class, t: string)
    ensures ClassOf(Some(ClassType(c))) == Some(c)
    ensures ClassOf(Some(t)) == Some(c) ==> t == ClassType(c)
  {
  }

  function TypeOf(o: Json): Option<string> { GetString(o, "type") }

  function IdOf(o: Json): Option<string> { GetString(o, "id") }

  /** The class of the object at position `i`. */
  function ClassAt(objs: seq<Json>, i: nat): Option<Class>
    requires i < |objs|
  {
    ClassOf(TypeOf(objs[i]))
  }

  //---------------------------------------------------------------------------
  // populateData
  //---------------------------------------------------------------------------

  /** The positions of the objects of class `c`, in input order. */
  function Positions(objs: seq<Json>, c: Class): seq<nat>
  {
    if |objs| == 0 then []
    else
      var n := |objs| - 1;
      Positions(objs[..n], c) + (if ClassOf(TypeOf(objs[n])) == Some(c) then [n] else [])
  }

  /** The id map: each id of a handled object to the position of the last
      handled object with that id (a later `set` overwrites an earlier
      one). */
  function LastIndex(objs: seq<Json>): map<Option<string>, nat>
  {
    if |objs| == 0 then map[]
    else
      var n := |objs| - 1;
      var m := LastIndex(objs[..n]);
      if ClassOf(TypeOf(objs[n])).Some? then m[IdOf(objs[n]) := n] else m
  }

  /** `populateData`, step 1: one pass over the objects, pushing each
      handled object onto the list of its class and recording it under its
      id. */
  method PopulateData(objs: seq<Json>) returns (lists: map<Class, seq<nat>>, index: map<Option<string>, nat>)
    ensures forall c :: c in lists && lists[c] == Positions(objs, c)
    ensures index == LastIndex(objs)
  {
    lists := map c | c in AllClasses :: [];
    forall c: Class ensures c in AllClasses {
      match c
      case AssetImpl => case CampaignImpl => case CollectionImpl => case DataComponentImpl =>
      case DataSourceImpl => case GroupImpl => case IdentityImpl => case MalwareImpl =>
      case MatrixImpl => case MitigationImpl => case TacticImpl => case TechniqueImpl =>
      case ToolImpl => case MarkingDefinitionImpl => case RelationshipImpl =>
    }
    index := map[];
    var i := 0;
    while i < |objs|
      invariant 0 <= i <= |objs|
      invariant forall c :: c in lists && lists[c] == Positions(objs[..i], c)
      invariant index == LastIndex(objs[..i])
    {
      assert objs[..i + 1][..i] == objs[..i];
      var c := ClassOf(TypeOf(objs[i]));
      if c.Some? {
        lists := lists[c.value := lists[c.value] + [i]];
        index := index[IdOf(objs[i]) := i];
      }
      i := i + 1;
    }
    assert objs[..i] == objs;
  }

  /** An object sits in the list of a class exactly when the switch selects
      that class for it: each handled object is in exactly one list, and
      other objects in none. */
  lemma {:induction false} PositionsExact(objs: seq<Json>, c: Class, i: nat)
    ensures i in Positions(objs, c) <==> i < |objs| && ClassAt(objs, i) == Some(c)
    decreases |objs|
  {
    if |objs| > 0 {
      var n := |objs| - 1;
      PositionsExact(objs[..n], c, i);
      if i < n {
        assert objs[..n][i] == objs[i];
      }
    }
  }

  /** The lists keep input order and hold each position once. */
  lemma {:induction false} PositionsIncreasing(objs: seq<Json>, c: Class)
    ensures forall a, b :: 0 <= a < b < |Positions(objs, c)| ==> Positions(objs, c)[a] < Positions(objs, c)[b]
    ensures forall a :: 0 <= a < |Positions(objs, c)| ==> Positions(objs, c)[a] < |objs|
    decreases |objs|
  {
    if |objs| > 0 {
      var n := |objs| - 1;
      PositionsIncreasing(objs[..n], c);
    }
  }

  /** The id map holds the ids of the handled objects, each mapped to the
      last handled object carrying it. */
  lemma {:induction false} LastIndexExact(objs: seq<Json>, key: Option<string>)
    ensures key in LastIndex(objs) <==> exists i :: 0 <= i < |objs| && ClassAt(objs, i).Some? && IdOf(objs[i]) == key
    ensures key in LastIndex(objs) ==>
      var j := LastIndex(objs)[key];
      j < |objs| && ClassAt(objs, j).Some? && IdOf(objs[j]) == key
      && forall i :: j < i < |objs| && ClassAt(objs, i).Some? ==> IdOf(objs[i]) != key
    decreases |objs|
  {
    if |objs| > 0 {
      var n := |objs| - 1;
      var p := objs[..n];
      LastIndexExact(p, key);
      assert forall i :: 0 <= i < n ==> p[i] == objs[i];
      if key in LastIndex(p) && !(ClassAt(objs, n).Some? && IdOf(objs[n]) == key) {
        var i :| 0 <= i < |p| && ClassAt(p, i).Some? && IdOf(p[i]) == key;
        assert ClassAt(objs, i).Some? && IdOf(objs[i]) == key;
      }
      if key !in LastIndex(p) && !(ClassAt(objs, n).Some? && IdOf(objs[n]) == key) {
        forall i | 0 <= i < |objs| && ClassAt(objs, i).Some? ensures IdOf(objs[i]) != key {
          if i < n {
            assert ClassAt(p, i) == ClassAt(objs, i);
          }
        }
      }
    }
  }

  //---------------------------------------------------------------------------
  // initializeRelationships
  //---------------------------------------------------------------------------

  /** The linking methods the relationship pass calls. */
  datatype Method =
    | SetParent | AddSubTechnique | AddTechnique | AddSoftware | AddMitigation
    | AddDetectedTechnique | AddDetectingDataComponent | AddTargetAsset
    | SetAttributedTo | AddAttributedCampaign | SetRevokedBy

  /** `receiver.method(arg)`, both given by position. */
  datatype Call = Call(receiver: nat, op: Method, arg: nat)

  /** The calls one relationship makes once both ends are found: the
      `instanceof` tests of its relationship type pick them. */
  function RelationshipCalls(rtype: Option<string>, s: nat, sc: Class, t: nat, tc: Class): seq<Call>
  {
    match rtype
    case Some("subtechnique-of") =>
      if sc == TechniqueImpl && tc == TechniqueImpl then [Call(s, SetParent, t), Call(t, AddSubTechnique, s)] else []
    case Some("uses") =>
      if sc in {GroupImpl, CampaignImpl, MalwareImpl, ToolImpl} && tc == TechniqueImpl then [Call(s, AddTechnique, t)]
      else if sc in {GroupImpl, CampaignImpl} && tc in {MalwareImpl, ToolImpl} then [Call(s, AddSoftware, t)]
      else []
    case Some("mitigates") =>
      if sc == MitigationImpl && tc == TechniqueImpl then [Call(t, AddMitigation, s)] else []
    case Some("detects") =>
      if sc == DataComponentImpl && tc == TechniqueImpl then [Call(s, AddDetectedTechnique, t), Call(t, AddDetectingDataComponent, s)] else []
    case Some("targets") =>
      if sc == TechniqueImpl && tc == AssetImpl then [Call(s, AddTargetAsset, t)] else []
    case Some("attributed-to") =>
      if sc == CampaignImpl && tc == GroupImpl then [Call(s, SetAttributedTo, t), Call(t, AddAttributedCampaign, s)] else []
    case Some("revoked-by") =>
      if sc == tc then [Call(s, SetRevokedBy, t)] else []
    case _ => []
  }

  /** The classes a method is declared on and takes: the call type-checks. */
  predicate Fits(m: Method, rc: Class, ac: Class)
  {
    match m
    case SetParent => rc == TechniqueImpl && ac == TechniqueImpl
    case AddSubTechnique => rc == TechniqueImpl && ac == TechniqueImpl
    case AddTechnique => rc in {GroupImpl, CampaignImpl, MalwareImpl, ToolImpl} && ac == TechniqueImpl
    case AddSoftware => rc in {GroupImpl, CampaignImpl} && ac in {MalwareImpl, ToolImpl}
    case AddMitigation => rc == TechniqueImpl && ac == MitigationImpl
    case AddDetectedTechnique => rc == DataComponentImpl && ac == TechniqueImpl
    case AddDetectingDataComponent => rc == TechniqueImpl && ac == DataComponentImpl
    case AddTargetAsset => rc == TechniqueImpl && ac == AssetImpl
    case SetAttributedTo => rc == CampaignImpl && ac == GroupImpl
    case AddAttributedCampaign => rc == GroupImpl && ac == CampaignImpl
    case SetRevokedBy => rc == ac
  }

  /** Every call joins the two ends of its relationship, and the
      `instanceof` tests make each one fit the method it calls. */
  lemma CallsFit(rtype: Option<string>, s: nat, sc: Class, t: nat, tc: Class)
    ensures forall k :: 0 <= k < |RelationshipCalls(rtype, s, sc, t, tc)| ==>
      var c := RelationshipCalls(rtype, s, sc, t, tc)[k];
      (c.receiver == s && c.arg == t && Fits(c.op, sc, tc))
      || (c.receiver == t && c.arg == s && Fits(c.op, tc, sc))
  {
  }

  /** `mitigates` only ever changes its target, `targets` and `uses` only
      their source, and `detects` and `attributed-to` change both ends. */
  lemma UpdatedEnds(s: nat, sc: Class, t: nat, tc: Class)
    requires s != t
    ensures forall c :: c in RelationshipCalls(Some("mitigates"), s, sc, t, tc) ==> c.receiver == t
    ensures forall c :: c in RelationshipCalls(Some("targets"), s, sc, t, tc) ==> c.receiver == s
    ensures forall c :: c in RelationshipCalls(Some("uses"), s, sc, t, tc) ==> c.receiver == s
    ensures RelationshipCalls(Some("detects"), s, sc, t, tc) != [] ==>
      exists a, b :: a in RelationshipCalls(Some("detects"), s, sc, t, tc) && b in RelationshipCalls(Some("detects"), s, sc, t, tc)
                     && a.receiver == s && b.receiver == t
    ensures RelationshipCalls(Some("attributed-to"), s, sc, t, tc) != [] ==>
      exists a, b :: a in RelationshipCalls(Some("attributed-to"), s, sc, t, tc) && b in RelationshipCalls(Some("attributed-to"), s, sc, t, tc)
                     && a.receiver == s && b.receiver == t
  {
    if RelationshipCalls(Some("detects"), s, sc, t, tc) != [] {
      var d := RelationshipCalls(Some("detects"), s, sc, t, tc);
      assert d[0] in d && d[1] in d;
    }
    if RelationshipCalls(Some("attributed-to"), s, sc, t, tc) != [] {
      var d := RelationshipCalls(Some("attributed-to"), s, sc, t, tc);
      assert d[0] in d && d[1] in d;
    }
  }

  /** Outside revocation, the linker acts on a relationship exactly when
      the relationship rule allows its source type, type and target type. */
  lemma LinkerFollowsRule(rtype: string, s: nat, sc: Class, t: nat, tc: Class)
    requires rtype != "revoked-by"
    ensures RelationshipCalls(Some(rtype), s, sc, t, tc) != [] <==>
            Relationships.Allowed(ClassType(sc), rtype, ClassType(tc))
  {
    ClassOfType(sc, ClassType(sc));
    ClassOfType(tc, ClassType(tc));
  }

  /** A revocation is applied exactly when both ends have the same class:
      every revocation the rule allows, and also same-class ones it refuses
      (an identity revoked by an identity, say). */
  lemma RevocationLinked(s: nat, sc: Class, t: nat, tc: Class)
    ensures RelationshipCalls(Some("revoked-by"), s, sc, t, tc) != [] <==> sc == tc
    ensures Relationships.Allowed(ClassType(sc), "revoked-by", ClassType(tc)) ==>
            RelationshipCalls(Some("revoked-by"), s, sc, t, tc) == [Call(s, SetRevokedBy, t)]
    ensures RelationshipCalls(Some("revoked-by"), s, IdentityImpl, t, IdentityImpl) != []
    ensures !Relationships.Allowed("identity", "revoked-by", "identity")
  {
    ClassOfType(sc, ClassType(sc));
    ClassOfType(tc, ClassType(tc));
    assert "identity" !in Relationships.RevocableTypes by {
      assert forall k :: 0 <= k < |Relationships.RevocableTypes| ==> Relationships.RevocableTypes[k] != "identity";
    }
  }

  /** The calls of the relationship at position `r`: none unless both
      references are in the id map. */
  function Effects(objs: seq<Json>, index: map<Option<string>, nat>, r: nat): seq<Call>
    requires r < |objs| && forall k :: k in index ==> index[k] < |objs|
  {
    var rel := objs[r];
    var s := GetString(rel, "source_ref");
    var t := GetString(rel, "target_ref");
    if s in index && t in index then
      match (ClassAt(objs, index[s]), ClassAt(objs, index[t]))
      case (Some(sc), Some(tc)) => RelationshipCalls(GetString(rel, "relationship_type"), index[s], sc, index[t], tc)
      case _ => []
    else []
  }

  /** A relationship with an unresolved end has no effect. */
  lemma UnresolvedIgnored(objs: seq<Json>, index: map<Option<string>, nat>, r: nat)
    requires r < |objs| && forall k :: k in index ==> index[k] < |objs|
    requires GetString(objs[r], "source_ref") !in index || GetString(objs[r], "target_ref") !in index
    ensures Effects(objs, index, r) == []
  {
  }

  /** The calls of a list of relationships, in list order. */
  function AllCalls(objs: seq<Json>, index: map<Option<string>, nat>, rels: seq<nat>): seq<Call>
    requires forall k :: k in index ==> index[k] < |objs|
    requires forall k :: 0 <= k < |rels| ==> rels[k] < |objs|
  {
    if |rels| == 0 then []
    else AllCalls(objs, index, rels[..|rels| - 1]) + Effects(objs, index, rels[|rels| - 1])
  }

  lemma {:induction false} LastIndexBounded(objs: seq<Json>)
    ensures forall k :: k in LastIndex(objs) ==> LastIndex(objs)[k] < |objs|
    decreases |objs|
  {
    if |objs| > 0 {
      LastIndexBounded(objs[..|objs| - 1]);
    }
  }

  /** `populateData` followed by `initializeRelationships`: the calls made
      by the relationships, in the order the relationship list holds them. */
  function Linking(objs: seq<Json>): seq<Call>
  {
    LastIndexBounded(objs);
    PositionsIncreasing(objs, RelationshipImpl);
    AllCalls(objs, LastIndex(objs), Positions(objs, RelationshipImpl))
  }

  /** Every call of the pass comes from one relationship whose ends both
      resolve, and joins the objects the id map gives for them. */
  lemma {:induction false} CallsResolved(objs: seq<Json>, index: map<Option<string>, nat>, rels: seq<nat>, c: Call)
    requires forall k :: k in index ==> index[k] < |objs|
    requires forall k :: 0 <= k < |rels| ==> rels[k] < |objs|
    requires c in AllCalls(objs, index, rels)
    ensures exists k :: 0 <= k < |rels| && c in Effects(objs, index, rels[k])
    decreases |rels|
  {
    var n := |rels| - 1;
    if c in AllCalls(objs, index, rels[..n]) {
      CallsResolved(objs, index, rels[..n], c);
      var k :| 0 <= k < n && c in Effects(objs, index, rels[..n][k]);
      assert rels[..n][k] == rels[k];
    } else {
      assert c in Effects(objs, index, rels[n]);
    }
  }

}

=== FILE: data_registration.dfy ===
/** Registration of a data source (src/data-sources/data-registration.ts):
    the options name where the ATT&CK data comes from, and the constructor
    refuses options that lack the field their source needs. */
module DataRegistration {
  import opened Wrappers
  import opened JsonValues
  import opened Strings
  import TechniqueApi

  /** `AttackDomain`, in declaration order. */
  const Domains: seq<string> := ["enterprise-attack", "mobile-attack", "ics-attack"]

  /** Why a registration is refused. */
  datatype RegistrationError =
    | InvalidDomain
    | MissingPath
    | MissingUrl(source: string)
    | UnsupportedSource(value: Option<Json>)

  /** A registration holds the options it was constructed with. */
  datatype Registration = Registration(options: Json)

  /** `validateOptions`, over the options object. */
  function Validate(options: Json): (r: Result<(), RegistrationError>)
    ensures r.Err? && r.error.InvalidDomain? ==> Get(options, "source") == Some(JStr("attack"))
    ensures r.Err? && r.error.MissingPath? ==> Get(options, "source") == Some(JStr("file"))
    ensures r.Err? && r.error.MissingUrl? ==> Get(options, "source") == Some(JStr(r.error.source))
    ensures r.Err? && r.error.UnsupportedSource? ==> r.error.value == Get(options, "source")
  {
    match Get(options, "source")
    case Some(JStr("attack")) =>
      var domain := Get(options, "domain");
      if !Truthy(domain) || !(domain.value.JStr? && domain.value.s in Domains) then Err(InvalidDomain) else Ok(())
    case Some(JStr("file")) =>
      if !Truthy(Get(options, "path")) then Err(MissingPath) else Ok(())
    case Some(JStr("url")) =>
      if !Truthy(Get(options, "url")) then Err(MissingUrl("url")) else Ok(())
    case Some(JStr("taxii")) =>
      if !Truthy(Get(options, "url")) then Err(MissingUrl("taxii")) else Ok(())
    case source => Err(UnsupportedSource(source))
  }

  /** The constructor: validate, then keep the options. */
  function Register(options: Json): (r: Result<Registration, RegistrationError>)
    ensures r.Ok? ==> r.value.options == options
  {
    match Validate(options)
    case Ok(_) => Ok(Registration(options))
    case Err(e) => Err(e)
  }

  /** What each source needs, stated on its own: an attack source names one
      of the three domains, a file source a non-empty path, and a url or
      taxii source a non-empty url. */
  predicate Acceptable(options: Json)
  {
    var source := GetString(options, "source");
    (source == Some("attack") && GetString(options, "domain").Some? && GetString(options, "domain").value in Domains)
    || (source == Some("file") && Truthy(Get(options, "path")))
    || ((source == Some("url") || source == Some("taxii")) && Truthy(Get(options, "url")))
  }

  /** A registration exists exactly for acceptable options, so no instance
      is ever built from invalid ones. */
  lemma RegisterIffAcceptable(options: Json)
    ensures Register(options).Ok? <==> Acceptable(options)
    ensures Acceptable(options) ==> Register(options) == Ok(Registration(options))
  {
    var domain := Get(options, "domain");
    if domain.Some? && domain.value.JStr? && domain.value.s in Domains {
      assert domain.value.s != "";
    }
  }

  /** Each refusal names the field that is missing for its source, and any
      other source is unsupported. */
  lemma RefusalReasons(options: Json)
    ensures Get(options, "source") == Some(JStr("file")) && !Truthy(Get(options, "path")) ==> Register(options) == Err(MissingPath)
    ensures Get(options, "source") == Some(JStr("taxii")) && !Truthy(Get(options, "url")) ==> Register(options) == Err(MissingUrl("taxii"))
    ensures Get(options, "source") == Some(JStr("attack")) && GetString(options, "domain") == Some("pre-attack") ==> Register(options) == Err(InvalidDomain)
    ensures GetString(options, "source").None? ==> Register(options) == Err(UnsupportedSource(Get(options, "source")))
  {
    assert "pre-attack" !in Domains by {
      assert forall k :: 0 <= k < |Domains| ==> Domains[k][0] != 'p';
    }
  }

  const DomainMessagePrefix := "Invalid domain provided for 'attack' source. Expected one of: "

  /** `${source}` */
  function TemplateText(v: Option<Json>, numberText: real -> string): string
  {
    if v.None? then "undefined" else JsString(v.value, numberText)
  }

  /** The message each error is thrown with. */
  function Message(e: RegistrationError, numberText: real -> string): (r: string)
    ensures e.UnsupportedSource? && e.value.Some? && e.value.value.JStr? ==> r == "Unsupported data source type: " + e.value.value.s
  {
    match e
    case InvalidDomain => DomainMessagePrefix + Join(Domains, ", ")
    case MissingPath => "The 'file' source requires a 'path' field to specify the file location."
    case MissingUrl(source) => "The '" + source + "' source requires a 'url' field to specify the data location."
    case UnsupportedSource(source) => "Unsupported data source type: " + TemplateText(source, numberText)
  }

  /** The invalid-domain message lists the valid domains: what follows its
      prefix splits at ", " into exactly the three domains. */
  lemma DomainMessageLists(numberText: real -> string)
    ensures StartsWith(Message(InvalidDomain, numberText), DomainMessagePrefix)
    ensures Split(Message(InvalidDomain, numberText)[|DomainMessagePrefix|..], ", ") == Domains
  {
    var m := Message(InvalidDomain, numberText);
    assert m[..|DomainMessagePrefix|] == DomainMessagePrefix;
    assert m[|DomainMessagePrefix|..] == Join(Domains, ", ");
    assert TechniqueApi.CommaFree(Domains) by {
      forall k, j | 0 <= k < |Domains| && 0 <= j < |Domains[k]| ensures Domains[k][j] != ',' {
        assert k in {0, 1, 2};
      }
    }
    TechniqueApi.SplitJoin(Domains);
  }
}

=== FILE: extensions.dfy ===
/** STIX extensions: the `extensions` property of objects and the
    extension-definition object (src/schemas/common/extensions.ts and
    src/schemas/common/misc.ts). */
module Extensions {
  import opened Wrappers
  import opened Strings
  import opened JsonValues
  import opened Schema
  import opened Generics
  import opened StixIdentifier
  import opened StixTypes
  import opened Timestamps
  import opened Versions
  import opened CommonProperties
  import opened GranularMarkings
  import opened ExternalReferences

  //---------------------------------------------------------------------------
  // misc.ts
  //---------------------------------------------------------------------------

  const AnyKey: string -> bool := _ => true

  /** `extensionSchema` of misc.ts: a string type and a record of
      properties. */
  const CommonExtension: Kind :=
    Object([Field("extension_type", true, Leaf(AnyString)),
            Field("extension_properties", true, RecordOf(AnyKey, Leaf(Anything)))], Strip)

  /** `extensionsSchema` of misc.ts: a record whose values are extensions or
      any records. */
  const CommonExtensions: Kind := RecordOf(AnyKey, Union(CommonExtension, RecordOf(AnyKey, Leaf(Anything))))

  /** Since any record is an acceptable value, the older `extensions`
      accepts exactly the objects whose values are all objects: the
      extension shape never decides anything. */
  lemma CommonExtensionsAcceptAnyRecords(m: map<string, Json>)
    ensures Accepts(CommonExtensions, JObj(m)) <==> forall key :: key in m ==> m[key].JObj?
  {
    var value := Union(CommonExtension, RecordOf(AnyKey, Leaf(Anything)));
    RecordAccepts(AnyKey, value, m);
    forall key | key in m
      ensures Accepts(value, m[key]) <==> m[key].JObj?
    {
      UnionAccepts(CommonExtension, RecordOf(AnyKey, Leaf(Anything)), m[key]);
      if Accepts(CommonExtension, m[key]) {
        AcceptedShape(CommonExtension, m[key]);
      }
      if m[key].JObj? {
        RecordAccepts(AnyKey, Leaf(Anything), m[key].fields);
      }
    }
  }

  //---------------------------------------------------------------------------
  // extensions.ts: extension types and the extensions property
  //---------------------------------------------------------------------------

  const ExtensionTypes: seq<string> :=
    ["new-sdo", "new-sco", "new-sro", "property-extension", "toplevel-property-extension"]

  /** `extensionTypeSchema` */
  function ExtensionType(v: Json): (r: Parsed)
    ensures r.Ok? <==> v.JStr? && v.s in ExtensionTypes
    ensures r.Ok? ==> r.value == v
  {
    Enum(ExtensionTypes, v)
  }

  /** `extensionSchema`: a valid `extension_type`; every other key is kept. */
  const ExtensionFields: seq<Field> := [Field("extension_type", true, Leaf(ExtensionType))]

  const Extension: Kind := Object(ExtensionFields, Passthrough)

  /** The record keys: non-blank strings. */
  predicate NonBlankKey(key: string) { !AllWhitespace(key) }

  const NonBlank: string -> bool := NonBlankKey

  /** `extensionsSchema` */
  const ExtensionsProperty: Kind := RecordOf(NonBlank, Union(Extension, RecordOf(NonBlank, Leaf(Anything))))

  /** An extension object is accepted exactly when it has a known
      `extension_type`, whatever else it holds. */
  lemma ExtensionAccepts(m: map<string, Json>)
    ensures Accepts(Extension, JObj(m)) <==> "extension_type" in m && m["extension_type"].JStr? && m["extension_type"].s in ExtensionTypes
  {
    ObjectAccepts(ExtensionFields, Passthrough, m);
    assert |ExtensionFields| == 1 && ExtensionFields[0].name == "extension_type";
    assert FieldOk(ExtensionFields[0], m) <==> "extension_type" in m && ExtensionType(m["extension_type"]).Ok?;
  }

  /** One value of `extensions`: an extension, or a record with non-blank
      keys. */
  predicate ExtensionValueOk(x: Json)
  {
    x.JObj?
    && ((("extension_type" in x.fields && x.fields["extension_type"].JStr? && x.fields["extension_type"].s in ExtensionTypes))
        || forall key :: key in x.fields ==> NonBlankKey(key))
  }

  /** `extensions` is accepted exactly when its keys are non-blank and each
      value is an extension or a record with non-blank keys. */
  lemma ExtensionsAccepts(m: map<string, Json>)
    ensures Accepts(ExtensionsProperty, JObj(m)) <==>
            forall key :: key in m ==> NonBlankKey(key) && ExtensionValueOk(m[key])
  {
    var value := Union(Extension, RecordOf(NonBlank, Leaf(Anything)));
    RecordAccepts(NonBlank, value, m);
    forall key | key in m
      ensures Accepts(value, m[key]) <==> ExtensionValueOk(m[key])
    {
      var x := m[key];
      UnionAccepts(Extension, RecordOf(NonBlank, Leaf(Anything)), x);
      if Accepts(Extension, x) {
        AcceptedShape(Extension, x);
      }
      if Accepts(RecordOf(NonBlank, Leaf(Anything)), x) {
        AcceptedShape(RecordOf(NonBlank, Leaf(Anything)), x);
      }
      if x.JObj? {
        ExtensionAccepts(x.fields);
        RecordAccepts(NonBlank, Leaf(Anything), x.fields);
      }
    }
  }

  //---------------------------------------------------------------------------
  // extensions.ts: property names and object types
  //---------------------------------------------------------------------------

  const PropertyNameShort := "Extension property names must be at least 3 characters"
  const PropertyNameLong := "Extension property names must be no longer than 250 characters"
  const PropertyNameChars := "Extension property names must only contain lowercase letters, digits, and underscores"

  /** `^[a-z0-9_]+$` */
  predicate IsPropertyNameText(t: string)
  {
    |t| > 0 && forall i :: 0 <= i < |t| ==> IsLower(t[i]) || IsDigit(t[i]) || t[i] == '_'
  }

  /** Issues the length and pattern checks report on a trimmed text; every
      failing check reports. */
  function LengthIssues(t: string, short: string, long: string): (issues: seq<Issue>)
    ensures issues == [] <==> 3 <= |t| <= 250
  {
    (if |t| < 3 then [Issue([], short)] else []) + (if |t| > 250 then [Issue([], long)] else [])
  }

  /** `extensionPropertyNameSchema`: trimmed, 3 to 250 characters of
      lower-case letters, digits and underscores. */
  function ExtensionPropertyName(v: Json): (r: Parsed)
    ensures r.Ok? <==> v.JStr? && 3 <= |Trim(v.s)| <= 250 && IsPropertyNameText(Trim(v.s))
    ensures r.Ok? ==> r.value == JStr(Trim(v.s))
  {
    if !v.JStr? then Fail("invalid_type: expected string")
    else
      var t := Trim(v.s);
      var issues := LengthIssues(t, PropertyNameShort, PropertyNameLong)
                    + (if IsPropertyNameText(t) then [] else [Issue([], PropertyNameChars)]);
      if issues == [] then Ok(JStr(t)) else Err(issues)
  }

  const ObjectTypeShort := "Extension object type must be at least 3 characters"
  const ObjectTypeLong := "Extension object type must be no longer than 250 characters"
  const ObjectTypeChars := "Extension object type must only contain lowercase letters, digits, and hyphens"
  const ObjectTypeDashes := "Extension object type must not contain consecutive hyphens"

  /** `^[a-z0-9-]+$` */
  predicate IsObjectTypeText(t: string)
  {
    |t| > 0 && forall i :: 0 <= i < |t| ==> IsLower(t[i]) || IsDigit(t[i]) || t[i] == '-'
  }

  /** `extensionObjectTypeSchema`: trimmed, 3 to 250 characters of lower-case
      letters, digits and hyphens, without `--`. */
  function ExtensionObjectType(v: Json): (r: Parsed)
    ensures r.Ok? <==> v.JStr? && 3 <= |Trim(v.s)| <= 250 && IsObjectTypeText(Trim(v.s)) && !Contains(Trim(v.s), "--")
    ensures r.Ok? ==> r.value == JStr(Trim(v.s))
  {
    if !v.JStr? then Fail("invalid_type: expected string")
    else
      var t := Trim(v.s);
      var issues := LengthIssues(t, ObjectTypeShort, ObjectTypeLong)
                    + (if IsObjectTypeText(t) then [] else [Issue([], ObjectTypeChars)])
                    + (if Contains(t, "--") then [Issue([], ObjectTypeDashes)] else []);
      if issues == [] then Ok(JStr(t)) else Err(issues)
  }

  /** `includes('--')` is two hyphens side by side. */
  lemma DoubleHyphenAt(t: string)
    ensures Contains(t, "--") <==> exists k :: 0 <= k < |t| - 1 && t[k] == '-' && t[k + 1] == '-'
  {
    if Contains(t, "--") {
      var k :| 0 <= k <= |t| && OccursAt(t, "--", k);
      assert t[k..k + 2] == "--";
      assert t[k] == '-' && t[k + 1] == '-';
    }
    if exists k :: 0 <= k < |t| - 1 && t[k] == '-' && t[k + 1] == '-' {
      var k :| 0 <= k < |t| - 1 && t[k] == '-' && t[k + 1] == '-';
      assert t[k..k + 2] == "--";
      assert OccursAt(t, "--", k);
    }
  }

  /** Object types and property names are the same kind of identifier with
      the separator swapped: replacing every `-` by `_` in an accepted
      object type gives an accepted property name. */
  lemma ObjectTypeToPropertyName(v: Json)
    requires ExtensionObjectType(v).Ok?
    ensures ExtensionPropertyName(JStr(Underscored(Trim(v.s)))).Ok?
  {
    var t := Trim(v.s);
    assert IsObjectTypeText(t);
    var u := Underscored(t);
    assert IsPropertyNameText(u) by {
      forall i | 0 <= i < |u| ensures IsLower(u[i]) || IsDigit(u[i]) || u[i] == '_' {
        assert IsLower(t[i]) || IsDigit(t[i]) || t[i] == '-';
      }
    }
    NameCharsSolid(u);
    TrimSolid(u);
  }

  /** A character of a property name is no white space. */
  lemma NameCharsSolid(u: string)
    requires IsPropertyNameText(u)
    ensures !IsJsWhitespace(u[0]) && !IsJsWhitespace(u[|u| - 1])
  {
    var a, b := u[0], u[|u| - 1];
    assert IsLower(a) || IsDigit(a) || a == '_';
    assert IsLower(b) || IsDigit(b) || b == '_';
  }

  function Underscored(t: string): (u: string)
    ensures |u| == |t|
    ensures forall i :: 0 <= i < |t| ==> u[i] == (if t[i] == '-' then '_' else t[i])
  {
    seq(|t|, i requires 0 <= i < |t| => if t[i] == '-' then '_' else t[i])
  }

  //---------------------------------------------------------------------------
  // extensions.ts: the extension-definition object
  //---------------------------------------------------------------------------

  const ExtensionVersionMessage := "Version must follow semantic versioning (MAJOR.MINOR.PATCH)"

  /** `version`: a non-blank string whose trimmed text is `\d+\.\d+\.\d+`. */
  function ExtensionVersion(v: Json): (r: Parsed)
    ensures r.Ok? <==> v.JStr? && Trim(v.s) != "" && DottedNumbers(Trim(v.s), 3)
  {
    TrimmedMatching(v, s => DottedNumbers(s, 3), ExtensionVersionMessage)
  }

  const DefinitionFields: seq<Field> := [
    Field("id", true, Leaf(v => IdentifierFor("extension-definition", v))),
    Field("type", true, Leaf(v => TypeValidator("extension-definition", v))),
    Field("spec_version", true, Leaf(StixSpecVersion)),
    Field("created", true, Leaf(IsoDateTime)),
    Field("modified", true, Leaf(IsoDateTime)),
    Field("created_by_ref", true, Leaf(CreatedByRef)),
    Field("revoked", false, Leaf(Boolean)),
    Field("labels", false, ArrayOf(Leaf(NonEmptyRequiredString), 1, None)),
    Field("external_references", false, CommonExternalReferences),
    Field("object_marking_refs", false, CommonObjectMarkingRefs),
    Field("granular_markings", false, ArrayOf(CommonGranularMarking, 0, None)),
    Field("name", true, Leaf(NameSchema)),
    Field("description", false, Leaf(NonEmptyRequiredString)),
    Field("schema", true, Leaf(NonEmptyRequiredString)),
    Field("version", true, Leaf(ExtensionVersion)),
    Field("extension_types", true, ArrayOf(Leaf(ExtensionType), 1, None)),
    Field("extension_properties", false, ArrayOf(Leaf(ExtensionPropertyName), 0, None))
  ]

  const ToplevelMessage := "extension_properties must be provided when extension_types includes toplevel-property-extension"

  /** A parsed `extension_types` list that names the top-level property
      extension. */
  predicate NamesToplevel(v: Json)
  {
    match Get(v, "extension_types")
    case Some(JArr(items)) => JStr("toplevel-property-extension") in items
    case _ => false
  }

  /** A parsed `extension_properties` list with at least one name. */
  predicate HasProperties(v: Json)
  {
    match Get(v, "extension_properties")
    case Some(JArr(items)) => |items| > 0
    case _ => false
  }

  /** The refinement: a top-level property extension must list its
      properties. */
  function ToplevelRule(v: Json): (issues: seq<Issue>)
    ensures issues == [] <==> (NamesToplevel(v) ==> HasProperties(v))
  {
    if NamesToplevel(v) && !HasProperties(v) then [Issue([], ToplevelMessage)] else []
  }

  const DefinitionShape: Kind := Object(DefinitionFields, Strict)

  /** `extensionDefinitionSchema` */
  const ExtensionDefinition: Kind := Refined(DefinitionShape, ToplevelRule)

  lemma DefinitionFieldsFacts()
    ensures DistinctNames(DefinitionFields)
    ensures DefinitionFields[15].name == "extension_types" && DefinitionFields[16].name == "extension_properties"
  {
  }

  /** In an accepted definition, the parsed `extension_types` is the given
      list, which is present. */
  lemma ParsedTypes(m: map<string, Json>)
    requires Accepts(DefinitionShape, JObj(m))
    ensures "extension_types" in m && m["extension_types"].JArr?
    ensures Get(CheckValue(DefinitionShape, JObj(m)).value, "extension_types") == Some(m["extension_types"])
  {
    DefinitionFieldsFacts();
    AcceptedHasRequired(DefinitionFields, Strict, m);
    assert DefinitionFields[15].required;
    ObjectAccepts(DefinitionFields, Strict, m);
    assert FieldOk(DefinitionFields[15], m);
    ParsedField(DefinitionFields, Strict, m, 15);
    ArrayParsesToItself(Leaf(ExtensionType), 1, None, m["extension_types"].items);
  }

  /** In an accepted definition, the parsed `extension_properties` is
      present exactly when given, and then a list of the same length. */
  lemma ParsedProperties(m: map<string, Json>)
    requires Accepts(DefinitionShape, JObj(m))
    ensures "extension_properties" in m ==> m["extension_properties"].JArr?
    ensures HasProperties(CheckValue(DefinitionShape, JObj(m)).value) <==>
            "extension_properties" in m && |m["extension_properties"].items| > 0
  {
    DefinitionFieldsFacts();
    ParsedKeys(DefinitionFields, Strict, m);
    ObjectAccepts(DefinitionFields, Strict, m);
    if "extension_properties" in m {
      assert FieldOk(DefinitionFields[16], m);
      ParsedField(DefinitionFields, Strict, m, 16);
      ArrayAccepts(Leaf(ExtensionPropertyName), 0, None, m["extension_properties"].items);
    }
  }

  /** A well-formed definition whose `extension_types` names the top-level
      property extension is accepted exactly when it lists at least one
      extension property; any other well-formed definition is accepted. */
  lemma ToplevelNeedsProperties(m: map<string, Json>)
    requires Accepts(DefinitionShape, JObj(m))
    ensures "extension_types" in m && m["extension_types"].JArr?
    ensures "extension_properties" in m ==> m["extension_properties"].JArr?
    ensures Accepts(ExtensionDefinition, JObj(m)) <==>
            (JStr("toplevel-property-extension") in m["extension_types"].items
             ==> "extension_properties" in m && |m["extension_properties"].items| > 0)
  {
    ParsedTypes(m);
    ParsedProperties(m);
    RefinedAccepts(DefinitionShape, ToplevelRule, JObj(m));
  }
}

=== FILE: external_references.dfy ===
/** External references: links from an object to sources outside STIX, the
    first of which carries the ATT&CK ID of an ATT&CK object
    (src/schemas/common/misc.ts and
    src/schemas/common/property-schemas/stix-external-references.ts). */
module ExternalReferences {
  import opened Wrappers
  import opened Strings
  import opened JsonValues
  import opened Schema
  import opened Generics
  import opened AttackIds

  //---------------------------------------------------------------------------
  // misc.ts
  //---------------------------------------------------------------------------

  /** `externalReferenceSchema` of misc.ts: a string `source_name`; the other
      properties are optional strings. */
  const CommonReferenceFields: seq<Field> :=
    [Field("source_name", true, Leaf(AnyString)),
     Field("description", false, Leaf(AnyString)),
     Field("url", false, Leaf(AnyString)),
     Field("external_id", false, Leaf(AnyString))]

  const CommonExternalReference: Kind := Object(CommonReferenceFields, Strip)

  /** `externalReferencesSchema` of misc.ts: at least one reference. */
  const CommonExternalReferences: Kind := ArrayOf(CommonExternalReference, 1, None)

  /** `getFormatExample` */
  function FormatExample(t: string): string
  {
    match t
    case "x-mitre-tactic" => "TA####"
    case "attack-pattern" => "T#### or T####.###"
    case "intrusion-set" => "G####"
    case "malware" => "S####"
    case "tool" => "S####"
    case "course-of-action" => "M####"
    case "x-mitre-data-source" => "DS####"
    case "x-mitre-asset" => "A####"
    case "campaign" => "C####"
    case _ => ""
  }

  /** The example in the message opens with the prefix of the type's ID
      format and one `#` per digit. */
  lemma ExampleShowsPrefix(t: string)
    requires FormatForType(t).Some?
    ensures StartsWith(FormatExample(t), Prefix(FormatForType(t).value) + "####")
  {
  }

  const MissingIdMessage := "ATT&CK ID must be defined in the first external_references entry."

  function FormatMessage(t: string): string
  {
    "The first external_reference must match the ATT&CK ID format " + FormatExample(t) + "."
  }

  /** The `external_id` of the first parsed reference, when it is truthy. */
  function FirstId(v: Json): Option<string>
  {
    if v.JArr? && |v.items| > 0 && Truthy(Get(v.items[0], "external_id")) && GetString(v.items[0], "external_id").Some?
    then GetString(v.items[0], "external_id")
    else None
  }

  /** The first refinement: the first reference must carry a truthy
      `external_id`. */
  function MissingIdRule(v: Json): (issues: seq<Issue>)
    ensures issues == [] <==> FirstId(v).Some? || (v.JArr? && |v.items| > 0 && Truthy(Get(v.items[0], "external_id")))
  {
    if v.JArr? && |v.items| > 0 && Truthy(Get(v.items[0], "external_id")) then []
    else [Issue([Index(0), Key("external_id")], MissingIdMessage)]
  }

  /** The second refinement as misc.ts writes it: the first ID is tested
      against the single pattern the type maps to, which for `attack-pattern`
      is the technique pattern alone. */
  function CommonFormatRule(t: string, v: Json): (issues: seq<Issue>)
    requires FormatForType(t).Some?
    ensures FirstId(v).None? ==> issues == []
    ensures FirstId(v).Some? ==> (issues == [] <==> Matches(FormatForType(t).value, FirstId(v).value))
  {
    match FirstId(v)
    case None => []
    case Some(id) =>
      if Matches(FormatForType(t).value, id) then [] else [Issue([Index(0), Key("external_id")], FormatMessage(t))]
  }

  /** `createAttackExternalReferencesSchema` of misc.ts. */
  function CommonAttackExternalReferences(t: string): Kind
    requires FormatForType(t).Some?
  {
    Refined(CommonExternalReferences, v => MissingIdRule(v) + CommonFormatRule(t, v))
  }

  //---------------------------------------------------------------------------
  // stix-external-references.ts
  //---------------------------------------------------------------------------

  /** `url`: any string (its syntax is not modelled); `null` has its own
      message. */
  function Url(v: Json): (r: Parsed)
    ensures r.Ok? <==> v.JStr?
    ensures r.Ok? ==> r.value == v
    ensures v.JNull? ==> r == Fail("URL cannot be null")
  {
    if v.JStr? then Ok(v)
    else if v.JNull? then Fail("URL cannot be null")
    else Fail("Invalid URL format. Please provide a valid URL")
  }

  const ReferenceFields: seq<Field> :=
    [Field("source_name", true, Leaf(NonEmptyRequiredString)),
     Field("description", false, Leaf(NonEmptyRequiredString)),
     Field("url", false, Leaf(Url)),
     Field("external_id", false, Leaf(NonEmptyRequiredString))]

  /** `externalReferenceSchema`: a non-blank `source_name`; `description`
      and `external_id`, when given, non-blank too. */
  const ExternalReference: Kind := Object(ReferenceFields, Strip)

  /** `externalReferencesSchema`: at least one reference. */
  const ExternalReferenceList: Kind := ArrayOf(ExternalReference, 1, None)

  /** The second refinement: an `attack-pattern` ID may be a technique or a
      sub-technique ID, and every other type must match its own pattern. */
  function FormatRule(t: string, v: Json): (issues: seq<Issue>)
    requires FormatForType(t).Some?
    ensures FirstId(v).None? ==> issues == []
    ensures FirstId(v).Some? ==> (issues == [] <==> IdMatchesType(t, FirstId(v).value))
  {
    match FirstId(v)
    case None => []
    case Some(id) =>
      if IdMatchesType(t, id) then [] else [Issue([Index(0), Key("external_id")], FormatMessage(t))]
  }

  function AttackReferencesRule(t: string, v: Json): (issues: seq<Issue>)
    requires FormatForType(t).Some?
  {
    MissingIdRule(v) + FormatRule(t, v)
  }

  /** `createAttackExternalReferencesSchema` */
  function AttackExternalReferences(t: string): Kind
    requires FormatForType(t).Some?
  {
    Refined(ExternalReferenceList, v => AttackReferencesRule(t, v))
  }

  /** The format check is skipped when the first ID is missing: the two
      refinements never both report, so the list gets at most one issue. */
  lemma AtMostOneReferenceIssue(t: string, v: Json)
    requires FormatForType(t).Some?
    ensures |AttackReferencesRule(t, v)| <= 1
    ensures |MissingIdRule(v) + CommonFormatRule(t, v)| <= 1
  {
  }

  lemma ReferenceFieldsDistinct()
    ensures DistinctNames(ReferenceFields)
  {
  }

  /** The given `external_id` of the first entry of a list, trimmed. */
  function GivenId(items: seq<Json>): Option<string>
  {
    if |items| > 0 && items[0].JObj? && "external_id" in items[0].fields && items[0].fields["external_id"].JStr?
    then Some(Trim(items[0].fields["external_id"].s))
    else None
  }

  /** The parsed `external_id` of an accepted reference: present exactly
      when given, and then the given text trimmed and not empty. */
  lemma ParsedReferenceId(m: map<string, Json>)
    requires Accepts(ExternalReference, JObj(m))
    ensures var q := CheckValue(ExternalReference, JObj(m)).value;
      (Get(q, "external_id").Some? <==> "external_id" in m)
      && ("external_id" in m ==>
            m["external_id"].JStr? && Get(q, "external_id") == Some(JStr(Trim(m["external_id"].s)))
            && Trim(m["external_id"].s) != "")
  {
    ReferenceFieldsDistinct();
    ParsedKeys(ReferenceFields, Strip, m);
    assert ReferenceFields[3].name == "external_id";
    if "external_id" in m {
      ParsedField(ReferenceFields, Strip, m, 3);
      ObjectAccepts(ReferenceFields, Strip, m);
      assert FieldOk(ReferenceFields[3], m);
    }
  }

  /** The ATT&CK ID the new rule tests is the first reference's
      `external_id`, trimmed; a truthy one is always a string. */
  lemma FirstIdOfParsed(items: seq<Json>)
    requires Accepts(ExternalReferenceList, JArr(items))
    ensures var p := CheckValue(ExternalReferenceList, JArr(items)).value;
      FirstId(p) == GivenId(items)
      && (p.JArr? && |p.items| > 0 && Truthy(Get(p.items[0], "external_id")) ==> FirstId(p).Some?)
  {
    ParsedItem(ExternalReference, 1, None, items, 0);
    ParsedReferenceId(items[0].fields);
  }

  /** What the refinement of the new factory decides on a parsed list. */
  lemma RuleOnParsed(t: string, p: Json, id: Option<string>)
    requires FormatForType(t).Some?
    requires FirstId(p) == id
    requires p.JArr? && |p.items| > 0 && Truthy(Get(p.items[0], "external_id")) ==> id.Some?
    ensures AttackReferencesRule(t, p) == [] <==> id.Some? && IdMatchesType(t, id.value)
  {
  }

  /** A list of ATT&CK references is accepted exactly when it is a valid
      reference list whose first entry has an `external_id` that, trimmed,
      has the shape the type requires. */
  lemma AttackReferencesAccepts(t: string, items: seq<Json>)
    requires FormatForType(t).Some?
    ensures Accepts(AttackExternalReferences(t), JArr(items)) <==>
            Accepts(ExternalReferenceList, JArr(items)) && GivenId(items).Some? && IdMatchesType(t, GivenId(items).value)
  {
    RefinedAccepts(ExternalReferenceList, v => AttackReferencesRule(t, v), JArr(items));
    if Accepts(ExternalReferenceList, JArr(items)) {
      var p := CheckValue(ExternalReferenceList, JArr(items)).value;
      FirstIdOfParsed(items);
      RuleOnParsed(t, p, GivenId(items));
    }
  }

  /** Without an `external_id` in the first entry, the list fails with the
      single "must be defined" issue at that entry's `external_id`. */
  lemma MissingIdReported(t: string, items: seq<Json>)
    requires FormatForType(t).Some?
    requires Accepts(ExternalReferenceList, JArr(items)) && "external_id" !in items[0].fields
    ensures CheckValue(AttackExternalReferences(t), JArr(items))
            == Err([Issue([Index(0), Key("external_id")], MissingIdMessage)])
  {
    var p := CheckValue(ExternalReferenceList, JArr(items)).value;
    FirstIdOfParsed(items);
    assert AttackReferencesRule(t, p) == [Issue([Index(0), Key("external_id")], MissingIdMessage)];
  }

  //---------------------------------------------------------------------------
  // the sub-technique IDs misc.ts refuses
  //---------------------------------------------------------------------------

  /** The parsed `external_id` of a reference accepted by the misc.ts
      schema is the given string, unchanged. */
  lemma ParsedCommonReferenceId(m: map<string, Json>)
    requires Accepts(CommonExternalReference, JObj(m))
    ensures var q := CheckValue(CommonExternalReference, JObj(m)).value;
      (Get(q, "external_id").Some? <==> "external_id" in m)
      && ("external_id" in m ==> m["external_id"].JStr? && Get(q, "external_id") == Some(m["external_id"]))
  {
    assert DistinctNames(CommonReferenceFields);
    ParsedKeys(CommonReferenceFields, Strip, m);
    assert CommonReferenceFields[3].name == "external_id";
    if "external_id" in m {
      ParsedField(CommonReferenceFields, Strip, m, 3);
      ObjectAccepts(CommonReferenceFields, Strip, m);
      assert FieldOk(CommonReferenceFields[3], m);
    }
  }

  /** The misc.ts factory for `attack-pattern` refuses every otherwise valid
      list whose first ID is a sub-technique ID, although its own message
      offers `T####.###` as a valid shape. */
  lemma CommonRefusesSubtechniques(items: seq<Json>)
    requires Accepts(CommonExternalReferences, JArr(items))
    requires items[0].JObj? && "external_id" in items[0].fields
    requires items[0].fields["external_id"].JStr? && Matches(SubtechniqueId, items[0].fields["external_id"].s)
    ensures !Accepts(CommonAttackExternalReferences("attack-pattern"), JArr(items))
  {
    var p := CheckValue(CommonExternalReferences, JArr(items)).value;
    ParsedItem(CommonExternalReference, 1, None, items, 0);
    ParsedCommonReferenceId(items[0].fields);
    var id := items[0].fields["external_id"].s;
    assert FirstId(p) == Some(id);
    assert !Matches(TechniqueId, id);
    assert MissingIdRule(p) + CommonFormatRule("attack-pattern", p) != [];
  }

  /** The newer factory accepts the same lists when their trimmed first ID
      is a sub-technique ID. */
  lemma SubtechniquesAccepted(items: seq<Json>)
    requires Accepts(ExternalReferenceList, JArr(items))
    requires GivenId(items).Some? && Matches(SubtechniqueId, GivenId(items).value)
    ensures Accepts(AttackExternalReferences("attack-pattern"), JArr(items))
  {
    AttackReferencesAccepts("attack-pattern", items);
  }

  /** A first reference that shows the difference: `T1059.001`. */
  const SubtechniqueReference: Json :=
    JObj(map["source_name" := JStr("mitre-attack"), "external_id" := JStr("T1059.001")])

  lemma SubtechniqueExample()
    ensures Accepts(CommonExternalReferences, JArr([SubtechniqueReference]))
    ensures !Accepts(CommonAttackExternalReferences("attack-pattern"), JArr([SubtechniqueReference]))
    ensures Matches(SubtechniqueId, "T1059.001")
  {
    var m := SubtechniqueReference.fields;
    ObjectAccepts(CommonReferenceFields, Strip, m);
    assert forall j :: 0 <= j < |CommonReferenceFields| ==> FieldOk(CommonReferenceFields[j], m);
    ArrayAccepts(CommonExternalReference, 1, None, [SubtechniqueReference]);
    var id := "T1059.001";
    assert id[1..5] == "1059" && id[6..] == "001";
    CommonRefusesSubtechniques([SubtechniqueReference]);
  }

  //---------------------------------------------------------------------------
  // the first reference of an object
  //---------------------------------------------------------------------------

  /** `external_references[0]` of a parsed object. */
  function FirstReference(v: Json): Option<Json>
  {
    match Get(v, "external_references")
    case Some(JArr(refs)) => if |refs| > 0 then Some(refs[0]) else None
    case _ => None
  }

  /** Where the first reference's ID sits in an object. */
  const IdPath: seq<PathSeg> := [Key("external_references"), Index(0), Key("external_id")]

  /** `external_references[0].external_id` */
  function FirstExternalId(v: Json): Option<Json>
  {
    if FirstReference(v).Some? then Get(FirstReference(v).value, "external_id") else None
  }

  /** An object holding the parse of the given references has the given
      first ID. */
  lemma FirstIdOfList(m: map<string, Json>, p: Json)
    requires "external_references" in m && Accepts(CommonExternalReferences, m["external_references"])
    requires Get(p, "external_references") == Some(CheckValue(CommonExternalReferences, m["external_references"]).value)
    ensures FirstExternalId(p) == FirstExternalId(JObj(m))
    ensures FirstReference(JObj(m)).Some?
  {
    ReferenceListKeepsId(m["external_references"]);
  }

  /** A reference list the misc.ts schema accepts is a non-empty array,
      and parsing it keeps the first entry's `external_id`. */
  lemma ReferenceListKeepsId(x: Json)
    requires Accepts(CommonExternalReferences, x)
    ensures x.JArr? && |x.items| > 0
    ensures var q := CheckValue(CommonExternalReferences, x).value;
      q.JArr? && |q.items| > 0 && Get(q.items[0], "external_id") == Get(x.items[0], "external_id")
    ensures x.items[0].JObj? && ("external_id" in x.items[0].fields ==> x.items[0].fields["external_id"].JStr?)
  {
    AcceptedShape(CommonExternalReferences, x);
    ArrayAccepts(CommonExternalReference, 1, None, x.items);
    ParsedItem(CommonExternalReference, 1, None, x.items, 0);
    AcceptedShape(CommonExternalReference, x.items[0]);
    ParsedCommonReferenceId(x.items[0].fields);
  }

  /** A reference list the `createAttackExternalReferencesSchema` of type
      `t` accepts carries, in its first entry, a string ID of the type's
      ATT&CK ID format. */
  lemma AttackReferencesTagged(t: string, x: Json)
    requires FormatForType(t).Some? && Accepts(CommonAttackExternalReferences(t), x)
    ensures x.JArr? && |x.items| > 0
    ensures var id := Get(x.items[0], "external_id");
      id.Some? && id.value.JStr? && Matches(FormatForType(t).value, id.value.s)
  {
    RefinedAccepts(CommonExternalReferences, v => MissingIdRule(v) + CommonFormatRule(t, v), x);
    ReferenceListKeepsId(x);
  }

  /** An object whose first reference carries a string ID of format `f`. */
  predicate TaggedWith(v: Json, f: IdFormat)
  {
    var id := FirstExternalId(v);
    id.Some? && id.value.JStr? && Matches(f, id.value.s)
  }

  /** An object whose references the factory of type `t` accepts is tagged
      with the type's ATT&CK ID format. */
  lemma ObjectTagged(t: string, m: map<string, Json>)
    requires FormatForType(t).Some?
    requires "external_references" in m && Accepts(CommonAttackExternalReferences(t), m["external_references"])
    ensures TaggedWith(JObj(m), FormatForType(t).value)
  {
    AttackReferencesTagged(t, m["external_references"]);
  }
}

=== FILE: generics.dfy ===
/** Shared string and list schemas (src/schemas/common/generic.ts and
    src/schemas/common/property-schemas/generics.ts). */
module Generics {
  import opened Wrappers
  import opened Strings
  import opened JsonValues
  import opened Schema

  const NonEmptyMessage := "At least one character is required. Whitespace is not permissible."

  /** `nonEmptyRequiredString`: a string, trimmed, that is not empty after
      trimming; the parsed value is the trimmed string. */
  function NonEmptyRequiredString(v: Json): (r: Parsed)
    ensures r.Ok? <==> v.JStr? && !AllWhitespace(v.s)
    ensures r.Ok? ==> r.value == JStr(Trim(v.s)) && |r.value.s| > 0
  {
    if !v.JStr? then Fail("invalid_type: expected string")
    else
      BlankIffAllWhitespace(v.s);
      var t := Trim(v.s);
      if t == "" then Fail(NonEmptyMessage) else Ok(JStr(t))
  }

  /** Parsing the parsed value again changes nothing. */
  lemma NonEmptyRequiredStringIdempotent(v: Json)
    requires NonEmptyRequiredString(v).Ok?
    ensures NonEmptyRequiredString(NonEmptyRequiredString(v).value) == NonEmptyRequiredString(v)
  {
    TrimIdempotent(v.s);
    var t := Trim(v.s);
    BlankIffAllWhitespace(t);
  }

  /** `nonEmptyRequiredString.regex(pattern, message)`: the pattern is tested
      on the trimmed string, and an empty string fails both checks. */
  function TrimmedMatching(v: Json, pattern: string -> bool, message: string): (r: Parsed)
    ensures r.Ok? <==> v.JStr? && Trim(v.s) != "" && pattern(Trim(v.s))
    ensures r.Ok? ==> r.value == JStr(Trim(v.s))
    ensures v.JStr? && Trim(v.s) == "" ==> r.Err? && |r.error| > 0 && r.error[0] == Issue([], NonEmptyMessage)
  {
    if !v.JStr? then Fail("invalid_type: expected string")
    else
      var t := Trim(v.s);
      if t == "" then
        Err([Issue([], NonEmptyMessage)] + (if pattern(t) then [] else [Issue([], message)]))
      else if pattern(t) then Ok(JStr(t))
      else Fail(message)
  }

  /** `z.string()` */
  function AnyString(v: Json): (r: Parsed)
    ensures r.Ok? <==> v.JStr?
    ensures r.Ok? ==> r.value == v
  {
    if v.JStr? then Ok(v) else Fail("invalid_type: expected string")
  }

  /** `z.string().min(1)` / `.nonempty()` (no trimming). */
  function StringMin1(v: Json): (r: Parsed)
    ensures r.Ok? <==> v.JStr? && |v.s| > 0
    ensures r.Ok? ==> r.value == v
  {
    if !v.JStr? then Fail("invalid_type: expected string")
    else if v.s == "" then Fail("too_small")
    else Ok(v)
  }

  /** `z.boolean()` */
  function Boolean(v: Json): (r: Parsed)
    ensures r.Ok? <==> v.JBool?
    ensures r.Ok? ==> r.value == v
  {
    if v.JBool? then Ok(v) else Fail("invalid_type: expected boolean")
  }

  /** `z.unknown()` / `z.any()` */
  function Anything(v: Json): (r: Parsed)
    ensures r == Ok(v)
  {
    Ok(v)
  }

  /** `z.literal(x)` for a string `x`. */
  function Literal(x: string, v: Json): (r: Parsed)
    ensures r.Ok? <==> v == JStr(x)
    ensures r.Ok? ==> r.value == v
  {
    if v == JStr(x) then Ok(v) else Fail("invalid_literal")
  }

  /** `z.enum(values)` */
  function Enum(values: seq<string>, v: Json): (r: Parsed)
    ensures r.Ok? <==> v.JStr? && v.s in values
    ensures r.Ok? ==> r.value == v
  {
    if v.JStr? && v.s in values then Ok(v) else Fail("invalid_enum_value")
  }

  /** `stixListOf(schema)`: a list of at least one element. */
  function StixListOf(elem: Kind): Kind
  {
    ArrayOf(elem, 1, None)
  }

  /** `stixListOfString` */
  const StixListOfString: Kind := StixListOf(Leaf(NonEmptyRequiredString))

  /** An accepted list of strings is non-empty and every element is a
      non-blank string; its parsed elements are the trimmed strings. */
  lemma StixListOfStringAccepts(items: seq<Json>)
    ensures Accepts(StixListOfString, JArr(items)) <==>
            |items| >= 1 && forall j :: 0 <= j < |items| ==> items[j].JStr? && !AllWhitespace(items[j].s)
  {
    ArrayAccepts(Leaf(NonEmptyRequiredString), 1, None, items);
    assert forall j :: 0 <= j < |items| ==>
      (Accepts(Leaf(NonEmptyRequiredString), items[j]) <==> items[j].JStr? && !AllWhitespace(items[j].s));
  }

  /** JavaScript `SameValueZero` on parsed values: arrays and objects are
      fresh references, so they never coincide with another element. */
  predicate SameValueZero(a: Json, b: Json)
  {
    !a.JArr? && !a.JObj? && a == b
  }

  /** Element `i` equals some earlier element. */
  predicate SeenBefore(xs: seq<Json>, i: int)
    requires 0 <= i < |xs|
  {
    exists j :: 0 <= j < i && SameValueZero(xs[j], xs[i])
  }

  /** Every element that repeats an earlier one, in order of occurrence. */
  function Duplicates(xs: seq<Json>): seq<Json>
  {
    if |xs| == 0 then []
    else Duplicates(xs[..|xs| - 1]) + (if SeenBefore(xs, |xs| - 1) then [xs[|xs| - 1]] else [])
  }

  /** The scan of `uniqueArray`: a `seen` map and a `duplicates` list built in
      one pass. */
  method FindDuplicates(xs: seq<Json>) returns (dups: seq<Json>)
    ensures dups == Duplicates(xs)
  {
    var seen: set<Json> := {};
    dups := [];
    var i := 0;
    while i < |xs|
      invariant 0 <= i <= |xs|
      invariant seen == set j | 0 <= j < i && !xs[j].JArr? && !xs[j].JObj? :: xs[j]
      invariant dups == Duplicates(xs[..i])
    {
      var x := xs[i];
      assert xs[..i + 1][..i] == xs[..i];
      assert (x in seen) <==> SeenBefore(xs[..i + 1], i);
      if x in seen {
        dups := dups + [x];
      } else if !x.JArr? && !x.JObj? {
        seen := seen + {x};
      }
      i := i + 1;
    }
    assert xs[..|xs|] == xs;
  }

  /** `Duplicate values found: ...` with each value rendered as JSON. */
  function DuplicatesMessage(dups: seq<Json>): string
  {
    "Duplicate values found: " + JoinComma(Rendered(dups))
  }

  function Render(x: Json): string
  {
    match x
    case JStr(s) => "\"" + s + "\""
    case JBool(b) => if b then "true" else "false"
    case JNull => "null"
    case _ => "<value>"
  }

  function Rendered(xs: seq<Json>): (r: seq<string>)
    ensures |r| == |xs|
  {
    seq(|xs|, i requires 0 <= i < |xs| => Render(xs[i]))
  }

  function JoinComma(parts: seq<string>): string
  {
    if |parts| == 0 then "" else if |parts| == 1 then parts[0] else parts[0] + ", " + JoinComma(parts[1..])
  }

  /** The check of `uniqueArray`: one issue naming every repeated value. */
  function UniqueRule(v: Json): (issues: seq<Issue>)
    ensures v.JArr? ==> (issues == [] <==> Duplicates(v.items) == [])
  {
    if !v.JArr? then []
    else
      var dups := Duplicates(v.items);
      if dups == [] then [] else [Issue([], DuplicatesMessage(dups))]
  }

  /** `uniqueArray(schema)` */
  function UniqueArray(elem: Kind): Kind
  {
    Refined(ArrayOf(elem, 0, None), UniqueRule)
  }

  /** No element repeats an earlier one. */
  predicate Distinct(xs: seq<Json>)
  {
    forall i, j :: 0 <= i < j < |xs| ==> !SameValueZero(xs[i], xs[j])
  }

  /** The duplicate list is empty exactly when the elements are pairwise
      distinct. */
  lemma {:induction false} NoDuplicatesIffDistinct(xs: seq<Json>)
    ensures Duplicates(xs) == [] <==> Distinct(xs)
    decreases |xs|
  {
    if |xs| > 0 {
      var p := xs[..|xs| - 1];
      NoDuplicatesIffDistinct(p);
      if Distinct(xs) {
        assert Distinct(p) by {
          forall i, j | 0 <= i < j < |p| ensures !SameValueZero(p[i], p[j]) {
            assert p[i] == xs[i] && p[j] == xs[j];
          }
        }
        assert !SeenBefore(xs, |xs| - 1);
      } else {
        var i, j :| 0 <= i < j < |xs| && SameValueZero(xs[i], xs[j]);
        if j == |xs| - 1 {
          assert SeenBefore(xs, |xs| - 1);
        } else {
          assert p[i] == xs[i] && p[j] == xs[j];
          assert !Distinct(p);
        }
      }
    }
  }

  /** The elements of a list as a set (`new Set(items)`). */
  function ToSet<T>(xs: seq<T>): set<T>
  {
    if |xs| == 0 then {} else ToSet(xs[..|xs| - 1]) + {xs[|xs| - 1]}
  }

  lemma {:induction false} ToSetMembers<T>(xs: seq<T>)
    ensures forall x :: x in ToSet(xs) <==> x in xs
    decreases |xs|
  {
    if |xs| > 0 {
      ToSetMembers(xs[..|xs| - 1]);
      assert xs == xs[..|xs| - 1] + [xs[|xs| - 1]];
    }
  }

  /** `new Set(items).size === items.length` holds exactly when no string
      occurs twice. */
  lemma {:induction false} SetSizeIffDistinct<T>(xs: seq<T>)
    ensures |ToSet(xs)| <= |xs|
    ensures |ToSet(xs)| == |xs| <==> forall i, j :: 0 <= i < j < |xs| ==> xs[i] != xs[j]
    decreases |xs|
  {
    if |xs| > 0 {
      var p := xs[..|xs| - 1];
      var x := xs[|xs| - 1];
      SetSizeIffDistinct(p);
      ToSetMembers(p);
      if x in ToSet(p) {
        assert ToSet(xs) == ToSet(p);
        var i :| 0 <= i < |p| && p[i] == x;
        assert xs[i] == xs[|xs| - 1];
      } else {
        assert |ToSet(xs)| == |ToSet(p)| + 1;
        if forall i, j :: 0 <= i < j < |p| ==> p[i] != p[j] {
          forall i, j | 0 <= i < j < |xs| ensures xs[i] != xs[j] {
            if j == |xs| - 1 {
              assert xs[i] == p[i];
            } else {
              assert xs[i] == p[i] && xs[j] == p[j];
            }
          }
        } else {
          var i, j :| 0 <= i < j < |p| && p[i] == p[j];
          assert xs[i] == xs[j];
        }
      }
    }
  }

  /** The two uniqueness tests of the library agree on lists of strings,
      numbers, booleans and nulls: the set-size test of the platform lists
      and the duplicate scan of `uniqueArray`. */
  lemma SetSizeAgreesWithDuplicates(xs: seq<Json>)
    requires forall i :: 0 <= i < |xs| ==> !xs[i].JArr? && !xs[i].JObj?
    ensures |ToSet(xs)| == |xs| <==> Duplicates(xs) == []
  {
    SetSizeIffDistinct(xs);
    NoDuplicatesIffDistinct(xs);
    assert forall i, j :: 0 <= i < j < |xs| ==> (SameValueZero(xs[i], xs[j]) <==> xs[i] == xs[j]);
  }

  function AsJson(xs: seq<string>): (r: seq<Json>)
    ensures |r| == |xs| && forall i :: 0 <= i < |xs| ==> r[i] == JStr(xs[i])
  {
    seq(|xs|, i requires 0 <= i < |xs| => JStr(xs[i]))
  }
}

=== FILE: granular_markings.dfy ===
/** Granular markings: a marking that applies to selected parts of an
    object, either by reference to a marking definition or by language
    (src/schemas/common/misc.ts and
    src/schemas/common/property-schemas/stix-granular-marking.ts). */
module GranularMarkings {
  import opened Wrappers
  import opened JsonValues
  import opened Schema
  import opened Generics
  import opened StixIdentifier

  /** The earlier schema: a required `marking_ref` and a list of strings. */
  const CommonGranularMarking: Kind :=
    Object([Field("marking_ref", true, Leaf(StixIdentifierSchema)),
            Field("selectors", true, ArrayOf(Leaf(AnyString), 0, None))], Strip)

  const BothLangMessage := "If the marking_ref property is present, the lang property MUST NOT be present."
  const BothRefMessage := "If the lang property is present, the marking_ref property MUST NOT be present."
  const NeitherLangMessage := "If the marking_ref property is not present, the lang property MUST be present."
  const NeitherRefMessage := "If the lang property is not present, the marking_ref property MUST be present."

  /** The mutual-exclusion check: both present and both absent each report
      one issue under `lang` and one under `marking_ref`. */
  function ExclusiveRule(v: Json): (issues: seq<Issue>)
    ensures issues == [] <==> (Get(v, "lang").Some? != Get(v, "marking_ref").Some?)
    ensures issues != [] ==> |issues| == 2 && issues[0].path == [Key("lang")] && issues[1].path == [Key("marking_ref")]
    ensures Get(v, "lang").Some? && Get(v, "marking_ref").Some? ==>
              issues == [Issue([Key("lang")], BothLangMessage), Issue([Key("marking_ref")], BothRefMessage)]
    ensures Get(v, "lang").None? && Get(v, "marking_ref").None? ==>
              issues == [Issue([Key("lang")], NeitherLangMessage), Issue([Key("marking_ref")], NeitherRefMessage)]
  {
    var hasLang := Get(v, "lang").Some?;
    var hasMarkingRef := Get(v, "marking_ref").Some?;
    if hasLang && hasMarkingRef then
      [Issue([Key("lang")], BothLangMessage), Issue([Key("marking_ref")], BothRefMessage)]
    else if !hasLang && !hasMarkingRef then
      [Issue([Key("lang")], NeitherLangMessage), Issue([Key("marking_ref")], NeitherRefMessage)]
    else []
  }

  const GranularMarkingFields: seq<Field> :=
    [Field("lang", false, Leaf(NonEmptyRequiredString)),
     Field("marking_ref", false, Leaf(StixIdentifierSchema)),
     Field("selectors", true, StixListOfString)]

  const GranularMarkingShape: Kind := Object(GranularMarkingFields, Strip)

  /** `granularMarkingSchema` */
  const GranularMarking: Kind := Refined(GranularMarkingShape, ExclusiveRule)

  /** A granular marking is accepted exactly when its properties are valid
      and exactly one of `lang` and `marking_ref` is given. */
  lemma GranularMarkingAccepts(m: map<string, Json>)
    ensures Accepts(GranularMarking, JObj(m)) <==>
            Accepts(GranularMarkingShape, JObj(m)) && (("lang" in m) != ("marking_ref" in m))
  {
    RefinedAccepts(GranularMarkingShape, ExclusiveRule, JObj(m));
    if Accepts(GranularMarkingShape, JObj(m)) {
      ParsedKeys(GranularMarkingFields, Strip, m);
      assert GranularMarkingFields[0].name == "lang";
      assert GranularMarkingFields[1].name == "marking_ref";
    }
  }

  /** A marking with both, or with neither, of `lang` and `marking_ref`
      that is otherwise valid fails with one issue on each of the two
      paths. */
  lemma ConflictReportsBoth(m: map<string, Json>)
    requires Accepts(GranularMarkingShape, JObj(m))
    requires ("lang" in m) == ("marking_ref" in m)
    ensures var r := CheckValue(GranularMarking, JObj(m));
      r.Err? && |r.error| == 2 && r.error[0].path == [Key("lang")] && r.error[1].path == [Key("marking_ref")]
  {
    ParsedKeys(GranularMarkingFields, Strip, m);
    assert GranularMarkingFields[0].name == "lang";
    assert GranularMarkingFields[1].name == "marking_ref";
  }
}

=== FILE: group.dfy ===
/** The group object, a STIX intrusion set (src/schemas/sdo/group.schema.ts):
    the ATT&CK base extended with the group properties, no unknown key, a
    reference list tagged with a group ID, motivations and resource levels
    from their vocabularies, and an alias list that starts with the
    name. */
module Group {
  import opened Wrappers
  import opened JsonValues
  import opened Schema
  import opened Generics
  import opened AttackIds
  import opened StixTypes
  import opened StixIdentifier
  import opened CommonProperties
  import opened ExternalReferences
  import opened Timestamps
  import opened OpenVocabularies
  import opened Refinements
  import opened AttackBase

  /** `z.array(z.string())` */
  const StringList: Kind := ArrayOf(Leaf(AnyString), 0, None)

  /** `createAttackExternalReferencesSchema('intrusion-set')` */
  const GroupReferences: Kind := CommonAttackExternalReferences("intrusion-set")

  /** The properties `.extend` adds to or replaces in the ATT&CK base. */
  const GroupExtension: seq<Field> := [
    Field("id", true, Leaf(v => CreateStixIdentifierSchema("intrusion-set", v))),
    Field("type", true, Leaf(v => TypeValidator("intrusion-set", v))),
    Field("description", false, Description),
    Field("external_references", true, GroupReferences),
    Field("x_mitre_domains", true, XMitreDomains),
    Field("x_mitre_contributors", false, StringList),
    Field("x_mitre_modified_by_ref", false, Leaf(CommonModifiedByRef)),
    Field("aliases", false, Aliases),
    Field("first_seen", false, Leaf(StixTimestamp)),
    Field("last_seen", false, Leaf(StixTimestamp)),
    Field("goals", false, StringList),
    Field("resource_level", false, Leaf(AttackResourceLevel)),
    Field("primary_motivation", false, Leaf(AttackMotivation)),
    Field("secondary_motivations", false, ArrayOf(Leaf(AttackMotivation), 0, None))
  ]

  /** The extension's required names. */
  const ExtensionRequired: set<string> := {"id", "type", "external_references", "x_mitre_domains"}

  function GroupFields(): seq<Field>
  {
    ExtendRequire(AttackBaseFields, GroupExtension, {})
  }

  const GroupShape: Kind := Object(GroupFields(), Strict)

  /** `groupSchema`: the shape, then the first-alias check. */
  const GroupObject: Kind := Refined(GroupShape, v => FirstAliasRule("aliases", v))

  //---------------------------------------------------------------------------
  // the declarations
  //---------------------------------------------------------------------------

  /** Each name is declared once; four are required. */
  lemma ExtensionRequiredNames()
    ensures DistinctNames(GroupExtension)
    ensures RequiredNames(GroupExtension) == ExtensionRequired
  {
    var e := GroupExtension;
    assert e[0].name == "id" && e[1].name == "type" && e[3].name == "external_references" && e[4].name == "x_mitre_domains";
    assert |e[0].name| == 2 && |e[1].name| == 4 && |e[2].name| == 11 && |e[3].name| == 19 && |e[4].name| == 15;
    assert |e[5].name| == 20 && |e[6].name| == 23 && |e[7].name| == 7 && |e[8].name| == 10 && |e[9].name| == 9;
    assert |e[10].name| == 5 && |e[11].name| == 14 && |e[12].name| == 18 && |e[13].name| == 21;
    assert forall j :: 0 <= j < |e| ==> (e[j].required <==> j in {0, 1, 3, 4});
  }

  /** The declarations the lemmas below read, one at a time. */
  lemma ReferencesDeclared()
    ensures Lookup(GroupExtension, "external_references") == Some(Field("external_references", true, GroupReferences))
  {
    ExtensionRequiredNames();
    LookupDistinct(GroupExtension, 3);
  }

  lemma AliasesDeclared()
    ensures Lookup(GroupExtension, "aliases") == Some(Field("aliases", false, Aliases))
    ensures Keeps(Aliases)
  {
    ExtensionRequiredNames();
    LookupDistinct(GroupExtension, 7);
    KeepsLeaf(AnyString);
    KeepsArray(Leaf(AnyString), 0, None);
  }

  lemma LevelDeclared()
    ensures Lookup(GroupExtension, "resource_level") == Some(Field("resource_level", false, Leaf(AttackResourceLevel)))
  {
    ExtensionRequiredNames();
    LookupDistinct(GroupExtension, 11);
  }

  lemma PrimaryDeclared()
    ensures Lookup(GroupExtension, "primary_motivation") == Some(Field("primary_motivation", false, Leaf(AttackMotivation)))
  {
    ExtensionRequiredNames();
    LookupDistinct(GroupExtension, 12);
  }

  lemma SecondaryDeclared()
    ensures Lookup(GroupExtension, "secondary_motivations")
      == Some(Field("secondary_motivations", false, ArrayOf(Leaf(AttackMotivation), 0, None)))
  {
    ExtensionRequiredNames();
    LookupDistinct(GroupExtension, 13);
  }

  /** The name is the base's, kept by parsing. */
  lemma NameInBase()
    ensures "name" !in Schema.Names(GroupExtension)
    ensures Lookup(AttackBaseFields, "name").Some? && Keeps(Lookup(AttackBaseFields, "name").value.kind)
  {
    NameDeclared();
    NameNotExtended();
  }

  lemma NameNotExtended()
    ensures "name" !in Schema.Names(GroupExtension)
  {
    var e := GroupExtension;
    assert forall j :: 0 <= j < |e| ==> |e[j].name| != 4 || e[j].name[0] == 't';
  }

  lemma RequiredPresent(m: map<string, Json>)
    requires Accepts(GroupShape, JObj(m))
    ensures ExtensionRequired <= m.Keys
  {
    ExtensionRequiredNames();
    ExtensionRequiredAll(AttackBaseFields, GroupExtension, {}, Strict, m);
  }

  //---------------------------------------------------------------------------
  // what the schema accepts
  //---------------------------------------------------------------------------

  /** Parsing keeps the aliases and the name. */
  lemma AliasesAndNameKept(m: map<string, Json>)
    requires Accepts(GroupShape, JObj(m))
    ensures var p := CheckValue(GroupShape, JObj(m)).value;
      Get(p, "aliases") == Get(JObj(m), "aliases") && Get(p, "name") == Get(JObj(m), "name")
  {
    AliasesDeclared();
    NameInBase();
    ExtendedKept(AttackBaseFields, GroupExtension, {}, Strict, m, "aliases");
    BaseKept(AttackBaseFields, GroupExtension, {}, Strict, m, "name");
  }

  /** Of the objects the shape accepts, the group schema accepts exactly
      those whose non-empty alias list starts with the name. */
  lemma GroupRefinedIff(m: map<string, Json>)
    requires Accepts(GroupShape, JObj(m))
    ensures Accepts(GroupObject, JObj(m)) <==> AliasesLeadWithName(m, "aliases")
  {
    RefinedAccepts(GroupShape, v => FirstAliasRule("aliases", v), JObj(m));
    AliasesAndNameKept(m);
    FirstAliasReads("aliases", CheckValue(GroupShape, JObj(m)).value, JObj(m));
    FirstAliasOnObject("aliases", m);
  }

  /** The motivations and the resource level come from their
      vocabularies. */
  predicate FromVocabularies(m: map<string, Json>)
  {
    ("resource_level" in m ==> m["resource_level"].JStr? && m["resource_level"].s in AttackResourceLevels)
    && ("primary_motivation" in m ==> m["primary_motivation"].JStr? && m["primary_motivation"].s in AttackMotivations)
    && ("secondary_motivations" in m ==>
          m["secondary_motivations"].JArr?
          && forall x :: x in m["secondary_motivations"].items ==> x.JStr? && x.s in AttackMotivations)
  }

  lemma LevelAccepted(m: map<string, Json>)
    requires Accepts(GroupShape, JObj(m))
    ensures "resource_level" in m ==> m["resource_level"].JStr? && m["resource_level"].s in AttackResourceLevels
  {
    if "resource_level" in m {
      LevelValue(m);
    }
  }

  lemma LevelValue(m: map<string, Json>)
    requires Accepts(GroupShape, JObj(m)) && "resource_level" in m
    ensures Accepts(Leaf(AttackResourceLevel), m["resource_level"])
  {
    LevelDeclared();
    ExtensionAccepted(m, "resource_level", Leaf(AttackResourceLevel));
  }

  lemma PrimaryAccepted(m: map<string, Json>)
    requires Accepts(GroupShape, JObj(m))
    ensures "primary_motivation" in m ==> m["primary_motivation"].JStr? && m["primary_motivation"].s in AttackMotivations
  {
    if "primary_motivation" in m {
      PrimaryValue(m);
    }
  }

  lemma PrimaryValue(m: map<string, Json>)
    requires Accepts(GroupShape, JObj(m)) && "primary_motivation" in m
    ensures Accepts(Leaf(AttackMotivation), m["primary_motivation"])
  {
    PrimaryDeclared();
    ExtensionAccepted(m, "primary_motivation", Leaf(AttackMotivation));
  }

  lemma SecondaryAccepted(m: map<string, Json>)
    requires Accepts(GroupShape, JObj(m))
    ensures "secondary_motivations" in m ==>
      (m["secondary_motivations"].JArr?
       && forall x :: x in m["secondary_motivations"].items ==> x.JStr? && x.s in AttackMotivations)
  {
    if "secondary_motivations" in m {
      SecondaryDeclared();
      ExtendedValue(AttackBaseFields, GroupExtension, {}, Strict, m, "secondary_motivations");
      MotivationListAccepted(m["secondary_motivations"]);
    }
  }

  /** An extension key of an accepted group holds a value its declaration
      accepts. */
  lemma ExtensionAccepted(m: map<string, Json>, n: string, k: Kind)
    requires Accepts(GroupShape, JObj(m)) && n in m
    requires Lookup(GroupExtension, n).Some? && Lookup(GroupExtension, n).value.kind == k
    ensures Accepts(k, m[n])
  {
    ExtendedValue(AttackBaseFields, GroupExtension, {}, Strict, m, n);
  }

  lemma MotivationListAccepted(x: Json)
    requires Accepts(ArrayOf(Leaf(AttackMotivation), 0, None), x)
    ensures x.JArr? && forall y :: y in x.items ==> y.JStr? && y.s in AttackMotivations
  {
    AcceptedShape(ArrayOf(Leaf(AttackMotivation), 0, None), x);
    ArrayAccepts(Leaf(AttackMotivation), 0, None, x.items);
  }

  lemma ReferencesAccepted(m: map<string, Json>)
    requires Accepts(GroupShape, JObj(m)) && "external_references" in m
    ensures Accepts(GroupReferences, m["external_references"])
  {
    ReferencesDeclared();
    ExtendedValue(AttackBaseFields, GroupExtension, {}, Strict, m, "external_references");
  }

  /** The reference list the shape accepts is tagged with a group ID. */
  lemma GroupTagged(m: map<string, Json>)
    requires Accepts(GroupShape, JObj(m))
    ensures TaggedWith(JObj(m), GroupId)
  {
    RequiredPresent(m);
    ReferencesAccepted(m);
    ReferencesTagged(m);
  }

  /** The ID format the factory looks up for this type. */
  lemma GroupFormat()
    ensures FormatForType("intrusion-set") == Some(GroupId)
  {
  }

  lemma ReferencesTagged(m: map<string, Json>)
    requires "external_references" in m && Accepts(GroupReferences, m["external_references"])
    ensures TaggedWith(JObj(m), GroupId)
  {
    GroupFormat();
    ObjectTagged("intrusion-set", m);
  }

  /** An accepted group holds the four required extension properties, no
      undeclared key, a group ID in its first reference, vocabulary values
      for the motivations and resource level, and aliases that start with
      the name. */
  lemma GroupAccepted(m: map<string, Json>)
    requires Accepts(GroupObject, JObj(m))
    ensures ExtensionRequired <= m.Keys
    ensures m.Keys <= Schema.Names(AttackBaseFields) + Schema.Names(GroupExtension)
    ensures TaggedWith(JObj(m), GroupId)
    ensures FromVocabularies(m)
    ensures AliasesLeadWithName(m, "aliases")
  {
    RefinedAccepts(GroupShape, v => FirstAliasRule("aliases", v), JObj(m));
    RequiredPresent(m);
    ExtendedStrict(AttackBaseFields, GroupExtension, {}, m);
    GroupTagged(m);
    LevelAccepted(m);
    PrimaryAccepted(m);
    SecondaryAccepted(m);
    GroupRefinedIff(m);
  }
}

=== FILE: identity.dfy ===
/** The identity object (src/schemas/sdo/identity.schema.ts): the ATT&CK
    base extended with the identity properties, with the object version
    removed, and no unknown key. */
module Identity {
  import opened Wrappers
  import opened Strings
  import opened JsonValues
  import opened Schema
  import opened Generics
  import opened StixTypes
  import opened StixIdentifier
  import opened CommonProperties
  import opened OpenVocabularies
  import opened StixCore
  import opened AttackBase

  /** `z.array(IndustrySectorOV).min(1)` */
  const SectorList: Kind := ArrayOf(Leaf(IndustrySector), 1, None)

  /** `IdentityClassOV` */
  const ClassKind: Kind := Leaf(IdentityClass)

  /** The properties `.extend` adds to or replaces in the ATT&CK base. */
  const IdentityExtension: seq<Field> := [
    Field("id", true, Leaf(v => CreateStixIdentifierSchema("identity", v))),
    Field("type", true, Leaf(v => TypeValidator("identity", v))),
    Field("object_marking_refs", true, CommonObjectMarkingRefs),
    Field("identity_class", true, ClassKind),
    Field("description", false, Description),
    Field("roles", false, StixListOfString),
    Field("sectors", false, SectorList),
    Field("contact_information", false, Leaf(NonEmptyRequiredString))
  ]

  const ExtensionRequired: set<string> := {"id", "type", "object_marking_refs", "identity_class"}

  /** `.omit({ x_mitre_version: true })` */
  const Omitted: set<string> := {"x_mitre_version"}

  function IdentityFields(): seq<Field>
  {
    ExtendOmit(AttackBaseFields, IdentityExtension, Omitted)
  }

  /** `identitySchema` */
  const IdentityObject: Kind := Object(IdentityFields(), Strict)

  /** Each name is declared once, none of them is omitted, and four are
      required. */
  lemma ExtensionRequiredNames()
    ensures DistinctNames(IdentityExtension)
    ensures RequiredNames(IdentityExtension) == ExtensionRequired
    ensures Schema.Names(IdentityExtension) !! Omitted
  {
    var e := IdentityExtension;
    assert e[0].name == "id" && e[1].name == "type" && e[2].name == "object_marking_refs" && e[3].name == "identity_class";
    assert |e[0].name| == 2 && |e[1].name| == 4 && |e[2].name| == 19 && |e[3].name| == 14;
    assert |e[4].name| == 11 && |e[5].name| == 5 && |e[6].name| == 7 && |e[7].name| == 19;
    assert e[2].name[0] != e[7].name[0];
    assert forall j :: 0 <= j < |e| ==> e[j].name[0] != 'x';
    assert forall j :: 0 <= j < |e| ==> (e[j].required <==> j < 4);
  }

  lemma ClassDeclared()
    ensures Lookup(IdentityExtension, "identity_class") == Some(Field("identity_class", true, ClassKind))
  {
    ExtensionRequiredNames();
    LookupDistinct(IdentityExtension, 3);
  }

  lemma ClassInTable()
    ensures Lookup(IdentityFields(), "identity_class") == Some(Field("identity_class", true, ClassKind))
  {
    ClassDeclared();
    OmitLookup(AttackBaseFields, IdentityExtension, Omitted, "identity_class");
  }

  lemma SectorsDeclared()
    ensures Lookup(IdentityExtension, "sectors") == Some(Field("sectors", false, SectorList))
  {
    ExtensionRequiredNames();
    LookupDistinct(IdentityExtension, 6);
  }

  /** The base declares the object version, required: the omission is what
      lets an identity go without one. */
  lemma VersionInBase()
    ensures "x_mitre_version" in Schema.Names(AttackBaseFields)
    ensures Lookup(AttackBaseFields, "x_mitre_version").value.required
  {
    AttackBaseDeclares();
    AttackBaseNames();
    var e := AttackBaseExtension;
    assert |e[0].name| == 4 && |e[1].name| == 27 && |e[2].name| == 15;
    LookupFirst(e, 2);
    LookupConcat(BaseFields, e, "x_mitre_version");
  }

  lemma RequiredPresent(m: map<string, Json>)
    requires Accepts(IdentityObject, JObj(m))
    ensures ExtensionRequired <= m.Keys
  {
    ExtensionRequiredNames();
    OmitRequiredAll(AttackBaseFields, IdentityExtension, Omitted, Strict, m);
  }

  /** An accepted identity carries no object version. */
  lemma NoVersion(m: map<string, Json>)
    requires Accepts(IdentityObject, JObj(m))
    ensures "x_mitre_version" !in m
    ensures m.Keys <= Schema.Names(AttackBaseFields) + Schema.Names(IdentityExtension) - Omitted
  {
    OmitStrict(AttackBaseFields, IdentityExtension, Omitted, m);
  }

  lemma ClassAccepted(m: map<string, Json>)
    requires Accepts(IdentityObject, JObj(m))
    ensures "identity_class" in m && m["identity_class"].JStr? && m["identity_class"].s in IdentityClasses
  {
    RequiredPresent(m);
    ClassParsed(m);
    ClassValue(m["identity_class"]);
  }

  lemma ClassParsed(m: map<string, Json>)
    requires Accepts(IdentityObject, JObj(m)) && "identity_class" in m
    ensures Accepts(ClassKind, m["identity_class"])
  {
    ClassInTable();
    AcceptedByName(IdentityFields(), Strict, m, "identity_class");
  }

  lemma ClassValue(x: Json)
    requires Accepts(ClassKind, x)
    ensures x.JStr? && x.s in IdentityClasses
  {
  }

  /** Industry sectors, at least one. */
  predicate SectorsOk(x: Json)
  {
    x.JArr? && |x.items| >= 1 && forall y :: y in x.items ==> y.JStr? && y.s in IndustrySectors
  }

  lemma SectorListAccepts(x: Json)
    ensures Accepts(SectorList, x) <==> SectorsOk(x)
  {
    if x.JArr? {
      ArrayAccepts(Leaf(IndustrySector), 1, None, x.items);
      assert forall y :: y in x.items ==> exists j :: 0 <= j < |x.items| && x.items[j] == y;
    }
  }

  lemma SectorsAccepted(m: map<string, Json>)
    requires Accepts(IdentityObject, JObj(m))
    ensures "sectors" in m ==> SectorsOk(m["sectors"])
  {
    if "sectors" in m {
      SectorsDeclared();
      OmitExtensionValue(AttackBaseFields, IdentityExtension, Omitted, Strict, m, "sectors");
      SectorListAccepts(m["sectors"]);
    }
  }

  /** An accepted identity holds the four required extension properties,
      an identity class from the vocabulary, industry sectors when it lists
      any, no undeclared key and no object version. */
  lemma IdentityAccepted(m: map<string, Json>)
    requires Accepts(IdentityObject, JObj(m))
    ensures ExtensionRequired <= m.Keys
    ensures m["identity_class"].JStr? && m["identity_class"].s in IdentityClasses
    ensures "sectors" in m ==> SectorsOk(m["sectors"])
    ensures "x_mitre_version" !in m
    ensures m.Keys <= Schema.Names(AttackBaseFields) + Schema.Names(IdentityExtension) - Omitted
  {
    RequiredPresent(m);
    ClassAccepted(m);
    SectorsAccepted(m);
    NoVersion(m);
  }

  /** An object with an object version is refused, whatever else it
      holds. */
  lemma VersionRefused(m: map<string, Json>)
    requires "x_mitre_version" in m
    ensures !Accepts(IdentityObject, JObj(m))
  {
    if Accepts(IdentityObject, JObj(m)) {
      NoVersion(m);
    }
  }
}

=== FILE: json.dfy ===
/** JSON values as the schemas receive them, and the issues a failed parse
    reports. */
module JsonValues {
  import opened Wrappers
  import Strings

  /** A JSON value. Numbers are JavaScript numbers restricted to the
      rationals; objects are maps from keys to values. */
  datatype Json =
    | JNull
    | JBool(b: bool)
    | JNum(n: real)
    | JStr(s: string)
    | JArr(items: seq<Json>)
    | JObj(fields: map<string, Json>)

  /** One step of an issue path: an object key or an array index. */
  datatype PathSeg = Key(key: string) | Index(index: nat)

  /** A validation issue: where it was found and what it says. */
  datatype Issue = Issue(path: seq<PathSeg>, message: string)

  /** The outcome of a schema: the parsed (possibly transformed) value or a
      non-empty list of issues. */
  type Parsed = Result<Json, seq<Issue>>

  /** An issue at the root of the value being parsed. */
  function Fail(message: string): (r: Parsed)
    ensures r.Err? && |r.error| == 1 && r.error[0].path == []
  {
    Err([Issue([], message)])
  }

  /** Issues found inside a child, re-rooted under the child's key or index. */
  function Under(seg: PathSeg, issues: seq<Issue>): (r: seq<Issue>)
    ensures |r| == |issues|
    ensures forall i :: 0 <= i < |r| ==> r[i].path == [seg] + issues[i].path && r[i].message == issues[i].message
  {
    seq(|issues|, i requires 0 <= i < |issues| => Issue([seg] + issues[i].path, issues[i].message))
  }

  /** A present property of an object value. */
  function Get(v: Json, key: string): Option<Json>
  {
    if v.JObj? && key in v.fields then Some(v.fields[key]) else None
  }

  /** A present string property of an object value. */
  function GetString(v: Json, key: string): Option<string>
  {
    if v.JObj? && key in v.fields && v.fields[key].JStr? then Some(v.fields[key].s) else None
  }

  /** JavaScript truthiness of a property value (`!!obj[key]`). */
  predicate Truthy(v: Option<Json>)
  {
    match v
    case None => false
    case Some(JNull) => false
    case Some(JBool(b)) => b
    case Some(JNum(n)) => n != 0.0
    case Some(JStr(s)) => s != ""
    case Some(_) => true
  }

  predicate IsInteger(n: real) { n.Floor as real == n }

  /** JavaScript's `String(v)`: `numberText` is `Number.prototype.toString`,
      and an array is its items joined by "," with null items left empty. */
  function JsString(v: Json, numberText: real -> string): string
  {
    match v
    case JNull => "null"
    case JBool(b) => if b then "true" else "false"
    case JNum(n) => numberText(n)
    case JStr(s) => s
    case JArr(items) =>
      Strings.Join(seq(|items|, k requires 0 <= k < |items| => if items[k].JNull? then "" else JsString(items[k], numberText)), ",")
    case JObj(_) => "[object Object]"
  }

  /** The names every plain JavaScript object literal inherits from
      `Object.prototype`. Indexing a literal with one of them finds a
      function or the prototype itself: a truthy value that has none of the
      literal's own properties. */
  const PrototypeKeys: set<string> := {
    "constructor", "__proto__", "toString", "toLocaleString", "valueOf", "hasOwnProperty",
    "isPrototypeOf", "propertyIsEnumerable", "__defineGetter__", "__defineSetter__",
    "__lookupGetter__", "__lookupSetter__"
  }
}

=== FILE: kill_chains.dfy ===
/** Kill-chain phases: which ATT&CK kill chain a phase belongs to and how a
    phase is named (src/schemas/common/property-schemas/stix-kill-chains.ts). */
module KillChains {
  import opened Wrappers
  import opened Strings
  import opened JsonValues
  import opened Schema
  import opened Generics

  const KillChainNames: seq<string> := ["mitre-attack", "mitre-mobile-attack", "mitre-ics-attack"]

  const PhaseNameMessage := "Phase name should be all lowercase and use hyphens instead of spaces or underscores."

  /** The phase-name rule: unchanged by lower-casing, and neither a space nor
      an underscore. */
  predicate IsPhaseName(s: string)
  {
    LowerAscii(s) == s && ' ' !in s && '_' !in s
  }

  /** A string is unchanged by lower-casing exactly when it has no upper-case
      letter. */
  lemma LowerFixedIffNoUpper(s: string)
    ensures LowerAscii(s) == s <==> forall i :: 0 <= i < |s| ==> !IsUpper(s[i])
  {
    if LowerAscii(s) == s {
      forall i | 0 <= i < |s| ensures !IsUpper(s[i]) {
        assert LowerAscii(s)[i] == LowerChar(s[i]);
      }
    }
  }

  function PhaseRule(v: Json): (issues: seq<Issue>)
    ensures issues == [] <==> !v.JStr? || IsPhaseName(v.s)
  {
    if v.JStr? && !IsPhaseName(v.s) then [Issue([], PhaseNameMessage)] else []
  }

  /** `phase_name`: a non-blank string whose trimmed text is a phase name. */
  const PhaseName: Kind := Refined(Leaf(NonEmptyRequiredString), PhaseRule)

  function KillChainName(v: Json): (r: Parsed)
    ensures r.Ok? <==> v.JStr? && v.s in KillChainNames
  {
    Enum(KillChainNames, v)
  }

  const KillChainPhaseFields: seq<Field> :=
    [Field("phase_name", true, PhaseName), Field("kill_chain_name", true, Leaf(KillChainName))]

  /** `killChainPhaseSchema` (strict) */
  const KillChainPhase: Kind := Object(KillChainPhaseFields, Strict)

  /** A phase name is accepted exactly when it is a string whose trimmed text
      is non-empty, has no upper-case letter, space or underscore. */
  lemma PhaseNameAccepts(v: Json)
    ensures Accepts(PhaseName, v) <==>
            v.JStr? && !AllWhitespace(v.s)
            && (forall i :: 0 <= i < |Trim(v.s)| ==> !IsUpper(Trim(v.s)[i]))
            && ' ' !in Trim(v.s) && '_' !in Trim(v.s)
  {
    RefinedAccepts(Leaf(NonEmptyRequiredString), PhaseRule, v);
    if v.JStr? {
      LowerFixedIffNoUpper(Trim(v.s));
    }
  }

  /** A kill-chain phase is accepted exactly when it has a valid phase name,
      a known kill-chain name, and no other key. */
  lemma KillChainPhaseAccepts(m: map<string, Json>)
    ensures Accepts(KillChainPhase, JObj(m)) <==>
            "phase_name" in m && Accepts(PhaseName, m["phase_name"])
            && "kill_chain_name" in m && m["kill_chain_name"].JStr? && m["kill_chain_name"].s in KillChainNames
            && m.Keys <= {"phase_name", "kill_chain_name"}
  {
    ObjectAccepts(KillChainPhaseFields, Strict, m);
    assert Names(KillChainPhaseFields) == {"phase_name", "kill_chain_name"} by {
      assert KillChainPhaseFields[0].name == "phase_name";
      assert KillChainPhaseFields[1].name == "kill_chain_name";
    }
    assert FieldOk(KillChainPhaseFields[0], m) <==> "phase_name" in m && Accepts(PhaseName, m["phase_name"]);
  }

  /** A phase name without surrounding blanks is checked as written. */
  lemma SolidPhaseName(s: string)
    requires |s| > 0 && !IsJsWhitespace(s[0]) && !IsJsWhitespace(s[|s| - 1])
    ensures Accepts(PhaseName, JStr(s)) <==> IsPhaseName(s)
  {
    TrimSolid(s);
    assert !AllWhitespace(s) by { BlankIffAllWhitespace(s); }
    RefinedAccepts(Leaf(NonEmptyRequiredString), PhaseRule, JStr(s));
  }

  /** `Initial Access` is refused (upper case and a space). */
  lemma TitleCaseRefused()
    ensures !Accepts(PhaseName, JStr("Initial Access"))
  {
    var s := "Initial Access";
    SolidPhaseName(s);
    assert s[7] == ' ';
  }

  /** `initial-access` is accepted. */
  lemma HyphenatedAccepted()
    ensures Accepts(PhaseName, JStr("initial-access"))
  {
    var s := "initial-access";
    SolidPhaseName(s);
    assert forall i :: 0 <= i < |s| ==> !IsUpper(s[i]) && s[i] != ' ' && s[i] != '_';
    LowerFixedIffNoUpper(s);
  }
}

=== FILE: log_source.dfy ===
/** The log source object (src/schemas/sdo/log-source.schema.ts): the
    ATT&CK base extended with the log source properties, no unknown key,
    and a first reference whose ID is a data source ID `DS####`. */
module LogSource {
  import opened Wrappers
  import opened JsonValues
  import opened Schema
  import opened Generics
  import opened AttackIds
  import opened CommonProperties
  import opened ExternalReferences
  import opened AttackBase

  //---------------------------------------------------------------------------
  // the check of the first reference's ID
  //---------------------------------------------------------------------------

  const DataSourceFormatMessage := "The first external_reference must match the ATT&CK ID format DS####."

  /** The superRefine: a falsy first `external_id` is reported as undefined,
      an ID that is not a whole data source ID as malformed, both at the
      ID's path. */
  function DataSourceIdIssues(v: Json): (r: seq<Issue>)
    ensures |r| <= 1
    ensures r != [] ==> r[0].path == IdPath
  {
    var id := FirstExternalId(v);
    if !Truthy(id) then [Issue(IdPath, MissingIdMessage)]
    else if id.value.JStr? && Matches(DataSourceId, id.value.s) then []
    else [Issue(IdPath, DataSourceFormatMessage)]
  }

  /** The check passes exactly when the first ID is a data source ID. */
  lemma DataSourceIdAccepts(v: Json)
    ensures DataSourceIdIssues(v) == [] <==>
      FirstExternalId(v).Some? && FirstExternalId(v).value.JStr? && Matches(DataSourceId, FirstExternalId(v).value.s)
    ensures !Truthy(FirstExternalId(v)) ==> DataSourceIdIssues(v) == [Issue(IdPath, MissingIdMessage)]
  {
  }

  /** The log source writes out by hand what the reference list schema for
      data sources checks: on a reference list whose first ID is a string
      or absent, the two report the same issues, the object's re-rooted
      under `external_references`. */
  lemma AgreesWithReferenceFactory(v: Json)
    requires Get(v, "external_references").Some?
    requires FirstExternalId(v).None? || FirstExternalId(v).value.JStr?
    ensures var refs := Get(v, "external_references").value;
      DataSourceIdIssues(v) == Under(Key("external_references"),
        MissingIdRule(refs) + CommonFormatRule("x-mitre-data-source", refs))
  {
    var refs := Get(v, "external_references").value;
    var factory := MissingIdRule(refs) + CommonFormatRule("x-mitre-data-source", refs);
    var mine := DataSourceIdIssues(v);
    assert FormatMessage("x-mitre-data-source") == DataSourceFormatMessage;
    if refs.JArr? && |refs.items| > 0 {
      assert FirstExternalId(v) == Get(refs.items[0], "external_id");
    }
    assert |mine| == |factory|;
    assert forall i :: 0 <= i < |mine| ==> mine[i] == Issue([Key("external_references")] + factory[i].path, factory[i].message);
  }

  //---------------------------------------------------------------------------
  // the log source schema
  //---------------------------------------------------------------------------

  /** `xMitreCollectionLayersSchema`: the layer vocabulary is not part of
      this model, so any string is a layer. */
  const CollectionLayers: Kind := ArrayOf(Leaf(AnyString), 0, None)

  /** The properties `.extend` adds to or replaces in the ATT&CK base. */
  const LogSourceExtension: seq<Field> := [
    Field("created_by_ref", true, Leaf(CreatedByRef)),
    Field("external_references", true, CommonExternalReferences),
    Field("object_marking_refs", true, CommonObjectMarkingRefs),
    Field("x_mitre_domains", true, XMitreDomains),
    Field("x_mitre_modified_by_ref", true, Leaf(CommonModifiedByRef)),
    Field("x_mitre_contributors", false, CommonContributors),
    Field("x_mitre_collection_layers", true, CollectionLayers)
  ]

  /** The extension's required names: all but the contributors. */
  const ExtensionRequired: set<string> := {
    "created_by_ref", "external_references", "object_marking_refs", "x_mitre_domains",
    "x_mitre_modified_by_ref", "x_mitre_collection_layers"
  }

  function LogSourceFields(): seq<Field>
  {
    ExtendRequire(AttackBaseFields, LogSourceExtension, {})
  }

  const LogSourceShape: Kind := Object(LogSourceFields(), Strict)

  /** `logSourceSchema` */
  const LogSourceObject: Kind := Refined(LogSourceShape, DataSourceIdIssues)

  /** Each name is declared once, and the required ones are all but the
      contributors. */
  lemma ExtensionRequiredNames()
    ensures DistinctNames(LogSourceExtension)
    ensures RequiredNames(LogSourceExtension) == ExtensionRequired
  {
    var e := LogSourceExtension;
    assert e[0].name == "created_by_ref" && e[1].name == "external_references" && e[2].name == "object_marking_refs";
    assert e[3].name == "x_mitre_domains" && e[4].name == "x_mitre_modified_by_ref";
    assert e[5].name == "x_mitre_contributors" && e[6].name == "x_mitre_collection_layers";
    assert |e[0].name| == 14 && |e[1].name| == 19 && |e[2].name| == 19 && |e[3].name| == 15;
    assert |e[4].name| == 23 && |e[5].name| == 20 && |e[6].name| == 25;
    assert e[1].name[0] != e[2].name[0];
    assert !e[5].required && forall j :: 0 <= j < |e| && j != 5 ==> e[j].required;
  }

  /** The declaration of the references. */
  lemma ReferencesDeclared()
    ensures Lookup(LogSourceExtension, "external_references") == Some(Field("external_references", true, CommonExternalReferences))
  {
    ExtensionRequiredNames();
    LookupDistinct(LogSourceExtension, 1);
  }

  lemma RequiredPresent(m: map<string, Json>)
    requires Accepts(LogSourceShape, JObj(m))
    ensures ExtensionRequired <= m.Keys
  {
    ExtensionRequiredNames();
    ExtensionRequiredAll(AttackBaseFields, LogSourceExtension, {}, Strict, m);
  }

  /** Parsing keeps the first reference's ID. */
  lemma FirstIdKept(m: map<string, Json>)
    requires Accepts(LogSourceShape, JObj(m)) && "external_references" in m
    ensures FirstExternalId(CheckValue(LogSourceShape, JObj(m)).value) == FirstExternalId(JObj(m))
  {
    ReferencesDeclared();
    ExtendedValue(AttackBaseFields, LogSourceExtension, {}, Strict, m, "external_references");
    FirstIdOfList(m, CheckValue(LogSourceShape, JObj(m)).value);
  }

  /** Of the objects the shape accepts, the log source schema accepts
      exactly those whose first ID is a data source ID. */
  lemma LogSourceRefinedIff(m: map<string, Json>)
    requires Accepts(LogSourceShape, JObj(m))
    ensures Accepts(LogSourceObject, JObj(m)) <==> TaggedWith(JObj(m), DataSourceId)
  {
    RefinedAccepts(LogSourceShape, DataSourceIdIssues, JObj(m));
    RequiredPresent(m);
    FirstIdKept(m);
    DataSourceIdAccepts(CheckValue(LogSourceShape, JObj(m)).value);
  }

  /** An accepted log source holds the six required extension properties,
      no undeclared key, and a data source ID in its first reference. */
  lemma LogSourceAccepted(m: map<string, Json>)
    requires Accepts(LogSourceObject, JObj(m))
    ensures ExtensionRequired <= m.Keys
    ensures m.Keys <= Schema.Names(AttackBaseFields) + Schema.Names(LogSourceExtension)
    ensures TaggedWith(JObj(m), DataSourceId)
  {
    RefinedAccepts(LogSourceShape, DataSourceIdIssues, JObj(m));
    RequiredPresent(m);
    ExtendedStrict(AttackBaseFields, LogSourceExtension, {}, m);
    LogSourceRefinedIff(m);
  }
}

=== FILE: marking_definition.dfy ===
/** Marking definitions (src/schemas/smo/marking-definition.schema.ts): the
    four fixed TLP marking definitions, and the marking-definition object
    ATT&CK validates, whose definition is a TLP or a statement marking. */
module MarkingDefinition {
  import opened Wrappers
  import opened JsonValues
  import opened Schema
  import opened Generics
  import opened StixIdentifier
  import opened CommonProperties
  import opened Versions
  import opened Timestamps

  //---------------------------------------------------------------------------
  // marking objects
  //---------------------------------------------------------------------------

  /** `TlpMarkingObjectSchema`: exactly `{tlp: string}`. */
  const TlpMarkingObject: Kind := Object([Field("tlp", true, Leaf(AnyString))], Strict)

  /** `StatementMarkingObjectSchema`: exactly `{statement: string}`. */
  const StatementMarkingObject: Kind := Object([Field("statement", true, Leaf(AnyString))], Strict)

  /** A JSON object holding exactly one string property, named `key`. */
  predicate SoleString(x: Json, key: string)
  {
    x.JObj? && x.fields.Keys == {key} && x.fields[key].JStr?
  }

  /** The two marking objects accept exactly the one-property objects they
      name. */
  lemma MarkingObjectsAccept(x: Json)
    ensures Accepts(TlpMarkingObject, x) <==> SoleString(x, "tlp")
    ensures Accepts(StatementMarkingObject, x) <==> SoleString(x, "statement")
  {
    if x.JObj? {
      var t := [Field("tlp", true, Leaf(AnyString))];
      var s := [Field("statement", true, Leaf(AnyString))];
      ObjectAccepts(t, Strict, x.fields);
      ObjectAccepts(s, Strict, x.fields);
      assert t[0].name == "tlp" && s[0].name == "statement";
      assert Schema.Names(t) == {"tlp"} && Schema.Names(s) == {"statement"};
    }
  }

  //---------------------------------------------------------------------------
  // the four TLP marking definitions
  //---------------------------------------------------------------------------

  datatype TlpLevel = White | Green | Amber | Red

  /** The identifier the standard fixes for each level. */
  function TlpId(l: TlpLevel): string
  {
    match l
    case White => "marking-definition--613f2e26-407d-48c7-9eca-b8e91df99dc9"
    case Green => "marking-definition--34098fce-860f-48ae-8e50-ebd3cc5e41da"
    case Amber => "marking-definition--f88d31f6-486f-44da-b317-01333bde0b82"
    case Red => "marking-definition--5e57c739-391a-4eb3-b6be-7d15ca92d5ed"
  }

  function TlpName(l: TlpLevel): string
  {
    match l
    case White => "TLP:WHITE"
    case Green => "TLP:GREEN"
    case Amber => "TLP:AMBER"
    case Red => "TLP:RED"
  }

  function TlpText(l: TlpLevel): string
  {
    match l
    case White => "white"
    case Green => "green"
    case Amber => "amber"
    case Red => "red"
  }

  /** The three strings tell the levels apart. */
  lemma TlpStringsDistinct(a: TlpLevel, b: TlpLevel)
    ensures TlpId(a) == TlpId(b) <==> a == b
    ensures TlpName(a) == TlpName(b) <==> a == b
    ensures TlpText(a) == TlpText(b) <==> a == b
  {
    assert TlpId(a)[20] == TlpId(b)[20] ==> a == b;
    assert TlpName(a)[4] == TlpName(b)[4] ==> a == b;
    assert TlpText(a)[0] == TlpText(b)[0] ==> a == b;
  }

  /** `{tlp: z.literal(text)}`: a level's definition object; it is not
      strict, so extra keys are stripped. */
  function TlpDefinition(text: string): Kind
  {
    Object([Field("tlp", true, Leaf(v => Literal(text, v)))], Strip)
  }

  /** `BaseMarkingDefinitionSchema.extend({...}).strict()` with the
      identifier, name and level a TLP schema fixes. */
  function TlpFields(id: string, name: string, text: string): seq<Field>
  {
    [
      Field("type", true, Leaf(v => Literal("marking-definition", v))),
      Field("spec_version", true, Leaf(v => Literal("2.1", v))),
      Field("id", true, Leaf(v => Literal(id, v))),
      Field("created", true, Leaf(IsoDateTime)),
      Field("definition_type", true, Leaf(v => Literal("tlp", v))),
      Field("name", true, Leaf(v => Literal(name, v))),
      Field("definition", true, TlpDefinition(text))
    ]
  }

  /** `TlpWhiteSchema`, `TlpGreenSchema`, `TlpAmberSchema`, `TlpRedSchema` */
  function TlpSchema(l: TlpLevel): Kind
  {
    Object(TlpFields(TlpId(l), TlpName(l), TlpText(l)), Strict)
  }

  /** `TlpMarkingDefinitionSchema`: the first of the four that accepts. */
  const TlpMarkingDefinition: Kind :=
    Union(TlpSchema(White), Union(TlpSchema(Green), Union(TlpSchema(Amber), TlpSchema(Red))))

  const TlpKeys: set<string> := {"type", "spec_version", "id", "created", "definition_type", "name", "definition"}

  /** `z.string().datetime()` accepts the value. */
  predicate DateTime(x: Json)
  {
    Accepts(Leaf(IsoDateTime), x)
  }

  lemma DateTimeIff(x: Json)
    ensures DateTime(x) <==> x.JStr? && IsIsoDateTime(x.s)
  {
  }

  /** The properties of a TLP marking definition with the given identifier,
      name and level: those three, a date-time and the fixed type, version
      and definition type. */
  predicate TlpValues(id: string, name: string, text: string, m: map<string, Json>)
  {
    "type" in m && m["type"] == JStr("marking-definition")
    && "spec_version" in m && m["spec_version"] == JStr("2.1")
    && "id" in m && m["id"] == JStr(id)
    && "created" in m && DateTime(m["created"])
    && "definition_type" in m && m["definition_type"] == JStr("tlp")
    && "name" in m && m["name"] == JStr(name)
    && "definition" in m && m["definition"].JObj? && "tlp" in m["definition"].fields
    && m["definition"].fields["tlp"] == JStr(text)
  }

  /** The marking definition of one level, and no other key. */
  predicate TlpShaped(l: TlpLevel, m: map<string, Json>)
  {
    TlpValues(TlpId(l), TlpName(l), TlpText(l), m) && m.Keys == TlpKeys
  }

  lemma TlpNames(id: string, name: string, text: string)
    ensures Schema.Names(TlpFields(id, name, text)) == TlpKeys
  {
    var fs := TlpFields(id, name, text);
    assert fs[0].name == "type" && fs[1].name == "spec_version" && fs[2].name == "id" && fs[3].name == "created";
    assert fs[4].name == "definition_type" && fs[5].name == "name" && fs[6].name == "definition";
  }

  lemma TlpDefinitionAccepts(text: string, x: Json)
    ensures Accepts(TlpDefinition(text), x) <==> x.JObj? && "tlp" in x.fields && x.fields["tlp"] == JStr(text)
  {
    if x.JObj? {
      ObjectAccepts([Field("tlp", true, Leaf(v => Literal(text, v)))], Strip, x.fields);
    }
  }

  /** Every declared property is acceptable exactly when the values are
      there. */
  lemma TlpFieldsOk(id: string, name: string, text: string, m: map<string, Json>)
    ensures (forall j :: 0 <= j < |TlpFields(id, name, text)| ==> FieldOk(TlpFields(id, name, text)[j], m))
            <==> TlpValues(id, name, text, m)
  {
    var fs := TlpFields(id, name, text);
    TlpEachField(id, name, text, m);
    if FieldOk(fs[0], m) && FieldOk(fs[1], m) && FieldOk(fs[2], m) && FieldOk(fs[3], m)
       && FieldOk(fs[4], m) && FieldOk(fs[5], m) && FieldOk(fs[6], m) {
      forall j | 0 <= j < |fs| ensures FieldOk(fs[j], m) {
        assert j in {0, 1, 2, 3, 4, 5, 6};
      }
    }
  }

  /** What each declared property asks of the object. */
  lemma TlpEachField(id: string, name: string, text: string, m: map<string, Json>)
    ensures var fs := TlpFields(id, name, text);
      |fs| == 7
      && (FieldOk(fs[0], m) <==> "type" in m && m["type"] == JStr("marking-definition"))
      && (FieldOk(fs[1], m) <==> "spec_version" in m && m["spec_version"] == JStr("2.1"))
      && (FieldOk(fs[2], m) <==> "id" in m && m["id"] == JStr(id))
      && (FieldOk(fs[3], m) <==> "created" in m && DateTime(m["created"]))
      && (FieldOk(fs[4], m) <==> "definition_type" in m && m["definition_type"] == JStr("tlp"))
      && (FieldOk(fs[5], m) <==> "name" in m && m["name"] == JStr(name))
  {
  }

  /** One level's schema accepts exactly that level's marking definition. */
  lemma TlpSchemaAccepts(l: TlpLevel, m: map<string, Json>)
    ensures Accepts(TlpSchema(l), JObj(m)) <==> TlpShaped(l, m)
  {
    TlpFieldsAccept(TlpId(l), TlpName(l), TlpText(l), m);
  }

  lemma TlpFieldsAccept(id: string, name: string, text: string, m: map<string, Json>)
    ensures Accepts(Object(TlpFields(id, name, text), Strict), JObj(m)) <==> TlpValues(id, name, text, m) && m.Keys == TlpKeys
  {
    ObjectAccepts(TlpFields(id, name, text), Strict, m);
    TlpNames(id, name, text);
    TlpFieldsOk(id, name, text, m);
    if TlpValues(id, name, text, m) {
      TlpValuesKeys(id, name, text, m);
    }
  }

  lemma TlpValuesKeys(id: string, name: string, text: string, m: map<string, Json>)
    requires TlpValues(id, name, text, m)
    ensures TlpKeys <= m.Keys
  {
  }

  /** The TLP union accepts exactly the four fixed marking definitions. */
  lemma TlpUnionAccepts(m: map<string, Json>)
    ensures Accepts(TlpMarkingDefinition, JObj(m)) <==>
            TlpShaped(White, m) || TlpShaped(Green, m) || TlpShaped(Amber, m) || TlpShaped(Red, m)
  {
    var v := JObj(m);
    UnionAccepts(TlpSchema(Amber), TlpSchema(Red), v);
    UnionAccepts(TlpSchema(Green), Union(TlpSchema(Amber), TlpSchema(Red)), v);
    UnionAccepts(TlpSchema(White), Union(TlpSchema(Green), Union(TlpSchema(Amber), TlpSchema(Red))), v);
    TlpSchemaAccepts(White, m);
    TlpSchemaAccepts(Green, m);
    TlpSchemaAccepts(Amber, m);
    TlpSchemaAccepts(Red, m);
  }

  /** An accepted TLP marking definition pairs an identifier, a name and a
      level of one and the same level: no mixed triple gets through. */
  lemma TlpTripleFixed(m: map<string, Json>, a: TlpLevel, b: TlpLevel)
    requires Accepts(TlpMarkingDefinition, JObj(m))
    requires "id" in m && m["id"] == JStr(TlpId(a))
    ensures "name" in m && "definition" in m && m["definition"].JObj? && "tlp" in m["definition"].fields
    ensures m["name"] == JStr(TlpName(b)) <==> a == b
    ensures m["definition"].fields["tlp"] == JStr(TlpText(b)) <==> a == b
  {
    TlpUnionAccepts(m);
    var l := if TlpShaped(White, m) then White else if TlpShaped(Green, m) then Green
             else if TlpShaped(Amber, m) then Amber else Red;
    assert TlpValues(TlpId(l), TlpName(l), TlpText(l), m);
    TlpStringsDistinct(a, l);
    TlpStringsDistinct(b, l);
  }

  //---------------------------------------------------------------------------
  // markingDefinitionSchema
  //---------------------------------------------------------------------------

  const DefinitionTypeMessage := "definition_type must be either 'statement' or 'tlp'"

  /** `z.enum(["statement", "tlp"], {message})` */
  function DefinitionType(v: Json): (r: Parsed)
    ensures r.Ok? <==> v == JStr("statement") || v == JStr("tlp")
    ensures r.Ok? ==> r.value == v
    ensures r.Err? ==> r.error == [Issue([], DefinitionTypeMessage)]
  {
    if v.JStr? && (v.s == "statement" || v.s == "tlp") then Ok(v) else Fail(DefinitionTypeMessage)
  }

  /** `z.union([TlpMarkingObjectSchema, StatementMarkingObjectSchema])` */
  const DefinitionKind: Kind := Union(TlpMarkingObject, StatementMarkingObject)

  const MarkingFields: seq<Field> := [
    Field("id", true, Leaf(v => CreateStixIdentifierSchema("marking-definition", v))),
    Field("type", true, Leaf(v => Literal("marking-definition", v))),
    Field("name", false, Leaf(NameSchema)),
    Field("spec_version", true, Leaf(StixSpecVersion)),
    Field("created", true, Leaf(StixTimestamp)),
    Field("created_by_ref", true, Leaf(CreatedByRef)),
    Field("definition_type", true, Leaf(DefinitionType)),
    Field("definition", true, DefinitionKind),
    Field("x_mitre_domains", true, XMitreDomains),
    Field("x_mitre_attack_spec_version", true, Leaf(CommonSpecVersion))
  ]

  /** `markingDefinitionSchema` */
  const MarkingDefinitionObject: Kind := Object(MarkingFields, Strict)

  const MarkingRequired: set<string> := {
    "id", "type", "spec_version", "created", "created_by_ref", "definition_type",
    "definition", "x_mitre_domains", "x_mitre_attack_spec_version"
  }

  /** The table declares ten names, all required but the name. */
  lemma MarkingNames()
    ensures Schema.Names(MarkingFields) == MarkingRequired + {"name"}
    ensures RequiredNames(MarkingFields) == MarkingRequired
  {
    var e := MarkingFields;
    assert e[0].name == "id" && e[1].name == "type" && e[2].name == "name" && e[3].name == "spec_version" && e[4].name == "created";
    assert e[5].name == "created_by_ref" && e[6].name == "definition_type" && e[7].name == "definition";
    assert e[8].name == "x_mitre_domains" && e[9].name == "x_mitre_attack_spec_version";
    assert forall j :: 0 <= j < |e| ==> (e[j].required <==> j != 2);
  }

  /** A marking object of either kind. */
  predicate DefinitionOk(x: Json)
  {
    SoleString(x, "tlp") || SoleString(x, "statement")
  }

  lemma DefinitionAccepts(x: Json)
    ensures Accepts(DefinitionKind, x) <==> DefinitionOk(x)
  {
    UnionAccepts(TlpMarkingObject, StatementMarkingObject, x);
    MarkingObjectsAccept(x);
  }

  /** What the object schema asks of every property but the definition type
      and the definition. */
  predicate OtherFieldsOk(m: map<string, Json>)
  {
    var e := MarkingFields;
    FieldOk(e[0], m) && FieldOk(e[1], m) && FieldOk(e[2], m) && FieldOk(e[3], m) && FieldOk(e[4], m)
    && FieldOk(e[5], m) && FieldOk(e[8], m) && FieldOk(e[9], m)
  }

  /** The object schema checks the definition type and the definition each
      on its own: acceptance is the other properties, the keys, a type in
      the enumeration and a marking object of either kind, with nothing
      tying the type to the kind of the object. */
  lemma MarkingAccepts(m: map<string, Json>)
    ensures Accepts(MarkingDefinitionObject, JObj(m)) <==>
            OtherFieldsOk(m) && m.Keys <= MarkingRequired + {"name"}
            && "definition_type" in m && (m["definition_type"] == JStr("statement") || m["definition_type"] == JStr("tlp"))
            && "definition" in m && DefinitionOk(m["definition"])
  {
    ObjectAccepts(MarkingFields, Strict, m);
    MarkingNames();
    MarkingFieldsOk(m);
  }

  /** Every property of the table is acceptable exactly when the other
      properties are and the definition type and definition are present and
      valid. */
  lemma MarkingFieldsOk(m: map<string, Json>)
    ensures (forall j :: 0 <= j < |MarkingFields| ==> FieldOk(MarkingFields[j], m)) <==>
            OtherFieldsOk(m)
            && "definition_type" in m && (m["definition_type"] == JStr("statement") || m["definition_type"] == JStr("tlp"))
            && "definition" in m && DefinitionOk(m["definition"])
  {
    var e := MarkingFields;
    if "definition" in m {
      DefinitionAccepts(m["definition"]);
    }
    assert e[6] == Field("definition_type", true, Leaf(DefinitionType));
    assert e[7] == Field("definition", true, DefinitionKind);
    if OtherFieldsOk(m) && FieldOk(e[6], m) && FieldOk(e[7], m) {
      forall j | 0 <= j < |e| ensures FieldOk(e[j], m) {
        assert j in {0, 1, 2, 3, 4, 5, 6, 7, 8, 9};
      }
    }
  }

  /** Swapping the definition for a marking object of the other kind keeps
      the object accepted: a `tlp` definition type may carry a statement
      and the other way round. */
  lemma DefinitionTypeUnchecked(m: map<string, Json>, d: Json)
    requires Accepts(MarkingDefinitionObject, JObj(m))
    requires DefinitionOk(d)
    ensures Accepts(MarkingDefinitionObject, JObj(m["definition" := d]))
  {
    MarkingAccepts(m);
    var m' := m["definition" := d];
    assert OtherFieldsOk(m') by {
      var e := MarkingFields;
      assert e[0].name != "definition" && e[1].name != "definition" && e[2].name != "definition" && e[3].name != "definition";
      assert e[4].name != "definition" && e[5].name != "definition" && e[8].name != "definition" && e[9].name != "definition";
    }
    MarkingAccepts(m');
  }

  /** An accepted marking definition holds every required property, no
      other key than the name, a definition type of the enumeration and a
      marking object of either kind. */
  lemma MarkingAccepted(m: map<string, Json>)
    requires Accepts(MarkingDefinitionObject, JObj(m))
    ensures MarkingRequired <= m.Keys <= MarkingRequired + {"name"}
    ensures m["definition_type"] == JStr("statement") || m["definition_type"] == JStr("tlp")
    ensures DefinitionOk(m["definition"])
  {
    MarkingNames();
    AcceptedHasRequired(MarkingFields, Strict, m);
    MarkingAccepts(m);
  }
}

=== FILE: matrix.dfy ===
/** The matrix object (src/schemas/sdo/matrix.schema.ts): the ATT&CK base
    extended with the matrix properties, all required, no unknown key, and
    an ordered list of tactic identifiers. The matrix schema has no
    refinement: `matrixSchema` is the extensible schema itself. */
module Matrix {
  import opened Wrappers
  import opened Strings
  import opened JsonValues
  import opened Schema
  import opened Generics
  import opened StixTypes
  import opened StixIdentifier
  import opened CommonProperties
  import opened ExternalReferences
  import opened AttackBase

  /** One entry of `xMitreTacticRefsSchema`: a tactic identifier. */
  function TacticRef(v: Json): Parsed
  {
    CreateStixIdentifierSchema("x-mitre-tactic", v)
  }

  /** `xMitreTacticRefsSchema`: any list of tactic identifiers, in the order
      the matrix shows the tactics. */
  const TacticRefs: Kind := ArrayOf(Leaf(TacticRef), 0, None)

  /** A list of tactic identifiers. */
  predicate TacticRefsOk(x: Json)
  {
    x.JArr? && forall y :: y in x.items ==> y.JStr? && IsStixIdentifier(y.s) && StartsWith(y.s, "x-mitre-tactic--")
  }

  /** The list schema accepts exactly the lists of tactic identifiers and
      parses them to themselves, order included. */
  lemma TacticRefsAccepts(x: Json)
    ensures Accepts(TacticRefs, x) <==> TacticRefsOk(x)
    ensures Keeps(TacticRefs)
  {
    KeepsLeaf(TacticRef);
    KeepsArray(Leaf(TacticRef), 0, None);
    if x.JArr? {
      ArrayAccepts(Leaf(TacticRef), 0, None, x.items);
      forall j | 0 <= j < |x.items|
        ensures Accepts(Leaf(TacticRef), x.items[j]) <==>
          x.items[j].JStr? && IsStixIdentifier(x.items[j].s) && StartsWith(x.items[j].s, "x-mitre-tactic--")
      {
        var y := x.items[j];
        if y.JStr? && IsStixIdentifier(y.s) && StartsWith(y.s, "x-mitre-tactic--") {
          assert StixIdentifierSchema(y).Ok?;
        }
      }
      assert forall y :: y in x.items ==> exists j :: 0 <= j < |x.items| && x.items[j] == y;
    }
  }

  /** The properties `.extend` adds to or replaces in the ATT&CK base; every
      one of them is required. */
  const MatrixExtension: seq<Field> := [
    Field("id", true, Leaf(v => CreateStixIdentifierSchema("x-mitre-matrix", v))),
    Field("type", true, Leaf(v => TypeValidator("x-mitre-matrix", v))),
    Field("created_by_ref", true, Leaf(CreatedByRef)),
    Field("description", true, Description),
    Field("external_references", true, CommonExternalReferences),
    Field("object_marking_refs", true, CommonObjectMarkingRefs),
    Field("x_mitre_domains", true, XMitreDomains),
    Field("x_mitre_modified_by_ref", true, Leaf(CommonModifiedByRef)),
    Field("tactic_refs", true, TacticRefs)
  ]

  const ExtensionRequired: set<string> := {
    "id", "type", "created_by_ref", "description", "external_references", "object_marking_refs",
    "x_mitre_domains", "x_mitre_modified_by_ref", "tactic_refs"
  }

  function MatrixFields(): seq<Field>
  {
    ExtendRequire(AttackBaseFields, MatrixExtension, {})
  }

  /** `extensibleMatrixSchema` and `matrixSchema` */
  const MatrixObject: Kind := Object(MatrixFields(), Strict)

  /** Each name is declared once and required. */
  lemma ExtensionRequiredNames()
    ensures DistinctNames(MatrixExtension)
    ensures RequiredNames(MatrixExtension) == ExtensionRequired
  {
    var e := MatrixExtension;
    assert e[0].name == "id" && e[1].name == "type" && e[2].name == "created_by_ref";
    assert e[3].name == "description" && e[4].name == "external_references" && e[5].name == "object_marking_refs";
    assert e[6].name == "x_mitre_domains" && e[7].name == "x_mitre_modified_by_ref" && e[8].name == "tactic_refs";
    assert |e[0].name| == 2 && |e[1].name| == 4 && |e[2].name| == 14 && |e[3].name| == 11 && |e[4].name| == 19;
    assert |e[5].name| == 19 && |e[6].name| == 15 && |e[7].name| == 23 && |e[8].name| == 11;
    assert e[4].name[0] != e[5].name[0] && e[3].name[0] != e[8].name[0];
    assert forall j :: 0 <= j < |e| ==> e[j].required;
  }

  lemma TacticRefsDeclared()
    ensures Lookup(MatrixExtension, "tactic_refs") == Some(Field("tactic_refs", true, TacticRefs))
  {
    ExtensionRequiredNames();
    LookupDistinct(MatrixExtension, 8);
  }

  lemma RequiredPresent(m: map<string, Json>)
    requires Accepts(MatrixObject, JObj(m))
    ensures ExtensionRequired <= m.Keys
  {
    ExtensionRequiredNames();
    ExtensionRequiredAll(AttackBaseFields, MatrixExtension, {}, Strict, m);
  }

  /** The tactic references of an accepted matrix are tactic identifiers,
      and parsing keeps them in their order. */
  lemma TacticRefsKept(m: map<string, Json>)
    requires Accepts(MatrixObject, JObj(m)) && "tactic_refs" in m
    ensures TacticRefsOk(m["tactic_refs"])
    ensures Get(CheckValue(MatrixObject, JObj(m)).value, "tactic_refs") == Some(m["tactic_refs"])
  {
    TacticRefsDeclared();
    TacticRefsAccepts(m["tactic_refs"]);
    ExtendedKept(AttackBaseFields, MatrixExtension, {}, Strict, m, "tactic_refs");
    ExtendedValue(AttackBaseFields, MatrixExtension, {}, Strict, m, "tactic_refs");
  }

  /** An accepted matrix holds the nine extension properties, no
      undeclared key, and a list of tactic identifiers that parsing keeps
      in order. */
  lemma MatrixAccepted(m: map<string, Json>)
    requires Accepts(MatrixObject, JObj(m))
    ensures ExtensionRequired <= m.Keys
    ensures m.Keys <= Schema.Names(AttackBaseFields) + Schema.Names(MatrixExtension)
    ensures TacticRefsOk(m["tactic_refs"])
    ensures Get(CheckValue(MatrixObject, JObj(m)).value, "tactic_refs") == Some(m["tactic_refs"])
  {
    RequiredPresent(m);
    ExtendedStrict(AttackBaseFields, MatrixExtension, {}, m);
    TacticRefsKept(m);
  }
}

=== FILE: mitigation.dfy ===
/** The mitigation object (src/schemas/sdo/mitigation.schema.ts): the
    ATT&CK base extended with the mitigation properties, no unknown key,
    and an old ATT&CK ID, when one is given, narrowed to the mitigation
    form `MOB-M####`. */
module Mitigation {
  import opened Wrappers
  import opened JsonValues
  import opened Schema
  import opened Generics
  import opened Versions
  import opened StixIdentifier
  import opened CommonProperties
  import opened ExternalReferences
  import opened AttackBase

  /** The properties `.extend` adds to or replaces in the ATT&CK base; every
      one of them is required. */
  const MitigationExtension: seq<Field> := [
    Field("id", true, Leaf(v => CreateStixIdentifierSchema("course-of-action", v))),
    Field("type", true, Leaf(v => Literal("course-of-action", v))),
    Field("created_by_ref", true, Leaf(CreatedByRef)),
    Field("description", true, Description),
    Field("external_references", true, CommonExternalReferences),
    Field("object_marking_refs", true, CommonObjectMarkingRefs),
    Field("x_mitre_domains", true, XMitreDomains),
    Field("x_mitre_modified_by_ref", true, Leaf(StixIdentifierSchema))
  ]

  const ExtensionRequired: set<string> := {
    "id", "type", "created_by_ref", "description", "external_references", "object_marking_refs",
    "x_mitre_domains", "x_mitre_modified_by_ref"
  }

  function MitigationFields(): seq<Field>
  {
    ExtendRequire(AttackBaseFields, MitigationExtension, {})
  }

  const MitigationShape: Kind := Object(MitigationFields(), Strict)

  const OldIdKey := "x_mitre_old_attack_id"
  const OldIdMessage := "x_mitre_old_attack_id for mitigation need to be in the format MOB-M####}."

  /** The refinement: a string old ID must have the letter `M`; an absent
      one is not checked. */
  function OldIdIssues(v: Json): (r: seq<Issue>)
    ensures r == [] <==> (GetString(v, OldIdKey).Some? ==> IsOldAttackId(GetString(v, OldIdKey).value, {'M'}))
    ensures r != [] ==> r == [Issue([Key(OldIdKey)], OldIdMessage)]
  {
    var id := GetString(v, OldIdKey);
    if id.Some? && !IsOldAttackId(id.value, {'M'}) then [Issue([Key(OldIdKey)], OldIdMessage)] else []
  }

  /** `mitigationSchema` */
  const MitigationObject: Kind := Refined(MitigationShape, OldIdIssues)

  /** The old ID a mitigation may carry. */
  predicate MitigationOldId(m: map<string, Json>)
  {
    OldIdKey in m ==> m[OldIdKey].JStr? && IsOldAttackId(m[OldIdKey].s, {'M'})
  }

  /** The refinement only narrows the base: every old ID it lets through
      the base accepts, and a software-form ID the base accepts it
      refuses. */
  lemma RefinementNarrows(s: string)
    ensures IsOldAttackId(s, {'M'}) ==> OldAttackId(JStr(s)).Ok?
    ensures OldAttackId(JStr("MOB-S0001")).Ok?
    ensures OldIdIssues(JObj(map[OldIdKey := JStr("MOB-S0001")])) == [Issue([Key(OldIdKey)], OldIdMessage)]
  {
    var x := "MOB-S0001";
    assert x[..4] == "MOB-" && x[4] == 'S' && x[5..] == "0001";
    assert GetString(JObj(map[OldIdKey := JStr(x)]), OldIdKey) == Some(x);
  }

  //---------------------------------------------------------------------------
  // the declarations
  //---------------------------------------------------------------------------

  lemma ExtensionNames()
    ensures Schema.Names(MitigationExtension) == ExtensionRequired
  {
    var e := MitigationExtension;
    assert e[0].name == "id" && e[1].name == "type" && e[2].name == "created_by_ref";
    assert e[3].name == "description" && e[4].name == "external_references" && e[5].name == "object_marking_refs";
    assert e[6].name == "x_mitre_domains" && e[7].name == "x_mitre_modified_by_ref";
  }

  /** Every name is declared once and required. */
  lemma ExtensionRequiredNames()
    ensures DistinctNames(MitigationExtension)
    ensures RequiredNames(MitigationExtension) == ExtensionRequired
  {
    var e := MitigationExtension;
    ExtensionNames();
    assert |e[0].name| == 2 && |e[1].name| == 4 && |e[2].name| == 14 && |e[3].name| == 11;
    assert |e[4].name| == 19 && |e[5].name| == 19 && |e[6].name| == 15 && |e[7].name| == 23;
    assert e[4].name[0] != e[5].name[0];
    assert forall j :: 0 <= j < |e| ==> e[j].required;
  }

  /** The old ID is a base property the extension leaves alone. */
  lemma OldIdInBase()
    ensures Lookup(AttackBaseFields, OldIdKey) == Some(Field(OldIdKey, false, Leaf(OldAttackId)))
    ensures OldIdKey !in Schema.Names(MitigationExtension)
    ensures Keeps(Leaf(OldAttackId))
  {
    OldIdDeclared();
    ExtensionNames();
  }

  /** Parsing keeps the old ID. */
  lemma OldIdKept(m: map<string, Json>)
    requires Accepts(MitigationShape, JObj(m))
    ensures Get(CheckValue(MitigationShape, JObj(m)).value, OldIdKey) == Get(JObj(m), OldIdKey)
  {
    OldIdInBase();
    BaseKept(AttackBaseFields, MitigationExtension, {}, Strict, m, OldIdKey);
  }

  //---------------------------------------------------------------------------
  // what the schema accepts
  //---------------------------------------------------------------------------

  /** Of the objects the shape accepts, the mitigation schema accepts
      exactly those without an old ID or with one of the mitigation form. */
  lemma MitigationRefinedIff(m: map<string, Json>)
    requires Accepts(MitigationShape, JObj(m))
    ensures Accepts(MitigationObject, JObj(m)) <==> MitigationOldId(m)
  {
    RefinedAccepts(MitigationShape, OldIdIssues, JObj(m));
    OldIdKept(m);
    OldIdTyped(m);
  }

  /** A given old ID the shape accepts is a string. */
  lemma OldIdTyped(m: map<string, Json>)
    requires Accepts(MitigationShape, JObj(m))
    ensures OldIdKey in m ==> m[OldIdKey].JStr? && IsOldAttackId(m[OldIdKey].s, {'M', 'S'})
  {
    if OldIdKey in m {
      OldIdInBase();
      BaseValue(AttackBaseFields, MitigationExtension, {}, Strict, m, OldIdKey);
      OldIdAccepted(m[OldIdKey]);
    }
  }

  lemma OldIdAccepted(x: Json)
    requires Accepts(Leaf(OldAttackId), x)
    ensures x.JStr? && IsOldAttackId(x.s, {'M', 'S'})
  {
  }

  lemma RequiredPresent(m: map<string, Json>)
    requires Accepts(MitigationShape, JObj(m))
    ensures ExtensionRequired <= m.Keys
  {
    ExtensionRequiredNames();
    ExtensionRequiredAll(AttackBaseFields, MitigationExtension, {}, Strict, m);
  }

  /** An accepted mitigation holds the eight properties the extension
      requires, no undeclared key, and an old ID only of the mitigation
      form. */
  lemma MitigationAccepted(m: map<string, Json>)
    requires Accepts(MitigationObject, JObj(m))
    ensures ExtensionRequired <= m.Keys
    ensures m.Keys <= Schema.Names(AttackBaseFields) + Schema.Names(MitigationExtension)
    ensures MitigationOldId(m)
  {
    RefinedAccepts(MitigationShape, OldIdIssues, JObj(m));
    RequiredPresent(m);
    ExtendedStrict(AttackBaseFields, MitigationExtension, {}, m);
    MitigationRefinedIff(m);
  }
}

=== FILE: open_vocabulary.dfy ===
/** The open vocabularies the object schemas draw on
    (src/schemas/common/open-vocabulary.ts). Each is a closed list here, as
    the schemas enforce it (`Enum`): a value outside the list is refused. */
module OpenVocabularies {
  import opened JsonValues
  import opened Generics

  /** `IdentityClassOV` */
  const IdentityClasses: seq<string> := ["individual", "group", "system", "organization", "class", "unspecified"]

  /** `AttackMotivationOV` */
  const AttackMotivations: seq<string> := [
    "accidental", "coercion", "dominance", "ideology", "notoriety", "organizational-gain",
    "personal-gain", "personal-satisfaction", "revenge", "unpredictable"
  ]

  /** `AttackResourceLevelOV` */
  const AttackResourceLevels: seq<string> := ["individual", "club", "contest", "team", "organization", "government"]

  /** `IndustrySectorOV` */
  const IndustrySectors: seq<string> := [
    "agriculture", "aerospace", "automotive", "chemical", "commercial", "communications",
    "construction", "defense", "education", "energy", "entertainment", "financial-services",
    "government", "government-emergency-services", "government-local", "government-national",
    "government-public-services", "government-regional", "healthcare", "hospitality-leisure",
    "infrastructure", "infrastructure-dams", "infrastructure-nuclear", "infrastructure-water",
    "insurance", "manufacturing", "mining", "non-profit", "pharmaceuticals", "retail",
    "technology", "telecommunications", "transportation", "utilities"
  ]

  /** The vocabularies as value schemas. */
  function IdentityClass(v: Json): Parsed
  {
    Enum(IdentityClasses, v)
  }

  function AttackMotivation(v: Json): Parsed
  {
    Enum(AttackMotivations, v)
  }

  function AttackResourceLevel(v: Json): Parsed
  {
    Enum(AttackResourceLevels, v)
  }

  function IndustrySector(v: Json): Parsed
  {
    Enum(IndustrySectors, v)
  }
}

=== FILE: py_attack_base.dfy ===
/** The ATT&CK base model of the pydantic package
    (pydantic/attack_model/models/common/_attack_base.py): the domain
    enumeration, the defaults of the three ATT&CK version and domain fields,
    and the validator that asks for a "mitre-attack" external reference. The
    STIX base model it extends is given as a parameter. */
module PyAttackBase {
  import opened Wrappers
  import opened JsonValues
  import opened Strings
  import Versions
  import CommonProperties

  /** `AttackDomains`: the same three values as the TypeScript schemas. */
  const AttackDomains: seq<string> := CommonProperties.Domains

  const DefaultSpecVersion := "2.0.0"
  const DefaultVersion := "2.1"
  const DefaultDomains := JArr([JStr("enterprise-attack")])

  const MitreAttackMessage := "At least one external reference with source_name 'mitre-attack' is required"

  const NotIterable := "'NoneType' object is not iterable"

  datatype AttackError =
    | Missing(field: string)
    | Invalid(field: string)
    | NoMitreAttackReference
    /** An exception pydantic does not turn into a validation error. */
    | Crash(reason: string)

  /** `^\d+\.\d+\.\d+$` on ASCII digits. */
  predicate SpecVersionPattern(s: string) { Versions.DottedNumbers(s, 3) }

  /** `^\d+\.\d+$` on ASCII digits. */
  predicate VersionPattern(s: string) { Versions.DottedNumbers(s, 2) }

  predicate DomainList(v: Json)
  {
    v.JArr? && forall k :: 0 <= k < |v.items| ==> v.items[k].JStr? && v.items[k].s in AttackDomains
  }

  /** Whether a reference names "mitre-attack" as its source. */
  predicate FromMitreAttack(ref: Json) { GetString(ref, "source_name") == Some("mitre-attack") }

  /** `validate_mitre_attack_reference`, given the already validated list:
      some reference must come from "mitre-attack", and the list is
      returned as it is. Iterating None raises a `TypeError`. */
  function MitreAttackReference(v: Json): (r: Result<Json, AttackError>)
    ensures r.Ok? ==> r.value == v
  {
    if !v.JArr? then Err(Crash(NotIterable))
    else if exists k :: 0 <= k < |v.items| && FromMitreAttack(v.items[k]) then Ok(v)
    else Err(NoMitreAttackReference)
  }

  /** A string field with a default and a pattern. */
  function PatternField(m: map<string, Json>, key: string, ok: string -> bool): seq<AttackError>
  {
    if key !in m || (m[key].JStr? && ok(m[key].s)) then [] else [Invalid(key)]
  }

  /** The ATT&CK fields, in declaration order. */
  function OwnErrors(m: map<string, Json>): seq<AttackError>
  {
    (if "name" !in m then [Missing("name")] else if m["name"].JStr? then [] else [Invalid("name")])
    + PatternField(m, "x_mitre_attack_spec_version", SpecVersionPattern)
    + PatternField(m, "x_mitre_version", VersionPattern)
    + (if "x_mitre_domains" !in m || DomainList(m["x_mitre_domains"]) then [] else [Invalid("x_mitre_domains")])
  }

  /** The missing ATT&CK fields take their defaults. */
  function WithDefaults(m: map<string, Json>): map<string, Json>
  {
    var a := if "x_mitre_attack_spec_version" in m then m else m["x_mitre_attack_spec_version" := JStr(DefaultSpecVersion)];
    var b := if "x_mitre_version" in a then a else a["x_mitre_version" := JStr(DefaultVersion)];
    if "x_mitre_domains" in b then b else b["x_mitre_domains" := DefaultDomains]
  }

  /** The fields `AttackBaseModel` declares on top of its base. */
  const AttackFields: set<string> := {"name", "x_mitre_attack_spec_version", "x_mitre_version", "x_mitre_domains"}

  /** The object built from an accepted input: the base model's own object
      (whose keys are the base's declared fields) with the ATT&CK fields
      added, defaults filled in. Keys neither class declares are dropped. */
  function Instance(m: map<string, Json>, base: map<string, Json>): map<string, Json>
  {
    var d := WithDefaults(m);
    base + map f | f in AttackFields && f in d :: d[f]
  }

  /** `AttackBaseModel`, given `base`: what the STIX base model makes of the
      same input, either its errors (which cover a reference list that is
      neither a list nor None) or the object it builds. The validator on
      `external_references` runs when a list or None was given, then the
      ATT&CK fields are checked. A `None` reference list passes the
      `Optional` annotation, reaches the validator and raises out of
      validation. */
  function Validate(m: map<string, Json>, base: Result<map<string, Json>, seq<AttackError>>): (r: Result<map<string, Json>, seq<AttackError>>)
    ensures r.Ok? ==> base.Ok? && "name" in m && r.value.Keys == base.value.Keys + AttackFields
    ensures r.Ok? ==> forall f :: f in AttackFields ==> r.value[f] == WithDefaults(m)[f]
    ensures r.Ok? ==> forall f :: f in base.value && f !in AttackFields ==> r.value[f] == base.value[f]
  {
    var given := "external_references" in m && (m["external_references"].JArr? || m["external_references"] == JNull);
    var refs := if given then MitreAttackReference(m["external_references"]) else Ok(JNull);
    if refs.Err? && refs.error.Crash? then Err([refs.error])
    else
      var errs := (if base.Err? then base.error else []) + (if refs.Err? then [refs.error] else []) + OwnErrors(m);
      if base.Err? || errs != [] then Err(errs) else Ok(Instance(m, base.value))
  }

  /** The validator accepts a list exactly when one of its references comes
      from "mitre-attack". */
  lemma MitreAttackReferenceIff(refs: seq<Json>)
    ensures MitreAttackReference(JArr(refs)).Ok? <==> exists k :: 0 <= k < |refs| && FromMitreAttack(refs[k])
    ensures MitreAttackReference(JArr([])) == Err(NoMitreAttackReference)
  {
  }

  /** What an accepted object satisfies: the version fields match their
      patterns, the domains are ATT&CK domains, and a given reference list
      includes one from "mitre-attack". */
  lemma Accepted(m: map<string, Json>, base: Result<map<string, Json>, seq<AttackError>>)
    requires Validate(m, base).Ok?
    ensures base.Ok? && "name" in m && m["name"].JStr?
    ensures var o := Validate(m, base).value;
      o["name"] == m["name"] &&
      o["x_mitre_attack_spec_version"].JStr? && SpecVersionPattern(o["x_mitre_attack_spec_version"].s)
      && o["x_mitre_version"].JStr? && VersionPattern(o["x_mitre_version"].s)
      && DomainList(o["x_mitre_domains"])
    ensures "external_references" in m && m["external_references"].JArr? ==>
      (exists k :: 0 <= k < |m["external_references"].items| && FromMitreAttack(m["external_references"].items[k]))
  {
    var o := Validate(m, base).value;
    assert OwnErrors(m) == [];
    DefaultsValid(m);
    assert o["name"] == WithDefaults(m)["name"];
    assert o["x_mitre_attack_spec_version"] == WithDefaults(m)["x_mitre_attack_spec_version"];
    assert o["x_mitre_version"] == WithDefaults(m)["x_mitre_version"];
    assert o["x_mitre_domains"] == WithDefaults(m)["x_mitre_domains"];
  }

  /** Once the given ATT&CK fields pass, so do the filled-in ones. */
  lemma DefaultsValid(m: map<string, Json>)
    requires OwnErrors(m) == []
    ensures var d := WithDefaults(m);
      "name" in m && d["name"] == m["name"]
      && d["x_mitre_attack_spec_version"].JStr? && SpecVersionPattern(d["x_mitre_attack_spec_version"].s)
      && d["x_mitre_version"].JStr? && VersionPattern(d["x_mitre_version"].s)
      && DomainList(d["x_mitre_domains"])
  {
    DefaultsWellFormed();
    DefaultsKeepGiven(m);
  }

  /** Acceptance, stated field by field; the reference validator does not
      run when the field is left out. */
  lemma ValidateIff(m: map<string, Json>, base: Result<map<string, Json>, seq<AttackError>>)
    ensures Validate(m, base).Ok? <==>
      base.Ok? && "name" in m && m["name"].JStr?
      && ("x_mitre_attack_spec_version" in m ==> m["x_mitre_attack_spec_version"].JStr? && SpecVersionPattern(m["x_mitre_attack_spec_version"].s))
      && ("x_mitre_version" in m ==> m["x_mitre_version"].JStr? && VersionPattern(m["x_mitre_version"].s))
      && ("x_mitre_domains" in m ==> DomainList(m["x_mitre_domains"]))
      && ("external_references" in m && m["external_references"].JArr? ==> MitreAttackReference(m["external_references"]).Ok?)
      && ("external_references" in m ==> m["external_references"] != JNull)
    ensures "external_references" in m && m["external_references"] == JNull ==>
      Validate(m, base) == Err([Crash(NotIterable)])
  {
  }

  /** The defaults satisfy the patterns they stand in for. */
  lemma DefaultsWellFormed()
    ensures SpecVersionPattern(DefaultSpecVersion) && VersionPattern(DefaultVersion)
    ensures DomainList(DefaultDomains)
  {
    Versions.DefaultVersionWellFormed();
    Versions.SplitDigitRuns(["2", "0", "0"]);
    assert Join(["2", "0", "0"], ".") == "2.0.0";
    assert "enterprise-attack" in AttackDomains;
  }

  /** Defaults fill only the missing fields: every given field keeps its
      value, and the three ATT&CK fields are always present afterwards. */
  lemma DefaultsKeepGiven(m: map<string, Json>)
    ensures WithDefaults(m).Keys == m.Keys + {"x_mitre_attack_spec_version", "x_mitre_version", "x_mitre_domains"}
    ensures forall k :: k in m ==> WithDefaults(m)[k] == m[k]
    ensures "x_mitre_attack_spec_version" !in m ==> WithDefaults(m)["x_mitre_attack_spec_version"] == JStr("2.0.0")
    ensures "x_mitre_version" !in m ==> WithDefaults(m)["x_mitre_version"] == JStr("2.1")
    ensures "x_mitre_domains" !in m ==> WithDefaults(m)["x_mitre_domains"] == JArr([JStr("enterprise-attack")])
  {
  }
}

=== FILE: py_campaign.dfy ===
/** The campaign model of the first Python package
    (attack_model/models/campaign.py) on top of the base model it extends
    (attack_model/models/common/base.py): the declared fields with their
    annotations and defaults, pydantic's strict mode, the root validator on
    external references, the string-to-boolean validator and the timestamp
    pre-parsers. The errors of the models the base mixes in, the identifier,
    citation, reference and granular-marking annotations,
    `datetime.fromisoformat`, `isinstance(v, datetime)` and the clock are
    parameters. */
module PyCampaign {
  import opened Wrappers
  import opened JsonValues
  import opened Strings
  import PyCore

  /** The annotations and library calls the model does not define: whether
      a value passes `validate_stix_id`, the `ExternalReference`,
      `GranularMarking` and `Citation` annotations, what
      `datetime.fromisoformat` makes of a string, and whether a value is a
      `datetime`. */
  datatype Checkers = Checkers(
    identifier: Json -> bool,
    externalReference: Json -> bool,
    granularMarking: Json -> bool,
    citation: Json -> bool,
    fromIso: string -> Option<Json>,
    isDatetime: Json -> bool)

  datatype CampaignError =
    | NoExternalReferences
    | FirstWithoutExternalId
    | Missing(field: string)
    | NotABoolean(field: string)
    | BadTimestamp(field: string)
    /** `check_datetime_format`'s "Invalid datetime format" */
    | InvalidDatetime(field: string)
    /** strict mode's refusal of a value of another type */
    | WrongKind(field: string)
    /** a list shorter than `min_items` */
    | TooShort(field: string)
    /** a number outside `ge`/`le` */
    | OutOfRange(field: string)
    /** a value an annotation given as a parameter refuses */
    | Refused(field: string)
    /** An exception pydantic does not turn into a validation error. */
    | Crash(reason: string)

  //---------------------------------------------------------------------------
  // parse_str_to_bool
  //---------------------------------------------------------------------------

  /** `parse_str_to_bool`: a boolean as it is, the strings "true" and
      "false" in any case, and nothing else. Only ASCII letters lower-case
      to the letters of "true" and "false", so ASCII lower-casing decides
      the comparison as Python's `str.lower` does. */
  function ParseStrToBool(v: Json): (r: Result<bool, string>)
    ensures v.JBool? ==> r == Ok(v.b)
    ensures !v.JBool? && !v.JStr? ==> r.Err?
  {
    match v
    case JBool(b) => Ok(b)
    case JStr(s) =>
      if LowerAscii(s) == "true" then Ok(true)
      else if LowerAscii(s) == "false" then Ok(false)
      else Err("Input should be a valid boolean")
    case _ => Err("Input should be a valid boolean")
  }

  /** `s` spells `w` with letters in either case. */
  predicate SpelledAs(s: string, w: string)
  {
    |s| == |w| && forall k :: 0 <= k < |s| ==> s[k] == w[k] || (IsUpper(s[k]) && s[k] as int + 32 == w[k] as int)
  }

  lemma SpelledIffLower(s: string, w: string)
    requires forall k :: 0 <= k < |w| ==> IsLower(w[k])
    ensures SpelledAs(s, w) <==> LowerAscii(s) == w
  {
    if LowerAscii(s) == w {
      forall k | 0 <= k < |s| ensures s[k] == w[k] || (IsUpper(s[k]) && s[k] as int + 32 == w[k] as int) {
        assert LowerAscii(s)[k] == LowerChar(s[k]);
      }
    }
    if SpelledAs(s, w) {
      forall k | 0 <= k < |s| ensures LowerAscii(s)[k] == w[k] {
        assert LowerAscii(s)[k] == LowerChar(s[k]);
      }
    }
  }

  /** The validator accepts exactly the booleans and the two words in any
      case, and reads the word's meaning. */
  lemma ParseStrToBoolIff(v: Json)
    ensures ParseStrToBool(v) == Ok(true) <==> v == JBool(true) || (v.JStr? && SpelledAs(v.s, "true"))
    ensures ParseStrToBool(v) == Ok(false) <==> v == JBool(false) || (v.JStr? && SpelledAs(v.s, "false"))
    ensures ParseStrToBool(v).Err? <==> !v.JBool? && !(v.JStr? && (SpelledAs(v.s, "true") || SpelledAs(v.s, "false")))
  {
    if v.JStr? {
      SpelledIffLower(v.s, "true");
      SpelledIffLower(v.s, "false");
    }
  }

  /** Python's `str(b)`. */
  function BoolText(b: bool): string { if b then "True" else "False" }

  /** A boolean written as Python prints it is read back. */
  lemma BoolTextRoundTrip(b: bool)
    ensures ParseStrToBool(JStr(BoolText(b))) == Ok(b)
    ensures ParseStrToBool(JStr("TRUE")) == Ok(true) && ParseStrToBool(JStr("yes")).Err?
    ensures ParseStrToBool(JNum(1.0)).Err?
  {
    ParseStrToBoolIff(JStr(BoolText(b)));
    ParseStrToBoolIff(JStr("TRUE"));
    ParseStrToBoolIff(JStr("yes"));
  }

  //---------------------------------------------------------------------------
  // parse_datetime
  //---------------------------------------------------------------------------

  /** `s.rstrip("Z")`: every trailing `Z` removed. */
  function RStripZ(s: string): (r: string)
    decreases |s|
  {
    if |s| > 0 && s[|s| - 1] == 'Z' then RStripZ(s[..|s| - 1]) else s
  }

  function Zs(k: nat): (r: string)
  {
    seq(k, _ => 'Z')
  }

  /** What is removed is a run of `Z` and nothing else, and what is left
      does not end in `Z`. */
  lemma {:induction false} RStripZShape(s: string)
    ensures exists k: nat :: s == RStripZ(s) + Zs(k)
    ensures |RStripZ(s)| == 0 || RStripZ(s)[|RStripZ(s)| - 1] != 'Z'
    decreases |s|
  {
    if |s| > 0 && s[|s| - 1] == 'Z' {
      var t := s[..|s| - 1];
      RStripZShape(t);
      var k: nat :| t == RStripZ(t) + Zs(k);
      assert s == t + "Z";
      assert Zs(k) + "Z" == Zs(k + 1);
      assert s == RStripZ(s) + Zs(k + 1);
    } else {
      assert s == s + Zs(0);
    }
  }

  lemma {:induction false} RStripZIdempotent(s: string)
    ensures RStripZ(RStripZ(s)) == RStripZ(s)
  {
    RStripZShape(s);
  }

  /** `parse_datetime`, with `fromisoformat` as a parameter: strings lose
      their trailing `Z` and are parsed, other values pass through. */
  function ParseDatetime(v: Json, fromIso: string -> Option<Json>): (r: Result<Json, string>)
    ensures !v.JStr? ==> r == Ok(v)
    ensures v.JStr? ==> (r.Ok? <==> fromIso(RStripZ(v.s)).Some?)
  {
    match v
    case JStr(s) =>
      (match fromIso(RStripZ(s))
       case Some(d) => Ok(d)
       case None => Err("Invalid isoformat string: " + RStripZ(s)))
    case _ => Ok(v)
  }

  /** Timestamps that differ only in their trailing `Z` parse the same. */
  lemma ParseDatetimeIgnoresZ(s: string, k: nat, fromIso: string -> Option<Json>)
    ensures ParseDatetime(JStr(s + Zs(k)), fromIso) == ParseDatetime(JStr(RStripZ(s)), fromIso)
  {
    RStripZAppend(s, k);
    RStripZIdempotent(s);
  }

  lemma {:induction false} RStripZAppend(s: string, k: nat)
    ensures RStripZ(s + Zs(k)) == RStripZ(s)
    decreases k
  {
    if k > 0 {
      assert (s + Zs(k))[..|s + Zs(k)| - 1] == s + Zs(k - 1);
      RStripZAppend(s, k - 1);
    } else {
      assert s + Zs(0) == s;
    }
  }

  //---------------------------------------------------------------------------
  // validate_external_references (a pre root validator)
  //---------------------------------------------------------------------------

  /** Python truthiness of a JSON value. */
  predicate PyTruthy(v: Json)
  {
    match v
    case JNull => false
    case JBool(b) => b
    case JNum(n) => n != 0.0
    case JStr(s) => s != ""
    case JArr(items) => items != []
    case JObj(fields) => fields != map[]
  }

  /** `"external_id" in first`: a key of a dictionary, an item of a list, a
      substring of a string; other values cannot be searched. */
  function HasExternalId(first: Json): Result<bool, CampaignError>
  {
    match first
    case JObj(fields) => Ok("external_id" in fields)
    case JArr(items) => Ok(JStr("external_id") in items)
    case JStr(s) => Ok(Contains(s, "external_id"))
    case _ => Err(Crash("argument is not iterable"))
  }

  /** The raw input's references must be truthy, and their first item must
      contain "external_id". Indexing a dictionary at 0 finds no key, and
      a number or boolean cannot be indexed. */
  function CheckExternalReferences(values: map<string, Json>): (r: Result<(), CampaignError>)
    ensures r.Err? && r.error == NoExternalReferences <==>
      "external_references" !in values || !PyTruthy(values["external_references"])
  {
    if "external_references" !in values || !PyTruthy(values["external_references"]) then Err(NoExternalReferences)
    else
      var first: Result<Json, CampaignError> := match values["external_references"]
        case JArr(items) => Ok(items[0])
        case JStr(s) => Ok(JStr(s[..1]))
        case JObj(_) => Err(Crash("KeyError: 0"))
        case _ => Err(Crash("object is not subscriptable"));
      if first.Err? then Err(first.error)
      else match HasExternalId(first.value)
        case Err(e) => Err(e)
        case Ok(has) => if has then Ok(()) else Err(FirstWithoutExternalId)
  }

  /** For a list of dictionaries, as references are, the check passes
      exactly when the list is not empty and its first reference has an
      "external_id"; the others are not looked at. */
  lemma ExternalReferencesIff(values: map<string, Json>, refs: seq<map<string, Json>>)
    requires "external_references" in values
    requires values["external_references"] == JArr(seq(|refs|, k requires 0 <= k < |refs| => JObj(refs[k])))
    ensures CheckExternalReferences(values).Ok? <==> |refs| > 0 && "external_id" in refs[0]
    ensures |refs| == 0 ==> CheckExternalReferences(values) == Err(NoExternalReferences)
  {
    if |refs| > 0 {
      assert values["external_references"].items[0] == JObj(refs[0]);
    }
  }

  /** A string of references passes the truthiness test but its first
      character never holds "external_id". */
  lemma StringReferencesRefused(values: map<string, Json>)
    requires "external_references" in values && values["external_references"].JStr?
    ensures CheckExternalReferences(values).Err?
  {
    var s := values["external_references"].s;
    if s != "" {
      var c := s[..1];
      assert !Contains(c, "external_id") by {
        forall i | 0 <= i <= |c| ensures !OccursAt(c, "external_id", i) {
        }
      }
    }
  }

  //---------------------------------------------------------------------------
  // The fields
  //---------------------------------------------------------------------------

  /** What a field's annotation, with its validators, asks of a value. */
  datatype FieldKind =
    /** `str` */
    | Text
    /** `str`, then `validate_stix_id` */
    | Identifier
    /** `bool` after `parse_str_to_bool` */
    | Flag
    /** `datetime` after `parse_datetime`; `checked` when the base's
        `check_datetime_format` runs as well */
    | Moment(checked: bool)
    /** `List[ExternalReference]` with `min_items=1` */
    | References
    /** `List[str]`, then `validate_stix_id` on each item */
    | IdentifierList
    /** `List[str]` */
    | TextList
    /** `Citation` */
    | CitationText
    /** `int` with `ge=0, le=100` */
    | Percent
    /** `List[GranularMarking]` with `min_items=1` */
    | Markings

  /** A field without a default, one defaulting to None (its annotation is
      `Optional`, so it takes None as well), or one whose default
      `datetime.utcnow` makes. */
  datatype Default = NoDefault | NoneDefault | NowDefault

  datatype FieldDecl = FieldDecl(name: string, kind: FieldKind, default: Default)

  /** The fields of `CommonProperties` and `AttackBaseObject`, in
      declaration order. */
  const BaseDecls: seq<FieldDecl> := [
    FieldDecl("name", Text, NoDefault),
    FieldDecl("created", Moment(true), NowDefault),
    FieldDecl("modified", Moment(true), NowDefault),
    FieldDecl("labels", TextList, NoneDefault),
    FieldDecl("confidence", Percent, NoneDefault),
    FieldDecl("lang", Text, NoneDefault),
    FieldDecl("granular_markings", Markings, NoneDefault)
  ]

  /** The fields `AttackCampaign` declares, in declaration order. */
  const CampaignDecls: seq<FieldDecl> := [
    FieldDecl("created_by_ref", Identifier, NoDefault),
    FieldDecl("revoked", Flag, NoDefault),
    FieldDecl("external_references", References, NoDefault),
    FieldDecl("object_marking_refs", IdentifierList, NoDefault),
    FieldDecl("description", Text, NoDefault),
    FieldDecl("aliases", TextList, NoDefault),
    FieldDecl("first_seen", Moment(false), NoDefault),
    FieldDecl("last_seen", Moment(false), NoDefault),
    FieldDecl("x_mitre_first_seen_citation", CitationText, NoDefault),
    FieldDecl("x_mitre_last_seen_citation", CitationText, NoDefault),
    FieldDecl("x_mitre_modified_by_ref", Text, NoDefault),
    FieldDecl("x_mitre_deprecated", Flag, NoDefault),
    FieldDecl("x_mitre_domains", TextList, NoDefault),
    FieldDecl("x_mitre_contributors", TextList, NoneDefault)
  ]

  /** Every field of a campaign: the inherited ones first. */
  const Declared: seq<FieldDecl> := BaseDecls + CampaignDecls

  /** The validators of one given value in the order pydantic runs them:
      the pre-validators, the strict type check, then the validators that
      follow it. A list of identifiers reports one error for all its
      refused items. */
  function KindError(f: string, kind: FieldKind, v: Json, c: Checkers): (r: seq<CampaignError>)
    ensures |r| <= 1
  {
    match kind
    case Text => if v.JStr? then [] else [WrongKind(f)]
    case Identifier => if !v.JStr? then [WrongKind(f)] else if c.identifier(v) then [] else [Refused(f)]
    case Flag => if ParseStrToBool(v).Ok? then [] else [NotABoolean(f)]
    case Moment(checked) =>
      (match ParseDatetime(v, c.fromIso)
       case Err(_) => [BadTimestamp(f)]
       case Ok(d) => if c.isDatetime(d) then [] else if checked then [InvalidDatetime(f)] else [WrongKind(f)])
    case References =>
      if !PyCore.ListOf(c.externalReference, v) then [WrongKind(f)] else if |v.items| < 1 then [TooShort(f)] else []
    case IdentifierList =>
      if !PyCore.ListOf(PyCore.IsString, v) then [WrongKind(f)]
      else if PyCore.ListOf(c.identifier, v) then [] else [Refused(f)]
    case TextList => if PyCore.ListOf(PyCore.IsString, v) then [] else [WrongKind(f)]
    case CitationText => if c.citation(v) then [] else [Refused(f)]
    case Percent =>
      if !(v.JNum? && IsInteger(v.n)) then [WrongKind(f)] else if 0.0 <= v.n <= 100.0 then [] else [OutOfRange(f)]
    case Markings =>
      if !PyCore.ListOf(c.granularMarking, v) then [WrongKind(f)] else if |v.items| < 1 then [TooShort(f)] else []
  }

  /** The error of one declared field: a missing field without a default,
      or the value's own error; None passes an `Optional` field. Defaults
      are not validated. */
  function FieldError(values: map<string, Json>, d: FieldDecl, c: Checkers): (r: seq<CampaignError>)
    ensures |r| <= 1
  {
    if d.name !in values then (if d.default.NoDefault? then [Missing(d.name)] else [])
    else if d.default.NoneDefault? && values[d.name] == JNull then []
    else KindError(d.name, d.kind, values[d.name], c)
  }

  function FieldErrors(values: map<string, Json>, decls: seq<FieldDecl>, c: Checkers): seq<CampaignError>
  {
    if decls == [] then [] else FieldError(values, decls[0], c) + FieldErrors(values, decls[1..], c)
  }

  /** A value `fromisoformat` reads, once its trailing `Z`s are gone, as a
      datetime; or a datetime already. */
  predicate DatetimeValue(v: Json, c: Checkers)
  {
    if v.JStr? then c.fromIso(RStripZ(v.s)).Some? && c.isDatetime(c.fromIso(RStripZ(v.s)).value)
    else c.isDatetime(v)
  }

  /** What each annotation takes, stated directly. */
  predicate Admits(kind: FieldKind, v: Json, c: Checkers)
  {
    match kind
    case Text => v.JStr?
    case Identifier => v.JStr? && c.identifier(v)
    case Flag => v.JBool? || (v.JStr? && (SpelledAs(v.s, "true") || SpelledAs(v.s, "false")))
    case Moment(_) => DatetimeValue(v, c)
    case References => v.JArr? && |v.items| >= 1 && forall k :: 0 <= k < |v.items| ==> c.externalReference(v.items[k])
    case IdentifierList => v.JArr? && forall k :: 0 <= k < |v.items| ==> v.items[k].JStr? && c.identifier(v.items[k])
    case TextList => v.JArr? && forall k :: 0 <= k < |v.items| ==> v.items[k].JStr?
    case CitationText => c.citation(v)
    case Percent => v.JNum? && IsInteger(v.n) && 0.0 <= v.n <= 100.0
    case Markings => v.JArr? && |v.items| >= 1 && forall k :: 0 <= k < |v.items| ==> c.granularMarking(v.items[k])
  }

  /** A declared field is fine when given and admitted (None counting for
      an `Optional` field), or when absent and defaulted. */
  predicate FieldAdmits(values: map<string, Json>, d: FieldDecl, c: Checkers)
  {
    if d.name in values then (d.default.NoneDefault? && values[d.name] == JNull) || Admits(d.kind, values[d.name], c)
    else !d.default.NoDefault?
  }

  /** The validator chain of a value raises nothing exactly when the
      annotation admits the value. */
  lemma KindErrorIff(f: string, kind: FieldKind, v: Json, c: Checkers)
    ensures KindError(f, kind, v, c) == [] <==> Admits(kind, v, c)
  {
    if kind.Flag? {
      ParseStrToBoolIff(v);
    }
  }

  lemma FieldErrorIff(values: map<string, Json>, d: FieldDecl, c: Checkers)
    ensures FieldError(values, d, c) == [] <==> FieldAdmits(values, d, c)
    ensures d.name !in values && d.default.NoDefault? ==> FieldError(values, d, c) == [Missing(d.name)]
  {
    if d.name in values {
      KindErrorIff(d.name, d.kind, values[d.name], c);
    }
  }

  /** The field errors are empty exactly when every field is fine. */
  lemma {:induction false} FieldErrorsEmpty(values: map<string, Json>, decls: seq<FieldDecl>, c: Checkers)
    ensures FieldErrors(values, decls, c) == [] <==> forall d :: d in decls ==> FieldAdmits(values, d, c)
  {
    if decls != [] {
      FieldErrorsEmpty(values, decls[1..], c);
      FieldErrorIff(values, decls[0], c);
      assert forall d :: d in decls <==> d == decls[0] || d in decls[1..];
    }
  }

  //---------------------------------------------------------------------------
  // The model
  //---------------------------------------------------------------------------

  /** The value a given field holds once its pre-validators ran. */
  function ParsedValue(kind: FieldKind, v: Json, c: Checkers): Json
  {
    match kind
    case Flag => if ParseStrToBool(v).Ok? then JBool(ParseStrToBool(v).value) else v
    case Moment(_) => if ParseDatetime(v, c.fromIso).Ok? then ParseDatetime(v, c.fromIso).value else v
    case _ => v
  }

  /** The names of some declarations. */
  function Names(decls: seq<FieldDecl>): set<string>
  {
    if decls == [] then {} else {decls[0].name} + Names(decls[1..])
  }

  /** The first declaration of a name. */
  function Lookup(decls: seq<FieldDecl>, f: string): (r: Option<FieldDecl>)
    ensures r.Some? ==> r.value in decls && r.value.name == f
    ensures r.None? <==> f !in Names(decls)
  {
    if decls == [] then None else if decls[0].name == f then Some(decls[0]) else Lookup(decls[1..], f)
  }

  /** Names other than `f` before position `k` do not change what `f`
      looks up. */
  lemma {:induction false} LookupSkip(decls: seq<FieldDecl>, k: nat, f: string)
    requires k <= |decls| && forall j :: 0 <= j < k ==> decls[j].name != f
    ensures Lookup(decls, f) == Lookup(decls[k..], f)
  {
    if k > 0 {
      assert decls[0].name != f;
      assert decls[1..][k - 1..] == decls[k..];
      LookupSkip(decls[1..], k - 1, f);
    }
  }

  /** A name the first declarations lack is looked up in the rest. */
  lemma {:induction false} LookupAppend(a: seq<FieldDecl>, b: seq<FieldDecl>, f: string)
    requires Lookup(a, f).None?
    ensures Lookup(a + b, f) == Lookup(b, f)
  {
    if a != [] {
      assert (a + b)[1..] == a[1..] + b;
      LookupAppend(a[1..], b, f);
    } else {
      assert a + b == b;
    }
  }

  /** What an accepted campaign holds under a key: an undeclared key keeps
      its value (`extra="allow"`), a given field its parsed value, and an
      absent field its default, the clock's reading for that field or
      None. */
  function Entry(decls: seq<FieldDecl>, values: map<string, Json>, f: string, c: Checkers, clock: string -> Json): Json
  {
    match Lookup(decls, f)
    case None => if f in values then values[f] else JNull
    case Some(d) =>
      if f in values then ParsedValue(d.kind, values[f], c)
      else if d.default.NowDefault? then clock(f) else JNull
  }

  /** The validation of a model whose fields are `decls`: the root
      validator first, which stops everything when it raises; then the
      errors of the mixins (`inherited`) and of the declared fields,
      collected together. */
  function ValidateDecls(decls: seq<FieldDecl>, values: map<string, Json>, inherited: seq<CampaignError>,
                         c: Checkers, clock: string -> Json): (r: Result<map<string, Json>, seq<CampaignError>>)
    ensures CheckExternalReferences(values).Err? ==> r == Err([CheckExternalReferences(values).error])
    ensures r.Ok? ==> r.value.Keys == values.Keys + Names(decls)
  {
    match CheckExternalReferences(values)
    case Err(e) => Err([e])
    case Ok(_) =>
      var errs := inherited + FieldErrors(values, decls, c);
      if errs != [] then Err(errs)
      else Ok(map f | f in values.Keys + Names(decls) :: Entry(decls, values, f, c, clock))
  }

  /** A model is accepted exactly when the root validator passes, the
      mixins find nothing, and every declared field is fine; an undeclared
      key then keeps its value. */
  lemma ValidateDeclsIff(decls: seq<FieldDecl>, values: map<string, Json>, inherited: seq<CampaignError>,
                         c: Checkers, clock: string -> Json)
    ensures ValidateDecls(decls, values, inherited, c, clock).Ok? <==>
      CheckExternalReferences(values).Ok? && inherited == []
      && forall d :: d in decls ==> FieldAdmits(values, d, c)
    ensures ValidateDecls(decls, values, inherited, c, clock).Ok? ==>
      forall f :: f in values && f !in Names(decls) ==> ValidateDecls(decls, values, inherited, c, clock).value[f] == values[f]
  {
    FieldErrorsEmpty(values, decls, c);
  }

  /** `AttackCampaign(**values)`. `clock(f)` is what `datetime.utcnow()`
      returns when the default of field `f` is made. */
  function Validate(values: map<string, Json>, inherited: seq<CampaignError>, c: Checkers, clock: string -> Json)
    : (r: Result<map<string, Json>, seq<CampaignError>>)
    ensures CheckExternalReferences(values).Err? ==> r == Err([CheckExternalReferences(values).error])
    ensures r.Ok? ==> r.value.Keys == values.Keys + Names(Declared)
  {
    ValidateDecls(Declared, values, inherited, c, clock)
  }

  /** A campaign is accepted exactly when the root validator passes, the
      mixins find nothing, and every declared field is fine. */
  lemma ValidateIff(values: map<string, Json>, inherited: seq<CampaignError>, c: Checkers, clock: string -> Json)
    ensures Validate(values, inherited, c, clock).Ok? <==>
      CheckExternalReferences(values).Ok? && inherited == []
      && forall d :: d in Declared ==> FieldAdmits(values, d, c)
  {
    ValidateDeclsIff(Declared, values, inherited, c, clock);
  }

  /** A declared field that is not fine refuses the campaign. */
  lemma FieldRefused(values: map<string, Json>, inherited: seq<CampaignError>, c: Checkers, clock: string -> Json, d: FieldDecl)
    requires d in Declared && !FieldAdmits(values, d, c)
    ensures Validate(values, inherited, c, clock).Err?
  {
    ValidateIff(values, inherited, c, clock);
  }

  /** The value of a declared field in an accepted campaign: a flag is a
      boolean, a given timestamp a datetime (unless the field is `Optional`
      and None), and an absent field its default. */
  lemma EntryOf(decls: seq<FieldDecl>, values: map<string, Json>, d: FieldDecl, c: Checkers, clock: string -> Json)
    requires Lookup(decls, d.name) == Some(d) && FieldAdmits(values, d, c)
    ensures d.kind.Flag? && !d.default.NoneDefault? && d.name in values ==> Entry(decls, values, d.name, c, clock).JBool?
    ensures d.kind.Moment? && !d.default.NoneDefault? && d.name in values ==> c.isDatetime(Entry(decls, values, d.name, c, clock))
    ensures d.name !in values && d.default.NowDefault? ==> Entry(decls, values, d.name, c, clock) == clock(d.name)
    ensures d.name !in values && d.default.NoneDefault? ==> Entry(decls, values, d.name, c, clock) == JNull
  {
    if d.name in values {
      KindErrorIff(d.name, d.kind, values[d.name], c);
    }
  }

  /** An accepted campaign keeps every undeclared key as given. */
  lemma ExtraKept(values: map<string, Json>, inherited: seq<CampaignError>, c: Checkers, clock: string -> Json, f: string)
    requires Validate(values, inherited, c, clock).Ok? && f in values && f !in Names(Declared)
    ensures Validate(values, inherited, c, clock).value[f] == values[f]
  {
    ValidateDeclsIff(Declared, values, inherited, c, clock);
  }

  const CreatedDecl := FieldDecl("created", Moment(true), NowDefault)
  const ModifiedDecl := FieldDecl("modified", Moment(true), NowDefault)
  const RevokedDecl := FieldDecl("revoked", Flag, NoDefault)
  const DeprecatedDecl := FieldDecl("x_mitre_deprecated", Flag, NoDefault)

  lemma CreatedDeclared()
    ensures Lookup(Declared, "created") == Some(CreatedDecl)
    ensures Lookup(Declared, "modified") == Some(ModifiedDecl)
  {
    assert Declared[..3] == BaseDecls[..3];
  }

  /** No inherited field is called `f`. */
  lemma NotInherited(f: string)
    requires forall j :: 0 <= j < |BaseDecls| ==> BaseDecls[j].name != f
    ensures Lookup(Declared, f) == Lookup(CampaignDecls, f)
  {
    LookupSkip(BaseDecls, |BaseDecls|, f);
    LookupAppend(BaseDecls, CampaignDecls, f);
  }

  lemma FlagNamesNotInherited()
    ensures forall j :: 0 <= j < |BaseDecls| ==> BaseDecls[j].name != "revoked" && BaseDecls[j].name != "x_mitre_deprecated"
  {
  }

  lemma DeprecatedNotEarlier()
    ensures forall j :: 0 <= j < 11 ==> CampaignDecls[j].name != "x_mitre_deprecated"
  {
  }

  lemma RevokedDeclared()
    ensures Lookup(Declared, "revoked") == Some(RevokedDecl)
  {
    FlagNamesNotInherited();
    NotInherited("revoked");
  }

  lemma DeprecatedDeclared()
    ensures Lookup(Declared, "x_mitre_deprecated") == Some(DeprecatedDecl)
  {
    FlagNamesNotInherited();
    NotInherited("x_mitre_deprecated");
    DeprecatedNotEarlier();
    LookupSkip(CampaignDecls, 11, "x_mitre_deprecated");
    assert CampaignDecls[11..][0] == DeprecatedDecl;
  }

  /** `created` and `modified` may be left out: an accepted campaign then
      holds the clock's readings, and otherwise datetimes. */
  lemma TimestampsDefaulted(values: map<string, Json>, inherited: seq<CampaignError>, c: Checkers, clock: string -> Json)
    requires Validate(values, inherited, c, clock).Ok?
    ensures var r := Validate(values, inherited, c, clock).value;
      "created" in r && "modified" in r
      && ("created" !in values ==> r["created"] == clock("created"))
      && ("modified" !in values ==> r["modified"] == clock("modified"))
      && ("created" in values ==> c.isDatetime(r["created"]))
      && ("modified" in values ==> c.isDatetime(r["modified"]))
  {
    ValidateIff(values, inherited, c, clock);
    CreatedDeclared();
    EntryOf(Declared, values, CreatedDecl, c, clock);
    EntryOf(Declared, values, ModifiedDecl, c, clock);
  }

  /** An accepted campaign's `revoked` and `x_mitre_deprecated` are
      booleans. */
  lemma FlagsBoolean(values: map<string, Json>, inherited: seq<CampaignError>, c: Checkers, clock: string -> Json)
    requires Validate(values, inherited, c, clock).Ok?
    ensures "revoked" in values && "x_mitre_deprecated" in values
    ensures var r := Validate(values, inherited, c, clock).value;
      r["revoked"].JBool? && r["x_mitre_deprecated"].JBool?
  {
    ValidateIff(values, inherited, c, clock);
    RevokedDeclared();
    DeprecatedDeclared();
    EntryOf(Declared, values, RevokedDecl, c, clock);
    EntryOf(Declared, values, DeprecatedDecl, c, clock);
  }

  /** A missing field without a default refuses the campaign. */
  lemma MissingReported(values: map<string, Json>, inherited: seq<CampaignError>, c: Checkers, clock: string -> Json, d: FieldDecl)
    requires d in Declared && d.default.NoDefault? && d.name !in values
    ensures Validate(values, inherited, c, clock).Err?
  {
    FieldRefused(values, inherited, c, clock, d);
  }

  /** In strict mode a description that is not a string is refused, and so
      is a `first_seen` that is neither a string nor a datetime. */
  lemma WrongKindsRefused(values: map<string, Json>, inherited: seq<CampaignError>, c: Checkers, clock: string -> Json)
    requires || ("description" in values && !values["description"].JStr?)
             || ("first_seen" in values && !values["first_seen"].JStr? && !c.isDatetime(values["first_seen"]))
    ensures Validate(values, inherited, c, clock).Err?
  {
    if "description" in values && !values["description"].JStr? {
      assert Declared[11] == CampaignDecls[4];
      FieldRefused(values, inherited, c, clock, CampaignDecls[4]);
    } else {
      assert Declared[13] == CampaignDecls[6];
      FieldRefused(values, inherited, c, clock, CampaignDecls[6]);
    }
  }
}

=== FILE: py_core.dfy ===
/** The base STIX object of the first Python package
    (attack_model/models/common/core.py): its field annotations, the two
    `type` validators and the two model validators that run once every
    field is valid. The annotation types it imports (identifier, timestamp,
    boolean, external reference, granular marking, extension, STIX type)
    are given as checkers. */
module PyCore {
  import opened Wrappers
  import opened JsonValues
  import opened Strings
  import StixIdentifier
  import PyStixType

  /** What the imported annotation types accept, and `coerce`: the value a
      declared field holds once its annotation has accepted the input (a
      timestamp string becomes a `datetime`, a reference becomes an
      `ExternalReference` model). */
  datatype Checkers = Checkers(
    stixType: Json -> bool,
    identifier: Json -> bool,
    timestamp: Json -> bool,
    boolean: Json -> bool,
    externalReference: Json -> bool,
    granularMarking: Json -> bool,
    extension: Json -> bool,
    coerce: (string, Json) -> Json)

  datatype CoreError =
    | Missing(field: string)
    | Invalid(field: string)
    | TypeNotAllowed
    | ConfidenceOutOfRange
    | TooFewGranularMarkings
    | InvalidExtensionKeys(keys: set<string>)
    | InvalidExtensions(keys: set<string>)
    | ProhibitedField(field: string)

  /** The fields without a default. */
  const Required: set<string> := {"type", "spec_version", "id", "created", "modified"}

  /** The declared fields, in declaration order. */
  const Declared: seq<string> := [
    "type", "spec_version", "id", "created_by_ref", "labels", "created", "modified",
    "revoked", "confidence", "lang", "external_references", "object_marking_refs",
    "granular_markings", "extensions"
  ]

  const DeclaredSet: set<string> := set f | f in Declared

  /** The object pydantic builds once validation succeeds: one entry per
      declared field, None for an optional field left out or given as None,
      and nothing for the keys the class does not declare, which the default
      `extra="ignore"` drops. */
  function Instance(m: map<string, Json>, c: Checkers): map<string, Json>
  {
    map f | f in DeclaredSet :: if f in m && m[f] != JNull then c.coerce(f, m[f]) else JNull
  }

  lemma InstanceShape(m: map<string, Json>, c: Checkers)
    ensures Instance(m, c).Keys == DeclaredSet
    ensures forall f :: f in Instance(m, c) ==>
      Instance(m, c)[f] == (if f in m && m[f] != JNull then c.coerce(f, m[f]) else JNull)
  {
  }

  /** A required field: missing, or checked by `ok`. */
  function RequiredField(m: map<string, Json>, key: string, ok: Json -> bool): seq<CoreError>
  {
    if key !in m then [Missing(key)] else if ok(m[key]) then [] else [Invalid(key)]
  }

  /** An `Optional[...]` field with default None: absent, None, or checked
      by `ok`. */
  function OptionalField(m: map<string, Json>, key: string, ok: Json -> bool): seq<CoreError>
  {
    if key !in m || m[key] == JNull || ok(m[key]) then [] else [Invalid(key)]
  }

  predicate IsString(v: Json) { v.JStr? }

  /** `List[X]` for the checker of `X`. */
  predicate ListOf(ok: Json -> bool, v: Json)
  {
    v.JArr? && forall k :: 0 <= k < |v.items| ==> ok(v.items[k])
  }

  /** `type`: the annotation, then `validate_type`, then `type_not_allowed`. */
  function TypeErrors(m: map<string, Json>, c: Checkers): seq<CoreError>
  {
    if "type" !in m then [Missing("type")]
    else if !c.stixType(m["type"]) then [Invalid("type")]
    else if m["type"] == JStr("action") then [TypeNotAllowed]
    else []
  }

  predicate SpecVersionOk(v: Json) { v == JStr("2.0") || v == JStr("2.1") }

  /** The white space pydantic trims around an integer text (its ASCII
      part: the space and tab to carriage return). */
  predicate IntSpace(c: char) { c == ' ' || '\t' <= c <= '\r' }

  /** The text without its leading and trailing white space. */
  function StripSpace(s: string): (r: string)
    decreases |s|
  {
    if |s| > 0 && IntSpace(s[0]) then StripSpace(s[1..])
    else if |s| > 0 && IntSpace(s[|s| - 1]) then StripSpace(s[..|s| - 1])
    else s
  }

  /** The length of the run of digits that starts the text. */
  function DigitRun(s: string): (k: nat)
    ensures k <= |s|
    ensures forall i :: 0 <= i < k ==> IsDigit(s[i])
    ensures k < |s| ==> !IsDigit(s[k])
  {
    if |s| > 0 && IsDigit(s[0]) then 1 + DigitRun(s[1..]) else 0
  }

  predicate ZerosOnly(s: string) { forall i :: 0 <= i < |s| ==> s[i] == '0' }

  /** An unsigned integer text: digits, or digits, a point and zeros only. */
  function UnsignedText(s: string): Option<nat>
  {
    var k := DigitRun(s);
    if k == 0 then None
    else if k == |s| then Some(DecimalValue(s))
    else if s[k] == '.' && ZerosOnly(s[k + 1..]) then Some(DecimalValue(s[..k]))
    else None
  }

  /** An integer text: an optional sign, then an unsigned integer text. */
  function IntText(t: string): Option<int>
  {
    if |t| > 0 && t[0] == '-' then
      match UnsignedText(t[1..])
      case Some(n) => Some(-(n as int))
      case None => None
    else if |t| > 0 && t[0] == '+' then
      match UnsignedText(t[1..])
      case Some(n) => Some(n)
      case None => None
    else
      match UnsignedText(t)
      case Some(n) => Some(n)
      case None => None
  }

  /** The integer lax mode makes of a value for an `int` field: an
      integral number, a boolean as 1 or 0, or a string holding an integer
      text between white space. */
  function LaxInt(v: Json): Option<int>
  {
    match v
    case JNum(n) => if IsInteger(n) then Some(n.Floor) else None
    case JBool(b) => Some(if b then 1 else 0)
    case JStr(s) => IntText(StripSpace(s))
    case _ => None
  }

  /** `Optional[int]` with `ge=0, le=100`, in lax mode: the value becomes an
      integer first, and the bounds apply to that integer. */
  function ConfidenceErrors(m: map<string, Json>): seq<CoreError>
  {
    if "confidence" !in m || m["confidence"] == JNull then []
    else match LaxInt(m["confidence"])
      case None => [Invalid("confidence")]
      case Some(k) => if k < 0 || k > 100 then [ConfidenceOutOfRange] else []
  }

  /** `Optional[List[GranularMarking]]` with `min_length=1`. */
  function GranularMarkingErrors(m: map<string, Json>, c: Checkers): seq<CoreError>
  {
    if "granular_markings" !in m || m["granular_markings"] == JNull then []
    else if !ListOf(c.granularMarking, m["granular_markings"]) then [Invalid("granular_markings")]
    else if |m["granular_markings"].items| < 1 then [TooFewGranularMarkings]
    else []
  }

  /** `Optional[Dict[str, Union[Extension, dict]]]`: every value is a
      dictionary. */
  predicate ExtensionsShape(v: Json)
  {
    v.JObj? && forall k :: k in v.fields ==> v.fields[k].JObj?
  }

  /** Field validation: every field's errors, in declaration order. */
  function FieldErrors(m: map<string, Json>, c: Checkers): seq<CoreError>
  {
    TypeErrors(m, c)
    + RequiredField(m, "spec_version", SpecVersionOk)
    + RequiredField(m, "id", c.identifier)
    + OptionalField(m, "created_by_ref", c.identifier)
    + OptionalField(m, "labels", v => ListOf(IsString, v))
    + RequiredField(m, "created", c.timestamp)
    + RequiredField(m, "modified", c.timestamp)
    + OptionalField(m, "revoked", c.boolean)
    + ConfidenceErrors(m)
    + OptionalField(m, "lang", IsString)
    + OptionalField(m, "external_references", v => ListOf(c.externalReference, v))
    + OptionalField(m, "object_marking_refs", v => ListOf(c.identifier, v))
    + GranularMarkingErrors(m, c)
    + OptionalField(m, "extensions", ExtensionsShape)
  }

  //---------------------------------------------------------------------------
  // check_extensions
  //---------------------------------------------------------------------------

  /** The text the key is compared with: a regular expression, but used as
      a plain string. */
  const DefinitionKeyText := "extension-definition--[0-9a-fA-F]{8}-[0-9a-fA-F]{4}-[1-5][0-9a-fA-F]{3}-[89abAB][0-9a-fA-F]{3}-[0-9a-fA-F]{12}"

  /** `^([a-z][a-z0-9]*)+(-[a-z0-9]+)*\-ext$` without the final line feed
      Python's `$` allows. */
  predicate ExtKeyBody(k: string)
  {
    |k| >= 5 && EndsWith(k, "-ext") && PyStixType.Slug(k[..|k| - 4])
  }

  /** `re.match` of the extension-key pattern. */
  predicate ExtKeyPattern(k: string)
  {
    ExtKeyBody(k) || (|k| > 0 && k[|k| - 1] == '\n' && ExtKeyBody(k[..|k| - 1]))
  }

  /** A UUID of versions 1 to 5 with the RFC 4122 variant, hexadecimal in
      either case. */
  predicate IsUuidV1To5(u: string)
  {
    StixIdentifier.IsUuidShape(u) && '1' <= u[14] <= '5'
    && u[19] in {'8', '9', 'a', 'b', 'A', 'B'}
  }

  /** An extension-definition identifier: the pattern the key text spells
      out, matched against the whole key. */
  predicate IsDefinitionKey(k: string)
  {
    |k| == 58 && StartsWith(k, "extension-definition--") && IsUuidV1To5(k[22..])
  }

  /** The keys `check_extensions` refuses, given which keys it takes for
      extension definitions: those that are not definition keys and do not
      match the extension-key pattern. */
  function RefusedKeys(ext: map<string, Json>, isDefinition: string -> bool): set<string>
  {
    set k | k in ext && !isDefinition(k) && !ExtKeyPattern(k)
  }

  /** The definition keys whose value the extension model refuses. */
  function BadDefinitions(ext: map<string, Json>, isDefinition: string -> bool, c: Checkers): set<string>
  {
    set k | k in ext && isDefinition(k) && !c.extension(ext[k])
  }

  /** `check_extensions`: nothing to do for an absent or empty dictionary;
      otherwise the refused keys raise, then the refused definitions (the
      message names the first in insertion order, which a map does not
      keep, so the error carries them all). */
  function CheckExtensions(m: map<string, Json>, isDefinition: string -> bool, c: Checkers): (r: seq<CoreError>)
    requires "extensions" in m ==> m["extensions"] == JNull || m["extensions"].JObj?
    ensures |r| <= 1
    ensures r != [] ==> "extensions" in m && m["extensions"].JObj?
    ensures r != [] ==>
      (r[0].InvalidExtensionKeys? || r[0].InvalidExtensions?) && r[0].keys != {} && r[0].keys <= m["extensions"].fields.Keys
  {
    if "extensions" !in m || m["extensions"] == JNull then []
    else
      var ext := m["extensions"].fields;
      if RefusedKeys(ext, isDefinition) != {} then [InvalidExtensionKeys(RefusedKeys(ext, isDefinition))]
      else if BadDefinitions(ext, isDefinition, c) != {} then [InvalidExtensions(BadDefinitions(ext, isDefinition, c))]
      else []
  }

  /** Key equality with the pattern text, as written. */
  predicate EqualsKeyText(k: string) { k == DefinitionKeyText }

  //---------------------------------------------------------------------------
  // check_prohibited_fields
  //---------------------------------------------------------------------------

  const ProhibitedFields: seq<string> := ["severity", "action", "username", "phone_numbers"]

  /** What iterating over a model yields: `(name, value)` pairs. */
  datatype PyItem = PyText(s: string) | PyPair(name: string, value: Json)

  /** Iterating the validated object: one pair per declared field. */
  function ModelItems(m: map<string, Json>): seq<PyItem>
  {
    seq(|Declared|, k requires 0 <= k < |Declared| =>
      PyPair(Declared[k], if Declared[k] in m then m[Declared[k]] else JNull))
  }

  /** `field in self`: the string compared with each item of the
      iteration. */
  predicate InModel(field: string, m: map<string, Json>)
  {
    exists k :: 0 <= k < |ModelItems(m)| && ModelItems(m)[k] == PyText(field)
  }

  /** The first prohibited field the test finds, in list order. */
  function FirstProhibited(present: string -> bool, k: nat): seq<CoreError>
    requires k <= |ProhibitedFields|
    decreases |ProhibitedFields| - k
  {
    if k == |ProhibitedFields| then []
    else if present(ProhibitedFields[k]) then [ProhibitedField(ProhibitedFields[k])]
    else FirstProhibited(present, k + 1)
  }

  lemma {:induction false} FirstProhibitedIff(present: string -> bool, k: nat)
    requires k <= |ProhibitedFields|
    ensures FirstProhibited(present, k) != [] <==> exists j :: k <= j < |ProhibitedFields| && present(ProhibitedFields[j])
    ensures FirstProhibited(present, k) != [] ==>
      (|FirstProhibited(present, k)| == 1 && FirstProhibited(present, k)[0].ProhibitedField?
       && present(FirstProhibited(present, k)[0].field))
    decreases |ProhibitedFields| - k
  {
    if k < |ProhibitedFields| {
      FirstProhibitedIff(present, k + 1);
    }
  }

  /** The search depends only on the answers for the prohibited names. */
  lemma {:induction false} FirstProhibitedAgree(p: string -> bool, q: string -> bool, k: nat)
    requires k <= |ProhibitedFields|
    requires forall j :: k <= j < |ProhibitedFields| ==> p(ProhibitedFields[j]) == q(ProhibitedFields[j])
    ensures FirstProhibited(p, k) == FirstProhibited(q, k)
    decreases |ProhibitedFields| - k
  {
    if k < |ProhibitedFields| {
      FirstProhibitedAgree(p, q, k + 1);
    }
  }

  //---------------------------------------------------------------------------
  // Validation
  //---------------------------------------------------------------------------

  /** Field validation, then the two model validators in order, with the
      key test and the presence test each validator uses. */
  function ValidateWith(m: map<string, Json>, c: Checkers, isDefinition: string -> bool,
                        present: string -> bool): (r: Result<map<string, Json>, seq<CoreError>>)
    ensures r.Ok? ==> r.value == Instance(m, c) && FieldErrors(m, c) == []
    ensures r.Err? ==> r.error != []
  {
    var errs := FieldErrors(m, c);
    if errs != [] then Err(errs)
    else
      assert "extensions" in m ==> m["extensions"] == JNull || m["extensions"].JObj? by {
        if "extensions" in m && m["extensions"] != JNull {
          assert OptionalField(m, "extensions", ExtensionsShape) == [];
        }
      }
      var ext := CheckExtensions(m, isDefinition, c);
      if ext != [] then Err(ext)
      else
        var prohibited := FirstProhibited(present, 0);
        if prohibited != [] then Err(prohibited) else Ok(Instance(m, c))
  }

  /** `STIXObject` as written: keys compared with the pattern text, and
      prohibited fields looked up by iterating the model. */
  function ValidateAsWritten(m: map<string, Json>, c: Checkers): (r: Result<map<string, Json>, seq<CoreError>>)
    ensures r.Ok? ==> Required <= m.Keys && r.value.Keys == DeclaredSet
    ensures r.Ok? ==> forall f :: f in r.value ==>
      r.value[f] == (if f in m && m[f] != JNull then c.coerce(f, m[f]) else JNull)
    ensures r.Err? ==> r.error != []
  {
    InstanceShape(m, c);
    FieldErrorsIff(m, c);
    ValidateWith(m, c, EqualsKeyText, f => InModel(f, m))
  }

  /** `STIXObject` as its validators document it: definition keys
      recognised by the identifier pattern, and prohibited fields looked up
      among the input's keys. */
  function Validate(m: map<string, Json>, c: Checkers): (r: Result<map<string, Json>, seq<CoreError>>)
    ensures r.Ok? ==> Required <= m.Keys && r.value.Keys == DeclaredSet
    ensures r.Ok? ==> forall f :: f in r.value ==>
      r.value[f] == (if f in m && m[f] != JNull then c.coerce(f, m[f]) else JNull)
    ensures r.Err? ==> r.error != []
  {
    InstanceShape(m, c);
    FieldErrorsIff(m, c);
    ValidateWith(m, c, IsDefinitionKey, f => f in m)
  }

  /** What an accepted object satisfies, whichever tests are used: the
      required fields are present, the spec version is "2.0" or "2.1", the
      type is not "action", a confidence reads as an integer from 0 to 100,
      and
      granular markings are not empty. */
  lemma Accepted(m: map<string, Json>, c: Checkers, isDefinition: string -> bool, present: string -> bool)
    requires ValidateWith(m, c, isDefinition, present).Ok?
    ensures Required <= m.Keys
    ensures SpecVersionOk(m["spec_version"]) && m["type"] != JStr("action") && c.stixType(m["type"])
    ensures "confidence" in m && m["confidence"] != JNull ==>
      (LaxInt(m["confidence"]).Some? && 0 <= LaxInt(m["confidence"]).value <= 100)
    ensures "granular_markings" in m && m["granular_markings"] != JNull ==>
      (m["granular_markings"].JArr? && |m["granular_markings"].items| >= 1)
    ensures "extensions" in m && m["extensions"] != JNull ==>
      (m["extensions"].JObj? && RefusedKeys(m["extensions"].fields, isDefinition) == {})
  {
    var errs := FieldErrors(m, c);
    assert errs == [];
    assert TypeErrors(m, c) == [];
  }

  /** The field errors are empty exactly when each field passes its own
      check. */
  lemma FieldErrorsIff(m: map<string, Json>, c: Checkers)
    ensures FieldErrors(m, c) == [] <==>
      Required <= m.Keys && c.stixType(m["type"]) && m["type"] != JStr("action")
      && SpecVersionOk(m["spec_version"]) && c.identifier(m["id"])
      && c.timestamp(m["created"]) && c.timestamp(m["modified"])
      && ConfidenceErrors(m) == [] && GranularMarkingErrors(m, c) == []
      && OptionalField(m, "created_by_ref", c.identifier) == []
      && OptionalField(m, "labels", v => ListOf(IsString, v)) == []
      && OptionalField(m, "revoked", c.boolean) == []
      && OptionalField(m, "lang", IsString) == []
      && OptionalField(m, "external_references", v => ListOf(c.externalReference, v)) == []
      && OptionalField(m, "object_marking_refs", v => ListOf(c.identifier, v)) == []
      && OptionalField(m, "extensions", ExtensionsShape) == []
  {
  }

  /** The confidence check accepts exactly the absent value, None, and
      whatever reads as an integer from 0 to 100; a value that does not read
      as an integer is invalid, and one outside the bounds is out of range. */
  lemma ConfidenceRange(m: map<string, Json>)
    ensures ConfidenceErrors(m) == [] <==>
      "confidence" !in m || m["confidence"] == JNull
      || (LaxInt(m["confidence"]).Some? && 0 <= LaxInt(m["confidence"]).value <= 100)
    ensures "confidence" in m && m["confidence"] != JNull && LaxInt(m["confidence"]).None? ==>
      ConfidenceErrors(m) == [Invalid("confidence")]
    ensures "confidence" in m && m["confidence"] == JNum(0.0) ==> ConfidenceErrors(m) == []
    ensures "confidence" in m && m["confidence"] == JNum(100.0) ==> ConfidenceErrors(m) == []
    ensures "confidence" in m && m["confidence"] == JNum(101.0) ==> ConfidenceErrors(m) == [ConfidenceOutOfRange]
    ensures "confidence" in m && m["confidence"] == JNum(50.5) ==> ConfidenceErrors(m) == [Invalid("confidence")]
    ensures "confidence" in m && m["confidence"].JBool? ==> ConfidenceErrors(m) == []
    ensures "confidence" in m && m["confidence"].JArr? ==> ConfidenceErrors(m) == [Invalid("confidence")]
  {
  }

  /** A confidence given as the decimal text of a number is judged by that
      number. */
  lemma ConfidenceText(m: map<string, Json>, n: nat)
    requires "confidence" in m && m["confidence"] == JStr(NatText(n))
    ensures ConfidenceErrors(m) == [] <==> n <= 100
    ensures n > 100 ==> ConfidenceErrors(m) == [ConfidenceOutOfRange]
  {
    LaxIntReadsText(n);
  }

  lemma {:induction false} DigitRunAll(s: string)
    requires AllDigits(s)
    ensures DigitRun(s) == |s|
  {
    if |s| > 0 {
      DigitRunAll(s[1..]);
    }
  }

  lemma {:induction false} DigitRunStops(d: string, rest: string)
    requires AllDigits(d) && |rest| > 0 && !IsDigit(rest[0])
    ensures DigitRun(d + rest) == |d|
  {
    if |d| > 0 {
      assert (d + rest)[1..] == d[1..] + rest;
      DigitRunStops(d[1..], rest);
    }
  }

  /** The stripped text of a digit run with a zero fraction and white
      space around it. */
  lemma PaddedTextStrips(d: string)
    requires SomeDigits(d)
    ensures StripSpace(" " + d + ".0\n") == d + ".0"
  {
    var t := d + ".0";
    assert (" " + d + ".0\n")[1..] == t + "\n";
    assert (t + "\n")[..|t + "\n"| - 1] == t;
    assert StripSpace(t) == t;
  }

  /** Lax mode reads back the decimal text of every integer: with or
      without a sign, a zero fraction or white space around it; and it
      refuses a fraction that is not zero. */
  lemma LaxIntReadsText(n: nat)
    ensures LaxInt(JStr(NatText(n))) == Some(n)
    ensures LaxInt(JStr("-" + NatText(n))) == Some(-(n as int))
    ensures LaxInt(JStr("+" + NatText(n))) == Some(n)
    ensures LaxInt(JStr(" " + NatText(n) + ".0\n")) == Some(n)
    ensures LaxInt(JStr(NatText(n) + ".5")) == None
    ensures LaxInt(JNum(n as real)) == Some(n)
  {
    var d := NatText(n);
    NatTextValue(n);
    DigitRunAll(d);
    assert StripSpace(d) == d;
    assert ("-" + d)[1..] == d && StripSpace("-" + d) == "-" + d;
    assert ("+" + d)[1..] == d && StripSpace("+" + d) == "+" + d;
    PaddedTextStrips(d);
    var z := d + ".0";
    DigitRunStops(d, ".0");
    assert z[..|d|] == d && z[|d| + 1..] == "0";
    var h := d + ".5";
    DigitRunStops(d, ".5");
    assert StripSpace(h) == h;
    assert h[|d| + 1..] == "5";
  }

  /** The extension-key pattern: a hyphenated lower-case name ending in
      "-ext". */
  lemma ExtKeyExamples()
    ensures ExtKeyPattern("x-mitre-ext")
    ensures !ExtKeyPattern("Mitre-ext") && !ExtKeyPattern("mitre--ext") && !ExtKeyPattern("-ext")
  {
    PyStixType.LettersSlug("x");
    PyStixType.LettersSlug("mitre");
    PyStixType.SlugJoin("x", "mitre");
    assert "x-mitre-ext"[..7] == "x-mitre";
    assert !ExtKeyBody("Mitre-ext") by { assert "Mitre-ext"[..5][0] == 'M'; }
    assert !ExtKeyBody("mitre--ext") by {
      var w := "mitre--ext"[..6];
      assert w[5] == '-';
    }
  }

  //---------------------------------------------------------------------------
  // The two model validators that cannot fire as written
  //---------------------------------------------------------------------------

  const SampleUuid := "d8f9ae02-7c47-4d3d-a4a4-0d1b2b1b0a5c"
  const SampleDefinitionKey := "extension-definition--" + SampleUuid

  lemma SampleUuidVersion4()
    ensures IsUuidV1To5(SampleUuid)
  {
  }

  lemma SampleKeyFacts()
    ensures IsDefinitionKey(SampleDefinitionKey)
    ensures !EqualsKeyText(SampleDefinitionKey)
    ensures !ExtKeyPattern(SampleDefinitionKey)
  {
    var k := SampleDefinitionKey;
    assert |"extension-definition--"| == 22;
    assert k[22..] == SampleUuid;
    SampleUuidVersion4();
    assert StartsWith(k, "extension-definition--");
    assert |DefinitionKeyText| != |k|;
    assert k[|k| - 1] == 'c';
    assert !EndsWith(k, "-ext") by { assert k[|k| - 4..][3] == 'c'; }
  }

  /** As written, an object whose extensions hold an extension definition
      under its identifier, as STIX 2.1 lays them out, is refused for its
      key, while the documented test accepts it when the definition itself
      is valid. */
  lemma DefinitionKeyRefused(m: map<string, Json>, c: Checkers, def: map<string, Json>)
    requires FieldErrors(m, c) == [] && "extensions" !in m && c.extension(JObj(def))
    ensures var m2 := m["extensions" := JObj(map[SampleDefinitionKey := JObj(def)])];
      ValidateWith(m2, c, EqualsKeyText, f => false) == Err([InvalidExtensionKeys({SampleDefinitionKey})])
      && ValidateWith(m2, c, IsDefinitionKey, f => false) == Ok(Instance(m2, c))
  {
    SampleKeyFacts();
    var ext := map[SampleDefinitionKey := JObj(def)];
    var m2 := m["extensions" := JObj(ext)];
    FieldErrorsIff(m, c);
    FieldErrorsIff(m2, c);
    assert ExtensionsShape(JObj(ext));
    assert FieldErrors(m2, c) == [];
    assert RefusedKeys(ext, EqualsKeyText) == {SampleDefinitionKey};
    assert RefusedKeys(ext, IsDefinitionKey) == {};
    assert BadDefinitions(ext, IsDefinitionKey, c) == {};
    FirstProhibitedIff(f => false, 0);
  }

  /** As written every extension-definition key is refused: it is not the
      pattern text, and it ends in a hexadecimal digit, not in "-ext". */
  lemma DefinitionKeysRefusedAsWritten(ext: map<string, Json>, k: string)
    requires k in ext && IsDefinitionKey(k)
    ensures k in RefusedKeys(ext, EqualsKeyText)
    ensures k !in RefusedKeys(ext, IsDefinitionKey)
  {
    assert |DefinitionKeyText| != |k|;
    var u := k[22..];
    assert !StixIdentifier.UuidHyphenAt(35);
    assert IsHex(u[35]) && u[35] == k[57];
    assert !EndsWith(k, "-ext") by { assert k[|k| - 4..][3] == k[57]; }
  }

  /** The corrected key check: a non-empty extensions dictionary passes
      exactly when each key is an extension-definition identifier whose
      value the extension model accepts, or else matches the extension-key
      pattern. */
  lemma CheckExtensionsIff(m: map<string, Json>, c: Checkers)
    requires "extensions" in m && m["extensions"].JObj?
    ensures CheckExtensions(m, IsDefinitionKey, c) == [] <==>
      forall k :: k in m["extensions"].fields ==>
        if IsDefinitionKey(k) then c.extension(m["extensions"].fields[k]) else ExtKeyPattern(k)
  {
    var ext := m["extensions"].fields;
    if CheckExtensions(m, IsDefinitionKey, c) == [] {
      forall k | k in ext
        ensures if IsDefinitionKey(k) then c.extension(ext[k]) else ExtKeyPattern(k)
      {
        assert k !in RefusedKeys(ext, IsDefinitionKey);
        assert k !in BadDefinitions(ext, IsDefinitionKey, c);
      }
    } else if RefusedKeys(ext, IsDefinitionKey) != {} {
      var k :| k in RefusedKeys(ext, IsDefinitionKey);
      assert !IsDefinitionKey(k) && !ExtKeyPattern(k);
    } else {
      var k :| k in BadDefinitions(ext, IsDefinitionKey, c);
      assert IsDefinitionKey(k) && !c.extension(ext[k]);
    }
  }

  /** As written the prohibited-field validator never fires: iterating the
      model yields pairs, which never equal a field name. */
  lemma ProhibitedNeverFound(f: string, m: map<string, Json>)
    ensures !InModel(f, m)
  {
  }

  /** So an otherwise valid object with a "severity" property passes as
      written, while the documented check refuses it. */
  lemma ProhibitedFieldAccepted(m: map<string, Json>, c: Checkers)
    requires FieldErrors(m, c) == [] && "extensions" !in m && "severity" !in m
    ensures var m2 := m["severity" := JStr("high")];
      ValidateAsWritten(m2, c).Ok?
      && Validate(m2, c) == Err([ProhibitedField("severity")])
  {
    var m2 := m["severity" := JStr("high")];
    FieldErrorsIff(m, c);
    FieldErrorsIff(m2, c);
    assert FieldErrors(m2, c) == [];
    FirstProhibitedIff(f => InModel(f, m2), 0);
    assert ProhibitedFields[0] == "severity";
  }

  /** The documented check refuses exactly the objects that carry a
      prohibited property, naming the first of them. */
  lemma ProhibitedIff(m: map<string, Json>, c: Checkers)
    requires FieldErrors(m, c) == [] && CheckExtensions(m, IsDefinitionKey, c) == []
    ensures Validate(m, c).Err? <==> exists j :: 0 <= j < |ProhibitedFields| && ProhibitedFields[j] in m
    ensures Validate(m, c).Err? ==> exists f :: f in m && Validate(m, c) == Err([ProhibitedField(f)])
  {
    FirstProhibitedIff(f => f in m, 0);
  }

  /** A name outside the declared fields is none of them. */
  lemma NotDeclared(f: string)
    requires f !in DeclaredSet
    ensures f != "type" && f != "spec_version" && f != "id" && f != "created_by_ref" && f != "labels"
    ensures f != "created" && f != "modified" && f != "revoked" && f != "confidence" && f != "lang"
    ensures f != "external_references" && f != "object_marking_refs" && f != "granular_markings"
    ensures f != "extensions"
  {
    assert Declared[0] == "type" && Declared[1] == "spec_version" && Declared[2] == "id";
    assert Declared[3] == "created_by_ref" && Declared[4] == "labels" && Declared[5] == "created";
    assert Declared[6] == "modified" && Declared[7] == "revoked" && Declared[8] == "confidence";
    assert Declared[9] == "lang" && Declared[10] == "external_references";
    assert Declared[11] == "object_marking_refs" && Declared[12] == "granular_markings";
    assert Declared[13] == "extensions";
  }

  lemma FieldErrorsIgnoreUndeclared(m: map<string, Json>, c: Checkers, f: string, v: Json)
    requires f !in DeclaredSet
    ensures FieldErrors(m[f := v], c) == FieldErrors(m, c)
  {
    NotDeclared(f);
    CheckedFieldsIgnoreUndeclared(m, c, f, v);
  }

  lemma CheckedFieldsIgnoreUndeclared(m: map<string, Json>, c: Checkers, f: string, v: Json)
    requires f !in DeclaredSet
    ensures TypeErrors(m[f := v], c) == TypeErrors(m, c)
    ensures ConfidenceErrors(m[f := v]) == ConfidenceErrors(m)
    ensures GranularMarkingErrors(m[f := v], c) == GranularMarkingErrors(m, c)
  {
    NotDeclared(f);
  }

  lemma ExtensionsIgnoreUndeclared(m: map<string, Json>, c: Checkers, f: string, v: Json, isDefinition: string -> bool)
    requires f !in DeclaredSet
    requires "extensions" in m ==> m["extensions"] == JNull || m["extensions"].JObj?
    ensures CheckExtensions(m[f := v], isDefinition, c) == CheckExtensions(m, isDefinition, c)
  {
    NotDeclared(f);
  }

  lemma ModelIgnoresUndeclared(m: map<string, Json>, c: Checkers, f: string, v: Json)
    requires f !in DeclaredSet
    ensures ModelItems(m[f := v]) == ModelItems(m)
    ensures Instance(m[f := v], c) == Instance(m, c)
  {
    var m2 := m[f := v];
    forall k | 0 <= k < |Declared|
      ensures ModelItems(m2)[k] == ModelItems(m)[k]
    {
      assert Declared[k] in DeclaredSet;
    }
  }

  /** Keys the class does not declare leave no trace: adding one changes
      neither the verdict of the model as written nor the object it builds,
      and an accepted object never holds one. */
  lemma {:induction false} UndeclaredKeyIgnored(m: map<string, Json>, c: Checkers, f: string, v: Json)
    requires f !in DeclaredSet
    ensures ValidateAsWritten(m[f := v], c) == ValidateAsWritten(m, c)
    ensures ValidateAsWritten(m[f := v], c).Ok? ==> f !in ValidateAsWritten(m[f := v], c).value
  {
    var m2 := m[f := v];
    FieldErrorsIgnoreUndeclared(m, c, f, v);
    if FieldErrors(m, c) == [] {
      FieldErrorsIff(m, c);
      ExtensionsIgnoreUndeclared(m, c, f, v, EqualsKeyText);
    }
    ModelIgnoresUndeclared(m, c, f, v);
    FirstProhibitedAgree(f2 => InModel(f2, m2), f2 => InModel(f2, m), 0);
  }
}

=== FILE: py_stix_type.dfy ===
/** The STIX type of the pydantic package
    (pydantic/attack_model/annotations/stix/type.py): an enumeration of the
    13 ATT&CK object types, its `validate` class method, and the exported
    annotation. */
module PyStixType {
  import opened Wrappers
  import opened JsonValues
  import opened Strings

  /** `_StixTypeCls`, in declaration order. */
  const Members: seq<string> := [
    "attack-pattern", "malware", "course-of-action", "intrusion-set",
    "x-mitre-data-component", "tool", "x-mitre-data-source", "x-mitre-tactic",
    "campaign", "x-mitre-asset", "x-mitre-matrix", "x-mitre-collection", "identity"
  ]

  /** `[a-z][a-z0-9]*` repeated, then `(-[a-z0-9]+)*`: lower-case letters
      and digits in hyphen-separated runs, starting with a letter. */
  predicate Slug(w: string)
  {
    |w| > 0 && IsLower(w[0])
    && (forall k :: 0 <= k < |w| ==> IsLowerAlnum(w[k]) || w[k] == '-')
    && DashSafe(w)
  }

  /** The body of `^([a-z][a-z0-9]*)+(-[a-z0-9]+)*\-?$`: a slug with an
      optional trailing hyphen. */
  predicate TypeBody(s: string)
  {
    Slug(s) || (|s| > 1 && s[|s| - 1] == '-' && Slug(s[..|s| - 1]))
  }

  /** `re.match` with that pattern: Python's `$` also matches before a
      final line feed. */
  predicate TypePattern(s: string)
  {
    TypeBody(s) || (|s| > 0 && s[|s| - 1] == '\n' && TypeBody(s[..|s| - 1]))
  }

  const PatternText := "^([a-z][a-z0-9]*)+(-[a-z0-9]+)*\\-?$"

  /** `validate`: enumeration membership first, then the length bounds,
      then the pattern, each with its own message. */
  function Validate(value: string): (r: Result<string, string>)
    ensures r.Ok? ==> r.value == value && value in Members
    ensures value !in Members ==> r == Err("Invalid STIX type: " + value)
  {
    if value !in Members then Err("Invalid STIX type: " + value)
    else if |value| < 3 then Err("STIX type must have a minimum length of 3: " + value)
    else if |value| > 250 then Err("STIX type must have a maximum length of 250: " + value)
    else if !TypePattern(value) then Err("STIX type must match the pattern '" + PatternText + "': " + value)
    else Ok(value)
  }

  /** A slug written as two slugs joined by one hyphen. */
  lemma SlugJoin(a: string, b: string)
    requires Slug(a) && Slug(b)
    ensures Slug(a + "-" + b)
  {
    var w := a + "-" + b;
    forall k | 0 <= k < |w| - 1 ensures !(w[k] == '-' && w[k + 1] == '-') {
      if k < |a| - 1 {
        assert w[k] == a[k] && w[k + 1] == a[k + 1];
      } else if k == |a| - 1 {
        assert w[k] == a[|a| - 1] != '-';
      } else if k == |a| {
        assert w[k + 1] == b[0];
      } else {
        assert w[k] == b[k - |a| - 1] && w[k + 1] == b[k - |a|];
      }
    }
    assert w[|w| - 1] == b[|b| - 1];
    forall k | 0 <= k < |w| ensures IsLowerAlnum(w[k]) || w[k] == '-' {
      if k < |a| {
        assert w[k] == a[k];
      } else if k > |a| {
        assert w[k] == b[k - |a| - 1];
      }
    }
  }

  /** A run of lower-case letters is a slug. */
  lemma LettersSlug(a: string)
    requires |a| > 0 && forall k :: 0 <= k < |a| ==> IsLower(a[k])
    ensures Slug(a)
  {
  }

  lemma Slugs1()
    ensures Slug("malware") && Slug("tool") && Slug("campaign") && Slug("identity")
  {
    LettersSlug("malware");
    LettersSlug("tool");
    LettersSlug("campaign");
    LettersSlug("identity");
  }

  lemma Slugs2()
    ensures Slug("attack-pattern") && Slug("course-of-action") && Slug("intrusion-set")
  {
    LettersSlug("attack");
    LettersSlug("pattern");
    LettersSlug("course");
    LettersSlug("of");
    LettersSlug("action");
    LettersSlug("intrusion");
    LettersSlug("set");
    SlugJoin("attack", "pattern");
    SlugJoin("course", "of");
    SlugJoin("course-of", "action");
    SlugJoin("intrusion", "set");
  }

  /** `x-mitre-` followed by a slug is a slug. */
  lemma MitreSlug(rest: string)
    requires Slug(rest)
    ensures Slug("x-mitre-" + rest)
  {
    LettersSlug("x");
    LettersSlug("mitre");
    SlugJoin("x", "mitre");
    SlugJoin("x-mitre", rest);
    assert "x-mitre" + "-" + rest == "x-mitre-" + rest;
  }

  lemma Slugs3()
    ensures Slug("x-mitre-data-component") && Slug("x-mitre-data-source") && Slug("x-mitre-tactic")
  {
    LettersSlug("data");
    LettersSlug("component");
    LettersSlug("source");
    LettersSlug("tactic");
    SlugJoin("data", "component");
    SlugJoin("data", "source");
    MitreSlug("data-component");
    MitreSlug("data-source");
    MitreSlug("tactic");
  }

  lemma Slugs4()
    ensures Slug("x-mitre-asset") && Slug("x-mitre-matrix") && Slug("x-mitre-collection")
  {
    LettersSlug("asset");
    LettersSlug("matrix");
    LettersSlug("collection");
    MitreSlug("asset");
    MitreSlug("matrix");
    MitreSlug("collection");
  }

  /** Every member passes the length and pattern checks. */
  lemma MembersWellFormed(v: string)
    requires v in Members
    ensures 3 <= |v| <= 250 && TypePattern(v)
  {
    Slugs1();
    Slugs2();
    Slugs3();
    Slugs4();
  }

  /** So `validate` accepts exactly the 13 members, and returns the value
      it was given. */
  lemma ValidateIffMember(v: string)
    ensures Validate(v).Ok? <==> v in Members
    ensures v in Members ==> Validate(v) == Ok(v)
  {
    if v in Members {
      MembersWellFormed(v);
    }
  }

  /** Neither bundles, relationships nor marking definitions are members. */
  lemma NonMembers()
    ensures "bundle" !in Members && "relationship" !in Members && "marking-definition" !in Members
  {
    assert forall k :: 0 <= k < |Members| ==> |Members[k]| != 6 && |Members[k]| != 12;
    assert forall k :: 0 <= k < |Members| ==> |Members[k]| != 18 || Members[k][0] == 'x';
  }

  /** The exported annotation as written: a string field whose
      `AfterValidator` returns `x in members`, so the parsed value is a
      boolean and nothing is refused. */
  function AnnotationAsWritten(x: string): (r: Result<Json, string>)
  {
    Ok(JBool(x in Members))
  }

  /** The annotation as its name promises: the member itself, and an error
      for anything else. */
  function Annotation(x: string): (r: Result<Json, string>)
  {
    match Validate(x)
    case Ok(v) => Ok(JStr(v))
    case Err(e) => Err(e)
  }

  /** As written, every string passes and the field then holds a boolean,
      never the type name: "malware" becomes `true`, "bundle" `false`. */
  lemma AnnotationLosesValue(x: string)
    ensures AnnotationAsWritten(x).Ok? && AnnotationAsWritten(x).value.JBool?
    ensures AnnotationAsWritten("malware") == Ok(JBool(true))
    ensures AnnotationAsWritten("bundle") == Ok(JBool(false))
  {
    NonMembers();
  }

  /** The corrected annotation keeps the type name of every member and
      refuses everything else. */
  lemma AnnotationKeepsValue(x: string)
    ensures Annotation(x).Ok? <==> x in Members
    ensures x in Members ==> Annotation(x) == Ok(JStr(x))
  {
    ValidateIffMember(x);
  }
}

=== FILE: refinements.dfy ===
/** The cross-field checks the ATT&CK object schemas run once an object's own
    fields have parsed (src/refinements/index.ts). Each check is a function
    from the parsed object to the issues it reports, in the order it reports
    them; an empty list means the check passes. */
module Refinements {
  import opened Wrappers
  import opened Strings
  import opened JsonValues
  import opened AttackIds

  // ------------------------------------------------------------ first alias

  const FirstAliasMessage := "The first alias must match the object's name."

  /** `createFirstAliasRefinement` (`field == "aliases"`) and
      `createFirstXMitreAliasRefinement` (`field == "x_mitre_aliases"`): a
      non-empty alias list must start with the object's name. */
  function FirstAliasRule(field: string, v: Json): (r: seq<Issue>)
    ensures |r| <= 1
    ensures r != [] ==> r[0] == Issue([Key(field)], FirstAliasMessage)
  {
    match Get(v, field)
    case Some(JArr(aliases)) =>
      if |aliases| > 0 && Some(aliases[0]) != Get(v, "name") then [Issue([Key(field)], FirstAliasMessage)] else []
    case _ => []
  }

  /** The alias check passes exactly when there is no alias list, the list is
      empty, or its first entry is the name. */
  lemma FirstAliasAccepts(field: string, v: Json, name: string, aliases: seq<Json>)
    requires Get(v, "name") == Some(JStr(name))
    requires Get(v, field) == Some(JArr(aliases))
    ensures FirstAliasRule(field, v) == [] <==> aliases == [] || aliases[0] == JStr(name)
  {
  }

  /** A non-empty alias list of an object starts with its name. */
  predicate AliasesLeadWithName(m: map<string, Json>, field: string)
  {
    field in m && m[field].JArr? && |m[field].items| > 0 ==> "name" in m && m[field].items[0] == m["name"]
  }

  /** On an object, the alias check passes exactly when a non-empty alias
      list starts with the name. */
  lemma FirstAliasOnObject(field: string, m: map<string, Json>)
    ensures FirstAliasRule(field, JObj(m)) == [] <==> AliasesLeadWithName(m, field)
  {
  }

  /** The alias check reads only the alias list and the name. */
  lemma FirstAliasReads(field: string, v: Json, w: Json)
    requires Get(v, field) == Get(w, field) && Get(v, "name") == Get(w, "name")
    ensures FirstAliasRule(field, v) == FirstAliasRule(field, w)
  {
  }

  // -------------------------------------------------------------- citations

  const CitationOpen := "(Citation: "

  /** The first `)` at or after position `k`. */
  function NextClose(s: string, k: nat): (r: Option<nat>)
    ensures r.Some? ==> k <= r.value < |s| && s[r.value] == ')'
    ensures r.Some? ==> forall m :: k <= m < r.value ==> s[m] != ')'
    ensures r.None? ==> forall m :: k <= m < |s| ==> s[m] != ')'
    decreases |s| - k
  {
    if k >= |s| then None else if s[k] == ')' then Some(k) else NextClose(s, k + 1)
  }

  /** Where a match of `\(Citation: ([^)]+)\)` starting at the front of `s`
      ends: the index of its `)`. The name part cannot contain `)`, so the
      match closes at the first `)` after the opening, and only if at least
      one character lies between. */
  function FirstCitation(s: string): (r: Option<nat>)
    ensures r.Some? ==> |CitationOpen| < r.value < |s| && s[r.value] == ')'
    ensures r.Some? ==> StartsWith(s, CitationOpen)
  {
    if StartsWith(s, CitationOpen) then
      match NextClose(s, |CitationOpen|)
      case Some(j) => if j > |CitationOpen| then Some(j) else None
      case None => None
    else None
  }

  /** `extractCitationNames`: the global match scans left to right, resuming
      after each match and one character further after each failed
      position; each match keeps the text after `(Citation:`, trimmed. */
  function CitationNames(s: string): seq<string>
    decreases |s|
  {
    if s == [] then []
    else match FirstCitation(s)
      case Some(j) => [Trim(s[|CitationOpen| - 1..j])] + CitationNames(s[j + 1..])
      case None => CitationNames(s[1..])
  }

  /** `^(\(Citation: [^)]+\))+$`: one or more citations and nothing else. */
  predicate WellFormedCitations(s: string)
    decreases |s|
  {
    match FirstCitation(s)
    case None => false
    case Some(j) => j + 1 == |s| || WellFormedCitations(s[j + 1..])
  }

  /** The citation text of one source name. */
  function Cite(name: string): string { CitationOpen + name + ")" }

  /** The citation text of several names, with no separators. */
  function CitationText(names: seq<string>): string
  {
    if names == [] then "" else Cite(names[0]) + CitationText(names[1..])
  }

  /** A name that survives being cited and read back: not empty, no `)`, no
      white space at either end. */
  predicate CitableName(n: string)
  {
    |n| > 0 && (forall k :: 0 <= k < |n| ==> n[k] != ')') && !IsJsWhitespace(n[0]) && !IsJsWhitespace(n[|n| - 1])
  }

  lemma TrimAfterSpace(n: string)
    requires CitableName(n)
    ensures Trim(" " + n) == n
  {
    assert (" " + n)[1..] == n;
    assert TrimStart(" " + n) == TrimStart(n);
    assert TrimStart(n) == n;
    assert TrimEnd(n) == n;
  }

  /** A citation at the front of a text is recognised and closes where it
      ends. */
  lemma FirstCitationOfCite(n: string, rest: string)
    requires CitableName(n)
    ensures FirstCitation(Cite(n) + rest) == Some(|Cite(n)| - 1)
    ensures (Cite(n) + rest)[|CitationOpen| - 1..|Cite(n)| - 1] == " " + n
    ensures (Cite(n) + rest)[|Cite(n)|..] == rest
  {
    var s := Cite(n) + rest;
    var e := |Cite(n)| - 1;
    assert s[..|CitationOpen|] == CitationOpen;
    assert s[e] == ')';
    forall m | |CitationOpen| <= m < e
      ensures s[m] != ')'
    {
      assert s[m] == n[m - |CitationOpen|];
    }
    var c := NextClose(s, |CitationOpen|);
    assert c.Some?;
    assert c.value == e;
  }

  /** Reading a citation at the front of a text yields its name and goes on
      with the rest; the text is well formed when the rest is empty or well
      formed. */
  lemma CitationsOfCite(n: string, rest: string)
    requires CitableName(n)
    ensures CitationNames(Cite(n) + rest) == [n] + CitationNames(rest)
    ensures WellFormedCitations(Cite(n) + rest) <==> rest == [] || WellFormedCitations(rest)
  {
    var s := Cite(n) + rest;
    var e := |Cite(n)| - 1;
    FirstCitationOfCite(n, rest);
    TrimAfterSpace(n);
    assert s != [];
    assert s[e + 1..] == rest;
    assert CitationNames(s) == [Trim(s[|CitationOpen| - 1..e])] + CitationNames(s[e + 1..]);
  }

  /** Citing names and extracting them again gives back the names, and the
      citation text is well formed whenever it cites anything. */
  lemma {:induction false} CitationRoundTrip(names: seq<string>)
    requires forall k :: 0 <= k < |names| ==> CitableName(names[k])
    ensures CitationNames(CitationText(names)) == names
    ensures |names| > 0 ==> WellFormedCitations(CitationText(names))
  {
    if names != [] {
      var tail := names[1..];
      forall k | 0 <= k < |tail| ensures CitableName(tail[k]) {
        assert tail[k] == names[k + 1];
      }
      CitationRoundTrip(tail);
      CitationStep(names[0], tail);
      assert names == [names[0]] + tail;
    }
  }

  /** One more cited name in front keeps the round trip. */
  lemma CitationStep(n: string, tail: seq<string>)
    requires CitableName(n)
    requires CitationNames(CitationText(tail)) == tail
    requires |tail| > 0 ==> WellFormedCitations(CitationText(tail))
    ensures CitationNames(CitationText([n] + tail)) == [n] + tail
    ensures WellFormedCitations(CitationText([n] + tail))
  {
    var rest := CitationText(tail);
    assert ([n] + tail)[1..] == tail;
    assert CitationText([n] + tail) == Cite(n) + rest;
    CitationsOfCite(n, rest);
    if tail == [] {
      assert rest == [];
    }
  }

  /** A separator between two citations breaks the format but not the
      extraction: both names are still looked up. */
  lemma SeparatedCitations(a: string, b: string)
    requires CitableName(a) && CitableName(b)
    ensures CitationNames(Cite(a) + " " + Cite(b)) == [a, b]
    ensures !WellFormedCitations(Cite(a) + " " + Cite(b))
  {
    var rest := " " + Cite(b);
    assert Cite(a) + " " + Cite(b) == Cite(a) + rest;
    SpaceThenCite(b);
    CitationsOfCite(a, rest);
  }

  /** A citation behind a space is still read, but the text does not start
      with one. */
  lemma SpaceThenCite(b: string)
    requires CitableName(b)
    ensures CitationNames(" " + Cite(b)) == [b]
    ensures !WellFormedCitations(" " + Cite(b))
  {
    var rest := " " + Cite(b);
    assert FirstCitation(rest) == None by { assert rest[0] == ' '; }
    assert rest[1..] == Cite(b) + "";
    CitationsOfCite(b, "");
    assert CitationNames("") == [];
    assert CitationNames(rest) == CitationNames(rest[1..]);
  }

  const CitationFormatMessage := "Citations must be in the format '(Citation: Name1)(Citation: Name2)...' without any separators."

  function MissingCitationMessage(name: string): string
  {
    "Citation " + name + " not found in external_references."
  }

  /** Some external reference has `name` as its `source_name`. */
  predicate SourceCited(refs: seq<Json>, name: string)
  {
    exists k :: 0 <= k < |refs| && Get(refs[k], "source_name") == Some(JStr(name))
  }

  /** The issue for the `i`th citation name when no reference carries it. */
  function UnresolvedIssue(field: string, i: nat, name: string): Issue
  {
    Issue([Key(field), Index(i)], MissingCitationMessage(name))
  }

  /** One issue per citation name from position `i` on that no reference
      carries, in order. */
  function UnresolvedFrom(field: string, names: seq<string>, refs: seq<Json>, i: nat): (r: seq<Issue>)
    ensures forall x :: x in r ==> exists k :: i <= k < |names| && !SourceCited(refs, names[k]) && x == UnresolvedIssue(field, k, names[k])
    ensures forall k :: i <= k < |names| && !SourceCited(refs, names[k]) ==> UnresolvedIssue(field, k, names[k]) in r
    ensures r == [] <==> forall k :: i <= k < |names| ==> SourceCited(refs, names[k])
    decreases |names| - i
  {
    if i >= |names| then []
    else
      (if SourceCited(refs, names[i]) then [] else [UnresolvedIssue(field, i, names[i])])
      + UnresolvedFrom(field, names, refs, i + 1)
  }

  /** `validateCitationString`: the unresolved names, then the format. */
  function CitationIssues(field: string, s: string, refs: seq<Json>): (r: seq<Issue>)
    ensures r == [] <==> WellFormedCitations(s) && forall n :: n in CitationNames(s) ==> SourceCited(refs, n)
    ensures !WellFormedCitations(s) ==> r[|r| - 1] == Issue([Key(field)], CitationFormatMessage)
  {
    var names := CitationNames(s);
    var missing := UnresolvedFrom(field, names, refs, 0);
    missing + (if WellFormedCitations(s) then [] else [Issue([Key(field)], CitationFormatMessage)])
  }

  /** The references a campaign carries (required there; an absent list
      would make the source throw, and cites nothing here). */
  function References(v: Json): seq<Json>
  {
    match Get(v, "external_references")
    case Some(JArr(items)) => items
    case _ => []
  }

  /** The citation check of one field, when the field holds a non-empty
      string. */
  function FieldCitationIssues(v: Json, field: string): (r: seq<Issue>)
    ensures r == [] <==> match GetString(v, field)
      case Some(s) => s == "" || (WellFormedCitations(s) && forall n :: n in CitationNames(s) ==> SourceCited(References(v), n))
      case None => true
  {
    match GetString(v, field)
    case Some(s) => if s != "" then CitationIssues(field, s, References(v)) else []
    case None => []
  }

  /** `createCitationsRefinement`: the first-seen citations, then the
      last-seen ones. */
  function CitationsRule(v: Json): seq<Issue>
  {
    FieldCitationIssues(v, "x_mitre_first_seen_citation") + FieldCitationIssues(v, "x_mitre_last_seen_citation")
  }

  /** Citation text built from citable names that the references all carry
      raises no issue. */
  lemma {:induction false} CitationTextAccepted(field: string, names: seq<string>, refs: seq<Json>)
    requires names != []
    requires forall k :: 0 <= k < |names| ==> CitableName(names[k]) && SourceCited(refs, names[k])
    ensures CitationIssues(field, CitationText(names), refs) == []
  {
    var t := CitationText(names);
    CitationRoundTrip(names);
    forall n | n in CitationNames(t) ensures SourceCited(refs, n) {
      var k :| 0 <= k < |names| && names[k] == n;
    }
  }

  /** A field citing, without separators, only sources the references name
      passes the citation check. */
  lemma CitedFieldAccepted(v: Json, field: string, names: seq<string>)
    requires forall k :: 0 <= k < |names| ==> CitableName(names[k]) && SourceCited(References(v), names[k])
    requires GetString(v, field) == Some(CitationText(names))
    ensures FieldCitationIssues(v, field) == []
  {
    if names != [] {
      CitationTextAccepted(field, names, References(v));
    }
  }

  /** A campaign whose citation fields cite, without separators, only sources
      its references name passes the citation check. */
  lemma CitedCampaignAccepted(v: Json, first: seq<string>, last: seq<string>)
    requires forall k :: 0 <= k < |first| ==> CitableName(first[k]) && SourceCited(References(v), first[k])
    requires forall k :: 0 <= k < |last| ==> CitableName(last[k]) && SourceCited(References(v), last[k])
    requires GetString(v, "x_mitre_first_seen_citation") == Some(CitationText(first))
    requires GetString(v, "x_mitre_last_seen_citation") == Some(CitationText(last))
    ensures CitationsRule(v) == []
  {
    CitedFieldAccepted(v, "x_mitre_first_seen_citation", first);
    CitedFieldAccepted(v, "x_mitre_last_seen_citation", last);
  }

  // ---------------------------------------------------- first bundle object

  const FirstBundleObjectMessage := "The first object in the 'objects' array must be of type 'x-mitre-collection'"

  /** `createFirstBundleObjectRefinement`. */
  function FirstBundleObjectRule(v: Json): (r: seq<Issue>)
    ensures |r| <= 1
    ensures r != [] ==> r[0] == Issue([Key("objects"), Index(0), Key("type")], FirstBundleObjectMessage)
  {
    match Get(v, "objects")
    case Some(JArr(objects)) =>
      if |objects| > 0 && Get(objects[0], "type") != Some(JStr("x-mitre-collection")) then
        [Issue([Key("objects"), Index(0), Key("type")], FirstBundleObjectMessage)]
      else []
    case _ => []
  }

  /** A bundle passes exactly when it is empty or leads with a collection;
      what follows the first object does not matter. */
  lemma FirstBundleObjectAccepts(v: Json, objects: seq<Json>)
    requires Get(v, "objects") == Some(JArr(objects))
    ensures FirstBundleObjectRule(v) == [] <==> objects == [] || Get(objects[0], "type") == Some(JStr("x-mitre-collection"))
  {
  }

  // ----------------------------------------------- ATT&CK ID in references

  const NoReferencesMessage := "At least one external reference with an ATT&CK ID is required."
  const NotAnObjectMessage := "First external reference must be a valid object."
  const UndefinedIdMessage := "ATT&CK ID must be defined in the first external_references entry."
  const SourceNameMessage := "The first external_reference must have source_name set to \"mitre-attack\"."

  /** The examples the format message quotes, one per pattern. */
  /** An example read with each `#` as the digit 0. */
  function Filled(s: string): (r: string)
    ensures |r| == |s|
    ensures forall i :: 0 <= i < |s| ==> r[i] == if s[i] == '#' then '0' else s[i]
  {
    if s == [] then [] else [if s[0] == '#' then '0' else s[0]] + Filled(s[1..])
  }

  /** `attackIdExamples.subtechnique` and `attackIdExamples.technique`: the
      pattern's shape, one `#` per digit. */
  function IdExample(sub: bool): (r: string)
    ensures Matches(if sub then SubtechniqueId else TechniqueId, Filled(r))
    ensures forall i :: 0 <= i < |r| ==> r[i] != '0'
  {
    if sub then "T####.###" else "T####"
  }

  function IdFormatMessage(sub: bool): string
  {
    "The first external_reference must match the ATT&CK ID format " + IdExample(sub) + "."
  }

  /** `typeof x === 'object'` for a truthy value: objects and arrays. */
  predicate IsObjectLike(v: Json) { v.JObj? || v.JArr? }

  /** `createAttackIdInExternalReferencesRefinement`: three checks that stop
      at the first failure (a non-empty reference list, an object first, a
      non-empty string `external_id` in it), then two independent ones (the
      ID pattern chosen by `x_mitre_is_subtechnique`, the source name). */
  function AttackIdRule(v: Json): (r: seq<Issue>)
    ensures 1 <= |r| <= 2 || r == []
  {
    match Get(v, "external_references")
    case Some(JArr(refs)) =>
      if |refs| == 0 then [Issue([Key("external_references")], NoReferencesMessage)]
      else if !IsObjectLike(refs[0]) then [Issue([Key("external_references"), Index(0)], NotAnObjectMessage)]
      else
        (match GetString(refs[0], "external_id")
         case Some(id) =>
           if id == "" then [Issue([Key("external_references"), Index(0), Key("external_id")], UndefinedIdMessage)]
           else
             var sub := Truthy(Get(v, "x_mitre_is_subtechnique"));
             (if Matches(if sub then SubtechniqueId else TechniqueId, id) then []
              else [Issue([Key("external_references"), Index(0), Key("external_id")], IdFormatMessage(sub))])
             + (if GetString(refs[0], "source_name") == Some("mitre-attack") then []
                else [Issue([Key("external_references"), Index(0), Key("source_name")], SourceNameMessage)])
         case None => [Issue([Key("external_references"), Index(0), Key("external_id")], UndefinedIdMessage)])
    case _ => [Issue([Key("external_references")], NoReferencesMessage)]
  }

  /** The ATT&CK ID check passes exactly when the first reference is a
      `mitre-attack` reference whose ID has the technique shape, or the
      sub-technique shape when the object says it is a sub-technique. */
  lemma AttackIdAccepts(v: Json)
    ensures AttackIdRule(v) == [] <==>
      exists refs :: Get(v, "external_references") == Some(JArr(refs)) && |refs| > 0
        && GetString(refs[0], "source_name") == Some("mitre-attack")
        && GetString(refs[0], "external_id").Some?
        && Matches(if Truthy(Get(v, "x_mitre_is_subtechnique")) then SubtechniqueId else TechniqueId,
                   GetString(refs[0], "external_id").value)
  {
    var e := Get(v, "external_references");
    if e.Some? && e.value.JArr? {
      AttackIdAcceptsOn(v, e.value.items);
    }
  }

  /** The same, for a given reference list. */
  lemma AttackIdAcceptsOn(v: Json, refs: seq<Json>)
    requires Get(v, "external_references") == Some(JArr(refs))
    ensures AttackIdRule(v) == [] <==>
      |refs| > 0 && GetString(refs[0], "source_name") == Some("mitre-attack")
      && GetString(refs[0], "external_id").Some?
      && Matches(if Truthy(Get(v, "x_mitre_is_subtechnique")) then SubtechniqueId else TechniqueId,
                 GetString(refs[0], "external_id").value)
  {
    if |refs| > 0 && GetString(refs[0], "external_id").Some? {
      var id := GetString(refs[0], "external_id").value;
      var pattern := if Truthy(Get(v, "x_mitre_is_subtechnique")) then SubtechniqueId else TechniqueId;
      assert GetString(refs[0], "external_id").Some? ==> IsObjectLike(refs[0]);
      EmptyIdUnmatched(pattern, id);
    }
  }

  lemma EmptyIdUnmatched(f: IdFormat, id: string)
    ensures Matches(f, id) ==> id != ""
  {
  }

  /** A missing, non-object or ID-less first reference is the only thing
      reported: the later checks do not run. */
  lemma AttackIdStopsEarly(v: Json, refs: seq<Json>)
    requires Get(v, "external_references") == Some(JArr(refs))
    requires refs == [] || !IsObjectLike(refs[0]) || GetString(refs[0], "external_id").None? || GetString(refs[0], "external_id") == Some("")
    ensures |AttackIdRule(v)| == 1
    ensures AttackIdRule(v)[0].message in {NoReferencesMessage, NotAnObjectMessage, UndefinedIdMessage}
  {
  }

  /** With an ID present, a wrong shape and a wrong source are both
      reported, shape first. */
  lemma AttackIdReportsBoth(v: Json, refs: seq<Json>, id: string)
    requires Get(v, "external_references") == Some(JArr(refs)) && |refs| > 0 && IsObjectLike(refs[0])
    requires GetString(refs[0], "external_id") == Some(id) && id != ""
    requires !Matches(TechniqueId, id) && !Matches(SubtechniqueId, id)
    requires GetString(refs[0], "source_name") != Some("mitre-attack")
    ensures |AttackIdRule(v)| == 2
    ensures AttackIdRule(v)[0].path == [Key("external_references"), Index(0), Key("external_id")]
    ensures AttackIdRule(v)[1] == Issue([Key("external_references"), Index(0), Key("source_name")], SourceNameMessage)
  {
  }

  // ------------------------------------------------ domain-only properties

  const Enterprise := "enterprise-attack"
  const Mobile := "mobile-attack"

  /** `x_mitre_domains.includes(d)`. */
  predicate InDomain(v: Json, d: string)
  {
    match Get(v, "x_mitre_domains")
    case Some(JArr(domains)) => JStr(d) in domains
    case _ => false
  }

  /** Some kill chain phase of the object is the tactic `t`. */
  predicate HasTactic(v: Json, t: string)
  {
    match Get(v, "kill_chain_phases")
    case Some(JArr(phases)) => exists k :: 0 <= k < |phases| && Get(phases[k], "phase_name") == Some(JStr(t))
    case _ => false
  }

  function DomainMessage(field: string): string
  {
    field + " is only supported in the 'enterprise-attack' domain."
  }

  function TacticMessage(field: string, tactic: string): string
  {
    field + " is only supported in the " + tactic + " tactic."
  }

  const MobileDataSourcesMessage := "x_mitre_data_sources is not supported in the 'mobile-attack' domain."
  const TacticTypeMessage := "x_mitre_tactic_type is only supported in the 'mobile-attack' domain."

  /** The enterprise-only properties in the order they are checked, with
      the tactic each one requires. */
  const EnterpriseOnlyFields: seq<(string, Option<string>)> := [
    ("x_mitre_system_requirements", None),
    ("x_mitre_permissions_required", Some("privilege-escalation")),
    ("x_mitre_effective_permissions", Some("privilege-escalation")),
    ("x_mitre_defense_bypassed", Some("defense-evasion")),
    ("x_mitre_remote_support", Some("execution")),
    ("x_mitre_impact_type", Some("impact"))
  ]

  /** A property may appear: it is absent, or the object is in the
      enterprise domain and, when the property needs a tactic and kill chain
      phases are given, one of them is that tactic. */
  predicate FieldAllowed(v: Json, field: string, tactic: Option<string>)
  {
    Get(v, field).None?
    || (InDomain(v, Enterprise) && (tactic.None? || Get(v, "kill_chain_phases").None? || HasTactic(v, tactic.value)))
  }

  /** `validateEnterpriseOnlyField`: a domain issue outside enterprise, a
      tactic issue inside it. */
  function FieldIssue(v: Json, field: string, tactic: Option<string>): (r: seq<Issue>)
    ensures r == [] <==> FieldAllowed(v, field, tactic)
    ensures r != [] ==> |r| == 1 && r[0].path == [Key(field)]
    ensures r != [] ==> (r[0].message == DomainMessage(field) <==> !InDomain(v, Enterprise))
  {
    if Get(v, field).None? then []
    else if !InDomain(v, Enterprise) then [Issue([Key(field)], DomainMessage(field))]
    else if tactic.Some? && Get(v, "kill_chain_phases").Some? && !HasTactic(v, tactic.value) then
      var m := TacticMessage(field, tactic.value);
      assert m != DomainMessage(field) by {
        assert m[|m| - 2] == 'c';
        assert DomainMessage(field)[|DomainMessage(field)| - 2] == 'n';
      }
      [Issue([Key(field)], m)]
    else []
  }

  /** The issues of a list of properties, in list order. */
  function FieldIssues(v: Json, fields: seq<(string, Option<string>)>): (r: seq<Issue>)
    ensures r == [] <==> forall k :: 0 <= k < |fields| ==> FieldAllowed(v, fields[k].0, fields[k].1)
    ensures |r| <= |fields|
  {
    if fields == [] then []
    else FieldIssue(v, fields[0].0, fields[0].1) + FieldIssues(v, fields[1..])
  }

  /** Enterprise objects that are also in mobile may not list data sources. */
  predicate MobileDataSourcesClash(v: Json)
  {
    Truthy(Get(v, "x_mitre_data_sources")) && InDomain(v, Enterprise) && InDomain(v, Mobile)
  }

  /** `createEnterpriseOnlyPropertiesRefinement`. */
  function EnterpriseOnlyRule(v: Json): (r: seq<Issue>)
    ensures r == [] <==>
      (forall k :: 0 <= k < |EnterpriseOnlyFields| ==> FieldAllowed(v, EnterpriseOnlyFields[k].0, EnterpriseOnlyFields[k].1))
      && !MobileDataSourcesClash(v)
    ensures |r| <= |EnterpriseOnlyFields| + 1
  {
    FieldIssues(v, EnterpriseOnlyFields)
    + (if MobileDataSourcesClash(v) then [Issue([Key("x_mitre_data_sources")], MobileDataSourcesMessage)] else [])
  }

  /** Outside the enterprise domain every listed property present is
      reported with the domain message, and nothing else is. */
  lemma OutsideEnterprise(v: Json, fields: seq<(string, Option<string>)>)
    requires !InDomain(v, Enterprise)
    ensures forall k :: 0 <= k < |fields| && Get(v, fields[k].0).Some? ==>
      Issue([Key(fields[k].0)], DomainMessage(fields[k].0)) in FieldIssues(v, fields)
    ensures forall x :: x in FieldIssues(v, fields) ==>
      exists k :: 0 <= k < |fields| && Get(v, fields[k].0).Some? && x == Issue([Key(fields[k].0)], DomainMessage(fields[k].0))
  {
    OutsideEnterpriseReported(v, fields);
    OutsideEnterpriseOnly(v, fields);
  }

  lemma {:induction false} OutsideEnterpriseReported(v: Json, fields: seq<(string, Option<string>)>)
    requires !InDomain(v, Enterprise)
    ensures forall k :: 0 <= k < |fields| && Get(v, fields[k].0).Some? ==>
      Issue([Key(fields[k].0)], DomainMessage(fields[k].0)) in FieldIssues(v, fields)
  {
    if fields != [] {
      OutsideEnterpriseReported(v, fields[1..]);
      var later := FieldIssues(v, fields[1..]);
      assert FieldIssues(v, fields) == FieldIssue(v, fields[0].0, fields[0].1) + later;
      forall k | 1 <= k < |fields| && Get(v, fields[k].0).Some?
        ensures Issue([Key(fields[k].0)], DomainMessage(fields[k].0)) in later
      {
        assert fields[1..][k - 1] == fields[k];
      }
    }
  }

  lemma {:induction false} OutsideEnterpriseOnly(v: Json, fields: seq<(string, Option<string>)>)
    requires !InDomain(v, Enterprise)
    ensures forall x :: x in FieldIssues(v, fields) ==>
      exists k :: 0 <= k < |fields| && Get(v, fields[k].0).Some? && x == Issue([Key(fields[k].0)], DomainMessage(fields[k].0))
  {
    if fields != [] {
      OutsideEnterpriseOnly(v, fields[1..]);
      var later := FieldIssues(v, fields[1..]);
      assert FieldIssues(v, fields) == FieldIssue(v, fields[0].0, fields[0].1) + later;
      forall x | x in later
        ensures exists k :: 0 <= k < |fields| && Get(v, fields[k].0).Some? && x == Issue([Key(fields[k].0)], DomainMessage(fields[k].0))
      {
        var j :| 0 <= j < |fields[1..]| && Get(v, fields[1..][j].0).Some? && x == Issue([Key(fields[1..][j].0)], DomainMessage(fields[1..][j].0));
        assert fields[1..][j] == fields[j + 1];
      }
    }
  }

  /** Absent kill chain phases switch the tactic requirement off: inside
      enterprise the properties are then all allowed. */
  lemma NoPhasesNoTacticIssues(v: Json)
    requires InDomain(v, Enterprise) && Get(v, "kill_chain_phases").None?
    ensures FieldIssues(v, EnterpriseOnlyFields) == []
  {
  }

  /** `x_mitre_tactic_type?.length` is non-zero. */
  predicate HasLength(x: Option<Json>)
  {
    match x
    case Some(JArr(items)) => |items| > 0
    case Some(JStr(s)) => |s| > 0
    case _ => false
  }

  /** `createMobileOnlyPropertiesRefinement`. */
  function MobileOnlyRule(v: Json): (r: seq<Issue>)
    ensures |r| <= 2
  {
    (if HasLength(Get(v, "x_mitre_tactic_type")) && !InDomain(v, Mobile) then [Issue([Key("x_mitre_tactic_type")], TacticTypeMessage)] else [])
    + (if Truthy(Get(v, "x_mitre_data_sources")) && InDomain(v, Mobile) then [Issue([Key("x_mitre_data_sources")], MobileDataSourcesMessage)] else [])
  }

  /** The mobile check passes exactly when tactic types appear only in
      mobile and data sources only outside it. */
  lemma MobileOnlyAccepts(v: Json)
    ensures MobileOnlyRule(v) == [] <==>
      (HasLength(Get(v, "x_mitre_tactic_type")) ==> InDomain(v, Mobile))
      && (Truthy(Get(v, "x_mitre_data_sources")) ==> !InDomain(v, Mobile))
  {
  }

  /** Whenever the enterprise check objects to mobile data sources, the
      mobile check objects too, with the same issue: a schema running both
      reports it twice. */
  lemma DataSourcesReportedTwice(v: Json)
    requires MobileDataSourcesClash(v)
    ensures EnterpriseOnlyRule(v)[|EnterpriseOnlyRule(v)| - 1] == Issue([Key("x_mitre_data_sources")], MobileDataSourcesMessage)
    ensures Issue([Key("x_mitre_data_sources")], MobileDataSourcesMessage) in MobileOnlyRule(v)
  {
  }
}

=== FILE: relationship_schema.dfy ===
/** The relationship object (src/schemas/sro/relationship.schema.ts): the
    STIX relationship base extended with the ATT&CK properties, thirteen of
    them required, and refined by the relationship-type rule. */
module RelationshipSchema {
  import opened Wrappers
  import opened JsonValues
  import opened Schema
  import opened Generics
  import opened StixIdentifier
  import opened CommonProperties
  import opened Versions
  import opened StixCore
  import opened Relationships

  /** The properties `.extend` adds to or replaces in the base. */
  const RelationshipExtension: seq<Field> := [
    Field("id", false, Leaf(v => CreateStixIdentifierSchema("relationship", v))),
    Field("type", false, Leaf(v => Literal("relationship", v))),
    Field("relationship_type", false, Leaf(v => Enum(RelationshipTypes, v))),
    Field("description", false, Description),
    Field("object_marking_refs", false, CommonObjectMarkingRefs),
    Field("source_ref", false, Leaf(StixIdentifierSchema)),
    Field("target_ref", false, Leaf(StixIdentifierSchema)),
    Field("x_mitre_modified_by_ref", false, Leaf(CommonModifiedByRef)),
    Field("x_mitre_attack_spec_version", false, Leaf(CommonSpecVersion)),
    Field("x_mitre_domains", false, XMitreDomains),
    Field("x_mitre_version", false, Leaf(CommonXMitreVersion)),
    Field("x_mitre_deprecated", false, Deprecated)
  ]

  /** The keys of `.required({...})`. */
  const RelationshipRequired: set<string> := {
    "created", "id", "modified", "object_marking_refs", "relationship_type",
    "source_ref", "spec_version", "target_ref", "type",
    "x_mitre_attack_spec_version", "x_mitre_modified_by_ref",
    "x_mitre_domains", "x_mitre_version"
  }

  function RelationshipFields(): (fs: seq<Field>)
    ensures Schema.Names(fs) == Schema.Names(BaseFields) + Schema.Names(RelationshipExtension)
  {
    Require(Extend(BaseFields, RelationshipExtension), RelationshipRequired)
  }

  /** A property the extension declares is checked by its declaration
      there, required when `.required` names it. */
  lemma ExtendedLookup(n: string)
    requires n in Schema.Names(RelationshipExtension)
    ensures Lookup(RelationshipFields(), n).Some?
    ensures Lookup(RelationshipFields(), n).value.kind == Lookup(RelationshipExtension, n).value.kind
    ensures Lookup(RelationshipFields(), n).value.required == (Lookup(RelationshipExtension, n).value.required || n in RelationshipRequired)
  {
  }

  /** `relationshipSchema` */
  const RelationshipObject: Kind := Refined(Object(RelationshipFields(), Strict), RelationshipRule)

  /** Where the thirteen required keys and the three keys the refinement
      reads are declared. Facts about the literal tables are kept apart from
      facts about the composed table: together they make the solver unfold
      the composition. */
  lemma RequiredDeclared()
    ensures RelationshipRequired <= Schema.Names(BaseFields) + Schema.Names(RelationshipExtension)
  {
    var b := BaseFields;
    var e := RelationshipExtension;
    assert b[3].name == "created" && b[4].name == "modified" && b[2].name == "spec_version";
    assert e[0].name == "id" && e[1].name == "type" && e[2].name == "relationship_type";
    assert e[4].name == "object_marking_refs" && e[5].name == "source_ref" && e[6].name == "target_ref";
    assert e[7].name == "x_mitre_modified_by_ref" && e[8].name == "x_mitre_attack_spec_version";
    assert e[9].name == "x_mitre_domains" && e[10].name == "x_mitre_version";
  }

  /** The declarations of the three properties the refinement reads. */
  lemma TypeKind(x: Json)
    ensures Lookup(RelationshipExtension, "relationship_type") == Some(RelationshipExtension[2])
    ensures CheckValue(RelationshipExtension[2].kind, x) == Enum(RelationshipTypes, x)
  {
    var e := RelationshipExtension;
    assert e[0].name != e[2].name && e[1].name != e[2].name;
    LookupFirst(e, 2);
  }

  lemma SourceKind(x: Json)
    ensures Lookup(RelationshipExtension, "source_ref") == Some(RelationshipExtension[5])
    ensures CheckValue(RelationshipExtension[5].kind, x) == StixIdentifierSchema(x)
  {
    var e := RelationshipExtension;
    assert e[0].name != e[5].name && e[1].name != e[5].name && e[2].name != e[5].name;
    assert e[3].name != e[5].name && e[4].name != e[5].name;
    LookupFirst(e, 5);
  }

  lemma TargetKind(x: Json)
    ensures Lookup(RelationshipExtension, "target_ref") == Some(RelationshipExtension[6])
    ensures CheckValue(RelationshipExtension[6].kind, x) == StixIdentifierSchema(x)
  {
    var e := RelationshipExtension;
    assert e[0].name != e[6].name && e[1].name != e[6].name && e[2].name != e[6].name;
    assert e[3].name != e[6].name && e[4].name != e[6].name && e[5].name != e[6].name;
    LookupFirst(e, 6);
  }

  /** A key `.required` names that the base or the extension declares is
      present in every accepted relationship. */
  lemma RequiredPresent(m: map<string, Json>, n: string)
    requires Accepts(Object(RelationshipFields(), Strict), JObj(m))
    requires n in RelationshipRequired && n in Schema.Names(BaseFields) + Schema.Names(RelationshipExtension)
    ensures n in m
  {
    AcceptedHasRequired(RelationshipFields(), Strict, m);
    RequiredOfRequire(Extend(BaseFields, RelationshipExtension), RelationshipRequired);
  }

  /** In an accepted relationship, a property the extension declares holds
      a value its declaration accepts, and parses to what it yields. */
  lemma ExtensionValue(m: map<string, Json>, n: string)
    requires Accepts(Object(RelationshipFields(), Strict), JObj(m))
    requires n in Schema.Names(RelationshipExtension) && n in m
    ensures Accepts(Lookup(RelationshipExtension, n).value.kind, m[n])
    ensures var p := CheckValue(Object(RelationshipFields(), Strict), JObj(m)).value;
      p.JObj? && n in p.fields && p.fields[n] == CheckValue(Lookup(RelationshipExtension, n).value.kind, m[n]).value
  {
    ExtendedLookup(n);
    AcceptedByName(RelationshipFields(), Strict, m, n);
  }

  /** The thirteen required properties are present in every accepted
      relationship. */
  lemma RequiredKeysPresent(m: map<string, Json>)
    requires Accepts(Object(RelationshipFields(), Strict), JObj(m))
    ensures RelationshipRequired <= m.Keys
  {
    RequiredDeclared();
    forall n | n in RelationshipRequired ensures n in m {
      RequiredPresent(m, n);
    }
  }

  /** Once the properties are accepted, the three the refinement reads are
      strings and parse to themselves. */
  lemma ReferencesParsed(m: map<string, Json>)
    requires Accepts(Object(RelationshipFields(), Strict), JObj(m))
    requires "source_ref" in m && "relationship_type" in m && "target_ref" in m
    ensures m["source_ref"].JStr? && m["target_ref"].JStr? && m["relationship_type"].JStr?
    ensures m["relationship_type"].s in RelationshipTypes
    ensures var p := CheckValue(Object(RelationshipFields(), Strict), JObj(m)).value;
      GetString(p, "source_ref") == Some(m["source_ref"].s)
      && GetString(p, "target_ref") == Some(m["target_ref"].s)
      && GetString(p, "relationship_type") == Some(m["relationship_type"].s)
  {
    TypeKind(m["relationship_type"]);
    SourceKind(m["source_ref"]);
    TargetKind(m["target_ref"]);
    ExtensionValue(m, "relationship_type");
    ExtensionValue(m, "source_ref");
    ExtensionValue(m, "target_ref");
  }

  /** The relationship object is strict: no key outside the base and the
      extension is accepted. */
  lemma OnlyDeclaredKeys(m: map<string, Json>)
    requires Accepts(Object(RelationshipFields(), Strict), JObj(m))
    ensures m.Keys <= Schema.Names(BaseFields) + Schema.Names(RelationshipExtension)
  {
    ObjectAccepts(RelationshipFields(), Strict, m);
  }

  /** An accepted relationship has all thirteen required properties, only
      declared ones, string references and a listed relationship type, and
      its reference types form an allowed triple. */
  lemma RelationshipAccepted(m: map<string, Json>)
    requires Accepts(RelationshipObject, JObj(m))
    ensures RelationshipRequired <= m.Keys
    ensures m.Keys <= Schema.Names(BaseFields) + Schema.Names(RelationshipExtension)
    ensures m["source_ref"].JStr? && m["target_ref"].JStr? && m["relationship_type"].JStr?
    ensures m["relationship_type"].s in RelationshipTypes
    ensures Allowed(TypePart(m["source_ref"].s), m["relationship_type"].s, TypePart(m["target_ref"].s))
  {
    RefinedAccepts(Object(RelationshipFields(), Strict), RelationshipRule, JObj(m));
    RequiredKeysPresent(m);
    assert "source_ref" in RelationshipRequired && "target_ref" in RelationshipRequired;
    assert "relationship_type" in RelationshipRequired;
    OnlyDeclaredKeys(m);
    RelationshipRefinedIff(m);
    ReferencesParsed(m);
  }

  /** Once the properties are accepted, the refinement refuses exactly the
      triples the relationship map does not allow. */
  lemma RelationshipRefinedIff(m: map<string, Json>)
    requires Accepts(Object(RelationshipFields(), Strict), JObj(m))
    requires "source_ref" in m && "relationship_type" in m && "target_ref" in m
    ensures m["source_ref"].JStr? && m["target_ref"].JStr? && m["relationship_type"].JStr?
    ensures Accepts(RelationshipObject, JObj(m)) <==>
            Allowed(TypePart(m["source_ref"].s), m["relationship_type"].s, TypePart(m["target_ref"].s))
  {
    var fs := RelationshipFields();
    RefinedAccepts(Object(fs, Strict), RelationshipRule, JObj(m));
    ReferencesParsed(m);
    var p := CheckValue(Object(fs, Strict), JObj(m)).value;
    RelationshipRuleAccepts(p, m["source_ref"].s, m["relationship_type"].s, m["target_ref"].s);
  }
}

=== FILE: relationships.dfy ===
/** Which relationships may join which objects
    (src/schemas/sro/relationship.schema.ts), the older rule of the draft
    library (zod/src/schemas/common/relationship-type.ts), and the
    catalogue of invalid combinations built from them. */
module Relationships {
  import opened Wrappers
  import opened Strings
  import opened JsonValues
  import opened StixTypes

  /** `supportedRelationshipTypes`, in declared order (also the key order of
      `relationshipMap`). */
  const RelationshipTypes: seq<string> := [
    "uses", "mitigates", "subtechnique-of", "detects", "attributed-to", "targets", "revoked-by"]

  /** `validRelationshipObjectTypes`: what may revoke or be revoked. */
  const RevocableTypes: seq<string> := [
    "attack-pattern", "campaign", "course-of-action", "intrusion-set",
    "malware", "tool", "x-mitre-data-component", "x-mitre-asset"]

  /** The allowed source and target types of one relationship type. */
  datatype Ends = Ends(sources: seq<string>, targets: seq<string>)

  /** `relationshipMap`; `None` for a relationship type it lacks. */
  function RelationshipMap(rel: string): (r: Option<Ends>)
    ensures r.Some? <==> rel in RelationshipTypes
    ensures r.Some? ==> |r.value.sources| >= 1 && |r.value.targets| >= 1
  {
    match rel
    case "uses" => Some(Ends(["malware", "tool", "intrusion-set", "campaign"], ["attack-pattern", "malware", "tool"]))
    case "mitigates" => Some(Ends(["course-of-action"], ["attack-pattern"]))
    case "subtechnique-of" => Some(Ends(["attack-pattern"], ["attack-pattern"]))
    case "detects" => Some(Ends(["x-mitre-data-component"], ["attack-pattern"]))
    case "attributed-to" => Some(Ends(["campaign"], ["intrusion-set"]))
    case "targets" => Some(Ends(["attack-pattern"], ["x-mitre-asset"]))
    case "revoked-by" => Some(Ends(RevocableTypes, RevocableTypes))
    case _ => None
  }

  /** `invalidUsesRelationships`: software cannot use software. */
  const SoftwarePairs: seq<(string, string)> := [
    ("malware", "malware"), ("malware", "tool"), ("tool", "malware"), ("tool", "tool")]

  function UnknownTypeMessage(rel: string): string
  {
    "Invalid 'relationship_type': " + rel + ". Must be one of " + Join(RelationshipTypes, ", ") + "."
  }

  function SourceMessage(s: string, rel: string, allowed: seq<string>): string
  {
    "Invalid source type: " + s + " for relationship type: " + rel + ". Valid source types are: " + Join(allowed, ", ") + "."
  }

  function TargetMessage(t: string, rel: string, allowed: seq<string>): string
  {
    "Invalid target type: " + t + " for relationship type: " + rel + ". Valid target types are: " + Join(allowed, ", ") + "."
  }

  function SoftwareUsesMessage(s: string, t: string): string
  {
    "Invalid \"uses\" relationship: source (" + s + ") and target (" + t + ") cannot both be \"malware\" or \"tool\"."
  }

  function RevocationMessage(s: string, t: string): string
  {
    "Invalid \"revoked-by\" relationship: source (" + s + ") and target (" + t + ") must be of the same type."
  }

  /** What a call of `isValidRelationship` does: it returns, having given
      the error collector at most one issue, or it throws. */
  datatype CallOutcome = Returned(issue: Option<Issue>) | Threw(message: string)

  /** The `TypeError` of reading `source.includes` on a value without a
      `source` list. */
  const IncludesMessage := "Cannot read properties of undefined (reading 'includes')"

  /** `isValidRelationship` with an error collector. `relationshipMap` is an
      object literal, so a relationship type among the `PrototypeKeys` finds
      an inherited value that passes the `!mapping` test and has no `source`
      list: the call throws. Otherwise the first failing check, in the order
      known type, source, target, software pair, same type on revocation,
      gives the one issue; none when all pass. */
  function CheckRelationship(s: string, rel: string, t: string): (r: CallOutcome)
    ensures r.Threw? <==> rel in PrototypeKeys
    ensures r.Threw? ==> r.message == IncludesMessage
    ensures r.Returned? && r.issue.Some? && r.issue.value.path == [Key("source_ref")] <==>
      RelationshipMap(rel).Some? && s !in RelationshipMap(rel).value.sources
    ensures r.Returned? && r.issue.Some? && r.issue.value.path == [Key("target_ref")] <==>
      RelationshipMap(rel).Some? && s in RelationshipMap(rel).value.sources && t !in RelationshipMap(rel).value.targets
    ensures r.Returned? && r.issue.Some? ==>
      r.issue.value.path in {[Key("relationship_type")], [Key("source_ref")], [Key("target_ref")]}
  {
    if rel in PrototypeKeys then Threw(IncludesMessage)
    else match RelationshipMap(rel)
    case None => Returned(Some(Issue([Key("relationship_type")], UnknownTypeMessage(rel))))
    case Some(ends) =>
      if s !in ends.sources then Returned(Some(Issue([Key("source_ref")], SourceMessage(s, rel, ends.sources))))
      else if t !in ends.targets then Returned(Some(Issue([Key("target_ref")], TargetMessage(t, rel, ends.targets))))
      else if rel == "uses" && (s, t) in SoftwarePairs then Returned(Some(Issue([Key("relationship_type")], SoftwareUsesMessage(s, t))))
      else if rel == "revoked-by" && s != t then Returned(Some(Issue([Key("relationship_type")], RevocationMessage(s, t))))
      else Returned(None)
  }

  /** `isValidRelationship` returns true. */
  predicate IsValidRelationship(s: string, rel: string, t: string)
    ensures IsValidRelationship(s, rel, t) ==>
      RelationshipMap(rel).Some? && s in RelationshipMap(rel).value.sources && t in RelationshipMap(rel).value.targets
  {
    CheckRelationship(s, rel, t) == Returned(None)
  }

  /** The allowed triples written out case by case, as the library's
      documentation and test suite list them. */
  predicate Allowed(s: string, rel: string, t: string)
  {
    (rel == "uses" && s in {"malware", "tool", "intrusion-set", "campaign"} && t == "attack-pattern")
    || (rel == "uses" && s in {"intrusion-set", "campaign"} && t in {"malware", "tool"})
    || (rel == "mitigates" && s == "course-of-action" && t == "attack-pattern")
    || (rel == "subtechnique-of" && s == "attack-pattern" && t == "attack-pattern")
    || (rel == "detects" && s == "x-mitre-data-component" && t == "attack-pattern")
    || (rel == "attributed-to" && s == "campaign" && t == "intrusion-set")
    || (rel == "targets" && s == "attack-pattern" && t == "x-mitre-asset")
    || (rel == "revoked-by" && s == t && s in RevocableTypes)
  }

  /** The checks accept exactly the listed triples. */
  lemma ValidIffAllowed(s: string, rel: string, t: string)
    ensures IsValidRelationship(s, rel, t) <==> Allowed(s, rel, t)
  {
    if rel == "uses" {
      UsesIffAllowed(s, t);
    } else if rel == "revoked-by" {
      RevocationIffAllowed(s, t);
    } else if rel in RelationshipTypes {
      assert rel in {"mitigates", "subtechnique-of", "detects", "attributed-to", "targets"};
    } else {
      UnknownTypeRefused(s, rel, t);
    }
  }

  lemma UsesIffAllowed(s: string, t: string)
    ensures IsValidRelationship(s, "uses", t) <==> Allowed(s, "uses", t)
  {
    var ends := RelationshipMap("uses").value;
    assert (s, t) in SoftwarePairs <==> s in {"malware", "tool"} && t in {"malware", "tool"};
  }

  lemma RevocationIffAllowed(s: string, t: string)
    ensures IsValidRelationship(s, "revoked-by", t) <==> Allowed(s, "revoked-by", t)
  {
    assert RelationshipMap("revoked-by") == Some(Ends(RevocableTypes, RevocableTypes));
  }

  /** Revocation stays within one type. */
  lemma RevocationSameType(s: string, t: string)
    requires IsValidRelationship(s, "revoked-by", t)
    ensures s == t && s in RevocableTypes
  {
    ValidIffAllowed(s, "revoked-by", t);
  }

  /** A relationship type outside the seven is never valid, whatever it
      joins: an inherited name throws, and any other gives one issue at
      `relationship_type` listing the seven. */
  lemma UnknownTypeRefused(s: string, rel: string, t: string)
    requires rel !in RelationshipTypes
    ensures !IsValidRelationship(s, rel, t) && !Allowed(s, rel, t)
    ensures rel !in PrototypeKeys ==>
      CheckRelationship(s, rel, t) == Returned(Some(Issue([Key("relationship_type")], UnknownTypeMessage(rel))))
    ensures rel in PrototypeKeys ==> CheckRelationship(s, rel, t) == Threw(IncludesMessage)
  {
    assert RelationshipMap(rel) == None;
  }

  /** The exported function throws for "constructor". */
  lemma InheritedNameThrows()
    ensures CheckRelationship("campaign", "constructor", "intrusion-set") == Threw(IncludesMessage)
  {
    assert "constructor" in PrototypeKeys;
  }

  /** A combination of a source type, a relationship type and a target
      type. */
  datatype Triple = Triple(source: string, rel: string, target: string)

  /** All triples with source `s` and target `t`, one per relationship
      type. */
  function Cell(s: string, t: string, rels: seq<string>): (r: seq<Triple>)
    ensures forall x :: x in r <==> x.source == s && x.target == t && x.rel in rels
  {
    if rels == [] then [] else [Triple(s, rels[0], t)] + Cell(s, t, rels[1..])
  }

  /** All triples with source `s`, target by target. */
  function Row(s: string, targets: seq<string>, rels: seq<string>): (r: seq<Triple>)
    ensures forall x :: x in r <==> x.source == s && x.target in targets && x.rel in rels
  {
    if targets == [] then [] else Cell(s, targets[0], rels) + Row(s, targets[1..], rels)
  }

  /** `allRelationships`: every combination, source by source. */
  function Combinations(sources: seq<string>, targets: seq<string>, rels: seq<string>): (r: seq<Triple>)
    ensures forall x :: x in r <==> x.source in sources && x.target in targets && x.rel in rels
  {
    if sources == [] then [] else Row(sources[0], targets, rels) + Combinations(sources[1..], targets, rels)
  }

  /** The triples of `xs` the checks refuse, in order. */
  function Refused(xs: seq<Triple>): (r: seq<Triple>)
    ensures forall x :: x in r <==> x in xs && !IsValidRelationship(x.source, x.rel, x.target)
    ensures |r| <= |xs|
  {
    if xs == [] then []
    else (if IsValidRelationship(xs[0].source, xs[0].rel, xs[0].target) then [] else [xs[0]]) + Refused(xs[1..])
  }

  /** `invalidRelationships`, over given lists of object types and
      relationship types; the library uses all supported STIX types and the
      seven relationship types. */
  function InvalidRelationships(types: seq<string>, rels: seq<string>): seq<Triple>
  {
    Refused(Combinations(types, types, rels))
  }

  /** The invalid catalogue is the complement of the allowed triples among
      all combinations of the types and relationship types. */
  lemma InvalidIsComplement(types: seq<string>, rels: seq<string>, x: Triple)
    ensures x in InvalidRelationships(types, rels) <==>
      x.source in types && x.rel in rels && x.target in types && !Allowed(x.source, x.rel, x.target)
  {
    ValidIffAllowed(x.source, x.rel, x.target);
  }

  /** The triples the test suite expects to be accepted. */
  const TestedTriples: seq<Triple> := [
    Triple("malware", "uses", "attack-pattern"),
    Triple("tool", "uses", "attack-pattern"),
    Triple("intrusion-set", "uses", "malware"),
    Triple("intrusion-set", "uses", "tool"),
    Triple("intrusion-set", "uses", "attack-pattern"),
    Triple("campaign", "uses", "malware"),
    Triple("campaign", "uses", "tool"),
    Triple("campaign", "uses", "attack-pattern"),
    Triple("course-of-action", "mitigates", "attack-pattern"),
    Triple("attack-pattern", "subtechnique-of", "attack-pattern"),
    Triple("x-mitre-data-component", "detects", "attack-pattern"),
    Triple("campaign", "attributed-to", "intrusion-set"),
    Triple("attack-pattern", "targets", "x-mitre-asset")
  ]

  lemma TestedAllowed(k: nat)
    requires k < |TestedTriples|
    ensures Allowed(TestedTriples[k].source, TestedTriples[k].rel, TestedTriples[k].target)
  {
  }

  /** Every triple the test suite accepts is valid, and so is every
      revocation of a revocable type by itself. */
  lemma TestedTriplesValid(k: nat, u: string)
    requires k < |TestedTriples| && u in RevocableTypes
    ensures IsValidRelationship(TestedTriples[k].source, TestedTriples[k].rel, TestedTriples[k].target)
    ensures IsValidRelationship(u, "revoked-by", u)
  {
    var x := TestedTriples[k];
    TestedAllowed(k);
    ValidIffAllowed(x.source, x.rel, x.target);
    ValidIffAllowed(u, "revoked-by", u);
  }

  /** The relationship schema's refinement: the types are the text before
      the first `--` of each reference. The schema runs it only once
      `relationship_type` has passed its enumeration, so a throw cannot
      happen there; for a value that did not, a throw is reported as an
      issue without a path that carries the exception's message. */
  function RelationshipRule(v: Json): (r: seq<Issue>)
    ensures |r| <= 1
  {
    match (GetString(v, "source_ref"), GetString(v, "relationship_type"), GetString(v, "target_ref"))
    case (Some(src), Some(rel), Some(tgt)) =>
      (match CheckRelationship(Split(src, "--")[0], rel, Split(tgt, "--")[0])
       case Returned(Some(issue)) => [issue]
       case Returned(None) => []
       case Threw(message) => [Issue([], message)])
    case _ => []
  }

  /** A relationship passes the refinement exactly when the types named by
      its references form an allowed triple. */
  lemma RelationshipRuleAccepts(v: Json, src: string, rel: string, tgt: string)
    requires GetString(v, "source_ref") == Some(src) && GetString(v, "relationship_type") == Some(rel)
    requires GetString(v, "target_ref") == Some(tgt)
    ensures RelationshipRule(v) == [] <==> Allowed(Split(src, "--")[0], rel, Split(tgt, "--")[0])
  {
    ValidIffAllowed(Split(src, "--")[0], rel, Split(tgt, "--")[0]);
  }

  // ------------------------------------------------- the draft library

  /** The draft's map differs only for revocation, which allows any
      supported type on either side. */
  function DraftMap(rel: string): (r: Option<Ends>)
    ensures rel != "revoked-by" ==> r == RelationshipMap(rel)
  {
    if rel == "revoked-by" then Some(Ends(SupportedStixTypes, SupportedStixTypes)) else RelationshipMap(rel)
  }

  /** The draft's `isValidRelationship`: a known type, and no software pair
      on "uses". */
  function DraftTypeIssue(rel: string, s: string, t: string): Option<Issue>
  {
    if DraftMap(rel).None? then
      Some(Issue([Key("relationship_type")], "Invalid 'relationship_type', must be one of " + Join(RelationshipTypes, ",")))
    else if rel == "uses" && (s, t) in SoftwarePairs then
      Some(Issue([Key("relationship_type")], "Invalid \"uses\" relationship: source and target cannot both be \"malware\" or \"tool\""))
    else None
  }

  /** The draft's `isValidSourceType`: silent for an unknown type. */
  function DraftSourceIssue(rel: string, s: string): Option<Issue>
  {
    match DraftMap(rel)
    case Some(ends) =>
      if s !in ends.sources then Some(Issue([Key("source_ref")], "Invalid source type, must be one of " + Join(ends.sources, ","))) else None
    case None => None
  }

  /** The draft's `isValidTargetType`. */
  function DraftTargetIssue(rel: string, t: string): Option<Issue>
  {
    match DraftMap(rel)
    case Some(ends) =>
      if t !in ends.targets then Some(Issue([Key("target_ref")], "Invalid target type, must be one of " + Join(ends.targets, ","))) else None
    case None => None
  }

  function Listed(x: Option<Issue>): seq<Issue>
  {
    if x.Some? then [x.value] else []
  }

  /** The draft schema runs all three checks and reports every failure. */
  function DraftRelationshipIssues(s: string, rel: string, t: string): (r: seq<Issue>)
    ensures |r| <= 3
  {
    Listed(DraftTypeIssue(rel, s, t)) + Listed(DraftSourceIssue(rel, s)) + Listed(DraftTargetIssue(rel, t))
  }

  /** Outside revocation the draft accepts exactly what the current rule
      accepts. */
  lemma DraftAgreesOutsideRevocation(s: string, rel: string, t: string)
    requires rel != "revoked-by"
    ensures DraftRelationshipIssues(s, rel, t) == [] <==> IsValidRelationship(s, rel, t)
  {
    if rel !in RelationshipTypes {
      UnknownTypeRefused(s, rel, t);
      assert DraftTypeIssue(rel, s, t).Some?;
    } else {
      KnownTypeConditions(s, rel, t);
    }
  }

  /** For a known type other than revocation, both rules accept exactly the
      allowed ends that are not a software pair on "uses". */
  lemma KnownTypeConditions(s: string, rel: string, t: string)
    requires rel in RelationshipTypes && rel != "revoked-by"
    ensures var ends := RelationshipMap(rel).value;
      var ok := s in ends.sources && t in ends.targets && !(rel == "uses" && (s, t) in SoftwarePairs);
      (IsValidRelationship(s, rel, t) <==> ok) && (DraftRelationshipIssues(s, rel, t) == [] <==> ok)
  {
    assert rel !in PrototypeKeys;
    var ends := RelationshipMap(rel).value;
    assert DraftMap(rel) == Some(ends);
  }

  /** As written, the draft accepts a revocation across types, although
      its map documents revocation as same-type only. */
  lemma DraftAcceptsCrossTypeRevocation()
    ensures DraftRelationshipIssues("malware", "revoked-by", "tool") == []
    ensures !IsValidRelationship("malware", "revoked-by", "tool")
  {
    assert "malware" in SupportedStixTypes && "tool" in SupportedStixTypes;
  }
}

=== FILE: schema.dfy ===
/** A small interpreter for the zod schema combinators the library composes:
    leaf validators, arrays with length bounds, objects with required and
    optional properties and a policy for unknown keys, records, two-way
    unions and refinements that run on the parsed value. */
module Schema {
  import opened Wrappers
  import opened JsonValues

  /** What an object schema does with keys it does not declare: zod's
      default strips them, `.strict()` reports them, `.passthrough()` /
      `.loose()` / `.catchall(z.unknown())` keep them. */
  datatype UnknownKeys = Strip | Strict | Passthrough

  /** A declared property of an object schema. */
  datatype Field = Field(name: string, required: bool, kind: Kind)

  datatype Kind =
    | Leaf(check: Json -> Parsed)
    | ArrayOf(elem: Kind, minLen: nat, maxLen: Option<nat>)
    | Object(fields: seq<Field>, unknown: UnknownKeys)
    /** `z.record(key, value)`; a key is checked by `keyOk` and kept as
        written. */
    | RecordOf(keyOk: string -> bool, value: Kind)
    | Union(first: Kind, second: Kind)
    /** `.refine` / `.superRefine` / `.check`: the rule sees the parsed value
        and runs only when the base schema reported nothing. */
    | Refined(base: Kind, rule: Json -> seq<Issue>)

  /** Issues and parsed items of an array, from position `i` on. */
  datatype Items = Items(issues: seq<Issue>, out: seq<Json>)

  /** Issues and parsed properties of an object, from field `i` on. */
  datatype Props = Props(issues: seq<Issue>, out: map<string, Json>)

  function Names(fs: seq<Field>): set<string>
  {
    set i | 0 <= i < |fs| :: fs[i].name
  }

  /** No two declared properties share a name. */
  predicate DistinctNames(fs: seq<Field>)
  {
    forall a, b :: 0 <= a < b < |fs| ==> fs[a].name != fs[b].name
  }

  /** Parse `v` with schema `k`. */
  function CheckValue(k: Kind, v: Json): (r: Parsed)
    ensures r.Err? ==> |r.error| > 0
    decreases k, 1, 0
  {
    match k
    case Leaf(f) =>
      // a failed zod parse always carries at least one issue
      var r := f(v);
      if r.Err? && r.error == [] then Fail("invalid") else r
    case ArrayOf(elem, minLen, maxLen) =>
      if !v.JArr? then Fail("invalid_type: expected array")
      else
        var lengthIssues :=
          (if |v.items| < minLen then [Issue([], "too_small")] else [])
          + (if maxLen.Some? && |v.items| > maxLen.value then [Issue([], "too_big")] else []);
        var items := CheckItems(k, v.items, 0);
        var all := lengthIssues + items.issues;
        if all == [] then Ok(JArr(items.out)) else Err(all)
    case Object(fs, unknown) =>
      if !v.JObj? then Fail("invalid_type: expected object")
      else
        var props := CheckFields(k, v.fields, 0);
        var extra := v.fields.Keys - Names(fs);
        var all := props.issues + (if unknown == Strict && extra != {} then [Issue([], "unrecognized_keys")] else []);
        if all != [] then Err(all)
        else if unknown == Passthrough then Ok(JObj(map key | key in v.fields :: if key in props.out then props.out[key] else v.fields[key]))
        else Ok(JObj(props.out))
    case RecordOf(keyOk, vk) =>
      if !v.JObj? then Fail("invalid_type: expected record")
      else if exists key | key in v.fields :: !keyOk(key) then Fail("invalid_key")
      else if forall key | key in v.fields :: CheckValue(vk, v.fields[key]).Ok? then
        Ok(JObj(map key | key in v.fields :: CheckValue(vk, v.fields[key]).value))
      else Fail("invalid record value")
    case Union(a, b) =>
      var ra := CheckValue(a, v);
      if ra.Ok? then ra
      else
        var rb := CheckValue(b, v);
        if rb.Ok? then rb else Fail("invalid_union")
    case Refined(base, rule) =>
      var rb := CheckValue(base, v);
      if rb.Err? then rb
      else
        var issues := rule(rb.value);
        if issues == [] then rb else Err(issues)
  }

  function CheckItems(owner: Kind, items: seq<Json>, i: nat): (r: Items)
    requires owner.ArrayOf? && i <= |items|
    ensures |r.out| == |items| - i
    ensures forall j :: i <= j < |items| && CheckValue(owner.elem, items[j]).Ok? ==>
              r.out[j - i] == CheckValue(owner.elem, items[j]).value
    ensures r.issues == [] <==> forall j :: i <= j < |items| ==> CheckValue(owner.elem, items[j]).Ok?
    decreases owner, 0, |items| - i
  {
    if i == |items| then Items([], [])
    else
      var here := CheckValue(owner.elem, items[i]);
      var rest := CheckItems(owner, items, i + 1);
      match here
      case Ok(x) => Items(rest.issues, [x] + rest.out)
      case Err(e) => Items(Under(Index(i), e) + rest.issues, [items[i]] + rest.out)
  }

  function CheckFields(owner: Kind, m: map<string, Json>, i: nat): (r: Props)
    requires owner.Object? && i <= |owner.fields|
    ensures r.issues == [] <==> forall j :: i <= j < |owner.fields| ==>
              var f := owner.fields[j];
              if f.name in m then CheckValue(f.kind, m[f.name]).Ok? else !f.required
    ensures r.out.Keys <= m.Keys
    ensures r.issues == [] ==> forall j :: i <= j < |owner.fields| && owner.fields[j].name in m ==> owner.fields[j].name in r.out
    ensures r.issues == [] && DistinctNames(owner.fields) ==>
              forall j :: i <= j < |owner.fields| && owner.fields[j].name in m ==>
                r.out[owner.fields[j].name] == CheckValue(owner.fields[j].kind, m[owner.fields[j].name]).value
    decreases owner, 0, |owner.fields| - i
  {
    if i == |owner.fields| then Props([], map[])
    else
      var f := owner.fields[i];
      var rest := CheckFields(owner, m, i + 1);
      if f.name !in m then
        if f.required then Props([Issue([Key(f.name)], "Required")] + rest.issues, rest.out)
        else rest
      else
        match CheckValue(f.kind, m[f.name])
        case Ok(x) => Props(rest.issues, rest.out[f.name := x])
        case Err(e) => Props(Under(Key(f.name), e) + rest.issues, rest.out)
  }

  predicate Accepts(k: Kind, v: Json) { CheckValue(k, v).Ok? }

  /** One declared property is acceptable: present and valid, or absent and
      optional. */
  predicate FieldOk(f: Field, m: map<string, Json>)
  {
    if f.name in m then Accepts(f.kind, m[f.name]) else !f.required
  }

  /** An object schema accepts exactly the objects in which every declared
      property is acceptable and, when strict, no other key appears. */
  lemma ObjectAccepts(fs: seq<Field>, unknown: UnknownKeys, m: map<string, Json>)
    ensures Accepts(Object(fs, unknown), JObj(m)) <==>
            (forall j :: 0 <= j < |fs| ==> FieldOk(fs[j], m))
            && (unknown == Strict ==> m.Keys <= Names(fs))
  {
    var k := Object(fs, unknown);
    var props := CheckFields(k, m, 0);
    var extra := m.Keys - Names(fs);
    if m.Keys <= Names(fs) {
      assert extra == {};
    } else {
      var x :| x in m.Keys && x !in Names(fs);
      assert x in extra;
    }
    assert (props.issues == []) <==> forall j :: 0 <= j < |fs| ==> FieldOk(fs[j], m);
    var all := props.issues + (if unknown == Strict && extra != {} then [Issue([], "unrecognized_keys")] else []);
    assert Accepts(k, JObj(m)) <==> all == [];
  }

  /** A required property that is missing makes the object schema fail. */
  lemma MissingRequiredRejected(fs: seq<Field>, unknown: UnknownKeys, m: map<string, Json>, j: nat)
    requires j < |fs| && fs[j].required && fs[j].name !in m
    ensures !Accepts(Object(fs, unknown), JObj(m))
  {
    ObjectAccepts(fs, unknown, m);
    assert !FieldOk(fs[j], m);
  }

  /** An array schema accepts exactly the arrays within its length bounds
      whose every element its element schema accepts. */
  lemma ArrayAccepts(elem: Kind, minLen: nat, maxLen: Option<nat>, items: seq<Json>)
    ensures Accepts(ArrayOf(elem, minLen, maxLen), JArr(items)) <==>
            minLen <= |items| && (maxLen.Some? ==> |items| <= maxLen.value)
            && forall j :: 0 <= j < |items| ==> Accepts(elem, items[j])
  {
    var r := CheckItems(ArrayOf(elem, minLen, maxLen), items, 0);
  }

  /** A leaf that returns its input whenever it accepts it. */
  ghost predicate Preserving(k: Kind)
  {
    k.Leaf? && forall x :: k.check(x).Ok? ==> k.check(x).value == x
  }

  /** An accepted array of preserving elements parses to itself. */
  lemma ArrayParsesToItself(elem: Kind, minLen: nat, maxLen: Option<nat>, items: seq<Json>)
    requires Preserving(elem)
    requires Accepts(ArrayOf(elem, minLen, maxLen), JArr(items))
    ensures CheckValue(ArrayOf(elem, minLen, maxLen), JArr(items)) == Ok(JArr(items))
  {
    var out := CheckItems(ArrayOf(elem, minLen, maxLen), items, 0).out;
    assert forall j :: 0 <= j < |items| ==> out[j] == items[j];
    assert out == items;
  }

  /** A refined schema accepts exactly what its base accepts and its rule
      then finds nothing wrong with. */
  lemma RefinedAccepts(base: Kind, rule: Json -> seq<Issue>, v: Json)
    ensures Accepts(Refined(base, rule), v) <==> Accepts(base, v) && rule(CheckValue(base, v).value) == []
  {
  }

  /** `requiredKeys` of a field table. */
  function RequiredNames(fs: seq<Field>): set<string>
  {
    set j | 0 <= j < |fs| && fs[j].required :: fs[j].name
  }

  /** Every required key is present in an accepted object. */
  lemma AcceptedHasRequired(fs: seq<Field>, unknown: UnknownKeys, m: map<string, Json>)
    requires Accepts(Object(fs, unknown), JObj(m))
    ensures RequiredNames(fs) <= m.Keys
  {
    ObjectAccepts(fs, unknown, m);
    forall n | n in RequiredNames(fs) ensures n in m {
      var j :| 0 <= j < |fs| && fs[j].required && fs[j].name == n;
      assert FieldOk(fs[j], m);
    }
  }

  /** An accepted object keeps exactly the declared properties it was given
      (and, with a passthrough policy, every other key as well). */
  lemma ParsedKeys(fs: seq<Field>, unknown: UnknownKeys, m: map<string, Json>)
    requires Accepts(Object(fs, unknown), JObj(m))
    ensures CheckValue(Object(fs, unknown), JObj(m)).value.JObj?
    ensures forall j :: 0 <= j < |fs| ==>
              (fs[j].name in CheckValue(Object(fs, unknown), JObj(m)).value.fields <==> fs[j].name in m)
  {
    var props := CheckFields(Object(fs, unknown), m, 0);
    assert props.issues == [];
  }

  /** A record schema accepts exactly the objects whose every key passes the
      key check and whose every value the value schema accepts. */
  lemma RecordAccepts(keyOk: string -> bool, value: Kind, m: map<string, Json>)
    ensures Accepts(RecordOf(keyOk, value), JObj(m)) <==>
            forall key :: key in m ==> keyOk(key) && Accepts(value, m[key])
  {
  }

  /** In an accepted object, a declared property that was given holds its
      own parsed value. */
  lemma ParsedField(fs: seq<Field>, unknown: UnknownKeys, m: map<string, Json>, j: nat)
    requires Accepts(Object(fs, unknown), JObj(m)) && DistinctNames(fs)
    requires j < |fs| && fs[j].name in m
    ensures CheckValue(Object(fs, unknown), JObj(m)).value.JObj?
    ensures fs[j].name in CheckValue(Object(fs, unknown), JObj(m)).value.fields
    ensures CheckValue(Object(fs, unknown), JObj(m)).value.fields[fs[j].name] == CheckValue(fs[j].kind, m[fs[j].name]).value
  {
    var props := CheckFields(Object(fs, unknown), m, 0);
    assert props.issues == [];
    assert fs[j].name in props.out;
  }

  /** In an accepted array, each element holds its own parsed value. */
  lemma ParsedItem(elem: Kind, minLen: nat, maxLen: Option<nat>, items: seq<Json>, j: nat)
    requires Accepts(ArrayOf(elem, minLen, maxLen), JArr(items)) && j < |items|
    ensures Accepts(elem, items[j])
    ensures var p := CheckValue(ArrayOf(elem, minLen, maxLen), JArr(items)).value;
      p.JArr? && |p.items| == |items| && p.items[j] == CheckValue(elem, items[j]).value
  {
    ArrayAccepts(elem, minLen, maxLen, items);
  }

  /** A union accepts what either side accepts. */
  lemma UnionAccepts(a: Kind, b: Kind, v: Json)
    ensures Accepts(Union(a, b), v) <==> Accepts(a, v) || Accepts(b, v)
  {
  }

  /** Object and record schemas accept only objects, array schemas only
      arrays. */
  lemma AcceptedShape(k: Kind, v: Json)
    requires Accepts(k, v)
    ensures k.Object? || k.RecordOf? ==> v.JObj?
    ensures k.ArrayOf? ==> v.JArr?
  {
  }

  // ------------------------------------------------ schemas that keep values

  /** A schema that returns every value it accepts unchanged. */
  ghost predicate Keeps(k: Kind)
  {
    forall x :: Accepts(k, x) ==> CheckValue(k, x).value == x
  }

  lemma KeepsLeaf(f: Json -> Parsed)
    requires forall x :: f(x).Ok? ==> f(x).value == x
    ensures Keeps(Leaf(f))
  {
  }

  lemma KeepsArray(elem: Kind, minLen: nat, maxLen: Option<nat>)
    requires Keeps(elem)
    ensures Keeps(ArrayOf(elem, minLen, maxLen))
  {
    var k := ArrayOf(elem, minLen, maxLen);
    forall x | Accepts(k, x) ensures CheckValue(k, x).value == x {
      ArrayAccepts(elem, minLen, maxLen, x.items);
      var out := CheckItems(k, x.items, 0).out;
      assert forall j :: 0 <= j < |x.items| ==> out[j] == x.items[j];
      assert out == x.items;
    }
  }

  lemma KeepsRefined(base: Kind, rule: Json -> seq<Issue>)
    requires Keeps(base)
    ensures Keeps(Refined(base, rule))
  {
  }

  /** A strict object schema whose properties all keep their values keeps
      the whole object: no key is dropped and none is rewritten. */
  lemma KeepsStrictObject(fs: seq<Field>)
    requires DistinctNames(fs)
    requires forall j :: 0 <= j < |fs| ==> Keeps(fs[j].kind)
    ensures Keeps(Object(fs, Strict))
  {
    var k := Object(fs, Strict);
    forall x | Accepts(k, x) ensures CheckValue(k, x).value == x {
      var m := x.fields;
      ObjectAccepts(fs, Strict, m);
      var props := CheckFields(k, m, 0);
      assert props.issues == [];
      forall key | key in m ensures key in props.out && props.out[key] == m[key] {
        var j :| 0 <= j < |fs| && fs[j].name == key;
        assert FieldOk(fs[j], m);
      }
      assert props.out == m;
    }
  }

  /** The parsed properties are declared ones. */
  lemma {:induction false} OutKeysDeclared(owner: Kind, m: map<string, Json>, i: nat)
    requires owner.Object? && i <= |owner.fields|
    ensures CheckFields(owner, m, i).out.Keys <= Names(owner.fields)
    decreases |owner.fields| - i
  {
    if i < |owner.fields| {
      OutKeysDeclared(owner, m, i + 1);
    }
  }

  /** A loose object whose declarations keep values parses to itself. */
  lemma KeepsPassthroughObject(fs: seq<Field>)
    requires DistinctNames(fs)
    requires forall j :: 0 <= j < |fs| ==> Keeps(fs[j].kind)
    ensures Keeps(Object(fs, Passthrough))
  {
    var k := Object(fs, Passthrough);
    forall x | Accepts(k, x) ensures CheckValue(k, x).value == x {
      var m := x.fields;
      ObjectAccepts(fs, Passthrough, m);
      var props := CheckFields(k, m, 0);
      OutKeysDeclared(k, m, 0);
      assert props.issues == [];
      forall key | key in props.out ensures props.out[key] == m[key] {
        var j :| 0 <= j < |fs| && fs[j].name == key;
        assert FieldOk(fs[j], m);
      }
      assert CheckValue(k, x).value == JObj(map key | key in m :: if key in props.out then props.out[key] else m[key]);
      assert (map key | key in m :: if key in props.out then props.out[key] else m[key]) == m;
    }
  }

  /** When every declaration but the one at `skip` keeps values, so does
      the declaration found for any other name. */
  lemma KeptByName(fs: seq<Field>, n: string, skip: nat)
    requires skip < |fs| && fs[skip].name != n && n in Names(fs)
    requires forall j :: 0 <= j < |fs| && j != skip ==> Keeps(fs[j].kind)
    ensures Keeps(Lookup(fs, n).value.kind)
  {
    var j :| 0 <= j < |fs| && fs[j] == Lookup(fs, n).value;
  }

  // ------------------------------------------------ field-list combinators

  /** The first declared property called `name`. */
  function Lookup(fs: seq<Field>, name: string): (r: Option<Field>)
    ensures r.Some? ==> r.value.name == name && r.value in fs
    ensures r.None? <==> name !in Names(fs)
  {
    if fs == [] then None
    else
      assert Names(fs) == {fs[0].name} + Names(fs[1..]) by {
        forall n | n in Names(fs) ensures n in {fs[0].name} + Names(fs[1..]) {
          var j :| 0 <= j < |fs| && fs[j].name == n;
          if j > 0 { assert fs[1..][j - 1] == fs[j]; }
        }
      }
      if fs[0].name == name then Some(fs[0]) else Lookup(fs[1..], name)
  }

  /** A declared property is found by its name when no earlier property
      shares it. */
  /** In a table without repeated names, each declaration is the one found
      under its name. */
  lemma LookupDistinct(fs: seq<Field>, j: nat)
    requires j < |fs| && DistinctNames(fs)
    ensures Lookup(fs, fs[j].name) == Some(fs[j])
  {
    LookupFirst(fs, j);
  }

  lemma {:induction false} LookupFirst(fs: seq<Field>, j: nat)
    requires j < |fs| && forall k :: 0 <= k < j ==> fs[k].name != fs[j].name
    ensures Lookup(fs, fs[j].name) == Some(fs[j])
  {
    if j > 0 {
      assert fs[1..][j - 1] == fs[j];
      forall k | 0 <= k < j - 1 ensures fs[1..][k].name != fs[1..][j - 1].name {
        assert fs[1..][k] == fs[k + 1];
      }
      LookupFirst(fs[1..], j - 1);
    }
  }

  /** Looking a name up in two lists joined. */
  lemma {:induction false} LookupConcat(a: seq<Field>, b: seq<Field>, name: string)
    ensures Lookup(a + b, name) == if name in Names(a) then Lookup(a, name) else Lookup(b, name)
  {
    if a != [] {
      assert (a + b)[1..] == a[1..] + b;
      LookupConcat(a[1..], b, name);
    } else {
      assert a + b == b;
    }
  }

  lemma NamesConcat(a: seq<Field>, b: seq<Field>)
    ensures Names(a + b) == Names(a) + Names(b)
  {
    forall n | n in Names(a + b) ensures n in Names(a) + Names(b) {
      var j :| 0 <= j < |a + b| && (a + b)[j].name == n;
      if j >= |a| { assert (a + b)[j] == b[j - |a|]; }
    }
    forall n | n in Names(a) ensures n in Names(a + b) {
      var j :| 0 <= j < |a| && a[j].name == n;
      assert (a + b)[j] == a[j];
    }
    forall n | n in Names(b) ensures n in Names(a + b) {
      var j :| 0 <= j < |b| && b[j].name == n;
      assert (a + b)[|a| + j] == b[j];
    }
  }

  /** The properties of `fs` whose names are not in `drop`: `.omit`. */
  function Without(fs: seq<Field>, drop: set<string>): (r: seq<Field>)
    ensures forall f :: f in r <==> f in fs && f.name !in drop
    ensures Names(r) == Names(fs) - drop
    ensures forall n :: n !in drop ==> Lookup(r, n) == Lookup(fs, n)
  {
    if fs == [] then []
    else
      var rest := Without(fs[1..], drop);
      WithoutStep(fs, drop, rest);
      (if fs[0].name in drop then [] else [fs[0]]) + rest
  }

  /** The step of `Without`: keeping or dropping the first property in front
      of the already filtered rest. */
  lemma WithoutStep(fs: seq<Field>, drop: set<string>, rest: seq<Field>)
    requires fs != []
    requires forall f :: f in rest <==> f in fs[1..] && f.name !in drop
    requires Names(rest) == Names(fs[1..]) - drop
    requires forall n :: n !in drop ==> Lookup(rest, n) == Lookup(fs[1..], n)
    ensures var r := (if fs[0].name in drop then [] else [fs[0]]) + rest;
      (forall f :: f in r <==> f in fs && f.name !in drop)
      && Names(r) == Names(fs) - drop
      && (forall n :: n !in drop ==> Lookup(r, n) == Lookup(fs, n))
  {
    var r := (if fs[0].name in drop then [] else [fs[0]]) + rest;
    assert forall f :: f in fs <==> f == fs[0] || f in fs[1..];
    WithoutNames(fs, drop, r);
    forall n | n !in drop ensures Lookup(r, n) == Lookup(fs, n) {
      LookupConcat(if fs[0].name in drop then [] else [fs[0]], rest, n);
      LookupConcat([fs[0]], fs[1..], n);
      assert [fs[0]] + fs[1..] == fs;
    }
  }

  lemma WithoutNames(fs: seq<Field>, drop: set<string>, r: seq<Field>)
    requires forall f :: f in r <==> f in fs && f.name !in drop
    ensures Names(r) == Names(fs) - drop
  {
    forall n | n in Names(fs) - drop ensures n in Names(r) {
      var j :| 0 <= j < |fs| && fs[j].name == n;
      assert fs[j] in r;
    }
    forall n | n in Names(r) ensures n in Names(fs) - drop {
      var j :| 0 <= j < |r| && r[j].name == n;
      assert r[j] in r;
    }
  }

  /** Each property of `fs` replaced by the same-named one of `ext`, if any. */
  function Replaced(fs: seq<Field>, ext: seq<Field>): (r: seq<Field>)
    ensures |r| == |fs| && forall j :: 0 <= j < |fs| ==> r[j].name == fs[j].name
    ensures Names(r) == Names(fs)
    ensures forall n :: Lookup(r, n) == if n in Names(ext) && n in Names(fs) then Lookup(ext, n) else Lookup(fs, n)
  {
    if fs == [] then []
    else
      var head := Lookup(ext, fs[0].name).GetOr(fs[0]);
      var rest := Replaced(fs[1..], ext);
      var r := [head] + rest;
      assert Names(fs) == {fs[0].name} + Names(fs[1..]) by {
        forall n | n in Names(fs) ensures n in {fs[0].name} + Names(fs[1..]) {
          var j :| 0 <= j < |fs| && fs[j].name == n;
          if j > 0 { assert fs[1..][j - 1] == fs[j]; }
        }
      }
      NamesConcat([head], rest);
      assert Names([head]) == {head.name} by {
        assert [head][0].name == head.name;
      }
      r
  }

  /** `.extend(ext)`: properties of `ext` replace same-named ones where they
      stand; the others are appended in order. */
  function Extend(fs: seq<Field>, ext: seq<Field>): (r: seq<Field>)
    ensures Names(r) == Names(fs) + Names(ext)
    ensures forall n :: Lookup(r, n) == if n in Names(ext) then Lookup(ext, n) else Lookup(fs, n)
  {
    var a := Replaced(fs, ext);
    var b := Without(ext, Names(fs));
    NamesConcat(a, b);
    assert forall n :: Lookup(a + b, n) == if n in Names(ext) then Lookup(ext, n) else Lookup(fs, n) by {
      forall n ensures Lookup(a + b, n) == if n in Names(ext) then Lookup(ext, n) else Lookup(fs, n) {
        LookupConcat(a, b, n);
      }
    }
    a + b
  }

  /** `.required(names)`: the named properties become required. */
  function Require(fs: seq<Field>, names: set<string>): (r: seq<Field>)
    ensures |r| == |fs| && forall j :: 0 <= j < |fs| ==> r[j] == fs[j].(required := fs[j].required || fs[j].name in names)
    ensures Names(r) == Names(fs)
    ensures forall n :: Lookup(r, n).Some? <==> Lookup(fs, n).Some?
    ensures forall n :: Lookup(r, n).Some? ==>
              Lookup(r, n).value == Lookup(fs, n).value.(required := Lookup(fs, n).value.required || n in names)
  {
    if fs == [] then []
    else
      var rest := Require(fs[1..], names);
      RequireStep(fs, names, rest);
      [fs[0].(required := fs[0].required || fs[0].name in names)] + rest
  }

  /** The step of `Require`: the first property, marked, in front of the
      already marked rest. */
  lemma RequireStep(fs: seq<Field>, names: set<string>, rest: seq<Field>)
    requires fs != []
    requires |rest| == |fs| - 1
    requires forall j :: 0 <= j < |rest| ==> rest[j] == fs[j + 1].(required := fs[j + 1].required || fs[j + 1].name in names)
    requires forall n :: Lookup(rest, n).Some? <==> Lookup(fs[1..], n).Some?
    requires forall n :: Lookup(rest, n).Some? ==>
              Lookup(rest, n).value == Lookup(fs[1..], n).value.(required := Lookup(fs[1..], n).value.required || n in names)
    ensures var r := [fs[0].(required := fs[0].required || fs[0].name in names)] + rest;
      |r| == |fs| && (forall j :: 0 <= j < |fs| ==> r[j] == fs[j].(required := fs[j].required || fs[j].name in names))
      && Names(r) == Names(fs)
      && (forall n :: Lookup(r, n).Some? <==> Lookup(fs, n).Some?)
      && (forall n :: Lookup(r, n).Some? ==>
            Lookup(r, n).value == Lookup(fs, n).value.(required := Lookup(fs, n).value.required || n in names))
  {
    var r := [fs[0].(required := fs[0].required || fs[0].name in names)] + rest;
    assert r[1..] == rest;
    forall j | 0 <= j < |fs| ensures r[j] == fs[j].(required := fs[j].required || fs[j].name in names) {
      if j > 0 { assert r[j] == rest[j - 1]; }
    }
    forall n | n in Names(fs) ensures n in Names(r) {
      var j :| 0 <= j < |fs| && fs[j].name == n;
      assert r[j].name == n;
    }
    forall n | n in Names(r) ensures n in Names(fs) {
      var j :| 0 <= j < |r| && r[j].name == n;
      assert fs[j].name == n;
    }
    forall n ensures Lookup(r, n) == if n == fs[0].name then Some(r[0]) else Lookup(rest, n) {
      LookupConcat([r[0]], rest, n);
    }
    forall n ensures Lookup(fs, n) == if n == fs[0].name then Some(fs[0]) else Lookup(fs[1..], n) {
      LookupConcat([fs[0]], fs[1..], n);
      assert [fs[0]] + fs[1..] == fs;
    }
  }

  /** `.required` makes exactly the named declared properties required, on
      top of those already required. */
  lemma RequiredOfRequire(fs: seq<Field>, names: set<string>)
    ensures RequiredNames(Require(fs, names)) == RequiredNames(fs) + (names * Names(fs))
  {
    var r := Require(fs, names);
    forall n | n in names * Names(fs) ensures n in RequiredNames(r) {
      var j :| 0 <= j < |fs| && fs[j].name == n;
      assert r[j].required && r[j].name == n;
    }
    forall n | n in RequiredNames(fs) ensures n in RequiredNames(r) {
      var j :| 0 <= j < |fs| && fs[j].required && fs[j].name == n;
      assert r[j].required && r[j].name == n;
    }
  }

  /** With issues absent from field `i` on, a given key that some later
      field declares holds the value parsed by the first such field. */
  lemma {:induction false} FieldsOut(owner: Kind, m: map<string, Json>, i: nat, name: string)
    requires owner.Object? && i <= |owner.fields|
    requires CheckFields(owner, m, i).issues == []
    requires name in m && Lookup(owner.fields[i..], name).Some?
    ensures Accepts(Lookup(owner.fields[i..], name).value.kind, m[name])
    ensures name in CheckFields(owner, m, i).out
    ensures CheckFields(owner, m, i).out[name] == CheckValue(Lookup(owner.fields[i..], name).value.kind, m[name]).value
    decreases |owner.fields| - i
  {
    if owner.fields[i].name != name {
      FieldsOutSkip(owner, m, i, name);
      FieldsOut(owner, m, i + 1, name);
    } else {
      FieldsOutHere(owner, m, i, name);
    }
  }

  /** A field of another name passes the key through untouched. */
  lemma FieldsOutSkip(owner: Kind, m: map<string, Json>, i: nat, name: string)
    requires owner.Object? && i < |owner.fields| && owner.fields[i].name != name
    requires CheckFields(owner, m, i).issues == []
    ensures CheckFields(owner, m, i + 1).issues == []
    ensures Lookup(owner.fields[i..], name) == Lookup(owner.fields[i + 1..], name)
    ensures name in CheckFields(owner, m, i + 1).out ==>
      name in CheckFields(owner, m, i).out && CheckFields(owner, m, i).out[name] == CheckFields(owner, m, i + 1).out[name]
  {
    var fs := owner.fields;
    assert fs[i..][0] == fs[i] && fs[i..][1..] == fs[i + 1..];
  }

  /** The first field of the name parses the key. */
  lemma FieldsOutHere(owner: Kind, m: map<string, Json>, i: nat, name: string)
    requires owner.Object? && i < |owner.fields| && owner.fields[i].name == name && name in m
    requires CheckFields(owner, m, i).issues == []
    ensures Lookup(owner.fields[i..], name) == Some(owner.fields[i])
    ensures Accepts(owner.fields[i].kind, m[name])
    ensures name in CheckFields(owner, m, i).out
    ensures CheckFields(owner, m, i).out[name] == CheckValue(owner.fields[i].kind, m[name]).value
  {
    var fs := owner.fields;
    assert fs[i..][0] == fs[i];
  }

  /** In an accepted object every property is checked by the first
      declaration of its name: a required one is present, and a present one
      is accepted by that declaration and holds the value it parses to. */
  lemma {:induction false} AcceptedByName(fs: seq<Field>, unknown: UnknownKeys, m: map<string, Json>, name: string)
    requires Accepts(Object(fs, unknown), JObj(m)) && Lookup(fs, name).Some?
    ensures Lookup(fs, name).value.required ==> name in m
    ensures name in m ==> Accepts(Lookup(fs, name).value.kind, m[name])
    ensures var p := CheckValue(Object(fs, unknown), JObj(m)).value;
      p.JObj? && (name in m ==> name in p.fields && p.fields[name] == CheckValue(Lookup(fs, name).value.kind, m[name]).value)
    ensures name !in m ==> name !in CheckValue(Object(fs, unknown), JObj(m)).value.fields
  {
    ObjectAccepts(fs, unknown, m);
    var f := Lookup(fs, name).value;
    var j :| 0 <= j < |fs| && fs[j] == f;
    assert FieldOk(fs[j], m);
    var props := CheckFields(Object(fs, unknown), m, 0);
    assert props.issues == [];
    if name in m {
      assert fs[0..] == fs;
      FieldsOut(Object(fs, unknown), m, 0, name);
    }
  }

  // ------------------------------------------------ extended object tables

  /** The table of `base.extend(ext).required(req)`. */
  function ExtendRequire(base: seq<Field>, ext: seq<Field>, req: set<string>): (fs: seq<Field>)
    ensures Names(fs) == Names(base) + Names(ext)
  {
    Require(Extend(base, ext), req)
  }

  /** A key `.required` names that the base or the extension declares is
      present in every object the extended table accepts. */
  lemma {:induction false} ExtendedRequiredPresent(base: seq<Field>, ext: seq<Field>, req: set<string>, unknown: UnknownKeys,
                                m: map<string, Json>, n: string)
    requires Accepts(Object(ExtendRequire(base, ext, req), unknown), JObj(m))
    requires n in req && n in Names(base) + Names(ext)
    ensures n in m
  {
    AcceptedHasRequired(ExtendRequire(base, ext, req), unknown, m);
    RequiredOfRequire(Extend(base, ext), req);
  }

  /** So is a key the extension itself declares required. */
  lemma {:induction false} ExtensionRequiredPresent(base: seq<Field>, ext: seq<Field>, req: set<string>, unknown: UnknownKeys,
                                 m: map<string, Json>, n: string)
    requires Accepts(Object(ExtendRequire(base, ext, req), unknown), JObj(m))
    requires Lookup(ext, n).Some? && Lookup(ext, n).value.required
    ensures n in m
  {
    var e := Extend(base, ext);
    var fs := ExtendRequire(base, ext, req);
    assert fs == Require(e, req);
    assert n in Names(ext);
    assert Lookup(e, n) == Lookup(ext, n);
    assert Lookup(fs, n).Some? && Lookup(fs, n).value.required;
    AcceptedByName(fs, unknown, m, n);
  }

  /** A key the extension declares holds, in every object the extended
      table accepts, a value the extension's declaration accepts, and the
      parsed object holds what that declaration parses it to. */
  lemma {:induction false} ExtendedValue(base: seq<Field>, ext: seq<Field>, req: set<string>, unknown: UnknownKeys,
                      m: map<string, Json>, n: string)
    requires Accepts(Object(ExtendRequire(base, ext, req), unknown), JObj(m))
    requires Lookup(ext, n).Some? && n in m
    ensures Accepts(Lookup(ext, n).value.kind, m[n])
    ensures var p := CheckValue(Object(ExtendRequire(base, ext, req), unknown), JObj(m)).value;
      p.JObj? && n in p.fields && p.fields[n] == CheckValue(Lookup(ext, n).value.kind, m[n]).value
  {
    assert n in Names(ext);
    AcceptedByName(ExtendRequire(base, ext, req), unknown, m, n);
  }

  /** A key of the base that the extension does not redeclare is checked by
      the base's declaration. */
  lemma {:induction false} BaseValue(base: seq<Field>, ext: seq<Field>, req: set<string>, unknown: UnknownKeys,
                  m: map<string, Json>, n: string)
    requires Accepts(Object(ExtendRequire(base, ext, req), unknown), JObj(m))
    requires Lookup(base, n).Some? && n !in Names(ext) && n in m
    ensures Accepts(Lookup(base, n).value.kind, m[n])
    ensures var p := CheckValue(Object(ExtendRequire(base, ext, req), unknown), JObj(m)).value;
      p.JObj? && n in p.fields && p.fields[n] == CheckValue(Lookup(base, n).value.kind, m[n]).value
  {
    AcceptedByName(ExtendRequire(base, ext, req), unknown, m, n);
  }

  /** A key the extension declares with a schema that keeps values reads
      the same in the parsed object as in the given one, present or not. */
  lemma {:induction false} ExtendedKept(base: seq<Field>, ext: seq<Field>, req: set<string>, unknown: UnknownKeys,
                     m: map<string, Json>, n: string)
    requires Accepts(Object(ExtendRequire(base, ext, req), unknown), JObj(m))
    requires Lookup(ext, n).Some? && Keeps(Lookup(ext, n).value.kind)
    ensures Get(CheckValue(Object(ExtendRequire(base, ext, req), unknown), JObj(m)).value, n) == Get(JObj(m), n)
  {
    assert n in Names(ext);
    AcceptedByName(ExtendRequire(base, ext, req), unknown, m, n);
    if n in m {
      ExtendedValue(base, ext, req, unknown, m, n);
    }
  }

  /** A key only the base declares, with a schema that keeps values, reads
      the same in the parsed object as in the given one, present or not. */
  lemma {:induction false} BaseKept(base: seq<Field>, ext: seq<Field>, req: set<string>, unknown: UnknownKeys,
                 m: map<string, Json>, n: string)
    requires Accepts(Object(ExtendRequire(base, ext, req), unknown), JObj(m))
    requires Lookup(base, n).Some? && n !in Names(ext) && Keeps(Lookup(base, n).value.kind)
    ensures Get(CheckValue(Object(ExtendRequire(base, ext, req), unknown), JObj(m)).value, n) == Get(JObj(m), n)
  {
    AcceptedByName(ExtendRequire(base, ext, req), unknown, m, n);
    if n in m {
      BaseValue(base, ext, req, unknown, m, n);
    }
  }

  /** Every required name the extended table declares is present. */
  lemma {:induction false} ExtendedRequiredAll(base: seq<Field>, ext: seq<Field>, req: set<string>, unknown: UnknownKeys,
                                               m: map<string, Json>)
    requires Accepts(Object(ExtendRequire(base, ext, req), unknown), JObj(m))
    requires req <= Names(base) + Names(ext)
    ensures req <= m.Keys
  {
    AcceptedHasRequired(ExtendRequire(base, ext, req), unknown, m);
    RequiredOfRequire(Extend(base, ext), req);
  }

  /** Every property the extension itself declares required is present. */
  lemma {:induction false} ExtensionRequiredAll(base: seq<Field>, ext: seq<Field>, req: set<string>, unknown: UnknownKeys,
                                                m: map<string, Json>)
    requires Accepts(Object(ExtendRequire(base, ext, req), unknown), JObj(m))
    requires DistinctNames(ext)
    ensures RequiredNames(ext) <= m.Keys
  {
    forall n | n in RequiredNames(ext) ensures n in m {
      var j :| 0 <= j < |ext| && ext[j].required && ext[j].name == n;
      LookupDistinct(ext, j);
      ExtensionRequiredPresent(base, ext, req, unknown, m, n);
    }
  }

  /** A strict extended table accepts no key outside the base and the
      extension. */
  lemma {:induction false} ExtendedStrict(base: seq<Field>, ext: seq<Field>, req: set<string>, m: map<string, Json>)
    requires Accepts(Object(ExtendRequire(base, ext, req), Strict), JObj(m))
    ensures m.Keys <= Names(base) + Names(ext)
  {
    ObjectAccepts(ExtendRequire(base, ext, req), Strict, m);
  }

  // ------------------------------------------- extended tables with omissions

  /** The table of `base.extend(ext).omit(drop)`. */
  function ExtendOmit(base: seq<Field>, ext: seq<Field>, drop: set<string>): (fs: seq<Field>)
    ensures Names(fs) == Names(base) + Names(ext) - drop
  {
    Without(Extend(base, ext), drop)
  }

  /** A kept key the extension declares is looked up in the extension. */
  lemma OmitLookup(base: seq<Field>, ext: seq<Field>, drop: set<string>, n: string)
    requires n in Names(ext) && n !in drop
    ensures Lookup(ExtendOmit(base, ext, drop), n) == Lookup(ext, n)
  {
  }

  /** A key the extension declares and the omission keeps is checked by the
      extension's declaration. */
  lemma {:induction false} OmitExtensionValue(base: seq<Field>, ext: seq<Field>, drop: set<string>, unknown: UnknownKeys,
                           m: map<string, Json>, n: string)
    requires Accepts(Object(ExtendOmit(base, ext, drop), unknown), JObj(m))
    requires Lookup(ext, n).Some? && n !in drop
    ensures Lookup(ext, n).value.required ==> n in m
    ensures n in m ==> Accepts(Lookup(ext, n).value.kind, m[n])
  {
    assert n in Names(ext);
    OmitLookup(base, ext, drop, n);
    AcceptedByName(ExtendOmit(base, ext, drop), unknown, m, n);
  }

  /** Every property the extension declares required, and the omission
      keeps, is present. */
  lemma {:induction false} OmitRequiredAll(base: seq<Field>, ext: seq<Field>, drop: set<string>, unknown: UnknownKeys,
                                           m: map<string, Json>)
    requires Accepts(Object(ExtendOmit(base, ext, drop), unknown), JObj(m))
    requires DistinctNames(ext) && Names(ext) !! drop
    ensures RequiredNames(ext) <= m.Keys
  {
    forall n | n in RequiredNames(ext) ensures n in m {
      var j :| 0 <= j < |ext| && ext[j].required && ext[j].name == n;
      LookupDistinct(ext, j);
      OmitExtensionValue(base, ext, drop, unknown, m, n);
    }
  }

  /** A strict table with omissions accepts no omitted key and no key
      outside the base and the extension. */
  lemma {:induction false} OmitStrict(base: seq<Field>, ext: seq<Field>, drop: set<string>, m: map<string, Json>)
    requires Accepts(Object(ExtendOmit(base, ext, drop), Strict), JObj(m))
    ensures m.Keys <= Names(base) + Names(ext) - drop
  {
    ObjectAccepts(ExtendOmit(base, ext, drop), Strict, m);
  }
}

=== FILE: stix_bundle.dfy ===
/** Bundles (src/schemas/sdo/stix-bundle.schema.ts): the list of ATT&CK
    objects, each checked by the schema its `type` selects, and the STIX
    bundle that wraps such a list behind a collection. */
module StixBundle {
  import opened Wrappers
  import opened JsonValues
  import opened Schema
  import opened StixTypes
  import opened StixIdentifier
  import opened Refinements
  import Analytic
  import Asset
  import Campaign
  import Collection
  import Group
  import Identity
  import Matrix
  import Mitigation
  import Tactic
  import Technique
  import RelationshipSchema
  import MarkingDefinition

  /** The schemas of the data component, data source, detection strategy,
      malware and tool, which this model does not describe: they are given
      as parameters. */
  datatype OtherSchemas = OtherSchemas(dataComponent: Kind, dataSource: Kind, detectionStrategy: Kind, malware: Kind, tool: Kind)

  /** The types the bundle's discriminated union knows. */
  const BundleTypes: set<string> := {
    "x-mitre-collection", "x-mitre-analytic", "x-mitre-asset", "campaign", "x-mitre-data-component",
    "x-mitre-data-source", "x-mitre-detection-strategy", "intrusion-set", "identity", "malware",
    "x-mitre-matrix", "course-of-action", "x-mitre-tactic", "attack-pattern", "tool"
  }

  /** The types `schemaMap` knows: the bundle's and the two non-domain
      objects. */
  const ObjectTypes: set<string> := BundleTypes + {"relationship", "marking-definition"}

  /** The schema of each type `schemaMap` knows. The lemmas below hold for
      any choice of these schemas; `AttackSchemas` fills in the ones this
      model describes. */
  datatype Schemas = Schemas(
    asset: Kind, campaign: Kind, collection: Kind, analytic: Kind, identity: Kind, matrix: Kind,
    tactic: Kind, technique: Kind, group: Kind, mitigation: Kind, relationship: Kind,
    markingDefinition: Kind, others: OtherSchemas)

  /** The schemas `schemaMap` holds. */
  function AttackSchemas(o: OtherSchemas): Schemas
  {
    Schemas(Asset.AssetObject, Campaign.CampaignObject, Collection.CollectionObject, Analytic.AnalyticObject,
            Identity.IdentityObject, Matrix.MatrixObject, Tactic.TacticObject, Technique.TechniqueObject,
            Group.GroupObject, Mitigation.MitigationObject, RelationshipSchema.RelationshipObject,
            MarkingDefinition.MarkingDefinitionObject, o)
  }

  /** `schemaMap[type]` */
  function SchemaFor(o: Schemas, t: string): (r: Option<Kind>)
    ensures r.Some? <==> t in ObjectTypes
  {
    match t
    case "malware" => Some(o.others.malware)
    case "x-mitre-asset" => Some(o.asset)
    case "campaign" => Some(o.campaign)
    case "x-mitre-collection" => Some(o.collection)
    case "x-mitre-data-component" => Some(o.others.dataComponent)
    case "x-mitre-data-source" => Some(o.others.dataSource)
    case "x-mitre-detection-strategy" => Some(o.others.detectionStrategy)
    case "x-mitre-analytic" => Some(o.analytic)
    case "identity" => Some(o.identity)
    case "x-mitre-matrix" => Some(o.matrix)
    case "tool" => Some(o.others.tool)
    case "x-mitre-tactic" => Some(o.tactic)
    case "attack-pattern" => Some(o.technique)
    case "intrusion-set" => Some(o.group)
    case "course-of-action" => Some(o.mitigation)
    case "relationship" => Some(o.relationship)
    case "marking-definition" => Some(o.markingDefinition)
    case _ => None
  }

  //---------------------------------------------------------------------------
  // attackObjectsSchema
  //---------------------------------------------------------------------------

  const TypeTypeMessage := "Object 'type' must be a string"
  const IdTypeMessage := "Object 'id' must be a string"

  function TypeString(v: Json): (r: Parsed)
    ensures r.Ok? <==> v.JStr?
    ensures r.Ok? ==> r.value == v
  {
    if v.JStr? then Ok(v) else Fail(TypeTypeMessage)
  }

  function IdString(v: Json): (r: Parsed)
    ensures r.Ok? <==> v.JStr?
    ensures r.Ok? ==> r.value == v
  {
    if v.JStr? then Ok(v) else Fail(IdTypeMessage)
  }

  const ElementFields: seq<Field> := [
    Field("type", true, Leaf(TypeString)),
    Field("id", true, Leaf(IdString))
  ]

  /** The loose element shape: a string type and id, every other key
      kept. */
  const ElementShape: Kind := Object(ElementFields, Passthrough)

  function UnknownTypeMessage(t: string): string
  {
    "Unknown STIX type: " + t
  }

  /** The type an element names, when it names one. */
  function TypeOf(v: Json): Option<string>
  {
    GetString(v, "type")
  }

  /** `schemaMap` is a plain object literal: looking up one of the
      `PrototypeKeys` finds a function or the prototype itself, which is
      truthy but has no `parse`. */

  /** The `TypeError` calling the missing `parse` raises, caught and
      reported as a custom issue without a path. */
  const NotAFunctionMessage := "Validation error: schema.parse is not a function"

  /** The check: an unknown type is one issue at `type`; an inherited name
      is one issue without a path; a known type forwards every issue of its
      schema. */
  function DispatchRule(o: Schemas, v: Json): (issues: seq<Issue>)
    ensures TypeOf(v).Some? && TypeOf(v).value !in ObjectTypes ==> |issues| == 1
    ensures issues == [] <==>
      TypeOf(v).None? || (SchemaFor(o, TypeOf(v).value).Some? && Accepts(SchemaFor(o, TypeOf(v).value).value, v))
  {
    match TypeOf(v)
    case None => []
    case Some(t) =>
      if t in PrototypeKeys then [Issue([], NotAFunctionMessage)]
      else match SchemaFor(o, t)
      case None => [Issue([Key("type")], UnknownTypeMessage(t))]
      case Some(k) =>
        var r := CheckValue(k, v);
        if r.Ok? then [] else r.error
  }

  /** One element of `attackObjectsSchema`. */
  function AttackObject(o: Schemas): Kind
  {
    Refined(ElementShape, v => DispatchRule(o, v))
  }

  /** `attackObjectsSchema`: at least one element. */
  function AttackObjects(o: Schemas): Kind
  {
    ArrayOf(AttackObject(o), 1, None)
  }

  lemma ElementNames()
    ensures Schema.Names(ElementFields) == {"type", "id"}
  {
    assert ElementFields[0].name == "type" && ElementFields[1].name == "id";
  }

  /** The loose shape accepts the objects with a string type and id, and
      parses them to themselves. */
  lemma ElementShapeAccepts(m: map<string, Json>)
    ensures Accepts(ElementShape, JObj(m)) <==> "type" in m && m["type"].JStr? && "id" in m && m["id"].JStr?
    ensures Accepts(ElementShape, JObj(m)) ==> CheckValue(ElementShape, JObj(m)).value == JObj(m)
  {
    var e := ElementFields;
    ObjectAccepts(e, Passthrough, m);
    if FieldOk(e[0], m) && FieldOk(e[1], m) {
      forall j | 0 <= j < |e| ensures FieldOk(e[j], m) {
        assert j in {0, 1};
      }
    }
    ElementShapeKeeps();
  }

  lemma ElementShapeKeeps()
    ensures Keeps(ElementShape)
  {
    var e := ElementFields;
    KeepsLeaf(TypeString);
    KeepsLeaf(IdString);
    assert e[0].name == "type" && e[1].name == "id";
    KeepsPassthroughObject(e);
  }

  /** An element with an unknown type gets exactly one issue and no other
      check runs on it: at `type`, or without a path when the type is a
      name `schemaMap` inherits. */
  lemma UnknownTypeReported(o: Schemas, m: map<string, Json>)
    requires "type" in m && m["type"].JStr? && m["type"].s !in ObjectTypes
    requires "id" in m && m["id"].JStr?
    ensures m["type"].s !in PrototypeKeys ==>
      CheckValue(AttackObject(o), JObj(m)) == Err([Issue([Key("type")], UnknownTypeMessage(m["type"].s))])
    ensures m["type"].s in PrototypeKeys ==>
      CheckValue(AttackObject(o), JObj(m)) == Err([Issue([], NotAFunctionMessage)])
  {
    ElementShapeAccepts(m);
  }

  /** An element with a known type is accepted exactly when that type's
      schema accepts it, and otherwise carries every issue of that schema. */
  lemma KnownTypeForwarded(o: Schemas, m: map<string, Json>)
    requires "type" in m && m["type"].JStr? && m["type"].s in ObjectTypes
    requires "id" in m && m["id"].JStr?
    ensures var k := SchemaFor(o, m["type"].s).value;
      Accepts(AttackObject(o), JObj(m)) <==> Accepts(k, JObj(m))
    ensures var k := SchemaFor(o, m["type"].s).value;
      !Accepts(k, JObj(m)) ==> CheckValue(AttackObject(o), JObj(m)) == Err(CheckValue(k, JObj(m)).error)
  {
    ElementShapeAccepts(m);
  }

  /** An element without a string type or id is refused before any
      dispatch. */
  lemma ShapeFirst(o: Schemas, v: Json)
    requires Accepts(AttackObject(o), v)
    ensures v.JObj? && "type" in v.fields && v.fields["type"].JStr? && "id" in v.fields && v.fields["id"].JStr?
    ensures SchemaFor(o, v.fields["type"].s).Some? && Accepts(SchemaFor(o, v.fields["type"].s).value, v)
  {
    RefinedAccepts(ElementShape, w => DispatchRule(o, w), v);
    AcceptedShape(ElementShape, v);
    ElementShapeAccepts(v.fields);
  }

  /** A list of objects is accepted exactly when it is non-empty and every
      element has a known type whose schema accepts it. */
  lemma AttackObjectsAccepts(o: Schemas, items: seq<Json>)
    ensures Accepts(AttackObjects(o), JArr(items)) <==>
            |items| >= 1
            && forall j :: 0 <= j < |items| ==>
                 TypeOf(items[j]).Some? && SchemaFor(o, TypeOf(items[j]).value).Some?
                 && GetString(items[j], "id").Some?
                 && Accepts(SchemaFor(o, TypeOf(items[j]).value).value, items[j])
  {
    ArrayAccepts(AttackObject(o), 1, None, items);
    forall j | 0 <= j < |items|
      ensures Accepts(AttackObject(o), items[j]) <==>
                TypeOf(items[j]).Some? && SchemaFor(o, TypeOf(items[j]).value).Some?
                && GetString(items[j], "id").Some?
                && Accepts(SchemaFor(o, TypeOf(items[j]).value).value, items[j])
    {
      var x := items[j];
      if Accepts(AttackObject(o), x) {
        ShapeFirst(o, x);
      } else if x.JObj? && TypeOf(x).Some? && GetString(x, "id").Some? && SchemaFor(o, TypeOf(x).value).Some? {
        KnownTypeForwarded(o, x.fields);
      }
    }
  }

  //---------------------------------------------------------------------------
  // stixBundleSchema
  //---------------------------------------------------------------------------

  const NoMatchMessage := "No matching discriminator"

  /** `z.discriminatedUnion('type', [...])` over the fifteen domain object
      schemas: the element's type picks the option. */
  function BundleElement(o: Schemas, v: Json): (r: Parsed)
    ensures r.Ok? ==> v.JObj? && TypeOf(v).Some? && TypeOf(v).value in BundleTypes
    ensures v.JObj? && TypeOf(v).Some? && TypeOf(v).value !in BundleTypes ==> r == Err([Issue([Key("type")], NoMatchMessage)])
  {
    if !v.JObj? then Fail("invalid_type: expected object")
    else match TypeOf(v)
      case Some(t) =>
        if t in BundleTypes then CheckValue(SchemaFor(o, t).value, v)
        else Err([Issue([Key("type")], NoMatchMessage)])
      case None => Err([Issue([Key("type")], NoMatchMessage)])
  }

  function BundleFields(o: Schemas): seq<Field>
  {
    [
      Field("id", true, Leaf(v => CreateStixIdentifierSchema("bundle", v))),
      Field("type", true, Leaf(v => TypeValidator("bundle", v))),
      Field("objects", true, ArrayOf(Leaf(v => BundleElement(o, v)), 1, None))
    ]
  }

  /** `stixBundleSchema`: strict, then the first-object check; the
      library's bundle is `Bundle(AttackSchemas(o))`. */
  function Bundle(o: Schemas): Kind
  {
    Refined(Object(BundleFields(o), Strict), FirstBundleObjectRule)
  }

  /** A bundle element is accepted exactly when it is an object whose type
      is one of the fifteen and whose schema accepts it. */
  lemma BundleElementAccepts(o: Schemas, x: Json)
    ensures Accepts(Leaf(v => BundleElement(o, v)), x) <==>
            x.JObj? && TypeOf(x).Some? && TypeOf(x).value in BundleTypes
            && Accepts(SchemaFor(o, TypeOf(x).value).value, x)
  {
  }

  /** What a relationship or a marking definition gets in a bundle: the
      object list refuses both, whatever the rest of the object. */
  lemma NonDomainObjectsRefused(o: Schemas, x: Json)
    requires TypeOf(x) == Some("relationship") || TypeOf(x) == Some("marking-definition")
    ensures !Accepts(Leaf(v => BundleElement(o, v)), x)
  {
    BundleElementAccepts(o, x);
    NotBundleTypes();
  }

  lemma NotBundleTypes()
    ensures "relationship" !in BundleTypes && "marking-definition" !in BundleTypes
  {
    assert forall u :: u in BundleTypes ==> |u| != 12 && (|u| != 18 || u[0] == 'x');
  }

  lemma BundleNames(o: Schemas)
    ensures Schema.Names(BundleFields(o)) == {"id", "type", "objects"}
  {
    var e := BundleFields(o);
    assert e[0].name == "id" && e[1].name == "type" && e[2].name == "objects";
  }

  /** The three bundle properties: a bundle identifier, the bundle type
      and a non-empty list of accepted domain objects. */
  predicate BundleValues(o: Schemas, m: map<string, Json>)
  {
    "id" in m && CreateStixIdentifierSchema("bundle", m["id"]).Ok?
    && "type" in m && TypeValidator("bundle", m["type"]).Ok?
    && "objects" in m && Accepts(ArrayOf(Leaf(v => BundleElement(o, v)), 1, None), m["objects"])
  }

  lemma BundleFieldsOk(o: Schemas, m: map<string, Json>)
    ensures (forall j :: 0 <= j < |BundleFields(o)| ==> FieldOk(BundleFields(o)[j], m)) <==> BundleValues(o, m)
  {
    var e := BundleFields(o);
    if FieldOk(e[0], m) && FieldOk(e[1], m) && FieldOk(e[2], m) {
      forall j | 0 <= j < |e| ensures FieldOk(e[j], m) {
        assert j in {0, 1, 2};
      }
    }
  }

  lemma BundleValuesKeys(o: Schemas, m: map<string, Json>)
    requires BundleValues(o, m)
    ensures {"id", "type", "objects"} <= m.Keys
  {
  }

  /** The bundle shape accepts the strict three-key objects whose objects
      list is non-empty and made of accepted domain objects. */
  lemma BundleShapeAccepts(o: Schemas, m: map<string, Json>)
    ensures Accepts(Object(BundleFields(o), Strict), JObj(m)) <==>
            BundleValues(o, m) && m.Keys == {"id", "type", "objects"}
  {
    ObjectAccepts(BundleFields(o), Strict, m);
    BundleNames(o);
    BundleFieldsOk(o, m);
    if BundleValues(o, m) {
      BundleValuesKeys(o, m);
    }
  }

  /** Accepted bundle objects keep their order and content. */
  lemma ObjectsKept(o: Schemas, m: map<string, Json>)
    requires Accepts(Object(BundleFields(o), Strict), JObj(m))
    ensures "objects" in m && m["objects"].JArr? && |m["objects"].items| >= 1
    ensures Get(CheckValue(Object(BundleFields(o), Strict), JObj(m)).value, "objects").Some?
    ensures var p := Get(CheckValue(Object(BundleFields(o), Strict), JObj(m)).value, "objects").value;
      p.JArr? && |p.items| == |m["objects"].items|
      && forall j :: 0 <= j < |p.items| ==>
           (Accepts(Leaf(v => BundleElement(o, v)), m["objects"].items[j])
            && p.items[j] == CheckValue(Leaf(v => BundleElement(o, v)), m["objects"].items[j]).value)
  {
    var e := BundleFields(o);
    BundleShapeAccepts(o, m);
    assert DistinctNames(e) by {
      assert e[0].name == "id" && e[1].name == "type" && e[2].name == "objects";
    }
    ParsedField(e, Strict, m, 2);
    var elem := Leaf(v => BundleElement(o, v));
    AcceptedShape(ArrayOf(elem, 1, None), m["objects"]);
    ArrayAccepts(elem, 1, None, m["objects"].items);
    forall j | 0 <= j < |m["objects"].items|
      ensures var p := CheckValue(ArrayOf(elem, 1, None), m["objects"]).value;
        p.JArr? && |p.items| == |m["objects"].items| && p.items[j] == CheckValue(elem, m["objects"].items[j]).value
    {
      ParsedItem(elem, 1, None, m["objects"].items, j);
    }
    ParsedItem(elem, 1, None, m["objects"].items, 0);
  }
}

=== FILE: stix_core.dfy ===
/** The properties every STIX object shares: identity, type, version,
    timestamps and the optional common properties
    (src/schemas/common/stix-core.ts). */
module StixCore {
  import opened Wrappers
  import opened JsonValues
  import opened Schema
  import opened Generics
  import opened StixIdentifier
  import opened StixTypes
  import opened Timestamps
  import opened CommonProperties
  import opened GranularMarkings
  import opened ExternalReferences
  import opened Extensions

  const ConfidenceMessage := "Confidence must be between 1 and 99 inclusive."

  /** The issues of `confidence` on a number: each of `.int()`, `.min(1)`,
      `.max(99)` that fails reports, and the refinement still runs after
      them and reports when the value is outside the open interval
      (0, 100). */
  function ConfidenceIssues(n: real): (issues: seq<Issue>)
    ensures issues == [] <==> IsInteger(n) && 1.0 <= n <= 99.0
  {
    (if IsInteger(n) then [] else [Issue([], "Expected integer, received float")])
    + (if n < 1.0 then [Issue([], "too_small")] else [])
    + (if n > 99.0 then [Issue([], "too_big")] else [])
    + (if 0.0 < n < 100.0 then [] else [Issue([], ConfidenceMessage)])
  }

  /** `confidence` */
  function Confidence(v: Json): (r: Parsed)
    ensures r.Ok? <==> v.JNum? && IsInteger(v.n) && 1.0 <= v.n <= 99.0
    ensures r.Ok? ==> r.value == v
  {
    if !v.JNum? then Fail("invalid_type: expected number")
    else
      var issues := ConfidenceIssues(v.n);
      if issues == [] then Ok(v) else Err(issues)
  }

  /** The refinement adds nothing: whenever it reports, a bound check has
      reported before it. */
  lemma ConfidenceRefinementRedundant(n: real)
    ensures Issue([], ConfidenceMessage) in ConfidenceIssues(n) ==>
            Issue([], "too_small") in ConfidenceIssues(n) || Issue([], "too_big") in ConfidenceIssues(n)
  {
  }

  const BaseFields: seq<Field> := [
    Field("id", true, Leaf(StixIdentifierSchema)),
    Field("type", true, Leaf(StixTypeSchema)),
    Field("spec_version", true, Leaf(StixSpecVersion)),
    Field("created", true, Leaf(StixTimestamp)),
    Field("modified", true, Leaf(StixTimestamp)),
    Field("created_by_ref", false, Leaf(CreatedByRef)),
    Field("labels", false, ArrayOf(Leaf(AnyString), 0, None)),
    Field("revoked", false, Leaf(Boolean)),
    Field("confidence", false, Leaf(Confidence)),
    Field("lang", false, Leaf(AnyString)),
    Field("external_references", false, CommonExternalReferences),
    Field("object_marking_refs", false, CommonObjectMarkingRefs),
    Field("granular_markings", false, ArrayOf(CommonGranularMarking, 0, None)),
    Field("extensions", false, CommonExtensions)
  ]

  /** `stixBaseObjectSchema` (strict) */
  const StixBaseObject: Kind := Object(BaseFields, Strict)

  /** `stixDomainObjectSchema` and `stixRelationshipObjectSchema` both extend
      the base with nothing. */
  const StixDomainObject: Kind := StixBaseObject
  const StixRelationshipObject: Kind := StixBaseObject

  /** The five properties without which no STIX object is accepted. */
  lemma BaseRequiresCore(m: map<string, Json>)
    requires Accepts(StixBaseObject, JObj(m))
    ensures "id" in m && "type" in m && "spec_version" in m && "created" in m && "modified" in m
  {
    forall j | 0 <= j < 5 ensures BaseFields[j].name in m {
      BaseFieldOk(m, j);
      BaseFieldsRequired(j);
    }
    BaseFieldNames();
  }

  /** An accepted base object satisfies each declared property. */
  lemma BaseFieldOk(m: map<string, Json>, j: nat)
    requires Accepts(StixBaseObject, JObj(m))
    requires j < |BaseFields|
    ensures FieldOk(BaseFields[j], m)
  {
    ObjectAccepts(BaseFields, Strict, m);
  }

  lemma BaseFieldsRequired(j: nat)
    requires j < 5
    ensures j < |BaseFields| && BaseFields[j].required
  {
  }

  lemma BaseFieldNames()
    ensures BaseFields[0].name == "id" && BaseFields[1].name == "type" && BaseFields[2].name == "spec_version"
    ensures BaseFields[3].name == "created" && BaseFields[4].name == "modified"
    ensures BaseFields[8] == Field("confidence", false, Leaf(Confidence))
    ensures BaseFields[10] == Field("external_references", false, CommonExternalReferences)
  {
  }

  /** A key the base object does not declare makes it fail. */
  lemma BaseRejectsUnknownKey(m: map<string, Json>, key: string)
    requires key in m && key !in Schema.Names(BaseFields)
    ensures !Accepts(StixBaseObject, JObj(m))
  {
    ObjectAccepts(BaseFields, Strict, m);
  }

  /** `confidence`, when given, is an integer from 1 to 99, and an empty
      `external_references` list is refused. */
  lemma BaseOptionalBounds(m: map<string, Json>)
    requires Accepts(StixBaseObject, JObj(m))
    ensures "confidence" in m ==> m["confidence"].JNum? && IsInteger(m["confidence"].n) && 1.0 <= m["confidence"].n <= 99.0
    ensures "external_references" in m ==> m["external_references"].JArr? && |m["external_references"].items| >= 1
  {
    BaseFieldOk(m, 8);
    BaseFieldOk(m, 10);
    BaseFieldNames();
    if "external_references" in m {
      ArrayAccepts(CommonExternalReference, 1, None, m["external_references"].items);
    }
  }
}

=== FILE: stix_identifier.dfy ===
/** STIX identifiers `type--UUIDv4` (src/schemas/common/stix-identifier.ts). */
module StixIdentifier {
  import opened Wrappers
  import opened Strings
  import opened JsonValues
  import opened StixTypes

  const InvalidFormat := "Invalid STIX Identifier: must comply with format 'type--UUIDv4'"
  const InvalidType := "Invalid STIX Identifier: must contain a valid STIX type"
  const InvalidUuid := "Invalid STIX Identifier: must contain a valid UUIDv4"
  const InvalidIdentifier := "Invalid STIX Identifier"

  predicate UuidHyphenAt(i: int) { i == 8 || i == 13 || i == 18 || i == 23 }

  /** `8-4-4-4-12` hexadecimal digits, either case. */
  predicate IsUuidShape(u: string)
  {
    |u| == 36 && forall i :: 0 <= i < 36 ==> if UuidHyphenAt(i) then u[i] == '-' else IsHex(u[i])
  }

  /** `/^[0-9a-f]{8}-[0-9a-f]{4}-4[0-9a-f]{3}-[89ab][0-9a-f]{3}-[0-9a-f]{12}$/i` */
  predicate IsUuidV4(u: string)
  {
    IsUuidShape(u) && u[14] == '4'
    && (u[19] == '8' || u[19] == '9' || u[19] == 'a' || u[19] == 'b' || u[19] == 'A' || u[19] == 'B')
  }

  /** `isValidUuid` applied to the second piece of a split; a missing piece
      is `undefined`, whose string form does not match. */
  predicate IsValidUuid(u: Option<string>) { u.Some? && IsUuidV4(u.value) }

  /** `const [type, uuid] = val.split('--')` */
  function TypePart(s: string): string { Split(s, "--")[0] }

  function UuidPart(s: string): Option<string>
  {
    var parts := Split(s, "--");
    if |parts| >= 2 then Some(parts[1]) else None
  }

  /** The test shared by `stixIdentifierSchema`'s custom check and refine:
      a supported type before the first `--` and a UUIDv4 after it. Pieces
      after a second `--` are not looked at. */
  predicate IsStixIdentifier(s: string)
  {
    IsStixType(TypePart(s)) && IsValidUuid(UuidPart(s))
  }

  lemma UuidDashSafe(u: string)
    requires IsUuidShape(u)
    ensures DashSafe(u)
  {
    forall k | 0 <= k < |u| - 1 ensures !(u[k] == '-' && u[k + 1] == '-') {
      if UuidHyphenAt(k) {
        assert !UuidHyphenAt(k + 1);
      }
    }
    assert !UuidHyphenAt(35);
  }

  lemma SupportedTypesDashSafe(t: string)
    requires IsStixType(t)
    ensures DashSafe(t)
  {
    assert DashSafe("attack-pattern");
    assert DashSafe("bundle");
    assert DashSafe("campaign");
    assert DashSafe("course-of-action");
    assert DashSafe("identity");
    assert DashSafe("intrusion-set");
    assert DashSafe("malware");
    assert DashSafe("tool");
    assert DashSafe("marking-definition");
    assert DashSafe("x-mitre-data-component");
    assert DashSafe("x-mitre-data-source");
    assert DashSafe("x-mitre-tactic");
    assert DashSafe("x-mitre-asset");
    assert DashSafe("x-mitre-matrix");
    assert DashSafe("x-mitre-collection");
    assert DashSafe("relationship");
    assert DashSafe("file");
    assert DashSafe("artifact");
  }

  /** An accepted identifier is its type, `--` and its UUID, possibly
      followed by further `--`-separated text. */
  lemma {:induction false} IdentifierParts(s: string)
    requires IsStixIdentifier(s)
    ensures var head := TypePart(s) + "--" + UuidPart(s).value;
            s == head || StartsWith(s, head + "--")
  {
    var parts := Split(s, "--");
    JoinSplit(s, "--");
    assert Join(parts, "--") == parts[0] + "--" + Join(parts[1..], "--");
    var rest := parts[1..];
    if |rest| > 1 {
      assert Join(rest, "--") == parts[1] + "--" + Join(rest[1..], "--");
      var head := parts[0] + "--" + parts[1] + "--";
      assert s == head + Join(rest[1..], "--");
      assert s[..|head|] == head;
    }
  }

  /** Conversely, a supported type, `--`, a UUIDv4 and any `--`-led tail
      make an identifier whose pieces are that type and that UUID. */
  lemma {:induction false} IdentifierFromParts(t: string, u: string, tail: string)
    requires IsStixType(t) && IsUuidV4(u)
    requires tail == "" || StartsWith(tail, "--")
    ensures TypePart(t + "--" + u + tail) == t
    ensures UuidPart(t + "--" + u + tail) == Some(u)
    ensures IsStixIdentifier(t + "--" + u + tail)
  {
    SupportedTypesDashSafe(t);
    DashSafeSeparator(t);
    UuidDashSafe(u);
    DashSafeSeparator(u);
    var s := t + "--" + u + tail;
    assert s == t + "--" + (u + tail);
    SplitHead(t, u + tail, "--");
    if tail == "" {
      assert u + tail == u;
      NoOccurrenceSplit(u, "--");
    } else {
      var r := tail[2..];
      assert tail == "--" + r;
      assert u + tail == u + "--" + r;
      SplitHead(u, r, "--");
    }
  }

  /** The issue of the refine when it fails: an unsupported type first, then
      a bad UUID, and the generic format message only otherwise. */
  function RefineError(s: string): string
  {
    if !IsStixType(TypePart(s)) then InvalidType
    else if !IsValidUuid(UuidPart(s)) then InvalidUuid
    else InvalidFormat
  }

  /** Whenever the refine fails it names the precise cause: its generic
      format message is never the one chosen. */
  lemma RefineErrorNamesCause(s: string)
    requires !IsStixIdentifier(s)
    ensures RefineError(s) != InvalidFormat
    ensures RefineError(s) == InvalidType <==> !IsStixType(TypePart(s))
  {
  }

  /** The refine chained after the custom check: `None` when it passes. */
  function Refine(s: string): Option<string>
  {
    if IsStixIdentifier(s) then None else Some(RefineError(s))
  }

  /** The refine tests what the custom check already tested, so on every
      value that reaches it (one the custom check passed) it passes: its
      three messages are never reported by `stixIdentifierSchema`. */
  lemma RefineUnreachable(v: Json)
    requires v.JStr? && StixIdentifierSchema(v).Ok?
    ensures Refine(v.s).None?
  {
  }

  /** `stixIdentifierSchema`: a string whose first two `--` pieces are a
      supported type and a UUIDv4; otherwise the custom check's single
      issue. */
  function StixIdentifierSchema(v: Json): (r: Parsed)
    ensures r.Ok? ==> r.value == v
    ensures r.Ok? <==> v.JStr? && IsStixIdentifier(v.s)
    ensures r.Err? ==> r.error == [Issue([], InvalidIdentifier)]
  {
    if !v.JStr? || !IsStixIdentifier(v.s) then Fail(InvalidIdentifier)
    else Ok(v)
  }

  /** `createStixIdentifierSchema(t)`: a valid identifier that starts with
      `t--`; the prefix issue carries the path `['id']`. */
  function CreateStixIdentifierSchema(t: string, v: Json): (r: Parsed)
    ensures r.Ok? ==> r.value == v && v.JStr? && IsStixIdentifier(v.s) && StartsWith(v.s, t + "--")
    ensures v.JStr? && IsStixIdentifier(v.s) && !StartsWith(v.s, t + "--")
            ==> r == Err([Issue([Key("id")], "Invalid STIX Identifier: must start with '" + t + "--'")])
  {
    var base := StixIdentifierSchema(v);
    if base.Err? then base
    else if !StartsWith(v.s, t + "--") then
      Err([Issue([Key("id")], "Invalid STIX Identifier: must start with '" + t + "--'")])
    else base
  }

  /** The identifier check the object schemas apply to references of one
      type: the piece before the first `--` is exactly `t` and the next one is
      a UUIDv4. */
  function IdentifierFor(t: string, v: Json): (r: Parsed)
    ensures r.Ok? <==> v.JStr? && TypePart(v.s) == t && IsValidUuid(UuidPart(v.s))
    ensures r.Ok? ==> r.value == v
  {
    if v.JStr? && TypePart(v.s) == t && IsValidUuid(UuidPart(v.s)) then Ok(v)
    else Fail("Invalid STIX Identifier: must start with '" + t + "--'")
  }

  lemma OccursInPrefix(s: string, h: string, sub: string, j: int)
    requires StartsWith(s, h) && 0 <= j && j + |sub| <= |h|
    ensures OccursAt(s, sub, j) <==> OccursAt(h, sub, j)
  {
    var w := s[j..j + |sub|];
    var x := h[j..j + |sub|];
    assert forall k :: 0 <= k < |w| ==> w[k] == s[j + k] == h[j + k] == x[k];
    assert w == x;
  }

  /** For a valid identifier, starting with `t--` is the same as having the
      type `t`: the prefix test and the first-piece test agree. */
  lemma PrefixMatchesType(t: string, s: string)
    requires IsStixType(t) && IsStixIdentifier(s)
    ensures StartsWith(s, t + "--") <==> TypePart(s) == t
  {
    var p := TypePart(s);
    IdentifierParts(s);
    assert StartsWith(s, p + "--") by {
      var head := p + "--" + UuidPart(s).value;
      assert s[..|p| + 2] == head[..|p| + 2];
    }
    match Find(s, "--")
    case None =>
    case Some(i) =>
      assert p == s[..i];
      if StartsWith(s, t + "--") {
        SupportedTypesDashSafe(t);
        DashSafeSeparator(t);
        OccursInPrefix(s, t + "--", "--", |t|);
        assert i <= |t|;
        if i < |t| {
          OccursInPrefix(s, t + "--", "--", i);
        }
        assert i == |t|;
        assert s[..|t|] == (t + "--")[..|t|];
      }
  }

  /** On supported types the stand-in `IdentifierFor` accepts exactly what
      `createStixIdentifierSchema` accepts. */
  lemma FactoryAgreement(t: string, v: Json)
    requires IsStixType(t)
    ensures IdentifierFor(t, v).Ok? <==> CreateStixIdentifierSchema(t, v).Ok?
  {
    if v.JStr? && IsStixIdentifier(v.s) {
      PrefixMatchesType(t, v.s);
    }
  }
}

=== FILE: stix_type.dfy ===
/** STIX object types the library supports, the readable name of each, and
    the validators of a `type` property (src/schemas/common/stix-type.ts). */
module StixTypes {
  import opened Wrappers
  import opened JsonValues
  import opened Strings

  /** The supported STIX types, in their declared order. */
  const SupportedStixTypes: seq<string> := [
    "attack-pattern", "bundle", "campaign", "course-of-action", "identity",
    "intrusion-set", "malware", "tool", "marking-definition",
    "x-mitre-data-component", "x-mitre-data-source", "x-mitre-tactic",
    "x-mitre-asset", "x-mitre-matrix", "x-mitre-collection", "relationship",
    "file", "artifact"]

  predicate IsStixType(s: string) { s in SupportedStixTypes }

  /** `stixTypeToTypeName`: the readable object name used in messages; `None`
      is JavaScript's `undefined` for a type outside the table. */
  function TypeName(t: string): Option<string>
  {
    match t
    case "attack-pattern" => Some("Technique")
    case "bundle" => Some("StixBundle")
    case "campaign" => Some("Campaign")
    case "course-of-action" => Some("Mitigation")
    case "identity" => Some("Identity")
    case "intrusion-set" => Some("Group")
    case "malware" => Some("Malware")
    case "tool" => Some("Tool")
    case "marking-definition" => Some("MarkingDefinition")
    case "x-mitre-data-component" => Some("DataComponent")
    case "x-mitre-data-source" => Some("DataSource")
    case "x-mitre-tactic" => Some("Tactic")
    case "x-mitre-asset" => Some("Asset")
    case "x-mitre-matrix" => Some("Matrix")
    case "x-mitre-collection" => Some("Collection")
    case "relationship" => Some("Relationship")
    case "file" => Some("")
    case "artifact" => Some("")
    case _ => None
  }

  /** Template-literal rendering of a looked-up name. */
  function NameText(t: string): string
  {
    TypeName(t).GetOr("undefined")
  }

  /** The name table covers exactly the supported types. */
  lemma TypeNameTotal(t: string)
    ensures TypeName(t).Some? <==> IsStixType(t)
  {
  }

  /** The readable name of a type, read back: the inverse of `TypeName` on
      the types with a non-empty name. */
  function TypeOfName(name: string): Option<string>
  {
    match name
    case "Technique" => Some("attack-pattern")
    case "StixBundle" => Some("bundle")
    case "Campaign" => Some("campaign")
    case "Mitigation" => Some("course-of-action")
    case "Identity" => Some("identity")
    case "Group" => Some("intrusion-set")
    case "Malware" => Some("malware")
    case "Tool" => Some("tool")
    case "MarkingDefinition" => Some("marking-definition")
    case "DataComponent" => Some("x-mitre-data-component")
    case "DataSource" => Some("x-mitre-data-source")
    case "Tactic" => Some("x-mitre-tactic")
    case "Asset" => Some("x-mitre-asset")
    case "Matrix" => Some("x-mitre-matrix")
    case "Collection" => Some("x-mitre-collection")
    case "Relationship" => Some("relationship")
    case _ => None
  }

  /** Every non-empty readable name identifies its type, so two supported
      types never share one; only `file` and `artifact` have the empty name. */
  lemma TypeNameInvertible(t: string)
    requires IsStixType(t)
    ensures TypeName(t).value != "" ==> TypeOfName(TypeName(t).value) == Some(t)
    ensures TypeName(t).value == "" <==> t == "file" || t == "artifact"
  {
  }

  /** `stixTypeSchema`: an enumeration over the supported types. */
  function StixTypeSchema(v: Json): (r: Parsed)
    ensures r.Ok? <==> v.JStr? && IsStixType(v.s)
    ensures r.Ok? ==> r.value == v
    ensures r.Err? && v.JStr? ==> r.error == [Issue([], "Invalid STIX type '" + v.s + "'. Expected one of the supported STIX types.")]
  {
    if !v.JStr? then Fail("invalid_type")
    else if IsStixType(v.s) then Ok(v)
    else Fail("Invalid STIX type '" + v.s + "'. Expected one of the supported STIX types.")
  }

  /** The message of `createStixTypeValidator` when the value is wrong. */
  function TypeMismatchMessage(expected: string, received: string): string
  {
    "Invalid 'type' property. Expected " + Quote(expected) + " for " + NameText(expected)
      + " object, but received '" + received + "'."
  }

  /** `createStixTypeValidator(t)`: a string equal to `t`. */
  function TypeValidator(t: string, v: Json): (r: Parsed)
    ensures r.Ok? <==> v == JStr(t)
    ensures r.Ok? ==> r.value == v
    ensures r.Err? ==> |r.error| == 1 && r.error[0].path == []
  {
    if !v.JStr? then Fail("invalid_type")
    else if v.s != t then Fail(TypeMismatchMessage(t, v.s))
    else Ok(v)
  }

  /** A rejected type string is quoted in the message after the expected
      type and that type's readable name. */
  lemma TypeMismatchMessageEmbeds(t: string, received: string)
    requires received != t
    ensures var m := TypeValidator(t, JStr(received)).error[0].message;
            StartsWith(m, "Invalid 'type' property. Expected " + Quote(t) + " for " + NameText(t) + " object")
            && EndsWith(m, "received '" + received + "'.")
  {
    var head := "Invalid 'type' property. Expected " + Quote(t) + " for " + NameText(t) + " object";
    var tail := "received '" + received + "'.";
    var m := TypeMismatchMessage(t, received);
    assert m == head + ", but " + tail;
    assert m[..|head|] == head;
    assert m[|m| - |tail|..] == tail;
  }

  function Quote(t: string): string { "'" + t + "'" }

  /** `' or '`-joined rendering used by the multi-type message. */
  function JoinOr(parts: seq<string>): string
  {
    if |parts| == 0 then "" else if |parts| == 1 then parts[0] else parts[0] + " or " + JoinOr(parts[1..])
  }

  function Quoted(ts: seq<string>): (r: seq<string>)
    ensures |r| == |ts|
  {
    seq(|ts|, i requires 0 <= i < |ts| => Quote(ts[i]))
  }

  function Names(ts: seq<string>): (r: seq<string>)
    ensures |r| == |ts|
  {
    seq(|ts|, i requires 0 <= i < |ts| => NameText(ts[i]))
  }

  /** `createMultiStixTypeValidator(ts)`: a string among `ts`. */
  function MultiTypeValidator(ts: seq<string>, v: Json): (r: Parsed)
    ensures r.Ok? <==> v.JStr? && v.s in ts
    ensures r.Ok? ==> r.value == v
  {
    if !v.JStr? then Fail("invalid_type")
    else if v.s !in ts then
      Fail("Invalid 'type' property. Expected " + JoinOr(Quoted(ts)) + " for " + JoinOr(Names(ts))
           + " object, but received '" + v.s + "'.")
    else Ok(v)
  }

  /** With a single allowed type the multi-type validator accepts and rejects
      exactly what the single-type validator does, with the same message. */
  lemma MultiOfOne(t: string, v: Json)
    ensures MultiTypeValidator([t], v) == TypeValidator(t, v)
  {
    if v.JStr? && v.s != t {
      assert Quoted([t]) == [Quote(t)];
      assert Names([t]) == [NameText(t)];
      assert JoinOr(Quoted([t])) == Quote(t);
      assert JoinOr(Names([t])) == NameText(t);
    }
  }
}

=== FILE: strings.dfy ===
/** Character classes and string operations that the schemas use in place of
    regular expressions: JavaScript `trim`, `startsWith`, `split`, `join`,
    ASCII lower-casing and decimal / hexadecimal digit strings. */
module Strings {
  import opened Wrappers

  predicate IsDigit(c: char) { '0' <= c <= '9' }
  predicate IsLower(c: char) { 'a' <= c <= 'z' }
  predicate IsUpper(c: char) { 'A' <= c <= 'Z' }
  predicate IsLowerAlnum(c: char) { IsLower(c) || IsDigit(c) }
  /** `[0-9a-f]` */
  predicate IsLowerHex(c: char) { IsDigit(c) || 'a' <= c <= 'f' }
  /** `[0-9a-f]` under the regular-expression flag `i` */
  predicate IsHex(c: char) { IsLowerHex(c) || 'A' <= c <= 'F' }

  predicate AllDigits(s: string) { forall i :: 0 <= i < |s| ==> IsDigit(s[i]) }
  /** `\d{n}` for a whole string */
  predicate Digits(s: string, n: nat) { |s| == n && AllDigits(s) }
  /** `\d+` for a whole string */
  predicate SomeDigits(s: string) { |s| >= 1 && AllDigits(s) }

  /** The characters JavaScript's `String.prototype.trim` removes: the
      ECMAScript WhiteSpace and LineTerminator productions. */
  predicate IsJsWhitespace(c: char) {
    c == '\t' || c == '\n' || c == '\U{000B}' || c == '\U{000C}' || c == '\r' || c == ' '
    || c == '\U{00A0}' || c == '\U{1680}' || ('\U{2000}' <= c <= '\U{200A}')
    || c == '\U{2028}' || c == '\U{2029}' || c == '\U{202F}' || c == '\U{205F}'
    || c == '\U{3000}' || c == '\U{FEFF}'
  }

  predicate AllWhitespace(s: string) { forall i :: 0 <= i < |s| ==> IsJsWhitespace(s[i]) }

  function TrimStart(s: string): (r: string)
    ensures |r| <= |s| && r == s[|s| - |r|..]
    ensures AllWhitespace(s[..|s| - |r|])
    ensures |r| > 0 ==> !IsJsWhitespace(r[0])
  {
    if |s| > 0 && IsJsWhitespace(s[0]) then
      var r := TrimStart(s[1..]);
      assert s[..|s| - |r|] == [s[0]] + s[1..][..|s[1..]| - |r|];
      r
    else s
  }

  function TrimEnd(s: string): (r: string)
    ensures |r| <= |s| && r == s[..|r|]
    ensures AllWhitespace(s[|r|..])
    ensures |r| > 0 ==> !IsJsWhitespace(r[|r| - 1])
  {
    if |s| > 0 && IsJsWhitespace(s[|s| - 1]) then
      var r := TrimEnd(s[..|s| - 1]);
      assert s[|r|..] == s[..|s| - 1][|r|..] + [s[|s| - 1]];
      r
    else s
  }

  /** `r` is the slice of `s` at `i`, and everything around it is white
      space. */
  predicate TrimmedAt(s: string, r: string, i: int)
  {
    0 <= i <= |s| - |r| && r == s[i..i + |r|] && AllWhitespace(s[..i]) && AllWhitespace(s[i + |r|..])
  }

  /** JavaScript `trim`: the longest slice of `s` that neither starts nor ends
      with white space, everything cut away being white space. */
  function Trim(s: string): (r: string)
    ensures |r| <= |s|
    ensures |r| > 0 ==> !IsJsWhitespace(r[0]) && !IsJsWhitespace(r[|r| - 1])
  {
    TrimEnd(TrimStart(s))
  }

  /** What `trim` cuts away is white space on either side of the result. */
  lemma TrimCut(s: string)
    ensures exists i :: TrimmedAt(s, Trim(s), i)
  {
    TrimParts(s, TrimStart(s), Trim(s));
  }

  lemma TrimParts(s: string, a: string, r: string)
    requires |a| <= |s| && a == s[|s| - |a|..] && AllWhitespace(s[..|s| - |a|])
    requires |r| <= |a| && r == a[..|r|] && AllWhitespace(a[|r|..])
    ensures TrimmedAt(s, r, |s| - |a|)
  {
    var i := |s| - |a|;
    assert r == s[i..i + |r|];
    assert s[i + |r|..] == a[|r|..];
  }

  lemma TrimIdempotent(s: string)
    ensures Trim(Trim(s)) == Trim(s)
  {
    var t := Trim(s);
    if |t| > 0 {
      assert TrimStart(t) == t;
      assert TrimEnd(t) == t;
    }
  }

  /** A non-empty string that neither starts nor ends with white space is its
      own trim. */
  lemma TrimSolid(s: string)
    requires |s| > 0 && !IsJsWhitespace(s[0]) && !IsJsWhitespace(s[|s| - 1])
    ensures Trim(s) == s
  {
    assert TrimStart(s) == s;
    assert TrimEnd(s) == s;
  }

  /** A string trims to the empty string exactly when it is all white space. */
  lemma {:induction false} BlankIffAllWhitespace(s: string)
    ensures Trim(s) == "" <==> AllWhitespace(s)
  {
    if Trim(s) == "" {
      TrimCut(s);
      var i :| TrimmedAt(s, "", i);
      forall j | 0 <= j < |s| ensures IsJsWhitespace(s[j]) {
        if j < i {
          assert s[..i][j] == s[j];
        } else {
          assert s[i..][j - i] == s[j];
        }
      }
    }
    if AllWhitespace(s) {
      AllWhitespaceTrimsAway(s);
    }
  }

  lemma {:induction false} AllWhitespaceTrimsAway(s: string)
    requires AllWhitespace(s)
    ensures TrimStart(s) == ""
    decreases |s|
  {
    if |s| > 0 {
      AllWhitespaceTrimsAway(s[1..]);
    }
  }

  function LowerChar(c: char): (r: char)
    ensures IsUpper(c) ==> IsLower(r)
    ensures !IsUpper(c) ==> r == c
  {
    if IsUpper(c) then (c as int + 32) as char else c
  }

  /** ASCII lower-casing (`toLowerCase` restricted to the ASCII range). */
  function LowerAscii(s: string): (r: string)
    ensures |r| == |s|
    ensures forall i :: 0 <= i < |s| ==> r[i] == LowerChar(s[i])
  {
    seq(|s|, i requires 0 <= i < |s| => LowerChar(s[i]))
  }

  predicate StartsWith(s: string, p: string) { |p| <= |s| && s[..|p|] == p }
  predicate EndsWith(s: string, p: string) { |p| <= |s| && s[|s| - |p|..] == p }

  /** `sub` occurs in `s` at offset `i`. */
  predicate OccursAt(s: string, sub: string, i: int) {
    0 <= i && i + |sub| <= |s| && s[i..i + |sub|] == sub
  }

  /** `s.includes(sub)` */
  predicate Contains(s: string, sub: string) { exists i :: 0 <= i <= |s| && OccursAt(s, sub, i) }

  /** `s.indexOf(sep)` as an option: the first offset at which `sep` occurs. */
  function Find(s: string, sep: string): (r: Option<nat>)
    requires |sep| > 0
    ensures r.Some? ==> OccursAt(s, sep, r.value)
    ensures r.Some? ==> forall j :: 0 <= j < r.value ==> !OccursAt(s, sep, j)
    ensures r.None? ==> !Contains(s, sep)
    decreases |s|
  {
    if |s| < |sep| then None
    else if s[..|sep|] == sep then Some(0)
    else
      match Find(s[1..], sep)
      case None =>
        assert forall j :: 1 <= j && OccursAt(s, sep, j) ==> OccursAt(s[1..], sep, j - 1);
        None
      case Some(k) =>
        assert s[1..][k..k + |sep|] == s[k + 1..k + 1 + |sep|];
        assert forall j :: 1 <= j && OccursAt(s, sep, j) ==> OccursAt(s[1..], sep, j - 1);
        Some(k + 1)
  }

  /** `s.split(sep)` for a non-empty separator: the pieces between successive
      left-most non-overlapping occurrences of `sep`. */
  function Split(s: string, sep: string): (r: seq<string>)
    requires |sep| > 0
    ensures |r| >= 1
    ensures forall k :: 0 <= k < |r| ==> !Contains(r[k], sep)
    decreases |s|
  {
    match Find(s, sep)
    case None => [s]
    case Some(i) =>
      assert !Contains(s[..i], sep) by {
        forall j | OccursAt(s[..i], sep, j) ensures false {
          assert OccursAt(s, sep, j);
        }
      }
      [s[..i]] + Split(s[i + |sep|..], sep)
  }

  /** `parts.join(sep)` */
  function Join(parts: seq<string>, sep: string): string
  {
    if |parts| == 0 then ""
    else if |parts| == 1 then parts[0]
    else parts[0] + sep + Join(parts[1..], sep)
  }

  /** Splitting and joining again with the same separator gives the input back. */
  lemma {:induction false} JoinSplit(s: string, sep: string)
    requires |sep| > 0
    ensures Join(Split(s, sep), sep) == s
    decreases |s|
  {
    match Find(s, sep)
    case None =>
    case Some(i) =>
      var rest := s[i + |sep|..];
      var tail := Split(rest, sep);
      JoinSplit(rest, sep);
      var parts := [s[..i]] + tail;
      assert Split(s, sep) == parts;
      assert parts[1..] == tail;
      assert Join(parts, sep) == s[..i] + sep + Join(tail, sep);
      assert s == s[..i] + sep + rest;
  }

  /** When the separator placed after `a` is the left-most occurrence, the
      split of `a + sep + b` is `a` followed by the split of `b`. */
  lemma SplitHead(a: string, b: string, sep: string)
    requires |sep| > 0
    requires forall j :: 0 <= j < |a| ==> !OccursAt(a + sep, sep, j)
    ensures Split(a + sep + b, sep) == [a] + Split(b, sep)
  {
    var s := a + sep + b;
    var head := a + sep;
    assert s[..|head|] == head;
    assert s[|a|..|a| + |sep|] == sep;
    forall j | 0 <= j < |a| ensures !OccursAt(s, sep, j) {
      var w := s[j..j + |sep|];
      var v := head[j..j + |sep|];
      assert forall k :: 0 <= k < |w| ==> w[k] == s[j + k] == head[j + k] == v[k];
      assert w == v;
      assert !OccursAt(head, sep, j);
    }
    FindFirst(s, sep, |a|);
    assert s[..|a|] == a;
    assert s[|a| + |sep|..] == b;
  }

  /** A string without the separator is its own single piece. */
  lemma NoOccurrenceSplit(b: string, sep: string)
    requires |sep| > 0
    requires !Contains(b, sep)
    ensures Split(b, sep) == [b]
  {
  }

  /** No `--` inside and no trailing `-`: such a string followed by `--`
      holds its first `--` right after itself. */
  predicate DashSafe(a: string)
  {
    (forall k :: 0 <= k < |a| - 1 ==> !(a[k] == '-' && a[k + 1] == '-'))
    && (|a| > 0 ==> a[|a| - 1] != '-')
  }

  lemma DashSafeSeparator(a: string)
    requires DashSafe(a)
    ensures forall j :: 0 <= j < |a| ==> !OccursAt(a + "--", "--", j)
    ensures !Contains(a, "--")
  {
    var h := a + "--";
    forall j | 0 <= j < |a| ensures !OccursAt(h, "--", j) {
      if j + 1 < |a| {
        assert h[j] == a[j] && h[j + 1] == a[j + 1];
        assert !(a[j] == '-' && a[j + 1] == '-');
      } else {
        assert h[j] == a[|a| - 1] != '-';
      }
    }
    forall j | 0 <= j <= |a| ensures !OccursAt(a, "--", j) {
      if j + 2 <= |a| {
        assert !(a[j] == '-' && a[j + 1] == '-');
      }
    }
  }

  /** The first occurrence is the one `Find` reports. */
  lemma FindFirst(s: string, sep: string, k: nat)
    requires |sep| > 0
    requires OccursAt(s, sep, k)
    requires forall j :: 0 <= j < k ==> !OccursAt(s, sep, j)
    ensures Find(s, sep) == Some(k)
  {
    var f := Find(s, sep);
    if f.None? {
      assert 0 <= k <= |s|;
      assert Contains(s, sep);
    }
  }

  /** Value of a decimal digit string (`parseInt(s, 10)` for digit strings). */
  function DecimalValue(s: string): (n: nat)
    requires AllDigits(s)
  {
    if |s| == 0 then 0 else DecimalValue(s[..|s| - 1]) * 10 + (s[|s| - 1] as int - '0' as int)
  }

  function HexDigitValue(c: char): (n: nat)
    requires IsHex(c)
    ensures n < 16
  {
    if IsDigit(c) then c as int - '0' as int
    else if 'a' <= c <= 'f' then c as int - 'a' as int + 10
    else c as int - 'A' as int + 10
  }

  /** Value of a hexadecimal digit string (`parseInt(s, 16)`). */
  function HexValue(s: string): (n: nat)
    requires forall i :: 0 <= i < |s| ==> IsHex(s[i])
  {
    if |s| == 0 then 0 else HexValue(s[..|s| - 1]) * 16 + HexDigitValue(s[|s| - 1])
  }

  /** The decimal digit for `d < 10`. */
  function DigitChar(d: nat): (c: char)
    requires d < 10
    ensures IsDigit(c)
  {
    ('0' as int + d) as char
  }

  /** `n` written with exactly `width` decimal digits (zero-padded on the left,
      the way `%02d` or Python's `%f` write a field). */
  function PadDecimal(n: nat, width: nat): (s: string)
    ensures Digits(s, width)
  {
    if width == 0 then "" else PadDecimal(n / 10, width - 1) + [DigitChar(n % 10)]
  }

  /** Writing a number that fits and reading it back gives the number. */
  lemma {:induction false} PadDecimalValue(n: nat, width: nat, bound: nat)
    requires bound == Pow10(width) && n < bound
    ensures DecimalValue(PadDecimal(n, width)) == n
    decreases width
  {
    if width > 0 {
      var s := PadDecimal(n, width);
      PadDecimalValue(n / 10, width - 1, Pow10(width - 1));
      assert s[..|s| - 1] == PadDecimal(n / 10, width - 1);
    }
  }

  /** Reading a digit string and writing it back with the same width gives the
      digit string. */
  lemma {:induction false} DecimalValuePad(s: string)
    requires AllDigits(s)
    ensures DecimalValue(s) < Pow10(|s|)
    ensures PadDecimal(DecimalValue(s), |s|) == s
    decreases |s|
  {
    if |s| > 0 {
      var p := s[..|s| - 1];
      DecimalValuePad(p);
      var n := DecimalValue(s);
      var d := s[|s| - 1] as int - '0' as int;
      assert n / 10 == DecimalValue(p) && n % 10 == d;
      assert s == p + [s[|s| - 1]];
    }
  }

  /** The decimal text of `n` without leading zeros (`${n}` in a template
      string). */
  function NatText(n: nat): (s: string)
    ensures SomeDigits(s)
    ensures |s| > 1 ==> s[0] != '0'
  {
    if n < 10 then [DigitChar(n)] else NatText(n / 10) + [DigitChar(n % 10)]
  }

  /** The text reads back as the number. */
  lemma {:induction false} NatTextValue(n: nat)
    ensures DecimalValue(NatText(n)) == n
  {
    if n >= 10 {
      NatTextValue(n / 10);
      var s := NatText(n);
      assert s[..|s| - 1] == NatText(n / 10);
    }
  }

  function Pow10(k: nat): (r: nat)
    ensures r >= 1
  {
    if k == 0 then 1 else 10 * Pow10(k - 1)
  }
}

=== FILE: tactic.dfy ===
/** The tactic object (src/schemas/sdo/tactic.schema.ts): the shortname
    vocabulary, the ATT&CK base extended with the tactic properties, all
    fifteen named properties required, and the check of the first
    reference's ID. */
module Tactic {
  import opened Wrappers
  import opened Strings
  import opened JsonValues
  import opened Schema
  import opened Generics
  import opened AttackIds
  import opened StixIdentifier
  import opened CommonProperties
  import opened ExternalReferences
  import opened StixCore
  import opened AttackBase

  //---------------------------------------------------------------------------
  // shortnames
  //---------------------------------------------------------------------------

  /** `supportedMitreShortNames`, in the order written, repetitions
      included: the enterprise, mobile and ICS tactic lists one after the
      other. */
  const ShortNames: seq<string> := [
    "credential-access", "execution", "impact", "persistence", "privilege-escalation",
    "lateral-movement", "defense-evasion", "exfiltration", "discovery", "collection",
    "resource-development", "reconnaissance", "command-and-control", "initial-access",
    "inhibit-response-function", "privilege-escalation", "lateral-movement", "discovery",
    "initial-access", "impact", "persistence", "execution", "command-and-control", "collection",
    "evasion", "impair-process-control", "initial-access", "exfiltration", "persistence",
    "privilege-escalation", "command-and-control", "execution", "impact", "credential-access",
    "collection", "lateral-movement", "defense-evasion", "network-effects", "discovery",
    "remote-service-effects"
  ]

  /** The nineteen different shortnames. */
  const ShortNameSet: set<string> := {
    "credential-access", "execution", "impact", "persistence", "privilege-escalation",
    "lateral-movement", "defense-evasion", "exfiltration", "discovery", "collection",
    "resource-development", "reconnaissance", "command-and-control", "initial-access",
    "inhibit-response-function", "evasion", "impair-process-control", "network-effects",
    "remote-service-effects"
  }

  /** `xMitreShortNameSchema` */
  function ShortName(v: Json): Parsed
  {
    Enum(ShortNames, v)
  }

  /** The repetitions change nothing: a shortname is accepted exactly when
      it is one of the nineteen different names. */
  lemma ShortNameAccepts(v: Json)
    ensures ShortName(v).Ok? <==> v.JStr? && v.s in ShortNameSet
  {
    ListedNamesInSet(0, 10);
    ListedNamesInSet(10, 20);
    ListedNamesInSet(20, 30);
    ListedNamesInSet(30, 40);
    SetNamesListed();
  }

  lemma ListedNamesInSet(lo: nat, hi: nat)
    requires lo <= hi <= |ShortNames| && hi - lo <= 10
    ensures forall k :: lo <= k < hi ==> ShortNames[k] in ShortNameSet
  {
  }

  lemma SetNamesListed()
    ensures forall x :: x in ShortNameSet ==> x in ShortNames
  {
    var n := ShortNames;
    assert n[0] == "credential-access" && n[1] == "execution" && n[2] == "impact" && n[3] == "persistence";
    assert n[4] == "privilege-escalation" && n[5] == "lateral-movement" && n[6] == "defense-evasion";
    assert n[7] == "exfiltration" && n[8] == "discovery" && n[9] == "collection";
    assert n[10] == "resource-development" && n[11] == "reconnaissance" && n[12] == "command-and-control";
    assert n[13] == "initial-access" && n[14] == "inhibit-response-function" && n[24] == "evasion";
    assert n[25] == "impair-process-control" && n[37] == "network-effects" && n[39] == "remote-service-effects";
  }

  //---------------------------------------------------------------------------
  // the ID check
  //---------------------------------------------------------------------------

  /** `/TA\d{4}$/.test(s)`: the pattern is anchored at the end only, so it
      holds for any string that ends in `TA` and four digits. */
  predicate EndsWithTacticId(s: string)
  {
    |s| >= 6 && s[|s| - 6..|s| - 4] == "TA" && AllDigits(s[|s| - 4..])
  }

  const TacticFormatMessage := "The first external_reference must match the ATT&CK ID format TA####}."

  /** The superRefine of the tactic schema: a falsy first `external_id` is
      reported as undefined at its path; otherwise an ID the pattern does
      not find is reported without a path. */
  function TacticIdIssues(v: Json): (r: seq<Issue>)
    ensures |r| <= 1
  {
    var id := FirstExternalId(v);
    if !Truthy(id) then [Issue(IdPath, MissingIdMessage)]
    else if id.value.JStr? && EndsWithTacticId(id.value.s) then []
    else [Issue([], TacticFormatMessage)]
  }

  /** The check passes exactly when the first ID is a string ending in a
      tactic ID; a missing or empty ID is the undefined-ID issue. */
  lemma TacticIdAccepts(v: Json)
    ensures TacticIdIssues(v) == [] <==>
      FirstExternalId(v).Some? && FirstExternalId(v).value.JStr? && EndsWithTacticId(FirstExternalId(v).value.s)
    ensures !Truthy(FirstExternalId(v)) ==> TacticIdIssues(v) == [Issue(IdPath, MissingIdMessage)]
  {
  }

  /** The end-anchored pattern holds exactly when the last six characters
      are a tactic ID. */
  lemma EndsWithIffSuffixMatches(s: string)
    ensures EndsWithTacticId(s) <==> |s| >= 6 && Matches(TacticId, s[|s| - 6..])
  {
    if |s| >= 6 {
      var t := s[|s| - 6..];
      assert t[..2] == s[|s| - 6..|s| - 4];
      assert t[2..] == s[|s| - 4..];
    }
  }

  /** The pattern misses its start anchor: an ID with anything in front of
      a tactic ID passes, although it is no tactic ID. */
  lemma UnanchoredAccepted()
    ensures EndsWithTacticId("XTA0001")
    ensures !Matches(TacticId, "XTA0001")
  {
    assert "XTA0001"[1..3] == "TA";
    assert AllDigits("XTA0001"[3..]) by {
      var d := "XTA0001"[3..];
      assert d == "0001";
      assert forall k :: 0 <= k < |d| ==> IsDigit(d[k]);
    }
  }

  /** `TA123` is refused: it is too short. */
  lemma ShortIdRefused()
    ensures !EndsWithTacticId("TA123")
  {
  }

  /** The check as evidently intended: the whole ID is a tactic ID. */
  function AnchoredTacticIdIssues(v: Json): (r: seq<Issue>)
    ensures |r| <= 1
  {
    var id := FirstExternalId(v);
    if !Truthy(id) then [Issue(IdPath, MissingIdMessage)]
    else if id.value.JStr? && Matches(TacticId, id.value.s) then []
    else [Issue([], TacticFormatMessage)]
  }

  /** The intended check passes exactly on tactic IDs, and passes nothing
      the written check refuses. */
  lemma AnchoredTacticIdAccepts(v: Json)
    ensures AnchoredTacticIdIssues(v) == [] <==>
      FirstExternalId(v).Some? && FirstExternalId(v).value.JStr? && Matches(TacticId, FirstExternalId(v).value.s)
    ensures AnchoredTacticIdIssues(v) == [] ==> TacticIdIssues(v) == []
  {
    var id := FirstExternalId(v);
    if id.Some? && id.value.JStr? && Matches(TacticId, id.value.s) {
      EndsWithIffSuffixMatches(id.value.s);
      assert id.value.s[|id.value.s| - 6..] == id.value.s;
    }
  }

  //---------------------------------------------------------------------------
  // the tactic schema
  //---------------------------------------------------------------------------

  /** The properties `.extend` adds to or replaces in the ATT&CK base. */
  const TacticExtension: seq<Field> := [
    Field("id", true, Leaf(v => CreateStixIdentifierSchema("x-mitre-tactic", v))),
    Field("type", true, Leaf(v => Literal("x-mitre-tactic", v))),
    Field("description", true, Description),
    Field("created_by_ref", true, Leaf(CreatedByRef)),
    Field("external_references", true, CommonExternalReferences),
    Field("object_marking_refs", true, CommonObjectMarkingRefs),
    Field("x_mitre_domains", true, XMitreDomains),
    Field("x_mitre_shortname", true, Leaf(ShortName)),
    Field("x_mitre_modified_by_ref", true, Leaf(CommonModifiedByRef))
  ]

  /** The keys of `.required({...})`. */
  const TacticRequired: set<string> := {
    "created", "created_by_ref", "description", "external_references", "id", "modified", "name",
    "object_marking_refs", "spec_version", "type", "x_mitre_attack_spec_version", "x_mitre_domains",
    "x_mitre_modified_by_ref", "x_mitre_shortname", "x_mitre_version"
  }

  function TacticFields(): seq<Field>
  {
    ExtendRequire(AttackBaseFields, TacticExtension, TacticRequired)
  }

  const TacticShape: Kind := Object(TacticFields(), Strict)

  /** `tacticSchema` */
  const TacticObject: Kind := Refined(TacticShape, TacticIdIssues)

  /** The names the extension declares. */
  lemma ExtensionNames()
    ensures Schema.Names(TacticExtension) == {
      "id", "type", "description", "created_by_ref", "external_references", "object_marking_refs",
      "x_mitre_domains", "x_mitre_shortname", "x_mitre_modified_by_ref"}
  {
    var e := TacticExtension;
    assert e[0].name == "id" && e[1].name == "type" && e[2].name == "description";
    assert e[3].name == "created_by_ref" && e[4].name == "external_references" && e[5].name == "object_marking_refs";
    assert e[6].name == "x_mitre_domains" && e[7].name == "x_mitre_shortname" && e[8].name == "x_mitre_modified_by_ref";
  }

  /** The extension declares each name once. */
  lemma ExtensionDistinct()
    ensures DistinctNames(TacticExtension)
  {
    var e := TacticExtension;
    assert |e[0].name| == 2 && |e[1].name| == 4 && |e[2].name| == 11 && |e[3].name| == 14 && |e[4].name| == 19;
    assert |e[5].name| == 19 && |e[6].name| == 15 && |e[7].name| == 17 && |e[8].name| == 23;
    assert e[4].name[0] != e[5].name[0];
  }

  /** Where the required keys are declared, apart from the composed table. */
  lemma RequiredDeclared()
    ensures TacticRequired <= Schema.Names(AttackBaseFields) + Schema.Names(TacticExtension)
    ensures DistinctNames(TacticExtension)
  {
    AttackBaseDeclares();
    ExtensionNames();
    ExtensionDistinct();
  }

  lemma RequiredPresent(m: map<string, Json>)
    requires Accepts(TacticShape, JObj(m))
    ensures TacticRequired <= m.Keys
  {
    RequiredDeclared();
    ExtendedRequiredAll(AttackBaseFields, TacticExtension, TacticRequired, Strict, m);
  }

  /** The declarations of the shortname and the references. */
  lemma ExtensionKinds(n: string)
    requires n == "x_mitre_shortname" || n == "external_references"
    ensures Lookup(TacticExtension, n).Some?
    ensures n == "x_mitre_shortname" ==> Lookup(TacticExtension, n).value.kind == Leaf(ShortName)
    ensures n == "external_references" ==> Lookup(TacticExtension, n).value.kind == CommonExternalReferences
  {
    RequiredDeclared();
    if n == "x_mitre_shortname" {
      LookupDistinct(TacticExtension, 7);
    } else {
      LookupDistinct(TacticExtension, 4);
    }
  }

  lemma ShortNameParsed(m: map<string, Json>)
    requires Accepts(TacticShape, JObj(m)) && "x_mitre_shortname" in m
    ensures Accepts(Leaf(ShortName), m["x_mitre_shortname"])
  {
    ExtensionKinds("x_mitre_shortname");
    ExtendedValue(AttackBaseFields, TacticExtension, TacticRequired, Strict, m, "x_mitre_shortname");
  }

  lemma ShortNameAccepted(x: Json)
    requires Accepts(Leaf(ShortName), x)
    ensures x.JStr? && x.s in ShortNameSet
  {
    ShortNameAccepts(x);
  }

  /** Parsing keeps the first reference's ID. */
  lemma FirstIdKept(m: map<string, Json>)
    requires Accepts(TacticShape, JObj(m)) && "external_references" in m
    ensures FirstExternalId(CheckValue(TacticShape, JObj(m)).value) == FirstExternalId(JObj(m))
  {
    ExtensionKinds("external_references");
    ExtendedValue(AttackBaseFields, TacticExtension, TacticRequired, Strict, m, "external_references");
    FirstIdOfList(m, CheckValue(TacticShape, JObj(m)).value);
  }

  /** An accepted tactic holds the fifteen required properties and no
      undeclared one, a shortname from the vocabulary, and a first
      reference whose ID is a string ending in a tactic ID. */
  lemma TacticAccepted(m: map<string, Json>)
    requires Accepts(TacticObject, JObj(m))
    ensures TacticRequired <= m.Keys
    ensures m.Keys <= Schema.Names(AttackBaseFields) + Schema.Names(TacticExtension)
    ensures m["x_mitre_shortname"].JStr? && m["x_mitre_shortname"].s in ShortNameSet
    ensures TaggedWithTacticId(m)
  {
    RefinedAccepts(TacticShape, TacticIdIssues, JObj(m));
    RequiredPresent(m);
    ExtendedStrict(AttackBaseFields, TacticExtension, TacticRequired, m);
    ShortNameParsed(m);
    ShortNameAccepted(m["x_mitre_shortname"]);
    FirstIdKept(m);
    TacticIdAccepts(CheckValue(TacticShape, JObj(m)).value);
  }

  /** The first reference's ID is a string ending in a tactic ID. */
  predicate TaggedWithTacticId(m: map<string, Json>)
  {
    var id := FirstExternalId(JObj(m));
    id.Some? && id.value.JStr? && EndsWithTacticId(id.value.s)
  }
}

=== FILE: technique.dfy ===
/** The technique (`attack-pattern`) object: the properties only
    techniques carry, the table that extends the ATT&CK base with them, and
    the refinement that checks the ATT&CK ID and the domain-only properties
    (src/schemas/sdo/technique.schema.ts). */
module Technique {
  import opened Wrappers
  import opened Strings
  import opened JsonValues
  import opened Schema
  import opened Generics
  import opened AttackIds
  import opened StixIdentifier
  import opened CommonProperties
  import opened ExternalReferences
  import opened KillChains
  import opened Refinements
  import opened StixCore
  import opened AttackBase

  //---------------------------------------------------------------------------
  // property schemas
  //---------------------------------------------------------------------------

  const EffectivePermissions: seq<string> := ["Administrator", "SYSTEM", "User", "root"]
  const EffectivePermissionsMessage := "Effective permissions must be unique (no duplicates allowed)."

  /** `xMitreEffectivePermissionsSchema`: at least one, no repetition. */
  const EffectivePermissionList: Kind := UniqueEnumList(EffectivePermissions, 1, EffectivePermissionsMessage)

  const ImpactTypes: seq<string> := ["Availability", "Integrity"]

  /** `xMitreImpactTypeSchema`: possibly empty, repetition allowed. */
  const ImpactTypeList: Kind := ArrayOf(Leaf(v => Enum(ImpactTypes, v)), 0, None)

  /** `xMitreSystemRequirementsSchema` */
  const SystemRequirements: Kind := ArrayOf(Leaf(AnyString), 0, None)

  const PermissionsRequired: seq<string> := ["Remote Desktop Users", "SYSTEM", "Administrator", "root", "User"]

  /** `xMitrePermissionsRequiredSchema`: at least one; repetition is not
      checked. */
  const PermissionsRequiredList: Kind := ArrayOf(Leaf(v => Enum(PermissionsRequired, v)), 1, None)

  const DataSourceMessage := "Each entry must conform to the pattern '<Data Source Name>: <Data Component Name>'"

  /** A data source entry: exactly one colon, with non-blank text on both
      sides of it. */
  predicate IsDataSource(s: string)
  {
    var parts := Split(s, ":");
    |parts| == 2 && Trim(parts[0]) != "" && Trim(parts[1]) != ""
  }

  /** `xMitreDataSourceSchema` */
  function DataSource(v: Json): (r: Parsed)
    ensures r.Ok? <==> v.JStr? && IsDataSource(v.s)
    ensures r.Ok? ==> r.value == v
  {
    if v.JStr? && IsDataSource(v.s) then Ok(v) else Fail(DataSourceMessage)
  }

  /** `xMitreDataSourcesSchema`: possibly empty. */
  const DataSourceList: Kind := ArrayOf(Leaf(DataSource), 0, None)

  const TacticTypes: seq<string> :=
    ["Post-Adversary Device Access", "Pre-Adversary Device Access", "Without Adversary Device Access"]

  /** `xMitreTacticTypeSchema` */
  const TacticTypeList: Kind := ArrayOf(Leaf(v => Enum(TacticTypes, v)), 0, None)

  const DefenseBypasses: seq<string> := [
    "Signature-based detection", "Multi-Factor Authentication", "Network Intrusion Detection System",
    "Application Control", "Host forensic analysis", "Exploit Prevention", "Signature-based Detection",
    "Data Execution Prevention", "Heuristic Detection", "File system access controls", "File Monitoring",
    "Digital Certificate Validation", "Logon Credentials", "Firewall", "Host Forensic Analysis",
    "Static File Analysis", "Heuristic detection", "Notarization", "System access controls",
    "Binary Analysis", "Web Content Filters", "Network intrusion detection system",
    "Host intrusion prevention systems", "Application control", "Defensive network service scanning",
    "User Mode Signature Validation", "Encryption", "Log Analysis", "Autoruns Analysis", "Anti Virus",
    "Gatekeeper", "Anti-virus", "Log analysis", "Process whitelisting", "Host Intrusion Prevention Systems",
    "Windows User Account Control", "System Access Controls", "Application whitelisting",
    "Whitelisting by file name or path", "File monitoring"
  ]
  const DefenseBypassedMessage := "Mitre defense bypasses must be unique (no duplicates allowed)."

  /** `xMitreDefenseBypassesSchema`: at least one, no repetition. */
  const DefenseBypassedList: Kind := UniqueEnumList(DefenseBypasses, 1, DefenseBypassedMessage)

  /** The technique file's own `killChainPhaseSchema`: unlike the shared
      one, the phase name is any string, neither trimmed nor required to be
      non-blank, before the phase-name rule runs. */
  const TechniquePhaseFields: seq<Field> :=
    [Field("phase_name", true, Refined(Leaf(AnyString), PhaseRule)), Field("kill_chain_name", true, Leaf(KillChainName))]

  const TechniquePhase: Kind := Object(TechniquePhaseFields, Strict)

  //---------------------------------------------------------------------------
  // data sources
  //---------------------------------------------------------------------------

  /** The entry for a data component of a data source. */
  function DataSourceText(source: string, component: string): string
  {
    source + ": " + component
  }

  /** A colon-free string followed by a colon is split right after
      itself. */
  lemma SplitAfterColonFree(head: string, rest: string)
    requires !Contains(head, ":")
    ensures Split(head + ":" + rest, ":") == [head] + Split(rest, ":")
  {
    forall j | 0 <= j < |head| ensures !OccursAt(head + ":", ":", j) {
      if OccursAt(head + ":", ":", j) {
        assert (head + ":")[j] == ':';
        assert OccursAt(head, ":", j);
      }
    }
    SplitHead(head, rest, ":");
  }

  /** A space before a colon-free string adds no colon. */
  lemma SpacedColonFree(s: string)
    requires !Contains(s, ":")
    ensures !Contains(" " + s, ":")
  {
    if Contains(" " + s, ":") {
      var i :| 0 <= i <= |" " + s| && OccursAt(" " + s, ":", i);
      assert (" " + s)[i] == ':';
      assert OccursAt(s, ":", i - 1);
    }
  }

  /** Splitting an entry at the colon gives the source and the spaced
      component back. */
  lemma DataSourceTextSplit(source: string, component: string)
    requires !Contains(source, ":") && !Contains(component, ":")
    ensures Split(DataSourceText(source, component), ":") == [source, " " + component]
  {
    var tail := " " + component;
    assert DataSourceText(source, component) == source + ":" + tail;
    SplitAfterColonFree(source, tail);
    SpacedColonFree(component);
    NoOccurrenceSplit(tail, ":");
  }

  /** A colon-free, non-blank source and component always make an accepted
      entry. */
  lemma DataSourceTextAccepted(source: string, component: string)
    requires !Contains(source, ":") && !Contains(component, ":")
    requires Trim(source) != "" && Trim(component) != ""
    ensures IsDataSource(DataSourceText(source, component))
  {
    DataSourceTextSplit(source, component);
    TrimLeadingSpace(component);
  }

  /** A leading space does not change the trimmed text. */
  lemma TrimLeadingSpace(s: string)
    ensures Trim(" " + s) == Trim(s)
  {
    assert (" " + s)[1..] == s;
  }

  /** Every accepted entry is its two pieces joined by the colon. */
  lemma DataSourcePieces(s: string)
    requires IsDataSource(s)
    ensures var parts := Split(s, ":"); s == parts[0] + ":" + parts[1]
  {
    JoinSplit(s, ":");
    var parts := Split(s, ":");
    assert parts[1..] == [parts[1]];
  }

  //---------------------------------------------------------------------------
  // kill chain phases
  //---------------------------------------------------------------------------

  /** A technique's kill chain phase is accepted exactly when it has a
      string phase name that passes the phase-name rule as given, a known
      kill chain name, and no other key. */
  lemma TechniquePhaseAccepts(m: map<string, Json>)
    ensures Accepts(TechniquePhase, JObj(m)) <==>
            "phase_name" in m && m["phase_name"].JStr? && IsPhaseName(m["phase_name"].s)
            && "kill_chain_name" in m && m["kill_chain_name"].JStr? && m["kill_chain_name"].s in KillChainNames
            && m.Keys <= {"phase_name", "kill_chain_name"}
  {
    ObjectAccepts(TechniquePhaseFields, Strict, m);
    assert Schema.Names(TechniquePhaseFields) == {"phase_name", "kill_chain_name"} by {
      assert TechniquePhaseFields[0].name == "phase_name";
      assert TechniquePhaseFields[1].name == "kill_chain_name";
    }
    if "phase_name" in m {
      RefinedAccepts(Leaf(AnyString), PhaseRule, m["phase_name"]);
    }
    assert FieldOk(TechniquePhaseFields[0], m) <==> "phase_name" in m && m["phase_name"].JStr? && IsPhaseName(m["phase_name"].s);
  }

  /** The technique's phase schema and the shared one each accept a phase
      the other refuses: an empty phase name passes here only, a phase name
      with a leading space passes the shared, trimming schema only. */
  lemma PhaseSchemasDiffer()
    ensures Accepts(TechniquePhase, JObj(map["phase_name" := JStr(""), "kill_chain_name" := JStr("mitre-attack")]))
    ensures !Accepts(KillChainPhase, JObj(map["phase_name" := JStr(""), "kill_chain_name" := JStr("mitre-attack")]))
    ensures !Accepts(TechniquePhase, JObj(map["phase_name" := JStr(" impact"), "kill_chain_name" := JStr("mitre-attack")]))
    ensures Accepts(KillChainPhase, JObj(map["phase_name" := JStr(" impact"), "kill_chain_name" := JStr("mitre-attack")]))
  {
    var e := map["phase_name" := JStr(""), "kill_chain_name" := JStr("mitre-attack")];
    var s := map["phase_name" := JStr(" impact"), "kill_chain_name" := JStr("mitre-attack")];
    assert KillChainNames[0] == "mitre-attack";
    TechniquePhaseAccepts(e);
    KillChainPhaseAccepts(e);
    PhaseNameAccepts(JStr(""));
    TechniquePhaseAccepts(s);
    assert s["phase_name"].s[0] == ' ';
    KillChainPhaseAccepts(s);
    PhaseNameAccepts(JStr(" impact"));
    ImpactTrimmed();
  }

  /** `" impact"` trims to `"impact"`, a phase name. */
  lemma ImpactTrimmed()
    ensures Trim(" impact") == "impact" && !AllWhitespace(" impact")
    ensures forall i :: 0 <= i < |Trim(" impact")| ==> !IsUpper(Trim(" impact")[i])
    ensures ' ' !in Trim(" impact") && '_' !in Trim(" impact")
  {
    TrimLeadingSpace("impact");
    TrimSolid("impact");
    assert !IsJsWhitespace(" impact"[1]);
  }

  //---------------------------------------------------------------------------
  // the refinement
  //---------------------------------------------------------------------------

  /** The ID pattern `x_mitre_is_subtechnique` selects. */
  function IdPattern(v: Json): IdFormat
  {
    if Truthy(Get(v, "x_mitre_is_subtechnique")) then SubtechniqueId else TechniqueId
  }

  /** The first reference's ID is a string of the selected shape. */
  predicate HasTechniqueId(v: Json)
  {
    FirstExternalId(v).Some? && FirstExternalId(v).value.JStr? && Matches(IdPattern(v), FirstExternalId(v).value.s)
  }

  /** The ID check: a falsy ID is reported as undefined; any other that is
      not a string of the selected shape, with the format message. Unlike
      the shared ATT&CK ID refinement, the source name is not checked. */
  function TechniqueIdIssues(v: Json): (r: seq<Issue>)
    ensures r == [] <==> HasTechniqueId(v)
    ensures r != [] ==> |r| == 1 && r[0].path == IdPath
    ensures !Truthy(FirstExternalId(v)) ==> r == [Issue(IdPath, UndefinedIdMessage)]
  {
    var id := FirstExternalId(v);
    if !Truthy(id) then
      [Issue(IdPath, UndefinedIdMessage)]
    else if id.value.JStr? && Matches(IdPattern(v), id.value.s) then []
    else [Issue(IdPath, IdFormatMessage(Truthy(Get(v, "x_mitre_is_subtechnique"))))]
  }

  /** The mobile checks of the technique file: the same two conditions as
      the shared mobile-only refinement, reported without a path. */
  function TechniqueMobileIssues(v: Json): (r: seq<Issue>)
    ensures |r| <= 2
    ensures forall k :: 0 <= k < |r| ==> r[k].path == []
  {
    (if HasLength(Get(v, "x_mitre_tactic_type")) && !InDomain(v, Mobile) then [Issue([], TacticTypeMessage)] else [])
    + (if Truthy(Get(v, "x_mitre_data_sources")) && InDomain(v, Mobile) then [Issue([], MobileDataSourcesMessage)] else [])
  }

  /** The `superRefine` of `techniqueSchema`, in the order it reports. */
  function TechniqueRule(v: Json): seq<Issue>
  {
    TechniqueIdIssues(v) + FieldIssues(v, EnterpriseOnlyFields) + TechniqueMobileIssues(v)
  }

  /** The refinement passes exactly when the ID has the selected shape, the
      enterprise-only properties are allowed, tactic types appear only in
      the mobile domain and data sources only outside it. */
  lemma TechniqueRuleAccepts(v: Json)
    ensures TechniqueRule(v) == [] <==>
      HasTechniqueId(v)
      && (forall k :: 0 <= k < |EnterpriseOnlyFields| ==> FieldAllowed(v, EnterpriseOnlyFields[k].0, EnterpriseOnlyFields[k].1))
      && (HasLength(Get(v, "x_mitre_tactic_type")) ==> InDomain(v, Mobile))
      && (Truthy(Get(v, "x_mitre_data_sources")) ==> !InDomain(v, Mobile))
  {
  }

  /** The technique's mobile checks are the shared mobile-only refinement
      with the paths removed: same messages, same order. */
  lemma MobileIssuesUnplaced(v: Json)
    ensures |TechniqueMobileIssues(v)| == |MobileOnlyRule(v)|
    ensures forall k :: 0 <= k < |MobileOnlyRule(v)| ==>
      TechniqueMobileIssues(v)[k] == Issue([], MobileOnlyRule(v)[k].message) && MobileOnlyRule(v)[k].path != []
  {
  }

  /** Whatever the shared ATT&CK ID refinement accepts, the technique's ID
      check accepts too. */
  lemma IdCheckWeakerThanShared(v: Json)
    requires AttackIdRule(v) == []
    ensures TechniqueIdIssues(v) == []
  {
    AttackIdAccepts(v);
    var refs :| Get(v, "external_references") == Some(JArr(refs)) && |refs| > 0
      && GetString(refs[0], "source_name") == Some("mitre-attack")
      && GetString(refs[0], "external_id").Some?
      && Matches(IdPattern(v), GetString(refs[0], "external_id").value);
    assert FirstReference(v) == Some(refs[0]);
  }

  /** The converse fails: a first reference from another source, here
      `capec`, passes the technique's ID check but not the shared one. */
  lemma ForeignSourceTolerated()
    ensures var v := JObj(map[
        "external_references" := JArr([JObj(map["source_name" := JStr("capec"), "external_id" := JStr("T1059")])]),
        "x_mitre_is_subtechnique" := JBool(false)]);
      TechniqueIdIssues(v) == [] && AttackIdRule(v) != []
  {
    var r := JObj(map["source_name" := JStr("capec"), "external_id" := JStr("T1059")]);
    var v := JObj(map["external_references" := JArr([r]), "x_mitre_is_subtechnique" := JBool(false)]);
    assert FirstReference(v) == Some(r);
    assert GetString(r, "external_id") == Some("T1059");
    assert AllDigits("T1059"[1..]);
    assert Matches(TechniqueId, "T1059");
    assert GetString(r, "source_name") != Some("mitre-attack");
  }

  //---------------------------------------------------------------------------
  // the object schema
  //---------------------------------------------------------------------------

  /** The properties `.extend` adds to or replaces in the ATT&CK base. */
  const TechniqueExtension: seq<Field> := [
    Field("id", true, Leaf(v => CreateStixIdentifierSchema("attack-pattern", v))),
    Field("type", true, Leaf(v => Literal("attack-pattern", v))),
    Field("external_references", true, CommonExternalReferences),
    Field("kill_chain_phases", false, ArrayOf(TechniquePhase, 0, None)),
    Field("description", false, Description),
    Field("x_mitre_platforms", false, PlatformList(CommonPlatforms)),
    Field("x_mitre_detection", false, Leaf(AnyString)),
    Field("x_mitre_is_subtechnique", true, Leaf(Boolean)),
    Field("x_mitre_data_sources", false, DataSourceList),
    Field("x_mitre_defense_bypassed", false, DefenseBypassedList),
    Field("x_mitre_contributors", false, CommonContributors),
    Field("x_mitre_permissions_required", false, PermissionsRequiredList),
    Field("x_mitre_remote_support", false, Leaf(Boolean)),
    Field("x_mitre_system_requirements", false, SystemRequirements),
    Field("x_mitre_impact_type", false, ImpactTypeList),
    Field("x_mitre_effective_permissions", false, EffectivePermissionList),
    Field("x_mitre_network_requirements", false, Leaf(Boolean)),
    Field("x_mitre_tactic_type", false, TacticTypeList),
    Field("x_mitre_domains", true, XMitreDomains),
    Field("x_mitre_modified_by_ref", false, Leaf(CommonModifiedByRef))
  ]

  /** The keys of `.required({...})`. */
  const TechniqueRequired: set<string> := {
    "created", "external_references", "id", "modified", "name", "spec_version", "type",
    "x_mitre_attack_spec_version", "x_mitre_domains", "x_mitre_is_subtechnique", "x_mitre_version"
  }

  function TechniqueFields(): (fs: seq<Field>)
    ensures Schema.Names(fs) == Schema.Names(AttackBaseFields) + Schema.Names(TechniqueExtension)
  {
    ExtendRequire(AttackBaseFields, TechniqueExtension, TechniqueRequired)
  }

  /** The object before the refinement: the extended table, strict as the
      base is. */
  const TechniqueShape: Kind := Object(TechniqueFields(), Strict)

  /** `techniqueSchema` */
  const TechniqueObject: Kind := Refined(TechniqueShape, TechniqueRule)

  /** The properties the refinement reads besides the first ID. */
  const RuleReads: set<string> := {
    "kill_chain_phases", "x_mitre_is_subtechnique", "x_mitre_domains", "x_mitre_system_requirements",
    "x_mitre_permissions_required", "x_mitre_effective_permissions", "x_mitre_defense_bypassed",
    "x_mitre_remote_support", "x_mitre_impact_type", "x_mitre_tactic_type", "x_mitre_data_sources"
  }

  /** Two values the refinement cannot tell apart. */
  predicate SameView(p: Json, v: Json)
  {
    (forall n :: n in RuleReads ==> Get(p, n) == Get(v, n))
    && FirstExternalId(p) == FirstExternalId(v)
  }

  /** Properties that read the same give the same enterprise-only issues. */
  lemma {:induction false} FieldIssuesRespectView(p: Json, v: Json, fields: seq<(string, Option<string>)>)
    requires Get(p, "x_mitre_domains") == Get(v, "x_mitre_domains")
    requires Get(p, "kill_chain_phases") == Get(v, "kill_chain_phases")
    requires forall k :: 0 <= k < |fields| ==> Get(p, fields[k].0) == Get(v, fields[k].0)
    ensures FieldIssues(p, fields) == FieldIssues(v, fields)
  {
    if fields != [] {
      assert forall k :: 0 <= k < |fields[1..]| ==> fields[1..][k] == fields[k + 1];
      FieldIssuesRespectView(p, v, fields[1..]);
      assert InDomain(p, Enterprise) == InDomain(v, Enterprise);
      assert forall t :: HasTactic(p, t) == HasTactic(v, t);
    }
  }

  /** The enterprise-only properties are among those the refinement
      reads. */
  lemma EnterpriseFieldsRead()
    ensures forall k :: 0 <= k < |EnterpriseOnlyFields| ==> EnterpriseOnlyFields[k].0 in RuleReads
  {
    var f := EnterpriseOnlyFields;
    assert f[0].0 == "x_mitre_system_requirements" && f[1].0 == "x_mitre_permissions_required";
    assert f[2].0 == "x_mitre_effective_permissions" && f[3].0 == "x_mitre_defense_bypassed";
    assert f[4].0 == "x_mitre_remote_support" && f[5].0 == "x_mitre_impact_type";
  }

  /** The refinement decides alike on values it cannot tell apart. */
  lemma RuleRespectsView(p: Json, v: Json)
    requires SameView(p, v)
    ensures TechniqueRule(p) == TechniqueRule(v)
  {
    assert "x_mitre_domains" in RuleReads && "kill_chain_phases" in RuleReads;
    EnterpriseFieldsRead();
    FieldIssuesRespectView(p, v, EnterpriseOnlyFields);
    MobileIssuesRespectView(p, v);
    IdIssuesRespectView(p, v);
  }

  lemma MobileIssuesRespectView(p: Json, v: Json)
    requires SameView(p, v)
    ensures TechniqueMobileIssues(p) == TechniqueMobileIssues(v)
  {
    assert "x_mitre_domains" in RuleReads && "x_mitre_tactic_type" in RuleReads;
    assert "x_mitre_data_sources" in RuleReads;
    assert InDomain(p, Mobile) == InDomain(v, Mobile);
  }

  lemma IdIssuesRespectView(p: Json, v: Json)
    requires SameView(p, v)
    ensures TechniqueIdIssues(p) == TechniqueIdIssues(v)
  {
    assert "x_mitre_is_subtechnique" in RuleReads;
    assert IdPattern(p) == IdPattern(v);
  }

  /** Every declaration of the extension except the references keeps the
      value it accepts. */
  lemma ExtensionKeeps()
    ensures forall j :: 0 <= j < |TechniqueExtension| && j != 2 ==> Keeps(TechniqueExtension[j].kind)
  {
    KeepsFirst();
    KeepsSecond();
    KeepsThird();
    KeepsFourth();
  }

  lemma KeepsFirst()
    ensures forall j :: 0 <= j < 5 && j != 2 ==> Keeps(TechniqueExtension[j].kind)
  {
    KeepsLeaf(v => CreateStixIdentifierSchema("attack-pattern", v));
    KeepsLeaf(v => Literal("attack-pattern", v));
    KeepsLeaf(AnyString);
    KeepsRefined(Leaf(AnyString), PhaseRule);
    KeepsLeaf(KillChainName);
    assert TechniquePhaseFields[0].name != TechniquePhaseFields[1].name;
    KeepsStrictObject(TechniquePhaseFields);
    KeepsArray(TechniquePhase, 0, None);
  }

  lemma KeepsSecond()
    ensures forall j :: 5 <= j < 10 ==> Keeps(TechniqueExtension[j].kind)
  {
    UniqueEnumListKeeps(CommonPlatforms, 1, UniquePlatformsMessage);
    KeepsLeaf(AnyString);
    KeepsLeaf(Boolean);
    KeepsLeaf(DataSource);
    KeepsArray(Leaf(DataSource), 0, None);
    UniqueEnumListKeeps(DefenseBypasses, 1, DefenseBypassedMessage);
  }

  lemma KeepsThird()
    ensures forall j :: 10 <= j < 15 ==> Keeps(TechniqueExtension[j].kind)
  {
    KeepsLeaf(AnyString);
    KeepsArray(Leaf(AnyString), 0, None);
    KeepsLeaf(v => Enum(PermissionsRequired, v));
    KeepsArray(Leaf(v => Enum(PermissionsRequired, v)), 1, None);
    KeepsLeaf(Boolean);
    KeepsLeaf(v => Enum(ImpactTypes, v));
    KeepsArray(Leaf(v => Enum(ImpactTypes, v)), 0, None);
  }

  lemma KeepsFourth()
    ensures forall j :: 15 <= j < 20 ==> Keeps(TechniqueExtension[j].kind)
  {
    UniqueEnumListKeeps(EffectivePermissions, 1, EffectivePermissionsMessage);
    KeepsLeaf(Boolean);
    KeepsLeaf(v => Enum(TacticTypes, v));
    KeepsArray(Leaf(v => Enum(TacticTypes, v)), 0, None);
    KeepsLeaf(Domain);
    KeepsArray(Leaf(Domain), 1, None);
    KeepsLeaf(CommonModifiedByRef);
  }

  /** Where the required keys are declared. Facts about the literal tables
      are kept apart from facts about the composed table: together they
      make the solver unfold the composition. */
  lemma TechniqueRequiredDeclared()
    ensures TechniqueRequired <= Schema.Names(AttackBaseFields) + Schema.Names(TechniqueExtension)
  {
    AttackBaseDeclares();
    ExtensionDeclaresRequired();
  }

  lemma ExtensionDeclaresRequired()
    ensures {"id", "type", "external_references", "x_mitre_is_subtechnique", "x_mitre_domains"}
            <= Schema.Names(TechniqueExtension)
  {
    var e := TechniqueExtension;
    assert e[0].name == "id" && e[1].name == "type" && e[2].name == "external_references";
    assert e[7].name == "x_mitre_is_subtechnique" && e[18].name == "x_mitre_domains";
  }

  /** The properties the refinement reads are all declared by the
      extension. */
  lemma RuleReadsDeclared()
    ensures RuleReads <= Schema.Names(TechniqueExtension)
    ensures "external_references" in Schema.Names(TechniqueExtension)
  {
    var e := TechniqueExtension;
    assert e[2].name == "external_references";
    assert e[3].name == "kill_chain_phases" && e[7].name == "x_mitre_is_subtechnique";
    assert e[8].name == "x_mitre_data_sources" && e[9].name == "x_mitre_defense_bypassed";
    assert e[11].name == "x_mitre_permissions_required" && e[12].name == "x_mitre_remote_support";
    assert e[13].name == "x_mitre_system_requirements" && e[14].name == "x_mitre_impact_type";
    assert e[15].name == "x_mitre_effective_permissions" && e[17].name == "x_mitre_tactic_type";
    assert e[18].name == "x_mitre_domains";
  }

  /** The declaration of any property but the references keeps the value
      it accepts. */
  lemma KeptDeclaration(n: string)
    requires n in RuleReads
    ensures Lookup(TechniqueExtension, n).Some? && Keeps(Lookup(TechniqueExtension, n).value.kind)
  {
    ReadDeclared(n);
    ExtensionKeeps();
    KeptByName(TechniqueExtension, n, 2);
  }

  lemma ReadDeclared(n: string)
    requires n in RuleReads
    ensures n in Schema.Names(TechniqueExtension) && TechniqueExtension[2].name != n
  {
    RuleReadsDeclared();
    assert TechniqueExtension[2].name == "external_references";
  }

  /** The declarations of the references and the sub-technique flag. */
  lemma ReferencesKind()
    ensures Lookup(TechniqueExtension, "external_references") == Some(Field("external_references", true, CommonExternalReferences))
  {
    var e := TechniqueExtension;
    assert e[0].name != e[2].name && e[1].name != e[2].name;
    LookupFirst(e, 2);
  }

  lemma SubtechniqueKind()
    ensures Lookup(TechniqueExtension, "x_mitre_is_subtechnique") == Some(Field("x_mitre_is_subtechnique", true, Leaf(Boolean)))
  {
    var e := TechniqueExtension;
    assert forall k :: 0 <= k < 7 ==> e[k].name != e[7].name;
    LookupFirst(e, 7);
  }

  /** A property the refinement reads has the same value after parsing. */
  lemma ReadKept(m: map<string, Json>, n: string)
    requires Accepts(TechniqueShape, JObj(m))
    requires n in RuleReads
    ensures Get(CheckValue(TechniqueShape, JObj(m)).value, n) == Get(JObj(m), n)
  {
    KeptDeclaration(n);
    ExtendedKept(AttackBaseFields, TechniqueExtension, TechniqueRequired, Strict, m, n);
  }

  /** The parsed references keep the first entry's `external_id`. */
  lemma FirstIdKept(m: map<string, Json>)
    requires Accepts(TechniqueShape, JObj(m))
    ensures "external_references" in m
    ensures FirstExternalId(CheckValue(TechniqueShape, JObj(m)).value) == FirstExternalId(JObj(m))
    ensures FirstReference(JObj(m)).Some?
  {
    ReferencesPresent(m);
    ReferencesParsed(m);
    FirstIdOfList(m, CheckValue(TechniqueShape, JObj(m)).value);
  }

  lemma ReferencesPresent(m: map<string, Json>)
    requires Accepts(TechniqueShape, JObj(m))
    ensures "external_references" in m
  {
    ReferencesKind();
    ExtensionRequiredPresent(AttackBaseFields, TechniqueExtension, TechniqueRequired, Strict, m, "external_references");
  }

  lemma ReferencesParsed(m: map<string, Json>)
    requires Accepts(TechniqueShape, JObj(m)) && "external_references" in m
    ensures Accepts(CommonExternalReferences, m["external_references"])
    ensures Get(CheckValue(TechniqueShape, JObj(m)).value, "external_references")
            == Some(CheckValue(CommonExternalReferences, m["external_references"]).value)
  {
    ReferencesKind();
    ExtendedValue(AttackBaseFields, TechniqueExtension, TechniqueRequired, Strict, m, "external_references");
  }

  /** The parsed object and the given one look alike to the refinement. */
  lemma ParsedSameView(m: map<string, Json>)
    requires Accepts(TechniqueShape, JObj(m))
    ensures SameView(CheckValue(TechniqueShape, JObj(m)).value, JObj(m))
  {
    forall n | n in RuleReads
      ensures Get(CheckValue(TechniqueShape, JObj(m)).value, n) == Get(JObj(m), n)
    {
      ReadKept(m, n);
    }
    FirstIdKept(m);
  }

  /** A technique is accepted exactly when its properties are and the
      refinement passes on the object as given. */
  lemma TechniqueObjectAccepts(m: map<string, Json>)
    ensures Accepts(TechniqueObject, JObj(m)) <==> Accepts(TechniqueShape, JObj(m)) && TechniqueRule(JObj(m)) == []
  {
    RefinedAccepts(TechniqueShape, TechniqueRule, JObj(m));
    if Accepts(TechniqueShape, JObj(m)) {
      ParsedSameView(m);
      RuleRespectsView(CheckValue(TechniqueShape, JObj(m)).value, JObj(m));
    }
  }

  /** An accepted technique has the eleven required properties and no
      undeclared one, a boolean sub-technique flag, and a first reference
      whose ID has the shape that flag selects. */
  lemma TechniqueAccepted(m: map<string, Json>)
    requires Accepts(TechniqueObject, JObj(m))
    ensures TechniqueRequired <= m.Keys
    ensures m.Keys <= Schema.Names(AttackBaseFields) + Schema.Names(TechniqueExtension)
    ensures m["x_mitre_is_subtechnique"].JBool?
    ensures HasTechniqueId(JObj(m))
    ensures Matches(if m["x_mitre_is_subtechnique"].b then SubtechniqueId else TechniqueId, FirstExternalId(JObj(m)).value.s)
  {
    RefinedAccepts(TechniqueShape, TechniqueRule, JObj(m));
    RequiredPresent(m);
    ExtendedStrict(AttackBaseFields, TechniqueExtension, TechniqueRequired, m);
    SubtechniqueFlag(m);
    TechniqueObjectAccepts(m);
    FlaggedId(m);
  }

  /** Once the flag is a boolean, the rule's ID check is the one it
      selects. */
  lemma FlaggedId(m: map<string, Json>)
    requires "x_mitre_is_subtechnique" in m && m["x_mitre_is_subtechnique"].JBool?
    requires TechniqueRule(JObj(m)) == []
    ensures HasTechniqueId(JObj(m))
    ensures Matches(if m["x_mitre_is_subtechnique"].b then SubtechniqueId else TechniqueId, FirstExternalId(JObj(m)).value.s)
  {
    TechniqueRuleAccepts(JObj(m));
  }

  lemma RequiredPresent(m: map<string, Json>)
    requires Accepts(TechniqueShape, JObj(m))
    ensures TechniqueRequired <= m.Keys
  {
    TechniqueRequiredDeclared();
    ExtendedRequiredAll(AttackBaseFields, TechniqueExtension, TechniqueRequired, Strict, m);
  }

  lemma SubtechniqueFlag(m: map<string, Json>)
    requires Accepts(TechniqueShape, JObj(m))
    ensures "x_mitre_is_subtechnique" in m && m["x_mitre_is_subtechnique"].JBool?
  {
    SubtechniquePresent(m);
    SubtechniqueParsed(m);
    BooleanAccepted(m["x_mitre_is_subtechnique"]);
  }

  lemma SubtechniquePresent(m: map<string, Json>)
    requires Accepts(TechniqueShape, JObj(m))
    ensures "x_mitre_is_subtechnique" in m
  {
    SubtechniqueKind();
    ExtensionRequiredPresent(AttackBaseFields, TechniqueExtension, TechniqueRequired, Strict, m, "x_mitre_is_subtechnique");
  }

  lemma SubtechniqueParsed(m: map<string, Json>)
    requires Accepts(TechniqueShape, JObj(m)) && "x_mitre_is_subtechnique" in m
    ensures Accepts(Leaf(Boolean), m["x_mitre_is_subtechnique"])
  {
    SubtechniqueKind();
    ExtendedValue(AttackBaseFields, TechniqueExtension, TechniqueRequired, Strict, m, "x_mitre_is_subtechnique");
  }

  lemma BooleanAccepted(x: Json)
    requires Accepts(Leaf(Boolean), x)
    ensures x.JBool?
  {
  }

  /** In an accepted technique an enterprise-only property appears only
      with the enterprise domain, tactic types only with the mobile domain,
      and data sources only without it. */
  lemma TechniqueDomainsAccepted(m: map<string, Json>)
    requires Accepts(TechniqueObject, JObj(m))
    ensures forall k :: 0 <= k < |EnterpriseOnlyFields| && EnterpriseOnlyFields[k].0 in m ==> InDomain(JObj(m), Enterprise)
    ensures HasLength(Get(JObj(m), "x_mitre_tactic_type")) ==> InDomain(JObj(m), Mobile)
    ensures "x_mitre_data_sources" in m ==> !InDomain(JObj(m), Mobile)
  {
    AcceptedParts(m);
    RuleDomains(m);
    if "x_mitre_data_sources" in m {
      DataSourcesTruthy(m);
    }
  }

  lemma AcceptedParts(m: map<string, Json>)
    requires Accepts(TechniqueObject, JObj(m))
    ensures Accepts(TechniqueShape, JObj(m)) && TechniqueRule(JObj(m)) == []
  {
    TechniqueObjectAccepts(m);
  }

  /** What a passing refinement says about the domains. */
  lemma RuleDomains(m: map<string, Json>)
    requires TechniqueRule(JObj(m)) == []
    ensures forall k :: 0 <= k < |EnterpriseOnlyFields| && EnterpriseOnlyFields[k].0 in m ==> InDomain(JObj(m), Enterprise)
    ensures HasLength(Get(JObj(m), "x_mitre_tactic_type")) ==> InDomain(JObj(m), Mobile)
    ensures Truthy(Get(JObj(m), "x_mitre_data_sources")) ==> !InDomain(JObj(m), Mobile)
  {
    TechniqueRuleAccepts(JObj(m));
  }

  /** A data source list that was accepted is an array, hence truthy. */
  lemma DataSourcesTruthy(m: map<string, Json>)
    requires Accepts(TechniqueShape, JObj(m)) && "x_mitre_data_sources" in m
    ensures Truthy(Get(JObj(m), "x_mitre_data_sources"))
  {
    DataSourcesKind();
    ExtendedValue(AttackBaseFields, TechniqueExtension, TechniqueRequired, Strict, m, "x_mitre_data_sources");
    AcceptedShape(DataSourceList, m["x_mitre_data_sources"]);
  }

  lemma DataSourcesKind()
    ensures Lookup(TechniqueExtension, "x_mitre_data_sources") == Some(Field("x_mitre_data_sources", false, DataSourceList))
  {
    var e := TechniqueExtension;
    assert forall k :: 0 <= k < 8 ==> e[k].name != e[8].name;
    LookupFirst(e, 8);
  }
}

=== FILE: technique_api.dfy ===
/** The technique class of the object API (src/api/sdo/technique.impl.ts):
    a validated technique object plus the relationship lists and links a
    caller builds up, and the read-only business methods over the object's
    properties. Objects are JSON values; two list elements are the same
    object when their `id` properties are equal. */
module TechniqueApi {
  import opened Wrappers
  import opened JsonValues
  import opened Strings

  //---------------------------------------------------------------------------
  // Relationship lists
  //---------------------------------------------------------------------------

  function IdOf(o: Json): Option<Json> { Get(o, "id") }

  /** The guarded `push` of every add method: append unless an element with
      the same id is already present. */
  function AddById(list: seq<Json>, x: Json): (r: seq<Json>)
    ensures |list| <= |r| <= |list| + 1 && r[..|list|] == list
    ensures |r| == |list| + 1 ==> r[|list|] == x
  {
    if exists k :: 0 <= k < |list| && IdOf(list[k]) == IdOf(x) then list else list + [x]
  }

  /** The ids of a list. */
  function Ids(list: seq<Json>): set<Option<Json>>
  {
    set k | 0 <= k < |list| :: IdOf(list[k])
  }

  predicate DistinctIds(list: seq<Json>)
  {
    forall a, b :: 0 <= a < b < |list| ==> IdOf(list[a]) != IdOf(list[b])
  }

  /** Adding keeps the list as a prefix, adds the new id and no other, and
      appends at most the one element; it leaves the list alone exactly when
      the id is already there. */
  lemma AddByIdContents(list: seq<Json>, x: Json)
    ensures var r := AddById(list, x);
      |r| <= |list| + 1 && r[..|list|] == list && Ids(r) == Ids(list) + {IdOf(x)}
    ensures IdOf(x) in Ids(list) <==> AddById(list, x) == list
  {
    var r := AddById(list, x);
    if !(exists k :: 0 <= k < |list| && IdOf(list[k]) == IdOf(x)) {
      assert r[|list|] == x;
      assert Ids(r) == Ids(list) + {IdOf(x)} by {
        forall v | v in Ids(r) ensures v in Ids(list) + {IdOf(x)} {
          var k :| 0 <= k < |r| && IdOf(r[k]) == v;
          if k < |list| {
            assert r[k] == list[k];
          }
        }
        forall v | v in Ids(list) ensures v in Ids(r) {
          var k :| 0 <= k < |list| && IdOf(list[k]) == v;
          assert r[k] == list[k];
        }
      }
    } else {
      var k :| 0 <= k < |list| && IdOf(list[k]) == IdOf(x);
      assert IdOf(x) in Ids(list);
    }
  }

  /** Adding the same object twice is adding it once. */
  lemma AddByIdIdempotent(list: seq<Json>, x: Json)
    ensures AddById(AddById(list, x), x) == AddById(list, x)
  {
    AddByIdContents(list, x);
    AddByIdContents(AddById(list, x), x);
  }

  /** Adding keeps the ids of a list distinct. */
  lemma AddByIdDistinct(list: seq<Json>, x: Json)
    requires DistinctIds(list)
    ensures DistinctIds(AddById(list, x))
  {
    var r := AddById(list, x);
    if r != list {
      forall a, b | 0 <= a < b < |r| ensures IdOf(r[a]) != IdOf(r[b]) {
        if b == |list| {
          assert r[a] == list[a] && r[b] == x;
        } else {
          assert r[a] == list[a] && r[b] == list[b];
        }
      }
    }
  }

  /** A technique: its validated object, its relationship lists and its two
      optional links. */
  datatype Technique = Technique(
    data: Json,
    subTechniques: seq<Json>,
    tactics: seq<Json>,
    mitigations: seq<Json>,
    parent: Option<Json>,
    relatedTechniques: seq<Json>,
    targetAssets: seq<Json>,
    detectingDataComponents: seq<Json>,
    revokedBy: Option<Json>)

  /** A freshly constructed technique: every list empty, no link set. */
  function New(data: Json): Technique
  {
    Technique(data, [], [], [], None, [], [], [], None)
  }

  /** The mutating methods. */
  datatype Update =
    | SetParent(t: Json)
    | AddSubTechnique(t: Json)
    | AddTactic(t: Json)
    | AddMitigation(t: Json)
    | AddRelatedTechnique(t: Json)
    | AddTargetAsset(t: Json)
    | AddDetectingDataComponent(t: Json)
    | SetRevokedBy(o: Option<Json>)

  function Apply(x: Technique, u: Update): Technique
  {
    match u
    case SetParent(t) => x.(parent := Some(t))
    case AddSubTechnique(t) => x.(subTechniques := AddById(x.subTechniques, t))
    case AddTactic(t) => x.(tactics := AddById(x.tactics, t))
    case AddMitigation(t) => x.(mitigations := AddById(x.mitigations, t))
    case AddRelatedTechnique(t) => x.(relatedTechniques := AddById(x.relatedTechniques, t))
    case AddTargetAsset(t) => x.(targetAssets := AddById(x.targetAssets, t))
    case AddDetectingDataComponent(t) => x.(detectingDataComponents := AddById(x.detectingDataComponents, t))
    case SetRevokedBy(o) => x.(revokedBy := o)
  }

  /** A technique after a sequence of updates, applied in order. */
  function ApplyAll(x: Technique, us: seq<Update>): Technique
  {
    if |us| == 0 then x else Apply(ApplyAll(x, us[..|us| - 1]), us[|us| - 1])
  }

  predicate ListsDistinct(x: Technique)
  {
    DistinctIds(x.subTechniques) && DistinctIds(x.tactics) && DistinctIds(x.mitigations)
    && DistinctIds(x.relatedTechniques) && DistinctIds(x.targetAssets) && DistinctIds(x.detectingDataComponents)
  }

  /** Every update keeps the lists free of repeated ids. */
  lemma ApplyKeepsDistinct(x: Technique, u: Update)
    requires ListsDistinct(x)
    ensures ListsDistinct(Apply(x, u))
  {
    match u
    case AddSubTechnique(t) => AddByIdDistinct(x.subTechniques, t);
    case AddTactic(t) => AddByIdDistinct(x.tactics, t);
    case AddMitigation(t) => AddByIdDistinct(x.mitigations, t);
    case AddRelatedTechnique(t) => AddByIdDistinct(x.relatedTechniques, t);
    case AddTargetAsset(t) => AddByIdDistinct(x.targetAssets, t);
    case AddDetectingDataComponent(t) => AddByIdDistinct(x.detectingDataComponents, t);
    case _ =>
  }

  /** However the updates repeat themselves, a new technique's lists never
      hold two objects with the same id, and the validated object is never
      changed. */
  lemma {:induction false} ListsStayDistinct(data: Json, us: seq<Update>)
    ensures ListsDistinct(ApplyAll(New(data), us))
    ensures ApplyAll(New(data), us).data == data
    decreases |us|
  {
    if |us| > 0 {
      ListsStayDistinct(data, us[..|us| - 1]);
      ApplyKeepsDistinct(ApplyAll(New(data), us[..|us| - 1]), us[|us| - 1]);
    }
  }

  /** Every update is idempotent: repeating it at once changes nothing. */
  lemma UpdateIdempotent(x: Technique, u: Update)
    ensures Apply(Apply(x, u), u) == Apply(x, u)
  {
    match u
    case AddSubTechnique(t) => AddByIdIdempotent(x.subTechniques, t);
    case AddTactic(t) => AddByIdIdempotent(x.tactics, t);
    case AddMitigation(t) => AddByIdIdempotent(x.mitigations, t);
    case AddRelatedTechnique(t) => AddByIdIdempotent(x.relatedTechniques, t);
    case AddTargetAsset(t) => AddByIdIdempotent(x.targetAssets, t);
    case AddDetectingDataComponent(t) => AddByIdIdempotent(x.detectingDataComponents, t);
    case _ =>
  }

  /** An add method changes only its own list, and only by appending the
      object when its id is new. */
  lemma AddTouchesOwnList(x: Technique, t: Json)
    ensures var y := Apply(x, AddMitigation(t));
      y.(mitigations := x.mitigations) == x
      && (IdOf(t) in Ids(x.mitigations) <==> y.mitigations == x.mitigations)
      && (IdOf(t) !in Ids(x.mitigations) ==> y.mitigations == x.mitigations + [t])
    ensures var y := Apply(x, AddSubTechnique(t));
      y.(subTechniques := x.subTechniques) == x
      && (IdOf(t) in Ids(x.subTechniques) <==> y.subTechniques == x.subTechniques)
      && (IdOf(t) !in Ids(x.subTechniques) ==> y.subTechniques == x.subTechniques + [t])
  {
    AddByIdContents(x.mitigations, t);
    AddByIdContents(x.subTechniques, t);
  }

  //---------------------------------------------------------------------------
  // Business methods
  //---------------------------------------------------------------------------

  /** `this[key] ?? false`: the property, or `false` when it is absent or
      null. */
  function OrFalse(data: Json, key: string): Json
  {
    match Get(data, key)
    case None => JBool(false)
    case Some(JNull) => JBool(false)
    case Some(v) => v
  }

  function IsDeprecated(x: Technique): Json { OrFalse(x.data, "x_mitre_deprecated") }
  function IsRevoked(x: Technique): Json { OrFalse(x.data, "revoked") }
  function IsSubTechnique(x: Technique): Json { OrFalse(x.data, "x_mitre_is_subtechnique") }

  /** The three flags default to false and otherwise report the stored
      boolean. */
  lemma FlagsDefaultFalse(x: Technique, b: bool)
    ensures Get(x.data, "x_mitre_deprecated") in {None, Some(JNull)} ==> IsDeprecated(x) == JBool(false)
    ensures Get(x.data, "revoked") in {None, Some(JNull)} ==> IsRevoked(x) == JBool(false)
    ensures Get(x.data, "x_mitre_is_subtechnique") in {None, Some(JNull)} ==> IsSubTechnique(x) == JBool(false)
    ensures Get(x.data, "x_mitre_deprecated") == Some(JBool(b)) ==> IsDeprecated(x) == JBool(b)
    ensures Get(x.data, "revoked") == Some(JBool(b)) ==> IsRevoked(x) == JBool(b)
    ensures Get(x.data, "x_mitre_is_subtechnique") == Some(JBool(b)) ==> IsSubTechnique(x) == JBool(b)
  {
  }

  /** `v?.[0]`: the first element of an array, or the property "0" of an
      object. */
  function First(v: Option<Json>): Option<Json>
  {
    match v
    case Some(JArr(items)) => if |items| > 0 then Some(items[0]) else None
    case Some(JObj(f)) => if "0" in f then Some(f["0"]) else None
    case _ => None
  }

  /** `external_references?.[0]?.external_id` */
  function GetAttackId(x: Technique): (r: Option<Json>)
  {
    match First(Get(x.data, "external_references"))
    case Some(ref) => Get(ref, "external_id")
    case None => None
  }

  /** The ATT&CK ID is the external id of the first external reference and
      of nothing else; with no first reference there is none. */
  lemma AttackIdFromFirstReference(x: Technique, refs: seq<Json>, id: Json)
    ensures Get(x.data, "external_references") == Some(JArr(refs)) && |refs| > 0 ==>
            GetAttackId(x) == Get(refs[0], "external_id")
    ensures Get(x.data, "external_references") == Some(JArr([])) ==> GetAttackId(x).None?
    ensures Get(x.data, "external_references").None? ==> GetAttackId(x).None?
    ensures GetAttackId(x) == Some(id) ==> exists ref :: First(Get(x.data, "external_references")) == Some(ref) && Get(ref, "external_id") == Some(id)
  {
  }

  /** The property types the class's type declares: a string name and, when
      there is one, a string ATT&CK ID. */
  predicate WellTyped(x: Technique)
  {
    GetString(x.data, "name").Some?
    && (GetAttackId(x).Some? ==> GetAttackId(x).value.JStr?)
  }

  /** `"ID: name"` when the ATT&CK ID is truthy, else the name. */
  function GetDisplayName(x: Technique): (r: string)
    requires WellTyped(x)
    ensures Truthy(GetAttackId(x)) ==> r == GetAttackId(x).value.s + ": " + GetString(x.data, "name").value
    ensures !Truthy(GetAttackId(x)) ==> r == GetString(x.data, "name").value
  {
    var name := GetString(x.data, "name").value;
    match GetAttackId(x)
    case Some(JStr(id)) => if id != "" then id + ": " + name else name
    case _ => name
  }

  /** The display name always ends with the name, and it is longer than the
      name exactly when the technique has a non-empty ATT&CK ID. */
  lemma DisplayNameShape(x: Technique)
    requires WellTyped(x)
    ensures var name := GetString(x.data, "name").value;
      var d := GetDisplayName(x);
      |d| >= |name| && d[|d| - |name|..] == name
      && (|d| > |name| <==> Truthy(GetAttackId(x)))
  {
    var name := GetString(x.data, "name").value;
    var d := GetDisplayName(x);
    if Truthy(GetAttackId(x)) {
      assert GetAttackId(x).value.s != "";
      assert d == (GetAttackId(x).value.s + ": ") + name;
    }
  }

  /** `kill_chain_phases?.map(p => p.phase_name) ?? []`: one entry per
      phase, `None` for a phase without a name. */
  function PhaseNames(data: Json): seq<Option<Json>>
  {
    match Get(data, "kill_chain_phases")
    case Some(JArr(phases)) => seq(|phases|, k requires 0 <= k < |phases| => Get(phases[k], "phase_name"))
    case _ => []
  }

  function GetTacticNames(x: Technique): seq<Option<Json>>
  {
    PhaseNames(x.data)
  }

  /** The names are the phases' names, one for one and in order. */
  lemma TacticNamesPointwise(x: Technique, phases: seq<Json>)
    ensures Get(x.data, "kill_chain_phases") == Some(JArr(phases)) ==>
      |GetTacticNames(x)| == |phases|
      && forall k :: 0 <= k < |phases| ==> GetTacticNames(x)[k] == Get(phases[k], "phase_name")
    ensures Get(x.data, "kill_chain_phases").None? ==> GetTacticNames(x) == []
  {
  }

  /** The platform names, when the property is a list of strings. */
  function Platforms(x: Technique): Option<seq<string>>
  {
    match Get(x.data, "x_mitre_platforms")
    case Some(JArr(items)) =>
      if forall k :: 0 <= k < |items| ==> items[k].JStr? then
        Some(seq(|items|, k requires 0 <= k < |items| && items[k].JStr? => items[k].s))
      else None
    case _ => None
  }

  /** `x_mitre_platforms?.join(', ') ?? ''` */
  function GetPlatformsString(x: Technique): string
  {
    match Platforms(x)
    case Some(ps) => Join(ps, ", ")
    case None => ""
  }

  /** `x_mitre_platforms?.includes(platform) ?? false` */
  function SupportsPlatform(x: Technique, platform: string): bool
  {
    match Platforms(x)
    case Some(ps) => platform in ps
    case None => false
  }

  /** No platform name of the vocabulary contains a comma. */
  predicate CommaFree(ps: seq<string>)
  {
    forall k, j :: 0 <= k < |ps| && 0 <= j < |ps[k]| ==> ps[k][j] != ','
  }

  lemma {:induction false} SplitJoin(ps: seq<string>)
    requires |ps| >= 1 && CommaFree(ps)
    ensures Split(Join(ps, ", "), ", ") == ps
    decreases |ps|
  {
    if |ps| == 1 {
      assert !Contains(ps[0], ", ") by {
        forall j | 0 <= j ensures !OccursAt(ps[0], ", ", j) {
          if j + 2 <= |ps[0]| {
            assert ps[0][j..j + 2][0] == ps[0][j] != ',';
          }
        }
      }
      NoOccurrenceSplit(ps[0], ", ");
    } else {
      var a := ps[0];
      var rest := ps[1..];
      assert CommaFree(rest) by {
        forall k, j | 0 <= k < |rest| && 0 <= j < |rest[k]| ensures rest[k][j] != ',' {
          assert rest[k] == ps[k + 1];
        }
      }
      SplitJoin(rest);
      var sep := ", ";
      var h := a + sep;
      forall j | 0 <= j < |a| ensures !OccursAt(h, sep, j) {
        assert h[j] == a[j];
        if j + 2 <= |h| {
          assert h[j..j + 2][0] == h[j] != ',';
        }
      }
      SplitHead(a, Join(rest, sep), sep);
      assert Join(ps, sep) == a + sep + Join(rest, sep);
      assert [a] + rest == ps;
    }
  }

  /** The platforms string lists the supported platforms: splitting it at
      ", " gives back exactly the platforms, so a platform is supported
      exactly when it is one of the pieces. */
  lemma PlatformsStringLists(x: Technique, platform: string)
    requires Platforms(x).Some? && |Platforms(x).value| >= 1 && CommaFree(Platforms(x).value)
    ensures Split(GetPlatformsString(x), ", ") == Platforms(x).value
    ensures SupportsPlatform(x, platform) <==> platform in Split(GetPlatformsString(x), ", ")
  {
    SplitJoin(Platforms(x).value);
  }

  /** Without platforms nothing is supported and the string is empty. */
  lemma NoPlatforms(x: Technique, platform: string)
    requires Get(x.data, "x_mitre_platforms").None?
    ensures !SupportsPlatform(x, platform) && GetPlatformsString(x) == ""
  {
  }

  //---------------------------------------------------------------------------
  // Equality and recency
  //---------------------------------------------------------------------------

  /** `equals`: same id and same modified timestamp. */
  predicate Equals(a: Technique, b: Technique)
  {
    Get(a.data, "id") == Get(b.data, "id") && Get(a.data, "modified") == Get(b.data, "modified")
  }

  /** `equals` is an equivalence relation. */
  lemma EqualsEquivalence(a: Technique, b: Technique, c: Technique)
    ensures Equals(a, a)
    ensures Equals(a, b) ==> Equals(b, a)
    ensures Equals(a, b) && Equals(b, c) ==> Equals(a, c)
  {
  }

  const DifferentTechniques := "Cannot compare different techniques"

  /** `isNewerThan`: an error for two different ids, otherwise whether this
      object's modified instant is later. `instant` is `new Date(...)`:
      the instant a property value denotes, `None` for an invalid date
      (NaN, which compares false with everything). */
  function IsNewerThan(a: Technique, b: Technique, instant: Option<Json> -> Option<int>): (r: Result<bool, string>)
    ensures r.Err? <==> Get(a.data, "id") != Get(b.data, "id")
    ensures r.Err? ==> r.error == DifferentTechniques
  {
    if Get(a.data, "id") != Get(b.data, "id") then Err(DifferentTechniques)
    else
      match (instant(Get(a.data, "modified")), instant(Get(b.data, "modified")))
      case (Some(s), Some(t)) => Ok(s > t)
      case _ => Ok(false)
  }

  /** Between versions of one technique, "newer" is a strict order: nothing
      is newer than itself or than an equal object, no two objects are
      newer than each other, and it is transitive. */
  lemma NewerIsStrictOrder(a: Technique, b: Technique, c: Technique, instant: Option<Json> -> Option<int>)
    ensures IsNewerThan(a, a, instant) == Ok(false)
    ensures Equals(a, b) ==> IsNewerThan(a, b, instant) == Ok(false)
    ensures !(IsNewerThan(a, b, instant) == Ok(true) && IsNewerThan(b, a, instant) == Ok(true))
    ensures IsNewerThan(a, b, instant) == Ok(true) && IsNewerThan(b, c, instant) == Ok(true) ==>
            IsNewerThan(a, c, instant) == Ok(true)
  {
  }
}

=== FILE: technique_queries.dfy ===
/** The lookup helpers over plain parsed objects (src/classes/utils.ts):
    the objects related to one technique, found by following relationships
    through the list of all objects. */
module TechniqueQueries {
  import opened Wrappers
  import opened JsonValues
  import opened Strings
  import TechniqueApi

  /** `objs.find(o => o.id === ref)`: the first object with that id. */
  function FindById(objs: seq<Json>, ref: Option<Json>): (r: Option<Json>)
    ensures r.Some? ==> exists k :: 0 <= k < |objs| && objs[k] == r.value && Get(objs[k], "id") == ref
                         && forall j :: 0 <= j < k ==> Get(objs[j], "id") != ref
    ensures r.None? <==> forall k :: 0 <= k < |objs| ==> Get(objs[k], "id") != ref
  {
    if |objs| == 0 then None
    else if Get(objs[0], "id") == ref then Some(objs[0])
    else
      var r := FindById(objs[1..], ref);
      assert forall k :: 1 <= k < |objs| ==> objs[1..][k - 1] == objs[k];
      if r.Some? then
        assert exists k :: 1 <= k < |objs| && objs[k] == r.value && Get(objs[k], "id") == ref
                           && forall j :: 0 <= j < k ==> Get(objs[j], "id") != ref by {
          var k :| 0 <= k < |objs[1..]| && objs[1..][k] == r.value && Get(objs[1..][k], "id") == ref
                   && forall j :: 0 <= j < k ==> Get(objs[1..][j], "id") != ref;
          assert forall j :: 1 <= j < k + 1 ==> Get(objs[j], "id") != ref by {
            forall j | 1 <= j < k + 1 ensures Get(objs[j], "id") != ref {
              assert objs[1..][j - 1] == objs[j];
            }
          }
        }
        r
      else r
  }

  /** The relationship has the given type and `key` holds the technique's
      id. */
  predicate Matches(rel: Json, rtype: string, key: string, id: Option<Json>)
  {
    Get(rel, "relationship_type") == Some(JStr(rtype)) && Get(rel, key) == id
  }

  /** The object passes the type test, when there is one. */
  predicate Kept(o: Json, keepType: Option<string>)
  {
    keepType.None? || Get(o, "type") == Some(JStr(keepType.value))
  }

  /** The filter, map and filter of the relationship helpers: for each
      relationship of type `rtype` whose `key` end is the technique, the
      object found at its `other` end, if it passes the type test. */
  function Linked(rels: seq<Json>, rtype: string, key: string, other: string, id: Option<Json>,
                  objs: seq<Json>, keepType: Option<string>): (r: seq<Json>)
    ensures |r| <= |rels|
    ensures forall x :: x in r ==> x in objs
  {
    if |rels| == 0 then []
    else
      var n := |rels| - 1;
      var rest := Linked(rels[..n], rtype, key, other, id, objs, keepType);
      if Matches(rels[n], rtype, key, id) then
        match FindById(objs, Get(rels[n], other))
        case Some(o) => if Kept(o, keepType) then rest + [o] else rest
        case None => rest
      else rest
  }

  /** An object is in the result exactly when some matching relationship's
      other end resolves to it and it passes the type test. */
  lemma {:induction false} LinkedMembers(rels: seq<Json>, rtype: string, key: string, other: string, id: Option<Json>,
                                         objs: seq<Json>, keepType: Option<string>, x: Json)
    ensures x in Linked(rels, rtype, key, other, id, objs, keepType) <==>
      Kept(x, keepType) && exists k :: 0 <= k < |rels| && Matches(rels[k], rtype, key, id)
                                       && FindById(objs, Get(rels[k], other)) == Some(x)
    decreases |rels|
  {
    if |rels| > 0 {
      var n := |rels| - 1;
      var p := rels[..n];
      LinkedMembers(p, rtype, key, other, id, objs, keepType, x);
      assert forall k :: 0 <= k < n ==> p[k] == rels[k];
      if x in Linked(rels, rtype, key, other, id, objs, keepType) && x !in Linked(p, rtype, key, other, id, objs, keepType) {
        assert Matches(rels[n], rtype, key, id) && FindById(objs, Get(rels[n], other)) == Some(x);
      }
    }
  }

  /** The result has at most one entry per relationship, and every entry is
      one of the objects. */
  lemma {:induction false} LinkedBounded(rels: seq<Json>, rtype: string, key: string, other: string, id: Option<Json>,
                                         objs: seq<Json>, keepType: Option<string>)
    ensures |Linked(rels, rtype, key, other, id, objs, keepType)| <= |rels|
    ensures forall k :: 0 <= k < |Linked(rels, rtype, key, other, id, objs, keepType)| ==>
      Linked(rels, rtype, key, other, id, objs, keepType)[k] in objs
    decreases |rels|
  {
    if |rels| > 0 {
      LinkedBounded(rels[..|rels| - 1], rtype, key, other, id, objs, keepType);
    }
  }

  //---------------------------------------------------------------------------
  // The helpers
  //---------------------------------------------------------------------------

  /** `getSubTechniques` as written: the objects at the target end of the
      subtechnique-of relationships whose source is the technique. */
  function GetSubTechniques(tech: Json, rels: seq<Json>, objs: seq<Json>): (r: seq<Json>)
    ensures |r| <= |rels|
    ensures forall x :: x in r ==> x in objs
  {
    Linked(rels, "subtechnique-of", "source_ref", "target_ref", Get(tech, "id"), objs, None)
  }

  /** The sub-techniques of a technique: the sources of the subtechnique-of
      relationships that target it, the direction the relationship rule and
      the object graph use. */
  function SubTechniquesOf(tech: Json, rels: seq<Json>, objs: seq<Json>): seq<Json>
  {
    Linked(rels, "subtechnique-of", "target_ref", "source_ref", Get(tech, "id"), objs, None)
  }

  /** `getMitigations`: the course-of-action sources of the mitigates
      relationships that target the technique. */
  function GetMitigations(tech: Json, rels: seq<Json>, objs: seq<Json>): seq<Json>
  {
    Linked(rels, "mitigates", "target_ref", "source_ref", Get(tech, "id"), objs, Some("course-of-action"))
  }

  /** `getDataSources`: the x-mitre-log-source sources of the detects
      relationships that target the technique. */
  function GetDataSources(tech: Json, rels: seq<Json>, objs: seq<Json>): seq<Json>
  {
    Linked(rels, "detects", "target_ref", "source_ref", Get(tech, "id"), objs, Some("x-mitre-log-source"))
  }

  /** The helpers' members: the mitigations are exactly the course-of-action
      objects that some mitigates relationship of the technique names as
      its source, and the same for the sub-techniques (by either direction)
      and the data sources. */
  lemma HelperMembers(tech: Json, rels: seq<Json>, objs: seq<Json>, x: Json)
    ensures x in GetMitigations(tech, rels, objs) <==>
      Get(x, "type") == Some(JStr("course-of-action"))
      && exists k :: 0 <= k < |rels| && Matches(rels[k], "mitigates", "target_ref", Get(tech, "id"))
                     && FindById(objs, Get(rels[k], "source_ref")) == Some(x)
    ensures x in GetDataSources(tech, rels, objs) <==>
      Get(x, "type") == Some(JStr("x-mitre-log-source"))
      && exists k :: 0 <= k < |rels| && Matches(rels[k], "detects", "target_ref", Get(tech, "id"))
                     && FindById(objs, Get(rels[k], "source_ref")) == Some(x)
    ensures x in GetSubTechniques(tech, rels, objs) <==>
      exists k :: 0 <= k < |rels| && Matches(rels[k], "subtechnique-of", "source_ref", Get(tech, "id"))
                  && FindById(objs, Get(rels[k], "target_ref")) == Some(x)
    ensures x in SubTechniquesOf(tech, rels, objs) <==>
      exists k :: 0 <= k < |rels| && Matches(rels[k], "subtechnique-of", "target_ref", Get(tech, "id"))
                  && FindById(objs, Get(rels[k], "source_ref")) == Some(x)
  {
    LinkedMembers(rels, "mitigates", "target_ref", "source_ref", Get(tech, "id"), objs, Some("course-of-action"), x);
    LinkedMembers(rels, "detects", "target_ref", "source_ref", Get(tech, "id"), objs, Some("x-mitre-log-source"), x);
    LinkedMembers(rels, "subtechnique-of", "source_ref", "target_ref", Get(tech, "id"), objs, None, x);
    LinkedMembers(rels, "subtechnique-of", "target_ref", "source_ref", Get(tech, "id"), objs, None, x);
  }

  /** An object's id names its type: it begins with the type and "--". */
  predicate IdNamesType(o: Json)
  {
    match (GetString(o, "id"), GetString(o, "type"))
    case (Some(i), Some(t)) => StartsWith(i, t + "--")
    case _ => false
  }

  const DataComponentPrefix := "x-mitre-data-component--"

  /** A log source's id never names a data component. */
  lemma LogSourceIdNotDataComponent(i: string)
    requires StartsWith(i, "x-mitre-log-source" + "--")
    ensures !StartsWith(i, DataComponentPrefix)
  {
    assert i[..20][8] == i[8] == 'l';
    if |i| >= |DataComponentPrefix| {
      assert i[..|DataComponentPrefix|][8] == i[8];
    }
  }

  /** On data the relationship rule accepts, `getDataSources` finds nothing:
      the rule only lets a data component be the source of a detects
      relationship, while the helper keeps only log sources, whose ids
      cannot name a data component. */
  lemma DataSourcesAlwaysEmpty(tech: Json, rels: seq<Json>, objs: seq<Json>)
    requires forall k :: 0 <= k < |objs| ==> IdNamesType(objs[k])
    requires forall k :: 0 <= k < |rels| && Get(rels[k], "relationship_type") == Some(JStr("detects")) ==>
      GetString(rels[k], "source_ref").Some? && StartsWith(GetString(rels[k], "source_ref").value, DataComponentPrefix)
    ensures GetDataSources(tech, rels, objs) == []
  {
    var r := GetDataSources(tech, rels, objs);
    if r != [] {
      var x := r[0];
      assert x in r;
      HelperMembers(tech, rels, objs, x);
      var k :| 0 <= k < |rels| && Matches(rels[k], "detects", "target_ref", Get(tech, "id"))
               && FindById(objs, Get(rels[k], "source_ref")) == Some(x);
      var j :| 0 <= j < |objs| && objs[j] == x && Get(objs[j], "id") == Get(rels[k], "source_ref");
      var i := GetString(rels[k], "source_ref").value;
      assert IdNamesType(x);
      assert GetString(x, "id") == Some(i);
      LogSourceIdNotDataComponent(i);
    }
  }

  /** `getTactics` as written: the tactic objects whose `id` is among the
      technique's phase names. */
  function GetTactics(tech: Json, objs: seq<Json>): (r: seq<Json>)
    ensures forall x :: x in r ==> x in objs && Get(x, "type") == Some(JStr("x-mitre-tactic"))
  {
    TacticsMatching(objs, TechniqueApi.PhaseNames(tech), "id")
  }

  /** The tactics of a technique: the tactic objects whose short name is
      among its phase names, the property a kill chain phase refers to. */
  function TacticsByShortname(tech: Json, objs: seq<Json>): seq<Json>
  {
    TacticsMatching(objs, TechniqueApi.PhaseNames(tech), "x_mitre_shortname")
  }

  /** The tactic objects, in input order, whose `key` property (absent
      included) is one of the names. */
  function TacticsMatching(objs: seq<Json>, names: seq<Option<Json>>, key: string): (r: seq<Json>)
    ensures |r| <= |objs|
    ensures forall x :: x in r ==> x in objs && Get(x, "type") == Some(JStr("x-mitre-tactic"))
  {
    if |objs| == 0 then []
    else
      var n := |objs| - 1;
      var rest := TacticsMatching(objs[..n], names, key);
      if Get(objs[n], "type") == Some(JStr("x-mitre-tactic")) && Get(objs[n], key) in names then rest + [objs[n]] else rest
  }

  /** The result is exactly the tactics whose property is a phase name. */
  lemma {:induction false} TacticsMembers(objs: seq<Json>, names: seq<Option<Json>>, key: string, x: Json)
    ensures x in TacticsMatching(objs, names, key) <==>
      x in objs && Get(x, "type") == Some(JStr("x-mitre-tactic")) && Get(x, key) in names
    decreases |objs|
  {
    if |objs| > 0 {
      var n := |objs| - 1;
      TacticsMembers(objs[..n], names, key, x);
      assert objs == objs[..n] + [objs[n]];
    }
  }

  /** `getPlatforms`: the platforms, or an empty list when absent. */
  function GetPlatforms(tech: Json): (r: Json)
    ensures Get(tech, "x_mitre_platforms") in {None, Some(JNull)} <==> r == JArr([]) && Get(tech, "x_mitre_platforms") != Some(JArr([]))
    ensures Get(tech, "x_mitre_platforms").Some? && Get(tech, "x_mitre_platforms") != Some(JNull) ==> r == Get(tech, "x_mitre_platforms").value
  {
    match Get(tech, "x_mitre_platforms")
    case None => JArr([])
    case Some(JNull) => JArr([])
    case Some(v) => v
  }

  //---------------------------------------------------------------------------
  // Sample data for the two helpers that look the wrong way
  //---------------------------------------------------------------------------

  const ParentId := "attack-pattern--0f20e3cb-245b-4a61-8a91-2d93f7cb0e9b"
  const SubId := "attack-pattern--2e34237d-8574-43f6-aace-ae2915de8597"

  function Tech(id: string): Json
  {
    JObj(map["type" := JStr("attack-pattern"), "id" := JStr(id)])
  }

  /** A sub-technique relationship as ATT&CK writes it: the sub-technique
      is the source, its parent the target. */
  function SubtechniqueOf(sub: string, parent: string): Json
  {
    JObj(map["type" := JStr("relationship"), "relationship_type" := JStr("subtechnique-of"),
             "source_ref" := JStr(sub), "target_ref" := JStr(parent)])
  }

  lemma SampleIdsDiffer()
    ensures ParentId != SubId
  {
    assert ParentId[16] != SubId[16];
  }

  /** The sample relationship's properties. */
  lemma SampleRelationship()
    ensures Get(SubtechniqueOf(SubId, ParentId), "relationship_type") == Some(JStr("subtechnique-of"))
    ensures Get(SubtechniqueOf(SubId, ParentId), "source_ref") == Some(JStr(SubId))
    ensures Get(SubtechniqueOf(SubId, ParentId), "target_ref") == Some(JStr(ParentId))
    ensures Get(Tech(ParentId), "id") == Some(JStr(ParentId))
    ensures Get(Tech(SubId), "id") == Some(JStr(SubId))
  {
  }

  /** Linking through one relationship: its step alone. */
  lemma LinkedOne(rel: Json, rtype: string, key: string, other: string, id: Option<Json>, objs: seq<Json>)
    ensures Linked([rel], rtype, key, other, id, objs, None) ==
      if Matches(rel, rtype, key, id) && FindById(objs, Get(rel, other)).Some? then [FindById(objs, Get(rel, other)).value] else []
  {
    assert [rel][..0] == [];
  }

  /** As written, the parent's sub-technique list is empty and the
      sub-technique's list holds its parent. */
  lemma SubTechniquesReversed()
    ensures GetSubTechniques(Tech(ParentId), [SubtechniqueOf(SubId, ParentId)], [Tech(ParentId), Tech(SubId)]) == []
    ensures GetSubTechniques(Tech(SubId), [SubtechniqueOf(SubId, ParentId)], [Tech(ParentId), Tech(SubId)]) == [Tech(ParentId)]
  {
    SampleIdsDiffer();
    SampleRelationship();
    var rel := SubtechniqueOf(SubId, ParentId);
    var objs := [Tech(ParentId), Tech(SubId)];
    LinkedOne(rel, "subtechnique-of", "source_ref", "target_ref", Get(Tech(ParentId), "id"), objs);
    LinkedOne(rel, "subtechnique-of", "source_ref", "target_ref", Get(Tech(SubId), "id"), objs);
    assert !Matches(rel, "subtechnique-of", "source_ref", Get(Tech(ParentId), "id"));
    assert Matches(rel, "subtechnique-of", "source_ref", Get(Tech(SubId), "id"));
    assert FindById(objs, Get(rel, "target_ref")) == Some(Tech(ParentId));
  }

  /** Following the relationship the other way gives the parent its
      sub-technique and the sub-technique none. */
  lemma SubTechniquesCorrected()
    ensures SubTechniquesOf(Tech(ParentId), [SubtechniqueOf(SubId, ParentId)], [Tech(ParentId), Tech(SubId)]) == [Tech(SubId)]
    ensures SubTechniquesOf(Tech(SubId), [SubtechniqueOf(SubId, ParentId)], [Tech(ParentId), Tech(SubId)]) == []
  {
    SampleIdsDiffer();
    SampleRelationship();
    var rel := SubtechniqueOf(SubId, ParentId);
    var objs := [Tech(ParentId), Tech(SubId)];
    LinkedOne(rel, "subtechnique-of", "target_ref", "source_ref", Get(Tech(ParentId), "id"), objs);
    LinkedOne(rel, "subtechnique-of", "target_ref", "source_ref", Get(Tech(SubId), "id"), objs);
    assert Matches(rel, "subtechnique-of", "target_ref", Get(Tech(ParentId), "id"));
    assert !Matches(rel, "subtechnique-of", "target_ref", Get(Tech(SubId), "id"));
    assert Get(objs[0], "id") != Get(rel, "source_ref");
    assert objs[1..] == [Tech(SubId)];
    assert FindById(objs, Get(rel, "source_ref")) == Some(Tech(SubId));
  }

  /** The corrected helper lists what the object graph links: a technique's
      sub-techniques are the resolved sources of the subtechnique-of
      relationships that target it, which is where the linker calls
      `addSubTechnique`. */
  lemma SubTechniquesFollowTarget(tech: Json, rels: seq<Json>, objs: seq<Json>, x: Json)
    requires x in SubTechniquesOf(tech, rels, objs)
    ensures exists k :: 0 <= k < |rels| && Get(rels[k], "relationship_type") == Some(JStr("subtechnique-of"))
                        && Get(rels[k], "target_ref") == Get(tech, "id") && Get(rels[k], "source_ref") == Get(x, "id")
  {
    HelperMembers(tech, rels, objs, x);
    var k :| 0 <= k < |rels| && Matches(rels[k], "subtechnique-of", "target_ref", Get(tech, "id"))
             && FindById(objs, Get(rels[k], "source_ref")) == Some(x);
  }

  const TacticId := "x-mitre-tactic--ffd5bcee-6e16-4dd2-8eca-7b3beedf33ca"

  /** A technique in the initial-access phase. */
  function InitialAccessTechnique(): Json
  {
    JObj(map["type" := JStr("attack-pattern"), "id" := JStr(SubId),
             "kill_chain_phases" := JArr([JObj(map["kill_chain_name" := JStr("mitre-attack"),
                                                   "phase_name" := JStr("initial-access")])])])
  }

  /** The initial-access tactic. */
  function InitialAccessTactic(): Json
  {
    JObj(map["type" := JStr("x-mitre-tactic"), "id" := JStr(TacticId),
             "x_mitre_shortname" := JStr("initial-access")])
  }

  lemma SamplePhaseNames()
    ensures TechniqueApi.PhaseNames(InitialAccessTechnique()) == [Some(JStr("initial-access"))]
  {
  }

  /** As written, the technique's own tactic is not found: a phase name is
      never compared with the tactic's short name. */
  lemma TacticsMissed()
    ensures GetTactics(InitialAccessTechnique(), [InitialAccessTactic()]) == []
  {
    SamplePhaseNames();
    var objs := [InitialAccessTactic()];
    assert objs[..0] == [];
    assert TacticId != "initial-access" by {
      assert |TacticId| != |"initial-access"|;
    }
  }

  /** Comparing with the short name finds it. */
  lemma TacticsFound()
    ensures TacticsByShortname(InitialAccessTechnique(), [InitialAccessTactic()]) == [InitialAccessTactic()]
  {
    SamplePhaseNames();
    var objs := [InitialAccessTactic()];
    assert objs[..0] == [];
  }
}

=== FILE: timestamps.dfy ===
/** Timestamps: the STIX timestamp grammar, the ISO date-time grammar of
    `z.iso.datetime()`, and the Python timestamp type that parses the
    grammar into a date-time and writes it back with millisecond precision
    (attack_model/models/common/timestamp.py). */
module Timestamps {
  import opened Wrappers
  import opened Strings
  import opened JsonValues

  /** The number written by the digits `s[i..i + w]`, or -1 when they are
      not all digits. */
  function FieldValue(s: string, i: nat, w: nat): int
    requires i + w <= |s|
  {
    if AllDigits(s[i..i + w]) then DecimalValue(s[i..i + w]) else -1
  }

  //---------------------------------------------------------------------------
  // calendar
  //---------------------------------------------------------------------------

  predicate IsLeapYear(y: nat)
  {
    y % 4 == 0 && (y % 100 != 0 || y % 400 == 0)
  }

  function DaysInMonth(y: nat, m: nat): nat
    requires 1 <= m <= 12
  {
    if m == 2 then (if IsLeapYear(y) then 29 else 28)
    else if m == 4 || m == 6 || m == 9 || m == 11 then 30
    else 31
  }

  //---------------------------------------------------------------------------
  // STIX timestamp grammar
  //---------------------------------------------------------------------------

  /** The fixed part `YYYY-MM-DDTHH:MM:SS` of a timestamp, with
      `(0[1-9]|1[012])` months, `(0[1-9]|[12][0-9]|3[01])` days,
      `([01][0-9]|2[0-3])` hours, `[0-5][0-9]` minutes and
      `([0-5][0-9]|60)` seconds. */
  predicate DateTimeHead(s: string)
  {
    |s| >= 19
    && FieldValue(s, 0, 4) >= 0 && s[4] == '-'
    && 1 <= FieldValue(s, 5, 2) <= 12 && s[7] == '-'
    && 1 <= FieldValue(s, 8, 2) <= 31 && s[10] == 'T'
    && 0 <= FieldValue(s, 11, 2) <= 23 && s[13] == ':'
    && 0 <= FieldValue(s, 14, 2) <= 59 && s[16] == ':'
    && 0 <= FieldValue(s, 17, 2) <= 60
  }

  /** The digits after the dot, when the timestamp has a fraction. */
  function Fraction(s: string): string
    requires |s| >= 20
  {
    if |s| >= 21 && s[19] == '.' then s[20..|s| - 1] else ""
  }

  /** The pattern of `_Timestamp.validate`:
      `^[0-9]{4}-MM-DDTHH:MM:SS(\.[0-9]+)?Z$`. */
  predicate IsStixTimestamp(s: string)
  {
    DateTimeHead(s) && |s| >= 20 && s[|s| - 1] == 'Z'
    && (|s| == 20 || (s[19] == '.' && SomeDigits(s[20..|s| - 1])))
  }

  /** The timestamp schemas of the object definitions: a string in the STIX
      timestamp grammar. */
  function StixTimestamp(v: Json): (r: Parsed)
    ensures r.Ok? <==> v.JStr? && IsStixTimestamp(v.s)
    ensures r.Ok? ==> r.value == v
  {
    if !v.JStr? then Fail("invalid_type: expected string")
    else if IsStixTimestamp(v.s) then Ok(v) else Fail("Invalid STIX timestamp")
  }

  /** `z.iso.datetime()`: a calendar date whose day exists in its month,
      `HH:MM`, optionally `:SS` with a fraction of any length, then `Z`. */
  predicate IsIsoDateTime(s: string)
  {
    |s| >= 17 && s[|s| - 1] == 'Z'
    && FieldValue(s, 0, 4) >= 0 && s[4] == '-'
    && 1 <= FieldValue(s, 5, 2) <= 12 && s[7] == '-'
    && 1 <= FieldValue(s, 8, 2) <= DaysInMonth(FieldValue(s, 0, 4), FieldValue(s, 5, 2))
    && s[10] == 'T'
    && 0 <= FieldValue(s, 11, 2) <= 23 && s[13] == ':'
    && 0 <= FieldValue(s, 14, 2) <= 59
    && (|s| == 17
        || (|s| >= 20 && s[16] == ':' && 0 <= FieldValue(s, 17, 2) <= 59
            && (|s| == 20 || (|s| >= 22 && s[19] == '.' && SomeDigits(s[20..|s| - 1])))))
  }

  function IsoDateTime(v: Json): (r: Parsed)
    ensures r.Ok? <==> v.JStr? && IsIsoDateTime(v.s)
    ensures r.Ok? ==> r.value == v
  {
    if !v.JStr? then Fail("invalid_type: expected string")
    else if IsIsoDateTime(v.s) then Ok(v) else Fail("Invalid ISO datetime")
  }

  //---------------------------------------------------------------------------
  // the Python date-time type
  //---------------------------------------------------------------------------

  /** A `datetime` in UTC, down to the microsecond. */
  datatype Stamp = Stamp(year: nat, month: nat, day: nat, hour: nat, minute: nat, second: nat, micro: nat)

  /** The values `datetime` can hold. */
  predicate ValidStamp(t: Stamp)
  {
    1 <= t.year <= 9999 && 1 <= t.month <= 12 && 1 <= t.day <= DaysInMonth(t.year, t.month)
    && t.hour <= 23 && t.minute <= 59 && t.second <= 59 && t.micro < 1000000
  }

  /** What `_Timestamp.validate` receives. */
  datatype TimestampInput = DateTimeValue(stamp: Stamp) | Text(text: string) | OtherValue

  /** A `ValueError`, which pydantic reports as a validation error, or an
      exception it lets escape. */
  datatype TimestampError = Invalid(message: string) | Crash(reason: string)

  const TrailingDataMessage := "unconverted data remains: \n"
  const NotAStringMessage := "expected string or bytes-like object"

  /** `re.match` with the pattern: Python's `$` also matches just before a
      final line feed. */
  predicate PatternMatches(s: string)
  {
    IsStixTimestamp(s) || (|s| > 0 && s[|s| - 1] == '\n' && IsStixTimestamp(s[..|s| - 1]))
  }

  /** `%f`: up to six digits, padded on the right to microseconds. */
  function Micros(f: string): nat
    requires AllDigits(f) && |f| <= 6
  {
    DecimalValue(f) * Pow10(6 - |f|)
  }

  /** `datetime.strptime(value.replace("Z", "+0000"), "%Y-%m-%dT%H:%M:%S.%f%z")`
      on a string the pattern accepted: the fraction is mandatory and holds at
      most six digits, a line feed left after the offset is unconverted
      data, and the fields must form a real `datetime`. */
  function StrptimeAsWritten(s: string): (r: Result<Stamp, string>)
    requires PatternMatches(s)
    ensures r.Ok? ==> ValidStamp(r.value) && IsStixTimestamp(s)
  {
    var body := if IsStixTimestamp(s) then s else s[..|s| - 1];
    var f := Fraction(body);
    if f == "" || |f| > 6 then Err("time data does not match format")
    else if body != s then Err(TrailingDataMessage)
    else
      var t := Stamp(FieldValue(s, 0, 4), FieldValue(s, 5, 2), FieldValue(s, 8, 2),
                     FieldValue(s, 11, 2), FieldValue(s, 14, 2), FieldValue(s, 17, 2), Micros(f));
      if ValidStamp(t) then Ok(t) else Err("day, year or second is out of range")
  }

  /** `_Timestamp.validate` as written: a `datetime` passes through; a string
      must match the pattern and then parse with a mandatory fraction; any
      other value makes `re.match` raise a `TypeError`, which escapes
      validation. */
  function ValidateAsWritten(value: TimestampInput): (r: Result<Stamp, TimestampError>)
    ensures value.DateTimeValue? ==> r == Ok(value.stamp)
    ensures value.Text? && !PatternMatches(value.text) ==> r == Err(Invalid("Invalid timestamp format: " + value.text))
    ensures value.Text? && PatternMatches(value.text) && !IsStixTimestamp(value.text) ==> r.Err? && r.error.Invalid?
    ensures value.Text? && r.Ok? ==> IsStixTimestamp(value.text)
    ensures value.OtherValue? ==> r == Err(Crash(NotAStringMessage))
  {
    match value
    case DateTimeValue(t) => Ok(t)
    case Text(s) =>
      if !PatternMatches(s) then Err(Invalid("Invalid timestamp format: " + s))
      else
        var p := StrptimeAsWritten(s);
        if p.Ok? then Ok(p.value) else Err(Invalid(p.error))
    case OtherValue => Err(Crash(NotAStringMessage))
  }

  /** The parse the pattern promises: the fraction is optional and a missing
      one means zero microseconds. */
  function Strptime(s: string): (r: Result<Stamp, string>)
    requires PatternMatches(s)
    ensures r.Ok? ==> ValidStamp(r.value) && IsStixTimestamp(s)
  {
    var body := if IsStixTimestamp(s) then s else s[..|s| - 1];
    var f := Fraction(body);
    if |f| > 6 then Err("time data does not match format")
    else if body != s then Err(TrailingDataMessage)
    else
      var t := Stamp(FieldValue(s, 0, 4), FieldValue(s, 5, 2), FieldValue(s, 8, 2),
                     FieldValue(s, 11, 2), FieldValue(s, 14, 2), FieldValue(s, 17, 2), Micros(f));
      if ValidStamp(t) then Ok(t) else Err("day, year or second is out of range")
  }

  function Validate(value: TimestampInput): (r: Result<Stamp, TimestampError>)
    ensures value.DateTimeValue? ==> r == Ok(value.stamp)
    ensures value.Text? && !PatternMatches(value.text) ==> r == Err(Invalid("Invalid timestamp format: " + value.text))
    ensures value.Text? && PatternMatches(value.text) && !IsStixTimestamp(value.text) ==> r.Err? && r.error.Invalid?
    ensures value.Text? && r.Ok? ==> IsStixTimestamp(value.text)
    ensures value.OtherValue? ==> r == Err(Crash(NotAStringMessage))
  {
    match value
    case DateTimeValue(t) => Ok(t)
    case Text(s) =>
      if !PatternMatches(s) then Err(Invalid("Invalid timestamp format: " + s))
      else
        var p := Strptime(s);
        if p.Ok? then Ok(p.value) else Err(Invalid(p.error))
    case OtherValue => Err(Crash(NotAStringMessage))
  }

  /** A timestamp followed by a line feed passes the pattern, and then
      both parses refuse it for the line feed left over, unless the
      fraction already fails the format. */
  lemma TrailingLineFeed(s: string)
    requires IsStixTimestamp(s) && |Fraction(s)| <= 6
    ensures PatternMatches(s + "\n") && !IsStixTimestamp(s + "\n")
    ensures Validate(Text(s + "\n")) == Err(Invalid(TrailingDataMessage))
    ensures Fraction(s) != "" ==> ValidateAsWritten(Text(s + "\n")) == Err(Invalid(TrailingDataMessage))
  {
    var t := s + "\n";
    assert t[..|t| - 1] == s;
  }

  /** The two parses agree whenever the string carries a fraction. */
  lemma ParsesAgreeWithFraction(s: string)
    requires IsStixTimestamp(s) && Fraction(s) != ""
    ensures StrptimeAsWritten(s) == Strptime(s)
  {
  }

  /** A timestamp without a fraction. */
  const NoFractionText := "2023-09-27T20:12:54Z"

  /** A string the pattern accepts, without a fraction, that the parse as
      written refuses while the intended parse accepts it. */
  lemma NoFractionRefused()
    ensures IsStixTimestamp(NoFractionText)
    ensures ValidateAsWritten(Text(NoFractionText)).Err?
    ensures Validate(Text(NoFractionText)) == Ok(Stamp(2023, 9, 27, 20, 12, 54, 0))
  {
    var t := Stamp(2023, 9, 27, 20, 12, 54, 0);
    SampleShape(NoFractionText);
    SampleFields(NoFractionText);
    assert ValidStamp(t);
    NoFractionParses(NoFractionText, t);
  }

  /** Without a fraction, only the parse as written fails. */
  lemma NoFractionParses(s: string, t: Stamp)
    requires IsStixTimestamp(s) && |s| == 20 && ValidStamp(t)
    requires t == Stamp(FieldValue(s, 0, 4), FieldValue(s, 5, 2), FieldValue(s, 8, 2),
                        FieldValue(s, 11, 2), FieldValue(s, 14, 2), FieldValue(s, 17, 2), 0)
    ensures ValidateAsWritten(Text(s)).Err?
    ensures Validate(Text(s)) == Ok(t)
  {
    assert Fraction(s) == "";
  }

  lemma SampleShape(s: string)
    requires s == "2023-09-27T20:12:54Z"
    ensures IsStixTimestamp(s) && |s| == 20
  {
    SampleFields(s);
  }

  lemma SampleFields(s: string)
    requires s == "2023-09-27T20:12:54Z"
    ensures FieldValue(s, 0, 4) == 2023 && FieldValue(s, 5, 2) == 9 && FieldValue(s, 8, 2) == 27
    ensures FieldValue(s, 11, 2) == 20 && FieldValue(s, 14, 2) == 12 && FieldValue(s, 17, 2) == 54
  {
    DigitsValue4(s[0..4], 2, 0, 2, 3);
    DigitsValue2(s[5..7], 0, 9);
    DigitsValue2(s[8..10], 2, 7);
    DigitsValue2(s[11..13], 2, 0);
    DigitsValue2(s[14..16], 1, 2);
    DigitsValue2(s[17..19], 5, 4);
  }

  lemma DigitsValue2(t: string, a: nat, b: nat)
    requires a < 10 && b < 10 && t == [DigitChar(a), DigitChar(b)]
    ensures AllDigits(t) && DecimalValue(t) == 10 * a + b
  {
    var h := t[..1];
    assert h == [DigitChar(a)];
    assert h[..|h| - 1] == [];
    assert DigitChar(a) as int - '0' as int == a && DigitChar(b) as int - '0' as int == b;
    assert DecimalValue(h) == a;
    assert t[..|t| - 1] == h;
  }

  lemma DigitsValue4(t: string, a: nat, b: nat, c: nat, d: nat)
    requires a < 10 && b < 10 && c < 10 && d < 10
    requires t == [DigitChar(a), DigitChar(b), DigitChar(c), DigitChar(d)]
    ensures AllDigits(t) && DecimalValue(t) == 1000 * a + 100 * b + 10 * c + d
  {
    assert t[..3] == [DigitChar(a), DigitChar(b), DigitChar(c)];
    assert t[..3][..2] == [DigitChar(a), DigitChar(b)];
    DigitsValue2(t[..3][..2], a, b);
  }

  //---------------------------------------------------------------------------
  // serialisation
  //---------------------------------------------------------------------------

  /** `%Y`: four digits from year 1000 on; the C library writes smaller
      years without padding. */
  function YearText(y: nat): string
  {
    if y >= 1000 then PadDecimal(y, 4) else NatText(y)
  }

  /** `strftime("%Y-%m-%dT%H:%M:%S")` */
  function Head(t: Stamp): string
  {
    YearText(t.year) + "-" + PadDecimal(t.month, 2) + "-" + PadDecimal(t.day, 2) + "T"
    + PadDecimal(t.hour, 2) + ":" + PadDecimal(t.minute, 2) + ":" + PadDecimal(t.second, 2)
  }

  /** `datetime_to_stix_timestamp_str`: `.%f` cut to its first three digits,
      then `Z`, so the microseconds are truncated to milliseconds. */
  function Serialize(t: Stamp): (r: string)
    requires ValidStamp(t)
  {
    Head(t) + "." + PadDecimal(t.micro / 1000, 3) + "Z"
  }

  function Zeros(k: nat): (z: string)
    ensures |z| == k && forall i :: 0 <= i < k ==> z[i] == '0'
  {
    if k == 0 then "" else Zeros(k - 1) + "0"
  }

  /** Scaling by a power of ten appends zeros to the padded text. */
  lemma {:induction false} PadScaled(n: nat, w: nat, k: nat)
    ensures PadDecimal(n * Pow10(k), w + k) == PadDecimal(n, w) + Zeros(k)
    decreases k
  {
    if k > 0 {
      var m := n * Pow10(k);
      assert m == (n * Pow10(k - 1)) * 10;
      assert m / 10 == n * Pow10(k - 1) && m % 10 == 0;
      PadScaled(n, w, k - 1);
      assert DigitChar(0) == '0';
    }
  }

  /** A number that fits in `w` digits is written with a leading zero
      exactly when it would fit in one digit less. */
  lemma {:induction false} PadLead(n: nat, w: nat)
    requires w >= 1 && n < Pow10(w)
    ensures PadDecimal(n, w)[0] == '0' <==> n < Pow10(w - 1)
    decreases w
  {
    if w > 1 {
      PadLead(n / 10, w - 1);
      assert PadDecimal(n, w)[0] == PadDecimal(n / 10, w - 1)[0];
    }
  }

  /** Reading a four-digit field without a leading zero and writing it
      again with `%Y` gives the same digits. */
  lemma YearRoundTrip(s: string)
    requires Digits(s, 4) && s[0] != '0'
    ensures DecimalValue(s) >= 1000 && YearText(DecimalValue(s)) == s
  {
    DecimalValuePad(s);
    PadLead(DecimalValue(s), 4);
  }

  /** The fixed part of an accepted string is the text of its fields. */
  lemma HeadRoundTrip(s: string, t: Stamp)
    requires DateTimeHead(s) && s[0] != '0'
    requires t.year == FieldValue(s, 0, 4) && t.month == FieldValue(s, 5, 2) && t.day == FieldValue(s, 8, 2)
    requires t.hour == FieldValue(s, 11, 2) && t.minute == FieldValue(s, 14, 2) && t.second == FieldValue(s, 17, 2)
    ensures Head(t) == s[..19]
  {
    YearRoundTrip(s[0..4]);
    DecimalValuePad(s[5..7]);
    DecimalValuePad(s[8..10]);
    DecimalValuePad(s[11..13]);
    DecimalValuePad(s[14..16]);
    DecimalValuePad(s[17..19]);
    assert s[..19] == s[0..4] + [s[4]] + s[5..7] + [s[7]] + s[8..10] + [s[10]]
                      + s[11..13] + [s[13]] + s[14..16] + [s[16]] + s[17..19];
  }

  /** The date-time the parse as written builds from an accepted string. */
  lemma ParsedFields(s: string)
    requires IsStixTimestamp(s) && ValidateAsWritten(Text(s)).Ok?
    ensures 1 <= |Fraction(s)| <= 6
    ensures ValidateAsWritten(Text(s)).value
            == Stamp(FieldValue(s, 0, 4), FieldValue(s, 5, 2), FieldValue(s, 8, 2), FieldValue(s, 11, 2),
                     FieldValue(s, 14, 2), FieldValue(s, 17, 2), Micros(Fraction(s)))
  {
  }

  /** Microseconds from a fraction of at most three digits, cut back to
      milliseconds, are the fraction padded on the right to three digits. */
  lemma MillisText(f: string)
    requires AllDigits(f) && 1 <= |f| <= 3
    ensures PadDecimal(Micros(f) / 1000, 3) == f + Zeros(3 - |f|)
  {
    var k := 3 - |f|;
    assert 6 - |f| == k + 3;
    ScaleMillis(DecimalValue(f), k);
    DecimalValuePad(f);
    PadScaled(DecimalValue(f), |f|, k);
  }

  /** A string with a fraction of one to three digits comes back with the
      fraction padded to three digits: `.5Z` becomes `.500Z`, and a string
      with exactly three digits comes back unchanged. */
  lemma ParseThenSerialize(s: string)
    requires IsStixTimestamp(s) && s[0] != '0'
    requires 1 <= |Fraction(s)| <= 3
    requires ValidateAsWritten(Text(s)).Ok?
    ensures Serialize(ValidateAsWritten(Text(s)).value) == s[..19] + "." + Fraction(s) + Zeros(3 - |Fraction(s)|) + "Z"
    ensures |Fraction(s)| == 3 ==> Serialize(ValidateAsWritten(Text(s)).value) == s
  {
    var t := ValidateAsWritten(Text(s)).value;
    var f := Fraction(s);
    ParsedFields(s);
    HeadRoundTrip(s, t);
    MillisText(f);
    SerializedAs(t, s[..19], f + Zeros(3 - |f|));
    FractionLayout(s);
  }

  lemma SerializedAs(t: Stamp, head: string, millis: string)
    requires ValidStamp(t) && Head(t) == head && PadDecimal(t.micro / 1000, 3) == millis
    ensures Serialize(t) == head + "." + millis + "Z"
  {
  }

  /** A timestamp with a fraction is its head, the dot, the fraction and
      `Z`. */
  lemma FractionLayout(s: string)
    requires IsStixTimestamp(s) && |Fraction(s)| > 0
    ensures s == s[..19] + "." + Fraction(s) + "Z"
  {
  }

  lemma ScaleMillis(d: nat, k: nat)
    ensures d * Pow10(k + 3) / 1000 == d * Pow10(k)
  {
    PowSplit(k, 3);
    var m := d * Pow10(k);
    assert d * Pow10(k + 3) == m * 1000 by {
      assert Pow10(k + 3) == Pow10(k) * 1000;
    }
  }

  lemma {:induction false} PowSplit(a: nat, b: nat)
    ensures Pow10(a + b) == Pow10(a) * Pow10(b)
    decreases b
  {
    if b > 0 {
      PowSplit(a, b - 1);
    }
  }

  /** The layout of a serialised date-time from year 1000 on. */
  lemma SerializedLayout(t: Stamp)
    requires ValidStamp(t) && t.year >= 1000
    ensures var s := Serialize(t);
      |s| == 24 && s[0..4] == PadDecimal(t.year, 4) && s[4] == '-' && s[5..7] == PadDecimal(t.month, 2)
      && s[7] == '-' && s[8..10] == PadDecimal(t.day, 2) && s[10] == 'T'
      && s[11..13] == PadDecimal(t.hour, 2) && s[13] == ':' && s[14..16] == PadDecimal(t.minute, 2)
      && s[16] == ':' && s[17..19] == PadDecimal(t.second, 2) && s[19] == '.'
      && s[20..23] == PadDecimal(t.micro / 1000, 3) && s[23] == 'Z'
  {
  }

  /** Writing a date-time from year 1000 on gives a STIX timestamp with a
      three-digit fraction whose fields read back as the date-time's. */
  lemma SerializedFields(t: Stamp)
    requires ValidStamp(t) && t.year >= 1000
    ensures var s := Serialize(t);
      IsStixTimestamp(s) && s[0] != '0' && Fraction(s) == PadDecimal(t.micro / 1000, 3)
      && FieldValue(s, 0, 4) == t.year && FieldValue(s, 5, 2) == t.month && FieldValue(s, 8, 2) == t.day
      && FieldValue(s, 11, 2) == t.hour && FieldValue(s, 14, 2) == t.minute && FieldValue(s, 17, 2) == t.second
  {
    var s := Serialize(t);
    SerializedLayout(t);
    PadLead(t.year, 4);
    FieldOf(s, 0, 4, t.year, 10000);
    FieldOf(s, 5, 2, t.month, 100);
    FieldOf(s, 8, 2, t.day, 100);
    FieldOf(s, 11, 2, t.hour, 100);
    FieldOf(s, 14, 2, t.minute, 100);
    FieldOf(s, 17, 2, t.second, 100);
  }

  /** A field written with `PadDecimal` reads back as its number. */
  lemma FieldOf(s: string, i: nat, w: nat, v: nat, bound: nat)
    requires i + w <= |s| && s[i..i + w] == PadDecimal(v, w)
    requires bound == Pow10(w) && v < bound
    ensures FieldValue(s, i, w) == v
  {
    PadDecimalValue(v, w, bound);
  }

  /** Writing a date-time and parsing the text gives it back, truncated to
      the millisecond. */
  lemma SerializeThenParse(t: Stamp)
    requires ValidStamp(t) && t.year >= 1000
    ensures IsStixTimestamp(Serialize(t))
    ensures ValidateAsWritten(Text(Serialize(t))) == Ok(t.(micro := t.micro / 1000 * 1000))
  {
    var s := Serialize(t);
    SerializedFields(t);
    var ms := PadDecimal(t.micro / 1000, 3);
    PadDecimalValue(t.micro / 1000, 3, 1000);
    assert Micros(ms) == t.micro / 1000 * 1000;
  }
}

=== FILE: versions.dfy ===
/** Version strings: `version`, `x_mitre_version` and
    `x_mitre_attack_spec_version`, and the old mobile identifiers
    (src/schemas/common/common-properties.ts and
    src/schemas/common/property-schemas/attack-versioning.ts). */
module Versions {
  import opened Wrappers
  import opened Strings
  import opened JsonValues
  import opened Generics

  /** The pieces of `s.split('.')`. */
  function DotParts(s: string): seq<string>
  {
    Split(s, ".")
  }

  /** `s` is `count` runs of digits joined by dots, each run of length
      between 1 and `maxLen`. Because a run of digits holds no dot, this is
      the anchored pattern `^\d{1,maxLen}(\.\d{1,maxLen})*$`. */
  predicate DottedBounded(s: string, count: nat, maxLen: nat)
  {
    var parts := DotParts(s);
    |parts| == count && forall k :: 0 <= k < count ==> 1 <= |parts[k]| <= maxLen && AllDigits(parts[k])
  }

  /** The same without a bound on the run lengths (`^\d+(\.\d+)*$`). */
  predicate DottedNumbers(s: string, count: nat)
  {
    var parts := DotParts(s);
    |parts| == count && forall k :: 0 <= k < count ==> SomeDigits(parts[k])
  }

  /** A run of digits without a leading zero (`0|[1-9]\d*`). */
  predicate SemverPart(p: string)
  {
    p == "0" || (SomeDigits(p) && p[0] != '0')
  }

  /** `^(0|[1-9]\d*)\.(0|[1-9]\d*)\.(0|[1-9]\d*)$` */
  predicate IsSemver(s: string)
  {
    var parts := DotParts(s);
    |parts| == 3 && forall k :: 0 <= k < 3 ==> SemverPart(parts[k])
  }

  /** Dotted digit runs can be read back off their text. */
  lemma {:induction false} SplitDigitRuns(parts: seq<string>)
    requires |parts| >= 1
    requires forall k :: 0 <= k < |parts| ==> AllDigits(parts[k])
    ensures DotParts(Join(parts, ".")) == parts
    decreases |parts|
  {
    NoDotInDigits(parts[0]);
    if |parts| == 1 {
      NoOccurrenceSplit(parts[0], ".");
    } else {
      var a := parts[0];
      forall j | 0 <= j < |a| ensures !OccursAt(a + ".", ".", j) {
        assert (a + ".")[j] == a[j];
      }
      SplitHead(a, Join(parts[1..], "."), ".");
      SplitDigitRuns(parts[1..]);
      assert parts == [a] + parts[1..];
    }
  }

  lemma NoDotInDigits(a: string)
    requires AllDigits(a)
    ensures !Contains(a, ".")
  {
    forall j | 0 <= j <= |a| ensures !OccursAt(a, ".", j) {
      if j < |a| {
        assert a[j..j + 1] == [a[j]];
      }
    }
  }

  //---------------------------------------------------------------------------
  // version (common-properties.ts)
  //---------------------------------------------------------------------------

  const VersionMessage := "Version must be in the format 'major.minor'"

  /** `versionSchema`: a missing value becomes "2.1"; a present one must be
      `major.minor` digit runs. */
  function VersionSchema(v: Option<Json>): (r: Parsed)
    ensures v.None? ==> r == Ok(JStr("2.1"))
    ensures v.Some? ==> (r.Ok? <==> v.value.JStr? && DottedNumbers(v.value.s, 2))
    ensures v.Some? && r.Ok? ==> r.value == v.value
  {
    match v
    case None => Ok(JStr("2.1"))
    case Some(x) =>
      if !x.JStr? then Fail("invalid_type: expected string")
      else if DottedNumbers(x.s, 2) then Ok(x) else Fail(VersionMessage)
  }

  /** The default satisfies the pattern it stands in for. */
  lemma DefaultVersionWellFormed()
    ensures DottedNumbers("2.1", 2)
  {
    SplitDigitRuns(["2", "1"]);
    assert Join(["2", "1"], ".") == "2.1";
  }

  //---------------------------------------------------------------------------
  // x_mitre_version
  //---------------------------------------------------------------------------

  const CommonVersionMessage := "The version must be in the format 'M.N' where M and N are integers between 0 and 99"

  /** The numbers of an `M.N` string. */
  function MajorMinor(s: string): (nat, nat)
    requires DottedBounded(s, 2, 3)
  {
    var parts := DotParts(s);
    (DecimalValue(parts[0]), DecimalValue(parts[1]))
  }

  /** `xMitreVersionSchema` of common-properties.ts: `^(\d{1,3})\.(\d{1,3})$`
      and both numbers at most 99. Values other than strings are refused. */
  function CommonXMitreVersion(v: Json): (r: Parsed)
    ensures r.Ok? <==> v.JStr? && DottedBounded(v.s, 2, 3) && MajorMinor(v.s).0 <= 99 && MajorMinor(v.s).1 <= 99
    ensures r.Ok? ==> r.value == v
  {
    if v.JStr? && DottedBounded(v.s, 2, 3) then
      var (major, minor) := MajorMinor(v.s);
      if major <= 99 && minor <= 99 then Ok(v) else Fail(CommonVersionMessage)
    else Fail(CommonVersionMessage)
  }

  /** How `xMitreVersionSchema` ends as written: with the refinement's
      answer, or with the exception it throws. */
  datatype VersionOutcome = Checked(result: Parsed) | Threw(error: string)

  const SplitNotAFunction := "TypeError: value.split is not a function"

  /** `xMitreVersionSchema` as written: `z.custom()` lets every value
      through, `test` reads the value as `String(value)` would, and `split`
      then exists only on strings. */
  function CommonXMitreVersionAsWritten(v: Json, numberText: real -> string): (r: VersionOutcome)
    ensures r.Threw? <==> !v.JStr? && DottedBounded(JsString(v, numberText), 2, 3)
    ensures r.Checked? ==> (r.result.Ok? <==> CommonXMitreVersion(v).Ok?)
  {
    if !DottedBounded(JsString(v, numberText), 2, 3) then Checked(Fail(CommonVersionMessage))
    else if !v.JStr? then Threw(SplitNotAFunction)
    else Checked(CommonXMitreVersion(v))
  }

  /** On strings the written schema and the corrected one agree; elsewhere
      the written one refuses or throws, and the corrected one refuses. */
  lemma CommonVersionAgrees(v: Json, numberText: real -> string)
    ensures v.JStr? ==> CommonXMitreVersionAsWritten(v, numberText) == Checked(CommonXMitreVersion(v))
    ensures !v.JStr? ==> CommonXMitreVersion(v).Err?
    ensures !v.JStr? && CommonXMitreVersionAsWritten(v, numberText).Checked? ==>
      CommonXMitreVersionAsWritten(v, numberText).result.Err?
  {
  }

  /** A one-item array holding "1.5" reads as "1.5", passes the pattern and
      makes `split` throw; so does the number 1.5 wherever JavaScript prints
      it as "1.5". The corrected schema refuses both. */
  lemma NonStringVersionThrows(numberText: real -> string)
    ensures CommonXMitreVersionAsWritten(JArr([JStr("1.5")]), numberText) == Threw(SplitNotAFunction)
    ensures numberText(1.5) == "1.5" ==> CommonXMitreVersionAsWritten(JNum(1.5), numberText) == Threw(SplitNotAFunction)
    ensures CommonXMitreVersion(JArr([JStr("1.5")])).Err? && CommonXMitreVersion(JNum(1.5)).Err?
  {
    var items := [JStr("1.5")];
    assert seq(|items|, k requires 0 <= k < |items| => if items[k].JNull? then "" else JsString(items[k], numberText)) == ["1.5"];
    assert JsString(JArr(items), numberText) == "1.5";
    OnePointFive();
  }

  lemma OnePointFive()
    ensures DottedBounded("1.5", 2, 3)
  {
    assert Join(["1", "5"], ".") == "1.5";
    SplitDigitRuns(["1", "5"]);
  }

  const VersionFormatMessage := "Version must be in format 'M.N' where M and N are 0-99"

  /** `xMitreVersionSchema` of attack-versioning.ts: trimmed, non-empty and
      `^(\d{1,2})\.(\d{1,2})$`. */
  function XMitreVersion(v: Json): (r: Parsed)
    ensures r.Ok? <==> v.JStr? && DottedBounded(Trim(v.s), 2, 2)
    ensures r.Ok? ==> r.value == JStr(Trim(v.s))
  {
    TrimmedMatching(v, s => DottedBounded(s, 2, 2), VersionFormatMessage)
  }

  /** Every version the newer schema accepts is accepted, once trimmed, by
      the older one: two digits never exceed 99. */
  lemma NewVersionAcceptedByCommon(v: Json)
    requires XMitreVersion(v).Ok?
    ensures CommonXMitreVersion(XMitreVersion(v).value).Ok?
  {
    var s := Trim(v.s);
    assert XMitreVersion(v).value == JStr(s);
    TwoDigitsWithinCommon(s);
  }

  lemma TwoDigitsWithinCommon(s: string)
    requires DottedBounded(s, 2, 2)
    ensures CommonXMitreVersion(JStr(s)).Ok?
  {
    var parts := DotParts(s);
    assert 1 <= |parts[0]| <= 2 && AllDigits(parts[0]);
    assert 1 <= |parts[1]| <= 2 && AllDigits(parts[1]);
    var a, b := parts[0], parts[1];
    assert parts == [a, b];
    ShortRunBelow(a);
    ShortRunBelow(b);
    TwoRunsCommon(s, a, b);
  }

  /** One or two digits read as at most 99. */
  lemma ShortRunBelow(a: string)
    requires 1 <= |a| <= 2 && AllDigits(a)
    ensures DecimalValue(a) <= 99
  {
    DecimalValuePad(a);
    if |a| == 1 { assert Pow10(1) == 10; } else { assert Pow10(2) == 100; }
  }

  /** The text of two digit runs splits back into the runs and has nothing
      to trim. */
  lemma TwoRunsText(a: string, b: string)
    requires SomeDigits(a) && SomeDigits(b)
    ensures DotParts(Join([a, b], ".")) == [a, b] && Trim(Join([a, b], ".")) == Join([a, b], ".")
  {
    SplitDigitRuns([a, b]);
    DottedTextSolid([a, b]);
  }

  /** Two digit runs are each at most `n` long exactly when their text is
      `n`-bounded. */
  lemma TwoRunsBounded(s: string, a: string, b: string, n: nat)
    requires SomeDigits(a) && SomeDigits(b) && DotParts(s) == [a, b]
    ensures DottedBounded(s, 2, n) <==> |a| <= n && |b| <= n
  {
    var parts := DotParts(s);
    assert parts[0] == a && parts[1] == b;
    if |a| <= n && |b| <= n {
      forall k | 0 <= k < 2 ensures 1 <= |parts[k]| <= n && AllDigits(parts[k]) {
        if k == 0 {} else {}
      }
    }
  }

  /** How the older schema judges the text of two digit runs. */
  lemma TwoRunsCommon(s: string, a: string, b: string)
    requires SomeDigits(a) && SomeDigits(b) && DotParts(s) == [a, b]
    ensures CommonXMitreVersion(JStr(s)).Ok? <==> |a| <= 3 && |b| <= 3 && DecimalValue(a) <= 99 && DecimalValue(b) <= 99
    ensures |a| <= 3 && |b| <= 3 ==> MajorMinor(s) == (DecimalValue(a), DecimalValue(b))
  {
    var parts := DotParts(s);
    assert parts[0] == a && parts[1] == b;
    TwoRunsBounded(s, a, b, 3);
    if DottedBounded(s, 2, 3) {
      assert MajorMinor(s) == (DecimalValue(a), DecimalValue(b));
    }
  }

  /** How the newer schema judges the text of two digit runs. */
  lemma TwoRunsNew(s: string, a: string, b: string)
    requires SomeDigits(a) && SomeDigits(b) && DotParts(s) == [a, b] && Trim(s) == s
    ensures XMitreVersion(JStr(s)).Ok? <==> |a| <= 2 && |b| <= 2
  {
    TwoRunsBounded(s, a, b, 2);
  }

  /** `099.0`: three digits with a leading zero. */
  const PaddedVersionText := "099.0"

  /** `100.0`: a major version of 100. */
  const HundredVersionText := "100.0"

  /** The older schema accepts three-digit runs with a leading zero, which
      the newer one refuses. */
  lemma CommonAcceptsPaddedVersion()
    ensures CommonXMitreVersion(JStr(PaddedVersionText)).Ok?
    ensures XMitreVersion(JStr(PaddedVersionText)).Err?
  {
    TwoRunsText("099", "0");
    assert Join(["099", "0"], ".") == PaddedVersionText;
    TwoRunsCommon(PaddedVersionText, "099", "0");
    TwoRunsNew(PaddedVersionText, "099", "0");
    PaddedValue();
  }

  lemma PaddedValue()
    ensures DecimalValue("099") == 99
  {
    assert "099"[..2] == "09" && "09"[..1] == "0" && "0"[..0] == "";
  }

  /** Both schemas refuse 100 as a major version. */
  lemma HundredRejected()
    ensures CommonXMitreVersion(JStr(HundredVersionText)).Err?
    ensures XMitreVersion(JStr(HundredVersionText)).Err?
  {
    TwoRunsText("100", "0");
    assert Join(["100", "0"], ".") == HundredVersionText;
    TwoRunsCommon(HundredVersionText, "100", "0");
    TwoRunsNew(HundredVersionText, "100", "0");
    HundredValue();
  }

  lemma HundredValue()
    ensures DecimalValue("100") == 100
  {
    assert "100"[..2] == "10" && "10"[..1] == "1" && "1"[..0] == "";
  }

  /** The shortest decimal text of a number below 100. */
  function Decimal2(n: nat): (s: string)
    requires n < 100
    ensures 1 <= |s| <= 2 && AllDigits(s)
  {
    if n < 10 then PadDecimal(n, 1) else PadDecimal(n, 2)
  }

  /** `M.N` for two numbers below 100. */
  function FormatVersion(major: nat, minor: nat): string
    requires major < 100 && minor < 100
  {
    Decimal2(major) + "." + Decimal2(minor)
  }

  /** Every formatted version is accepted by both schemas and reads back as
      its two numbers. */
  lemma FormatVersionRoundTrip(major: nat, minor: nat)
    requires major < 100 && minor < 100
    ensures var s := FormatVersion(major, minor);
            DottedBounded(s, 2, 2) && MajorMinor(s) == (major, minor)
            && CommonXMitreVersion(JStr(s)).Ok?
  {
    var a := Decimal2(major);
    var b := Decimal2(minor);
    Decimal2Value(major);
    Decimal2Value(minor);
    FormattedRuns(a, b, major, minor);
  }

  /** The shortest decimal text reads back as its number. */
  lemma Decimal2Value(n: nat)
    requires n < 100
    ensures DecimalValue(Decimal2(n)) == n
  {
    if n < 10 { PadDecimalValue(n, 1, 10); } else { PadDecimalValue(n, 2, 100); }
  }

  /** Two runs of one or two digits, joined by a dot, are a version both
      schemas read as the runs' values. */
  lemma FormattedRuns(a: string, b: string, major: nat, minor: nat)
    requires 1 <= |a| <= 2 && AllDigits(a) && 1 <= |b| <= 2 && AllDigits(b)
    requires DecimalValue(a) == major < 100 && DecimalValue(b) == minor < 100
    ensures var s := a + "." + b;
            DottedBounded(s, 2, 2) && MajorMinor(s) == (major, minor)
            && CommonXMitreVersion(JStr(s)).Ok?
  {
    var s := a + "." + b;
    TwoRunsText(a, b);
    assert Join([a, b], ".") == s;
    TwoRunsBounded(s, a, b, 2);
    TwoRunsCommon(s, a, b);
  }

  /** Every accepted `M.N` string is the text of its two numbers, so reading
      the numbers loses nothing. */
  lemma VersionTextRecovered(s: string)
    requires DottedBounded(s, 2, 3)
    ensures s == DotParts(s)[0] + "." + DotParts(s)[1]
  {
    JoinSplit(s, ".");
    var parts := DotParts(s);
    assert parts[1..] == [parts[1]];
  }

  //---------------------------------------------------------------------------
  // x_mitre_attack_spec_version
  //---------------------------------------------------------------------------

  const SpecVersionMessage := "Must be in the format 'M.N.P' where M, N, and P are single-digit integers (0-9)"

  /** `xMitreAttackSpecVersionSchema` of common-properties.ts:
      `^[0-9]\.[0-9]\.[0-9]$`, then each number at most 9. */
  function CommonSpecVersion(v: Json): (r: Parsed)
    ensures r.Ok? <==> v.JStr? && DottedBounded(v.s, 3, 1)
    ensures r.Ok? ==> r.value == v
  {
    if !v.JStr? then Fail("invalid_type: expected string")
    else if !DottedBounded(v.s, 3, 1) then Fail(SpecVersionMessage)
    else
      var parts := DotParts(v.s);
      SingleDigitBelowTen(parts[0]);
      SingleDigitBelowTen(parts[1]);
      SingleDigitBelowTen(parts[2]);
      if DecimalValue(parts[0]) <= 9 && DecimalValue(parts[1]) <= 9 && DecimalValue(parts[2]) <= 9 then Ok(v)
      else Fail(SpecVersionMessage)
  }

  lemma SingleDigitBelowTen(p: string)
    requires |p| == 1 && AllDigits(p)
    ensures DecimalValue(p) <= 9
  {
    DecimalValuePad(p);
  }

  const SemverMessage := "Must be valid semantic version (MAJOR.MINOR.PATCH)"

  /** `xMitreAttackSpecVersionSchema` of attack-versioning.ts: trimmed,
      non-empty and a semantic version without leading zeros. */
  function XMitreAttackSpecVersion(v: Json): (r: Parsed)
    ensures r.Ok? <==> v.JStr? && IsSemver(Trim(v.s))
    ensures r.Ok? ==> r.value == JStr(Trim(v.s))
  {
    TrimmedMatching(v, IsSemver, SemverMessage)
  }

  /** Every single-digit spec version is a semantic version. */
  lemma SingleDigitSpecIsSemver(s: string)
    requires DottedBounded(s, 3, 1)
    ensures IsSemver(s)
  {
    var parts := DotParts(s);
    forall k | 0 <= k < 3 ensures SemverPart(parts[k]) {
      if parts[k][0] == '0' {
        assert parts[k] == "0";
      }
    }
  }

  /** The text of dotted digit runs is its own trim. */
  lemma DottedTextSolid(parts: seq<string>)
    requires |parts| >= 1
    requires forall k :: 0 <= k < |parts| ==> SomeDigits(parts[k])
    ensures Trim(Join(parts, ".")) == Join(parts, ".")
  {
    JoinFirstLast(parts);
    DigitEndsSolid(Join(parts, "."));
  }

  /** A string that starts and ends with a digit is its own trim. */
  lemma DigitEndsSolid(s: string)
    requires |s| > 0 && IsDigit(s[0]) && IsDigit(s[|s| - 1])
    ensures Trim(s) == s
  {
    DigitSolid(s[0]);
    DigitSolid(s[|s| - 1]);
    TrimSolid(s);
  }

  lemma DigitSolid(c: char)
    requires IsDigit(c)
    ensures !IsJsWhitespace(c)
  {
  }

  lemma {:induction false} JoinFirstLast(parts: seq<string>)
    requires |parts| >= 1
    requires forall k :: 0 <= k < |parts| ==> SomeDigits(parts[k])
    ensures var s := Join(parts, ".");
            |s| > 0 && IsDigit(s[0]) && IsDigit(s[|s| - 1])
    decreases |parts|
  {
    if |parts| > 1 {
      JoinFirstLast(parts[1..]);
    }
  }

  /** Three runs without leading zeros, joined by dots, form a semantic
      version with nothing to trim. */
  lemma SemverText(parts: seq<string>)
    requires |parts| == 3 && forall k :: 0 <= k < 3 ==> SemverPart(parts[k])
    ensures IsSemver(Join(parts, ".")) && Trim(Join(parts, ".")) == Join(parts, ".")
  {
    assert forall k :: 0 <= k < 3 ==> SomeDigits(parts[k]);
    SplitDigitRuns(parts);
    DottedTextSolid(parts);
  }

  /** A semantic version with nothing to trim is accepted as it is. */
  lemma SemverAccepted(s: string)
    requires IsSemver(s) && Trim(s) == s
    ensures XMitreAttackSpecVersion(JStr(s)) == Ok(JStr(s))
  {
  }

  const ThreeText := "3.0.0"
  const TwoOneText := "2.1.0"

  /** `3.0.0` is a semantic version. */
  lemma SpecVersionThree()
    ensures XMitreAttackSpecVersion(JStr(ThreeText)).Ok?
  {
    SemverText(["3", "0", "0"]);
    assert Join(["3", "0", "0"], ".") == ThreeText;
    SemverAccepted(ThreeText);
  }

  /** `2.1.0` is a semantic version. */
  lemma SpecVersionTwoOne()
    ensures XMitreAttackSpecVersion(JStr(TwoOneText)).Ok?
  {
    SemverText(["2", "1", "0"]);
    assert Join(["2", "1", "0"], ".") == TwoOneText;
    SemverAccepted(TwoOneText);
  }

  /** A string with nothing to trim that is not a semantic version is
      refused. */
  lemma SemverRefused(s: string)
    requires !IsSemver(s) && Trim(s) == s
    ensures XMitreAttackSpecVersion(JStr(s)).Err?
  {
  }

  /** Dotted digit runs that do not form a semantic version: more or fewer
      than three runs, or run `bad` with a leading zero. */
  lemma NotSemverText(parts: seq<string>, bad: nat)
    requires |parts| >= 1 && forall k :: 0 <= k < |parts| ==> SomeDigits(parts[k])
    requires |parts| != 3 || (bad < |parts| && !SemverPart(parts[bad]))
    ensures !IsSemver(Join(parts, ".")) && Trim(Join(parts, ".")) == Join(parts, ".")
  {
    SplitDigitRuns(parts);
    DottedTextSolid(parts);
  }

  const OneZeroText := "1.0"
  const LeadingZeroText := "01.0.0"

  /** `1.0` has only two parts. */
  lemma SpecVersionTwoParts()
    ensures XMitreAttackSpecVersion(JStr(OneZeroText)).Err?
  {
    NotSemverText(["1", "0"], 0);
    assert Join(["1", "0"], ".") == OneZeroText;
    SemverRefused(OneZeroText);
  }

  /** `01.0.0` has a leading zero. */
  lemma SpecVersionLeadingZero()
    ensures XMitreAttackSpecVersion(JStr(LeadingZeroText)).Err?
  {
    assert !SemverPart("01");
    NotSemverText(["01", "0", "0"], 0);
    assert Join(["01", "0", "0"], ".") == LeadingZeroText;
    SemverRefused(LeadingZeroText);
  }

  /** The empty string is refused. */
  lemma SpecVersionEmpty()
    ensures XMitreAttackSpecVersion(JStr("")).Err?
  {
    BlankIffAllWhitespace("");
  }

  const TenText := "10.0.0"

  /** The semantic-version schema admits two-digit numbers that the older
      single-digit schema refuses. */
  lemma SemverWiderThanSingleDigit()
    ensures CommonSpecVersion(JStr(TenText)).Err?
    ensures XMitreAttackSpecVersion(JStr(TenText)).Ok?
  {
    TenAccepted(TenText);
    TenRefused(TenText);
  }

  lemma TenAccepted(s: string)
    requires s == Join(["10", "0", "0"], ".")
    ensures XMitreAttackSpecVersion(JStr(s)).Ok?
  {
    SemverText(["10", "0", "0"]);
    SemverAccepted(s);
  }

  lemma TenRefused(s: string)
    requires s == Join(["10", "0", "0"], ".")
    ensures CommonSpecVersion(JStr(s)).Err?
  {
    SplitDigitRuns(["10", "0", "0"]);
    WideRunRefused(s, ["10", "0", "0"]);
  }

  /** Dotted digit runs of which the first is longer than one digit are
      refused by the single-digit schema. */
  lemma WideRunRefused(s: string, parts: seq<string>)
    requires |parts| == 3 && DotParts(s) == parts && |parts[0]| > 1
    ensures CommonSpecVersion(JStr(s)).Err?
  {
  }

  //---------------------------------------------------------------------------
  // x_mitre_old_attack_id
  //---------------------------------------------------------------------------

  const OldAttackIdMessage := "Must be in the format 'MOB-X0000' where X is either 'M' or 'S', followed by exactly four digits"

  /** `^MOB-(M|S)\d{4}$` with the letters allowed after `MOB-`. */
  predicate IsOldAttackId(s: string, letters: set<char>)
  {
    |s| == 9 && s[..4] == "MOB-" && s[4] in letters && Digits(s[5..], 4)
  }

  /** `xMitreOldAttackIdSchema` */
  function OldAttackId(v: Json): (r: Parsed)
    ensures r.Ok? <==> v.JStr? && IsOldAttackId(v.s, {'M', 'S'})
    ensures r.Ok? ==> r.value == v
  {
    if !v.JStr? then Fail("invalid_type: expected string")
    else if IsOldAttackId(v.s, {'M', 'S'}) then Ok(v) else Fail(OldAttackIdMessage)
  }

  /** The old identifier with letter `x` and number `n`. */
  function FormatOldAttackId(x: char, n: nat): string
    requires n < 10000
  {
    "MOB-" + [x] + PadDecimal(n, 4)
  }

  /** Formatting and reading an old identifier are inverse. */
  lemma OldAttackIdRoundTrip(x: char, n: nat)
    requires x == 'M' || x == 'S'
    requires n < 10000
    ensures var s := FormatOldAttackId(x, n);
            IsOldAttackId(s, {'M', 'S'}) && s[4] == x && DecimalValue(s[5..]) == n
  {
    var s := FormatOldAttackId(x, n);
    PadDecimalValue(n, 4, 10000);
    assert s[..4] == "MOB-";
    assert s[5..] == PadDecimal(n, 4);
  }
}

=== FILE: wrappers.dfy ===
/** Failure-compatible wrappers shared by every module of the model. */
module Wrappers {

  /** An optional value: JavaScript `undefined` or Python `None` become `None`. */
  datatype Option<+T> = None | Some(value: T) {
    function GetOr(default: T): T {
      match this
      case Some(v) => v
      case None => default
    }
  }

  /** Either a value or an error: the model of a thrown exception or of a
      failed parse. */
  datatype Result<+T, +E> = Ok(value: T) | Err(error: E) {
    predicate IsFailure() {
      Err?
    }

    function PropagateFailure<U>(): Result<U, E>
      requires Err?
    {
      Err(error)
    }

    function Extract(): T
      requires Ok?
    {
      value
    }
  }
}

=== FILE: zod_identifier.dfy ===
/** The identifier parsers of the older `zod/` draft: the transforming
    `StixIdentifierSchema` (zod/src/types/stix-identifier.ts), the draft
    `stixIdentifierSchema` and its exact-type factory
    (zod/src/schemas/common/stix-identifier.ts), and the `StixIdentifierImpl`
    class built on them (zod/src/classes/stix-identifier.cls.ts). The type
    enums these files import are not part of this model; they are taken to
    be the supported STIX types. */
module ZodIdentifier {
  import opened Wrappers
  import opened Strings
  import opened JsonValues
  import opened StixTypes
  import opened StixIdentifier

  //---------------------------------------------------------------------------
  // The transforming schema (zod/src/types/stix-identifier.ts)
  //---------------------------------------------------------------------------

  const FormatMessage := "Invalid STIX Identifier: STIX Identifier must comply with expected format: /^[a-z-]+--[0-9a-f]{8}-[0-9a-f]{4}-4[0-9a-f]{3}-[89ab][0-9a-f]{3}-[0-9a-f]{12}$/i"
  const UuidMessage := "Invalid STIX Identifier: STIX Identifier must contain a valid UUIDv4 string"
  const TypeMessage := "Invalid STIX Identifier: STIX Identifier must contain a valid STIX type"

  /** `[a-z-]` under the `i` flag. */
  predicate IsTypeChar(c: char) { IsLower(c) || IsUpper(c) || c == '-' }

  /** `[a-z-]+` under the `i` flag. */
  predicate IsTypeText(t: string)
  {
    |t| >= 1 && forall i :: 0 <= i < |t| ==> IsTypeChar(t[i])
  }

  /** The format regex. Its UUID part has a fixed length of 36, so a match
      splits the input at a fixed place: the type text, `--` and a UUIDv4
      written in either case. */
  predicate FormatOk(s: string)
  {
    |s| >= 39 && IsTypeText(s[..|s| - 38]) && s[|s| - 38] == '-' && s[|s| - 37] == '-'
    && IsUuidV4(s[|s| - 36..])
  }

  /** Every type text, `--` and UUIDv4 matches the format. */
  lemma FormatOfParts(t: string, u: string)
    requires IsTypeText(t) && IsUuidV4(u)
    ensures FormatOk(t + "--" + u)
  {
    var s := t + "--" + u;
    assert s[..|s| - 38] == t;
    assert s[|s| - 36..] == u;
  }

  /** Every match is such a concatenation. */
  lemma FormatParts(s: string)
    requires FormatOk(s)
    ensures s == s[..|s| - 38] + "--" + s[|s| - 36..]
  {
  }

  /** The transformed value: the two pieces, and the string they print as. */
  datatype ParsedId = ParsedId(typ: string, uuid: string)

  /** `toString()` of the transformed value. */
  function ParsedText(p: ParsedId): string
  {
    p.typ + "--" + p.uuid
  }

  /** zod's `.uuid()` check: the 8-4-4-4-12 hexadecimal shape, whatever the
      version nibble. */
  predicate ZodUuid(u: string) { IsUuidShape(u) }

  /** `StixIdentifierSchema`'s transform, as written: the format first, then
      the first `--` piece against the type enum, then the second piece
      against zod's `.uuid()`; each failure reports only its own issue. */
  function Transform(s: string): (r: Result<ParsedId, string>)
    ensures r == Err(FormatMessage) <==> !FormatOk(s)
    ensures r == Err(TypeMessage) <==> FormatOk(s) && !IsStixType(TypePart(s))
    ensures r.Ok? ==> FormatOk(s) && IsStixType(r.value.typ) && ZodUuid(r.value.uuid)
    ensures r.Ok? ==> r.value.typ == TypePart(s) && Some(r.value.uuid) == UuidPart(s)
  {
    if !FormatOk(s) then Err(FormatMessage)
    else if !IsStixType(TypePart(s)) then Err(TypeMessage)
    else match UuidPart(s)
      case Some(u) => if ZodUuid(u) then Ok(ParsedId(TypePart(s), u)) else Err(UuidMessage)
      case None => Err(UuidMessage)
  }

  /** The transform with the second piece checked as a UUIDv4, the check
      the format regex itself applies. */
  function TransformV4(s: string): (r: Result<ParsedId, string>)
    ensures r == Err(FormatMessage) <==> !FormatOk(s)
    ensures r == Err(TypeMessage) <==> FormatOk(s) && !IsStixType(TypePart(s))
    ensures r.Ok? ==> Transform(s) == r
  {
    if !FormatOk(s) then Err(FormatMessage)
    else if !IsStixType(TypePart(s)) then Err(TypeMessage)
    else match UuidPart(s)
      case Some(u) => if IsUuidV4(u) then Ok(ParsedId(TypePart(s), u)) else Err(UuidMessage)
      case None => Err(UuidMessage)
  }

  /** The all-letter group that zod's `.uuid()` accepts but a UUIDv4 does
      not (it has no version digit). */
  const LetterGroups := "abcdefab-abcd-abcd-abcd-abcdefabcdef"
  const SampleUuid := "12345678-1234-4123-8123-123456789abc"

  /** The transform as written accepts an input that does not print back as
      itself: the all-letter second piece is part of the regex's type text,
      the regex's UUID comes after a second `--`, and the value keeps the
      first two pieces only. */
  lemma RoundTripFails()
    ensures var s := "tool--" + LetterGroups + "--" + SampleUuid;
      Transform(s) == Ok(ParsedId("tool", LetterGroups)) && ParsedText(Transform(s).value) != s
  {
    var s := "tool--" + LetterGroups + "--" + SampleUuid;
    SampleFormat();
    SamplePieces();
    assert |ParsedText(ParsedId("tool", LetterGroups))| < |s|;
  }

  lemma SampleFormat()
    ensures FormatOk("tool--" + LetterGroups + "--" + SampleUuid)
    ensures ZodUuid(LetterGroups) && !IsUuidV4(LetterGroups)
  {
    var s := "tool--" + LetterGroups + "--" + SampleUuid;
    LetterGroupsFacts();
    SampleUuidV4();
    var t := s[..|s| - 38];
    assert t == "tool--" + LetterGroups;
    assert IsTypeText("tool--");
    TypeTextConcat("tool--", LetterGroups);
    assert s[|s| - 36..] == SampleUuid;
  }

  lemma LetterGroupsFacts()
    ensures IsUuidShape(LetterGroups) && !IsUuidV4(LetterGroups) && IsTypeText(LetterGroups)
  {
    assert LetterGroups[14] == 'a';
  }

  lemma SampleUuidV4()
    ensures IsUuidV4(SampleUuid)
  {
  }

  lemma TypeTextConcat(a: string, b: string)
    requires IsTypeText(a) && IsTypeText(b)
    ensures IsTypeText(a + b)
  {
    assert forall i :: 0 <= i < |b| ==> (a + b)[|a| + i] == b[i];
  }

  lemma SamplePieces()
    ensures var s := "tool--" + LetterGroups + "--" + SampleUuid;
      TypePart(s) == "tool" && UuidPart(s) == Some(LetterGroups)
  {
    var s := "tool--" + LetterGroups + "--" + SampleUuid;
    assert DashSafe("tool");
    DashSafeSeparator("tool");
    assert IsUuidShape(LetterGroups);
    UuidDashSafe(LetterGroups);
    DashSafeSeparator(LetterGroups);
    assert s == "tool" + "--" + (LetterGroups + "--" + SampleUuid);
    SplitHead("tool", LetterGroups + "--" + SampleUuid, "--");
    SplitHead(LetterGroups, SampleUuid, "--");
  }

  /** Every supported STIX type is type text. */
  lemma SupportedTypesText(t: string)
    requires IsStixType(t)
    ensures IsTypeText(t)
  {
    if t in SupportedStixTypes[..6] {
      FirstTypesText(t);
    } else if t in SupportedStixTypes[6..12] {
      MiddleTypesText(t);
    } else {
      assert t in SupportedStixTypes[12..];
      LastTypesText(t);
    }
  }

  lemma FirstTypesText(t: string)
    requires t in SupportedStixTypes[..6]
    ensures IsTypeText(t)
  {
    assert SupportedStixTypes[..6] == ["attack-pattern", "bundle", "campaign", "course-of-action", "identity", "intrusion-set"];
    assert IsTypeText("attack-pattern");
    assert IsTypeText("bundle");
    assert IsTypeText("campaign");
    assert IsTypeText("course-of-action");
    assert IsTypeText("identity");
    assert IsTypeText("intrusion-set");
  }

  lemma MiddleTypesText(t: string)
    requires t in SupportedStixTypes[6..12]
    ensures IsTypeText(t)
  {
    assert SupportedStixTypes[6..12] == ["malware", "tool", "marking-definition", "x-mitre-data-component", "x-mitre-data-source", "x-mitre-tactic"];
    assert IsTypeText("malware");
    assert IsTypeText("tool");
    assert IsTypeText("marking-definition");
    assert IsTypeText("x-mitre-data-component");
    assert IsTypeText("x-mitre-data-source");
    assert IsTypeText("x-mitre-tactic");
  }

  lemma LastTypesText(t: string)
    requires t in SupportedStixTypes[12..]
    ensures IsTypeText(t)
  {
    assert SupportedStixTypes[12..] == ["x-mitre-asset", "x-mitre-matrix", "x-mitre-collection", "relationship", "file", "artifact"];
    assert IsTypeText("x-mitre-asset");
    assert IsTypeText("x-mitre-matrix");
    assert IsTypeText("x-mitre-collection");
    assert IsTypeText("relationship");
    assert IsTypeText("file");
    assert IsTypeText("artifact");
  }

  /** With the UUIDv4 check, an accepted input prints back as itself. */
  lemma {:induction false} RoundTripV4(s: string)
    requires TransformV4(s).Ok?
    ensures ParsedText(TransformV4(s).value) == s
  {
    var p := TransformV4(s).value;
    var t := p.typ;
    var u := p.uuid;
    assert IsStixIdentifier(s);
    IdentifierParts(s);
    NoSecondPiece(s, t, u);
  }

  /** A format match ends in its UUID, so a UUIDv4 piece cannot be followed
      by another `--`: the type text before the regex's `--` holds no digit
      and no doubled hyphen. */
  lemma NoSecondPiece(s: string, t: string, u: string)
    requires FormatOk(s) && IsUuidV4(u)
    ensures !StartsWith(s, t + "--" + u + "--")
  {
    var head := t + "--" + u + "--";
    var n := |t|;
    var l := |s|;
    if |head| <= l {
      var k := l - 38 - (n + 2);
      var j: int;
      if k > 14 {
        j := n + 16;
        assert s[..l - 38][j] == s[j];
        assert head[j] == u[14];
      } else if u[k] != '-' {
        j := l - 38;
        assert head[j] == u[k];
      } else {
        j := l - 37;
        assert UuidHyphenAt(k) && !UuidHyphenAt(k + 1);
        assert head[j] == u[k + 1];
      }
      assert s[j] != head[j];
      assert s[..|head|][j] != head[j];
    }
  }

  /** And every supported type followed by `--` and a UUIDv4 is accepted as
      those two pieces. */
  lemma AcceptsParts(t: string, u: string)
    requires IsStixType(t) && IsUuidV4(u)
    ensures TransformV4(t + "--" + u) == Ok(ParsedId(t, u))
    ensures Transform(t + "--" + u) == Ok(ParsedId(t, u))
  {
    SupportedTypesText(t);
    FormatOfParts(t, u);
    IdentifierFromParts(t, u, "");
    assert t + "--" + u + "" == t + "--" + u;
  }

  /** `[Symbol.toPrimitive]` of the transformed value: the string for the
      `string` and `default` hints, `null` otherwise. */
  function TransformedPrimitive(p: ParsedId, hint: string): (r: Option<string>)
    ensures r.Some? <==> hint == "string" || hint == "default"
    ensures r.Some? ==> r.value == ParsedText(p)
  {
    if hint == "string" || hint == "default" then Some(ParsedText(p)) else None
  }

  //---------------------------------------------------------------------------
  // The draft schema (zod/src/schemas/common/stix-identifier.ts)
  //---------------------------------------------------------------------------

  const DraftTypeMessage := "Invalid STIX Identifier: must contain a valid STIX type"

  /** The custom check: a string whose first two `--` pieces are non-empty,
      a supported type and a UUIDv4. */
  predicate DraftCheck(s: string)
  {
    var t := TypePart(s);
    var u := UuidPart(s);
    t != "" && u.Some? && u.value != "" && IsStixType(t) && IsUuidV4(u.value)
  }

  /** The draft `stixIdentifierSchema`; its refine repeats the custom test,
      so the only issue it can report is the custom one. */
  function DraftStixIdentifierSchema(v: Json): (r: Parsed)
    ensures r.Ok? ==> r.value == v
  {
    if v.JStr? && DraftCheck(v.s) then Ok(v) else Fail(InvalidIdentifier)
  }

  /** The emptiness tests add nothing: the draft schema accepts exactly what
      the current one does, with the same issue. */
  lemma DraftSchemaAgrees(v: Json)
    ensures DraftStixIdentifierSchema(v) == StixIdentifierSchema(v)
  {
    if v.JStr? && IsStixIdentifier(v.s) {
      assert TypePart(v.s) in SupportedStixTypes;
      assert |UuidPart(v.s).value| == 36;
    }
  }

  function DraftTypeMismatch(t: string, got: string): string
  {
    "The 'id' property must be of type '" + t + "', but got '" + got + "'"
  }

  /** The draft `createStixIdentifierSchema(t)`: the first `--` piece must be
      exactly `t`. */
  function DraftCreateStixIdentifierSchema(t: string, v: Json): (r: Parsed)
    ensures r.Ok? ==> r.value == v
    ensures r.Err? && DraftStixIdentifierSchema(v).Ok? ==>
            r.error == [Issue([Key("id")], DraftTypeMismatch(t, TypePart(v.s)))]
  {
    var base := DraftStixIdentifierSchema(v);
    if base.Err? then base
    else if TypePart(v.s) != t then Err([Issue([Key("id")], DraftTypeMismatch(t, TypePart(v.s)))])
    else base
  }

  /** For a supported type, the exact first-piece test of the draft and the
      prefix test of the current factory accept the same values. */
  lemma DraftFactoryAgrees(t: string, v: Json)
    requires IsStixType(t)
    ensures DraftCreateStixIdentifierSchema(t, v).Ok? <==> CreateStixIdentifierSchema(t, v).Ok?
  {
    DraftSchemaAgrees(v);
    if v.JStr? && IsStixIdentifier(v.s) {
      PrefixMatchesType(t, v.s);
    }
  }

  //---------------------------------------------------------------------------
  // The identifier class (zod/src/classes/stix-identifier.cls.ts)
  //---------------------------------------------------------------------------

  /** A constructed `StixIdentifierImpl`: its type and UUID. */
  datatype IdImpl = IdImpl(typ: string, uuid: string)

  /** What the constructor takes: a string, a `{type, uuid}` record or an
      existing instance. */
  datatype IdInput = TextInput(s: string) | PairInput(typ: string, uuid: string) | ImplInput(id: IdImpl)

  /** `toString()` */
  function ImplText(id: IdImpl): string
  {
    id.typ + "--" + id.uuid
  }

  /** `toJSON()` */
  function ImplJson(id: IdImpl): (r: Json)
    ensures r.JObj? && r.fields.Keys == {"type", "uuid"}
    ensures r.fields["type"].JStr? && r.fields["uuid"].JStr?
    ensures ImplText(id) == r.fields["type"].s + "--" + r.fields["uuid"].s
  {
    JObj(map["type" := JStr(id.typ), "uuid" := JStr(id.uuid)])
  }

  /** The string the constructor parses: the input itself, or its
      `toString()`; a plain record prints as `[object Object]`. */
  function InputText(x: IdInput): string
  {
    match x
    case TextInput(s) => s
    case PairInput(_, _) => "[object Object]"
    case ImplInput(id) => ImplText(id)
  }

  /** The constructor: parse with the draft schema (throwing its issue) and
      keep the first two `--` pieces. */
  function Construct(x: IdInput): (r: Result<IdImpl, string>)
    ensures r.Ok? <==> IsStixIdentifier(InputText(x))
    ensures r.Ok? ==> IsStixType(r.value.typ) && IsUuidV4(r.value.uuid)
    ensures r.Ok? ==> r.value.typ == TypePart(InputText(x)) && Some(r.value.uuid) == UuidPart(InputText(x))
  {
    var s := InputText(x);
    DraftSchemaAgrees(JStr(s));
    if DraftStixIdentifierSchema(JStr(s)).Err? then Err(InvalidIdentifier)
    else Ok(IdImpl(TypePart(s), UuidPart(s).value))
  }

  /** Re-constructing from an instance gives the same instance back. */
  lemma ReconstructSame(x: IdInput)
    requires Construct(x).Ok?
    ensures Construct(ImplInput(Construct(x).value)) == Construct(x)
  {
    var id := Construct(x).value;
    IdentifierFromParts(id.typ, id.uuid, "");
    assert id.typ + "--" + id.uuid + "" == ImplText(id);
  }

  /** Text after a second `--` is accepted and dropped: the instance keeps
      only the type and the UUID. */
  lemma TailDropped(t: string, u: string, tail: string)
    requires IsStixType(t) && IsUuidV4(u) && StartsWith(tail, "--")
    ensures Construct(TextInput(t + "--" + u + tail)) == Ok(IdImpl(t, u))
    ensures ImplText(Construct(TextInput(t + "--" + u + tail)).value) != t + "--" + u + tail
  {
    IdentifierFromParts(t, u, tail);
  }

  /** A `{type, uuid}` record is always refused: it prints as
      `[object Object]`, which has no `--`. */
  lemma PairRefused(t: string, u: string)
    ensures Construct(PairInput(t, u)).Err?
  {
    var s := "[object Object]";
    assert DashSafe(s);
    DashSafeSeparator(s);
    NoOccurrenceSplit(s, "--");
    assert TypePart(s) == s;
    BracketNotType(s);
  }

  lemma BracketNotType(s: string)
    requires |s| > 0 && s[0] == '['
    ensures !IsStixType(s)
  {
    assert forall k :: 0 <= k < |SupportedStixTypes| ==> SupportedStixTypes[k][0] != '[';
  }

  /** `parseInt(part, 16)`, on the hexadecimal groups it is applied to. */
  function ParseHex(part: string): nat
  {
    if forall i :: 0 <= i < |part| ==> IsHex(part[i]) then HexValue(part) else 0
  }

  function GroupSum(parts: seq<string>): nat
  {
    if |parts| == 0 then 0 else GroupSum(parts[..|parts| - 1]) + ParseHex(parts[|parts| - 1])
  }

  predicate HexGroup(g: string)
  {
    forall i :: 0 <= i < |g| ==> IsHex(g[i])
  }

  lemma HexGroupNoHyphen(g: string)
    requires HexGroup(g)
    ensures !Contains(g, "-")
    ensures forall j :: 0 <= j < |g| ==> !OccursAt(g + "-", "-", j)
  {
    forall j | 0 <= j <= |g| ensures !OccursAt(g, "-", j) {
      if j < |g| {
        assert IsHex(g[j]);
        assert g[j..j + 1][0] == g[j];
      }
    }
    forall j | 0 <= j < |g| ensures !OccursAt(g + "-", "-", j) {
      assert IsHex(g[j]);
      assert (g + "-")[j..j + 1][0] == g[j];
    }
  }

  /** A hexadecimal group before a hyphen is the first piece of the split. */
  lemma GroupSplit(g: string, rest: string)
    requires HexGroup(g)
    ensures Split(g + "-" + rest, "-") == [g] + Split(rest, "-")
  {
    HexGroupNoHyphen(g);
    SplitHead(g, rest, "-");
  }

  lemma LastGroupSplit(g: string)
    requires HexGroup(g)
    ensures Split(g, "-") == [g]
  {
    HexGroupNoHyphen(g);
    NoOccurrenceSplit(g, "-");
  }

  /** The five groups of a UUID are hexadecimal. */
  lemma UuidHexGroups(u: string)
    requires IsUuidShape(u)
    ensures HexGroup(u[..8]) && HexGroup(u[9..13]) && HexGroup(u[14..18]) && HexGroup(u[19..23]) && HexGroup(u[24..])
  {
    assert forall i :: 0 <= i < 8 ==> u[..8][i] == u[i] && !UuidHyphenAt(i);
    assert forall i :: 0 <= i < 4 ==> u[9..13][i] == u[9 + i] && !UuidHyphenAt(9 + i);
    assert forall i :: 0 <= i < 4 ==> u[14..18][i] == u[14 + i] && !UuidHyphenAt(14 + i);
    assert forall i :: 0 <= i < 4 ==> u[19..23][i] == u[19 + i] && !UuidHyphenAt(19 + i);
    assert forall i :: 0 <= i < 12 ==> u[24..][i] == u[24 + i] && !UuidHyphenAt(24 + i);
  }

  /** A hexadecimal group ending at a hyphen is the first piece of the
      split of the text from its start. */
  lemma StepSplit(u: string, i: nat, j: nat)
    requires i <= j < |u| && u[j] == '-' && HexGroup(u[i..j])
    ensures Split(u[i..], "-") == [u[i..j]] + Split(u[j + 1..], "-")
  {
    assert u[i..] == u[i..j] + "-" + u[j + 1..];
    GroupSplit(u[i..j], u[j + 1..]);
  }

  /** A UUID splits at its hyphens into its five groups. */
  lemma UuidGroups(u: string)
    requires IsUuidShape(u)
    ensures Split(u, "-") == [u[..8], u[9..13], u[14..18], u[19..23], u[24..]]
  {
    UuidHexGroups(u);
    UuidHyphens(u);
    LaterGroups(u);
    FirstGroup(u);
  }

  lemma UuidHyphens(u: string)
    requires IsUuidShape(u)
    ensures u[8] == '-' && u[13] == '-' && u[18] == '-' && u[23] == '-'
  {
    assert UuidHyphenAt(8) && UuidHyphenAt(13) && UuidHyphenAt(18) && UuidHyphenAt(23);
  }

  lemma FirstGroup(u: string)
    requires |u| == 36 && u[8] == '-' && HexGroup(u[..8])
    ensures Split(u, "-") == [u[..8]] + Split(u[9..], "-")
  {
    assert u[0..] == u && u[0..8] == u[..8];
    StepSplit(u, 0, 8);
  }

  lemma LaterGroups(u: string)
    requires |u| == 36 && u[13] == '-' && u[18] == '-' && u[23] == '-'
    requires HexGroup(u[9..13]) && HexGroup(u[14..18]) && HexGroup(u[19..23]) && HexGroup(u[24..])
    ensures Split(u[9..], "-") == [u[9..13], u[14..18], u[19..23], u[24..]]
  {
    LastGroupSplit(u[24..]);
    StepSplit(u, 19, 23);
    StepSplit(u, 14, 18);
    StepSplit(u, 9, 13);
  }

  /** The sum over five groups. */
  lemma GroupSumFive(ps: seq<string>)
    requires |ps| == 5
    ensures GroupSum(ps) == ParseHex(ps[0]) + ParseHex(ps[1]) + ParseHex(ps[2]) + ParseHex(ps[3]) + ParseHex(ps[4])
  {
    GroupSumSnoc(ps[..4], ps[4]);
    GroupSumSnoc(ps[..3], ps[3]);
    GroupSumSnoc(ps[..2], ps[2]);
    GroupSumSnoc(ps[..1], ps[1]);
    GroupSumSnoc(ps[..0], ps[0]);
    assert ps[..4] + [ps[4]] == ps;
    assert ps[..3] + [ps[3]] == ps[..4];
    assert ps[..2] + [ps[2]] == ps[..3];
    assert ps[..1] + [ps[1]] == ps[..2];
    assert ps[..0] + [ps[0]] == ps[..1];
  }

  lemma GroupSumSnoc(parts: seq<string>, g: string)
    ensures GroupSum(parts + [g]) == GroupSum(parts) + ParseHex(g)
  {
    assert (parts + [g])[..|parts|] == parts;
  }

  /** What `[Symbol.toPrimitive]` returns. */
  datatype Primitive = PrimText(s: string) | PrimNumber(n: nat)

  /** `[Symbol.toPrimitive](hint)`: the sum of the UUID's hexadecimal groups
      for the `number` hint, the string for every other hint. */
  function ImplPrimitive(id: IdImpl, hint: string): (r: Primitive)
    requires IsUuidShape(id.uuid)
    ensures hint != "number" ==> r == PrimText(ImplText(id))
    ensures hint == "number" ==>
      var u := id.uuid;
      r == PrimNumber(ParseHex(u[..8]) + ParseHex(u[9..13]) + ParseHex(u[14..18]) + ParseHex(u[19..23]) + ParseHex(u[24..]))
  {
    if hint == "number" then
      var u := id.uuid;
      UuidGroups(u);
      GroupSumFive(Split(u, "-"));
      PrimNumber(GroupSum(Split(u, "-")))
    else PrimText(ImplText(id))
  }
}
